=== FILE: README.md ===
# fpos in Dafny

fpos is a personal-finance toolkit. Bank exports are turned into rows of
`[date, amount, description]` and annotated with a category. The rows are
then combined, windowed, grouped into recurring spends, forecast and
summarised. This project models its core and proves properties of the model.

## The parts

- **LCS string groupers.** Transaction descriptions are clustered by
  longest-common-subsequence similarity.
  - `ext/lcs.c` is a two-row LCS table (module `Lcs`).
  - `ext/ccan/strgrp/strgrp.c` is the ccan grouper (`CcanScore`,
    `CcanStrgrp`, `CcanExamples`). Its scores use a square root, a length
    pre-filter and per-group dynamic thresholds.
  - `ext/strgrp.c` is the older bin grouper (`BinStrgrp`).
- **The description-group engine** of `lib/fpos/groups.py` (`Groups`). It
  tries an exact match, then the persisted alias-to-canonical association
  table, then the ranked candidates split into acceptable needles and the
  rest.
- **The category tagger** of `lib/fpos/annotate.py` (`Annotate`). A first-fit
  LCS tagger is combined with category resolution by Python index or by the
  unique case-insensitive substring.
- **The stand-alone `annotate.py` script** (`AnnotateScript`). It learns
  categories from a scripted sequence of input lines.
- **The pipelines:**
  - date windowing (`Window`);
  - digest-based merging (`Combine`, `Sorting`);
  - gap histograms and periods (`Predict`);
  - the month/category reshaping and running means of
    `lib/fpos/visualise.py` (`Visualise`, `Periods`) and the `visualise.py`
    script (`VisualiseScript`);
  - the savings allocator (`Psave`);
  - the bank-format transforms (`Transform`, `TransformScript`).

Shared modules:

- `Wrappers`: `Option`, `Result` and the exceptions.
- `Text`: `int()`, `float()`, `strip`, `lower` and substring tests.
- `Dates`: "%d/%m/%Y" and "%m/%Y" dates, weekdays and week numbers.
- `Pipes`: generators drained, stopping at the first exception: by
  `list()`, which then has nothing, or by a writer, which keeps the rows
  written before it.

Conventions of the model:

- **Failures.** Every Python exception and every C failure the code can
  reach is a value: `Err(KeyError)`, `None` for a NULL result from C.
- **Code that changes state in place is imperative.** This covers the C
  context structures, the association table, the tagger, `categorize`,
  `PeriodGroup`, `ProgressiveMean` and the savings state. Each becomes a
  `class` whose methods are proved against specification functions.
- **Loops of the source are `while` loops with invariants.** This includes
  the LCS table fills, the grouper searches and `balance_history`.
- **Numbers.** Doubles are exact `real`s.
  - The ccan score's `sqrt` is a parameter that satisfies `IsSqrt`. Every
    comparison with a root is made exactly on squares.
  - The `int16_t` LCS buffer is an `array<int16>` whose bound is proved.
- **Hashing.**
  - `gen_id` is an injective function.
  - `digest_entry` is the separator-less concatenation it hashes.
- **Other external state.**
  - SQL tables are maps.
  - Standard input is a list of lines read through a cursor.
  - Dates are (year, month, day) triples on the proleptic Gregorian calendar.
  - Months in `psave` are integer month indices.

Behaviour of the code that the model follows as written:

- **`find_group` decides with the ccan grouper alone.** The modelled code
  has no trainable classifier and no polarisation detector.
- **`associate` is a plain `INSERT`** (lib/fpos/groups.py:104-106) into a
  table keyed by `ddid`, so it raises IntegrityError for an alias already
  present, even with the same canonical id.
  `Groups.SqlGroupCollection.Associate` does the same.
- **`get_canonical` of an unknown id** (lib/fpos/groups.py:99-102) indexes
  the `None` that `fetchone()` returns, which is a TypeError.
- **`find_group` returns None** (lib/fpos/groups.py:147-151) for an
  associated description whose canonical id has no entry in the map.
- **`group_delta_bins` makes `max(deltas)` bins.** Its docstring says
  max − 1.
- **`pmf` sums to 1 only over exact reals.** Its docstring claims this for
  floats.

## Model

| member | source | states |
|---|---|---|
| Lcs.NormalLcs | ext/strgrp.c:113-117 | twice the LCS length over the summed lengths, for strings not both empty |
| Lcs.LcsLen | ext/lcs.c:10-36 | the length of a longest common subsequence, by recursion on suffixes: the specification every LCS computation of the model is proved against |
| Lcs.LcsWitness | ext/lcs.c:21-33 | a common subsequence of a and b whose length is the table's value LcsLen(a, b): the LCS length is reached |
| Lcs.CommonSubseqAtMostLcs | ext/lcs.c:21-33 | no common subsequence of a and b is longer than LcsLen(a, b); with LcsWitness, LcsLen is the longest common subsequence length |
| Lcs.DropFirstOfA | ext/lcs.c:27-29 | dropping the first character of a never lengthens the LCS (the `max` of the mismatch case is an upper bound) |
| Lcs.DropFirstOfBAtMostOne | ext/lcs.c:27-29 | dropping the first character of b shortens the LCS by at most one |
| Lcs.AtMostMin | ext/lcs.c:10-36 | the LCS length is at most min(&#124;a&#124;, &#124;b&#124;), and 0 when either string is empty |
| Lcs.SelfIsLength | lib/tests/__init__.py:346-353 | lcs(a, a) = &#124;a&#124; |
| Lcs.Symmetric | lib/tests/__init__.py:358-362 | lcs(a, b) = lcs(b, a) |
| Lcs.Examples | lib/tests/__init__.py:337-365 | all ten `CoreTest` expectations: 0 for ("",""), ("","a") and ("a",""); 1 for ("a","a"); 0 for ("a","b"); 2 for ("ab","ab"); 1 for ("ab","ba"), ("abc","dcba"), ("dcba","abc") and ("abbb","aaaa") |
| Lcs.ShortExamples | lib/tests/__init__.py:337-356 | the seven expectations on strings of at most two characters |
| Lcs.ReversedExample | lib/tests/__init__.py:358-362 | ("abc","dcba") and ("dcba","abc") have LCS 1 |
| Lcs.RepeatedExample | lib/tests/__init__.py:364-365 | ("abbb","aaaa") has LCS 1 |
| Lcs.NoSharedChar | lib/tests/__init__.py:349-350 | strings with no character in common have LCS 0 |
| Lcs.LastDiffers | ext/test/helpers.h:19-46 | p + [x] and p + [y] with x ≠ y have LCS &#124;p&#124;, one less than their length |
| Lcs.NormalLcsRange | ext/strgrp.c:113-117 | 2·lcs/(&#124;a&#124;+&#124;b&#124;) lies in [0, 1], is symmetric, and is 1 for equal strings |
| Lcs.Index | ext/lcs.c:6-8 | `rmindex(lbp1, row, col)` and the groupers' `cmi(row, col)` (ext/ccan/strgrp/strgrp.c:94-96) stay below 2(&#124;b&#124;+1) for row in {0, 1} and col ≤ &#124;b&#124;, and cell (0, 0) is index 0 |
| Lcs.SuffixStep | ext/lcs.c:23-30 | the cell for a[ia..], b[ib..] is 1 + the diagonal cell when a[ia] = b[ib], else the larger of the cell below and the cell to the right |
| Lcs.NextCell | ext/lcs.c:23-30 | the value the inner loop body writes is LcsLen(a[ia..], b[ib..]), given the row below and the cells to the right |
| Lcs.StoreCell | ext/lcs.c:24-29 | writing that value extends the current row's invariant one column left and leaves the other row's invariant intact |
| Lcs.ZeroRow | ext/lcs.c:16 | the calloc-zeroed row is the row of the empty suffix of a |
| Lcs.CellOfRow | ext/lcs.c:33 | in a row that holds, column &#124;b&#124; is 0 and column 0 is the LCS of the suffix with all of b |
| Lcs.FillRow | ext/lcs.c:22-31 | the inner loop leaves row ia&1 holding LcsLen(a[ia..], b[ib..]) for every ib and the other row unchanged in meaning |
| Lcs.NextRow | ext/lcs.c:21 | after the row for a[ia..] the two rows swap roles, keeping the parity relation `last == (ia + 1) & 1` |
| Lcs.EvenAtStart | ext/lcs.c:21-33 | when the outer loop ends, the last row written is row 0, which `lookup[0]` reads |
| Lcs.FillTable | ext/lcs.c:21-32 | after the outer loop row 0 holds LcsLen(a, b[ib..]) for every ib (the loop invariant: after step ia, row ia&1 holds the suffix LCS lengths) |
| Lcs.LcsTable | ext/lcs.c:10-36 | the result is LcsLen(a, b), and 0 when either string is empty, for either table layout |
| Lcs.LcsRowMajor | ext/lcs.c:10-36 | ext/lcs.c's `lcs` returns LcsLen(a, b) |
| Lcs.LcsInterleaved | ext/ccan/strgrp/strgrp.c:98-127 | the groupers' `lcs` (also ext/strgrp.c:80-109) returns LcsLen(a, b) |
| CcanScore.DynamicScore | ext/ccan/strgrp/strgrp.c:258-267 | `grps_score_dynamic`: −2 when filtered, else nlcs less the context threshold if it reaches the group threshold and less the group threshold otherwise |
| CcanScore.StaticScore | ext/ccan/strgrp/strgrp.c:222-225 | `grps_score`: nlcs less the context threshold when the length filter passes, else −1 |
| CcanScore.ShouldGrpScoreLen | ext/ccan/strgrp/strgrp.c:78-86 | `should_grp_score_len`: false for two empty strings (a NaN comparison), otherwise the threshold is at most the root of the length bound, compared through squares |
| CcanScore.Nlcs | ext/ccan/strgrp/strgrp.c:131-138 | `nlcs`: the root of 2·lcs² / (|a|² + |b|²), for strings not both empty |
| CcanScore.AtMostRootIff | ext/ccan/strgrp/strgrp.c:84-85 | t ≤ sqrt(x) exactly when t ≤ 0 or t² ≤ x, so the comparisons can be made on squares |
| CcanScore.ShouldGrpScoreLenIsRootTest | ext/ccan/strgrp/strgrp.c:78-86 | the squared form of `should_grp_score_len` agrees with the C test `threshold <= sqrt(2·lmin²/(lstr²+lkey²))` |
| CcanScore.RatioBounds | ext/ccan/strgrp/strgrp.c:83-84 | for 0 ≤ l ≤ min(x, y) the radicand 2l²/(x²+y²) lies between 0 and its value at l = min(x, y), which is at most 1 |
| CcanScore.NlcsSqBounds | ext/ccan/strgrp/strgrp.c:131-138 | the radicand of `nlcs` lies in [0, 1] and never exceeds the pre-filter's radicand, because lcs ≤ min(&#124;a&#124;, &#124;b&#124;) |
| CcanScore.NlcsSqSymmetric | ext/ccan/strgrp/strgrp.c:131-138 | the radicand of `nlcs` does not depend on the argument order |
| CcanScore.NlcsRange | ext/ccan/strgrp/strgrp.c:131-138 | `nlcs` lies in [0, 1] and is symmetric |
| CcanScore.NlcsSelf | ext/ccan/strgrp/strgrp.c:131-138 | identical non-empty strings have `nlcs` exactly 1 |
| CcanScore.PrefilterSound | ext/ccan/strgrp/strgrp.c:78-86 | the length pre-filter never skips a pair whose `nlcs` reaches the threshold |
| CcanScore.StaticScoreAcceptIff | ext/ccan/strgrp/strgrp.c:220-226 | a `grps_score` score is ≥ 0 exactly when the strings are not both empty and `nlcs` reaches the context threshold |
| CcanScore.DynamicScoreAcceptIff | ext/ccan/strgrp/strgrp.c:263-268 | with the group threshold at or above the context's, a `grps_score_dynamic` score is ≥ 0 exactly when `nlcs` reaches the group's threshold |
| CcanScore.UpdatedThreshold | ext/ccan/strgrp/strgrp.c:229-247 | `grp_update_threshold`'s result is never below the context threshold |
| CcanScore.InnerLowIsMin | ext/ccan/strgrp/strgrp.c:236-241 | the inner loop leaves `low` at the minimum of its start value and the pair scores (i, j) for j from its start, and equal to one of them |
| CcanScore.OuterLowIsMin | ext/ccan/strgrp/strgrp.c:233-242 | the outer loop leaves `low` at the minimum over every pair i < j, and equal to one of the candidates |
| CcanScore.UpdatedThresholdIsPairMin | ext/ccan/strgrp/strgrp.c:229-247 | without NaN pairs the threshold is max(min(1.0, every pairwise `nlcs`) − 0.03, context threshold) |
| CcanScore.UpdatedThresholdSingle | ext/ccan/strgrp/strgrp.c:229-247 | a group with a single item gets threshold max(0.97, context threshold) |
| CcanScore.ArgMaxFirst | ext/ccan/strgrp/strgrp.c:305-312 | the index of the first greatest score: every score is at most it and every earlier score is strictly below it (what the strict `>` scan keeps) |
| CcanScore.ArgMaxFirstStep | ext/ccan/strgrp/strgrp.c:309-311 | one step of the scan: the new element replaces the maximum exactly when it is strictly greater |
| CcanStrgrp.Keys | ext/ccan/strgrp/strgrp.c:233-239 | the item keys of a group, in insertion order |
| CcanStrgrp.Grp.constructor | ext/ccan/strgrp/strgrp.c:176-193 | `new_grp`: key str, one item (str, data), the context's threshold, score 0 from the zeroed allocation, dirty iff 1 ≥ size |
| CcanStrgrp.Grp.AddItem | ext/ccan/strgrp/strgrp.c:158-169 | `add_item` appends at the end, increments `n_items` by exactly 1 and sets `dirty` iff `n_items ≥ size`; score and threshold are untouched |
| CcanStrgrp.Scores | ext/ccan/strgrp/strgrp.c:305-312 | the groups' scores, in order |
| CcanStrgrp.InsertDesc | ext/ccan/strgrp/strgrp.c:359 | a heap push adds exactly the pushed group to the heap's contents |
| CcanStrgrp.InsertDescBounded | ext/ccan/strgrp/strgrp.c:330-332 | pushing a group no higher than a bound onto groups no higher than it stays under the bound |
| CcanStrgrp.InsertDescKeepsOrder | ext/ccan/strgrp/strgrp.c:330-344 | a push keeps the pop order descending by score (`score_gt`) |
| CcanStrgrp.DescendingCons | ext/ccan/strgrp/strgrp.c:330-344 | a group scoring at least every member of a descending sequence can go in front of it |
| CcanStrgrp.BuildHeap | ext/ccan/strgrp/strgrp.c:356-364 | pushing every group gives a heap holding exactly those groups, popping in descending score order |
| CcanStrgrp.ArgMaxIsFirstMax | ext/ccan/strgrp/strgrp.c:305-312 | the group at ArgMaxFirst of the scores is the first group with the greatest score |
| CcanStrgrp.HasKeyExtend | ext/ccan/strgrp/strgrp.c:165 | appending items keeps every key a group already held |
| CcanStrgrp.SelectMax | ext/ccan/strgrp/strgrp.c:305-312 | the scan of `grp_for` returns ArgMaxFirst of the groups' scores |
| CcanStrgrp.StrGrp.NewDynamic | ext/ccan/strgrp/strgrp.c:272-282 | `strgrp_new_dynamic`: an empty context with the given threshold and size and an empty cache |
| CcanStrgrp.StrGrp.New | ext/ccan/strgrp/strgrp.c:284-287 | `strgrp_new`: an empty context with size 0 (static scoring) |
| CcanStrgrp.StrGrp.AddGrp | ext/ccan/strgrp/strgrp.c:195-205 | `add_grp` appends one new group keyed by str with (str, data) as its only item and leaves the cache alone |
| CcanStrgrp.StrGrp.Cache | ext/ccan/strgrp/strgrp.c:207-211 | `cache` maps str to the group, replacing any earlier entry; the groups are unchanged |
| CcanStrgrp.StrGrp.GrpsScore | ext/ccan/strgrp/strgrp.c:213-227 | `grps_score` gives every group score −1 when the pre-filter skips it and nlcs − threshold otherwise, changing nothing else |
| CcanStrgrp.StrGrp.GrpUpdateThreshold | ext/ccan/strgrp/strgrp.c:229-247 | the nested loops set the group's threshold to UpdatedThreshold of its item keys and change nothing else |
| CcanStrgrp.StrGrp.GrpsScoreDynamic | ext/ccan/strgrp/strgrp.c:249-270 | `grps_score_dynamic` rescores every group against str, with dirty groups' thresholds recomputed first and every group left clean |
| CcanStrgrp.StrGrp.ScoreDynamic | ext/ccan/strgrp/strgrp.c:257-268 | one group of the dynamic loop: threshold recomputed iff dirty, score −2 when filtered, else nlcs less the context threshold when nlcs reaches the group's threshold and less the group's threshold otherwise |
| CcanStrgrp.StrGrp.Score | ext/ccan/strgrp/strgrp.c:272-303 | `ctx->score` is the dynamic scorer when size > 0 and the static one otherwise |
| CcanStrgrp.StrGrp.GrpFor | ext/ccan/strgrp/strgrp.c:289-314 | `grp_for`: none when there are no groups; the cached group, with no group rescored, for a known string; otherwise the first group of greatest score if that score is ≥ 0, else none, in which case every score is negative |
| CcanStrgrp.StrGrp.GrpExact | ext/ccan/strgrp/strgrp.c:321-328 | `strgrp_grp_exact` returns the cached group, which holds str as an item, or null |
| CcanStrgrp.StrGrp.GrpsFor | ext/ccan/strgrp/strgrp.c:338-367 | `strgrp_grps_for` returns every group, best score first, each scored against the string; in dynamic mode no group is left dirty; an empty heap, without scoring, when there are no groups |
| CcanStrgrp.StrGrp.IsAcceptible | ext/ccan/strgrp/strgrp.c:369-378 | `strgrp_grp_is_acceptible` is score ≥ 0; in dynamic mode a dirty group's threshold is recomputed and the group cleaned first |
| CcanStrgrp.StrGrp.GrpNew | ext/ccan/strgrp/strgrp.c:385-392 | `strgrp_grp_new` appends a new group for str and caches str to it |
| CcanStrgrp.StrGrp.GrpAdd | ext/ccan/strgrp/strgrp.c:394-404 | `strgrp_grp_add` appends (str, data) to the one group, caches str to it, and leaves every score as it was |
| CcanStrgrp.StrGrp.Add | ext/ccan/strgrp/strgrp.c:406-426 | `strgrp_add` appends str to `grp_for`'s group or opens a new group keyed by str with str as its only item; afterwards the cache maps str to the returned group, and no other group changes |
| CcanStrgrp.Iter.constructor | ext/ccan/strgrp/strgrp.c:428-437 | `strgrp_iter_new` starts at the first group |
| CcanStrgrp.Iter.Next | ext/ccan/strgrp/strgrp.c:439-443 | `strgrp_iter_next` yields the groups in creation order, then null without advancing |
| CcanStrgrp.GrpIter.constructor | ext/ccan/strgrp/strgrp.c:450-459 | `strgrp_grp_iter_new` starts at the first item |
| CcanStrgrp.GrpIter.Next | ext/ccan/strgrp/strgrp.c:461-465 | `strgrp_grp_iter_next` yields the items in insertion order, then none without advancing |
| CcanExamples.WalkTwo | ext/test/helpers.h:33-42 | walking a two-item group yields its items in order, then the end |
| CcanExamples.WalkOne | ext/test/helpers.h:63-68 | walking a one-item group yields its item, then the end |
| CcanExamples.OneGroupFromSameString | ext/test/helpers.h:19-46 | adding one string twice gives the same group, holding both items in order |
| CcanExamples.SimilarLcs | ext/test/helpers.h:19-46 | "abcdefghij" and "abcdefghik" have length 10 and LCS 9 |
| CcanExamples.SimilarRadicands | ext/ccan/strgrp/strgrp.c:131-138 | two ten-character strings with LCS 9 pass the pre-filter at 0.85 and score sqrt(162/200) − 0.85 = 0.9 − 0.85 |
| CcanExamples.SimilarScore | ext/test/helpers.h:8 | "abcdefghik" scores 0.9 − 0.85 against the key "abcdefghij" at the default similarity |
| CcanExamples.JoinSimilar | ext/ccan/strgrp/strgrp.c:406-421 | adding "abcdefghik" to a static context whose one group is keyed "abcdefghij" appends it to that group |
| CcanExamples.OneGroupFromSimilar | ext/test/helpers.h:19-46 | `one_group_from_two` with "abcdefghij" and "abcdefghik": one group, iterated as [k1, k2] |
| CcanExamples.TwoGroupsFromDissimilar | ext/test/helpers.h:48-82 | `two_groups_from_two` with "a" and "b": two groups, each iterated as its own one item |
| BinStrgrp.ShouldBinScore | ext/strgrp.c:119-129 | `should_bin_score`: the threshold is at most the length ratio |
| BinStrgrp.LenRatio | ext/strgrp.c:119-129 | the length ratio of `should_bin_score`: |str| / |key| in unsigned division, inverted when above 1 |
| BinStrgrp.LenRatioCases | ext/strgrp.c:119-129 | the truncated ratio lies in [0, 1]; it is 0 for a string shorter than the key and 1 for one at least as long and shorter than twice the key |
| BinStrgrp.ShorterIsNotScored | ext/strgrp.c:119-129 | with a positive threshold a string shorter than the key never passes `should_bin_score` |
| BinStrgrp.FilterSkipsPassingString | ext/strgrp.c:113-129 | the filter is not a bound: "a" against key "ab" has nlcs 2/3 > 0.5 and is still filtered out at 0.5 |
| BinStrgrp.FilteredScore | ext/strgrp.c:246-247 | the score written for one bin lies in [0, 1], and is 0 when the filter fails, in particular for a shorter string under a positive threshold |
| BinStrgrp.Bin.constructor | ext/strgrp.c:165-181 | `new_bin`: key str (its length recorded) and one item (str, data) |
| BinStrgrp.Bin.AddItem | ext/strgrp.c:147-157 | `add_item` appends at the end and increments `n_items` by exactly 1 |
| BinStrgrp.BinScores | ext/strgrp.c:244-248 | the filtered score of each bin against str, in bin order |
| BinStrgrp.HasKeyExtend | ext/strgrp.c:154 | appending items keeps every key a bin already held |
| BinStrgrp.ScoreValues | ext/strgrp.c:249-254 | the scores held in the buffer, in slot order |
| BinStrgrp.MaxSlot | ext/strgrp.c:249-254 | the second loop of `strgrp_bin_for` returns the first slot of greatest score |
| BinStrgrp.StrGrp.constructor | ext/strgrp.c:212-219 | `strgrp_new`: an empty context with the given threshold |
| BinStrgrp.StrGrp.AddBin | ext/strgrp.c:183-195 | `add_bin` appends one new bin, increments `n_bins` by one, and reallocates the scores buffer to `n_bins` slots keeping the old ones |
| BinStrgrp.StrGrp.Cache | ext/strgrp.c:221-231 | `cache` keeps the first bin recorded for a string: a known string is never rebound |
| BinStrgrp.StrGrp.ScoreBins | ext/strgrp.c:243-248 | slot i gets bin i and its filtered score against str |
| BinStrgrp.StrGrp.BinFor | ext/strgrp.c:233-256 | `strgrp_bin_for`: none with no bins; the cached bin for a known string, without scoring; otherwise every slot rescored and the first bin of greatest score chosen only if that score is strictly above the threshold |
| BinStrgrp.StrGrp.Add | ext/strgrp.c:258-274 | `strgrp_add` appends to the picked bin or opens a new bin keyed by str (then `n_bins` grows by one and the buffer is fresh); the cache is extended only for an unknown string; no other bin changes |
| BinStrgrp.StrGrp.Join | ext/strgrp.c:263-272 | the picked-bin branch: (str, data) joins the bin and str is cached unless known |
| BinStrgrp.StrGrp.Found | ext/strgrp.c:265-272 | the new-bin branch: a new bin keyed by str, to which str is cached |
| BinStrgrp.Iter.constructor | ext/strgrp.c:276-285 | `strgrp_iter_new` starts at the first bin |
| BinStrgrp.Iter.Next | ext/strgrp.c:287-291 | `strgrp_iter_next` yields the bins in creation order, then null |
| BinStrgrp.BinIter.constructor | ext/strgrp.c:298-307 | `strgrp_bin_iter_new` starts at the first item |
| BinStrgrp.BinIter.Next | ext/strgrp.c:309-313 | `strgrp_bin_iter_next` yields the items in insertion order, then none |
| BinStrgrp.SimilarScore | ext/strgrp.c:113-129 | ten-character strings differing in the last character pass the filter and score 2·9/20 = 0.9 at 0.85 |
| BinStrgrp.OneBinFromSimilar | ext/test/helpers.h:19-46 | two such strings land in one bin as [k1, k2] |
| BinStrgrp.TwoBinsFromDissimilar | ext/test/helpers.h:48-82 | "a" and "b" land in two bins of one item each |
| Groups.Interpret | lib/fpos/groups.py:35-48 | one line of `_request_match`: empty is index 0, "n" declines, an integer in range chooses, anything else is re-asked |
| Groups.InterpretCases | lib/fpos/groups.py:34-49 | a chosen index always names a candidate; "n" declines; "" picks candidate 0 (re-asked when there is none); a number picks that candidate when in range and is re-asked otherwise |
| Groups.RequestMatch | lib/fpos/groups.py:23-51 | `_request_match` reads lines until one picks a candidate (returned) or declines (None); every earlier line was re-asked; running out of input is EOFError exactly when every line was re-asked (the predicate Requested) |
| Groups.SqlGroupCollection.constructor | lib/fpos/groups.py:74-84 | `init_db`: the association table starts empty |
| Groups.SqlGroupCollection.HaveAssociation | lib/fpos/groups.py:94-97 | `have_association` is true exactly when the id has a row |
| Groups.SqlGroupCollection.GetCanonical | lib/fpos/groups.py:99-102 | `get_canonical` returns the row's canonical id, and TypeError (indexing the None from `fetchone`) when there is no row |
| Groups.SqlGroupCollection.Associate | lib/fpos/groups.py:104-106 | `associate` adds the row (adid, cdid); an existing adid violates the primary key (IntegrityError) and leaves the table unchanged |
| Groups.AssociateKeepsCanonical | lib/fpos/groups.py:170-184 | adding a self-canonical row, or an alias of an existing canonical id, keeps every alias pointing at an id that is its own canonical id |
| Groups.CountTrue | lib/fpos/groups.py:162-163 | `sum(dynamic)` is at most the number of flags and positive exactly when some flag is true |
| Groups.IndexOfTrue | lib/fpos/groups.py:164 | `dynamic.index(True)` is the first true flag |
| Groups.CountOne | lib/fpos/groups.py:163-164 | when exactly one flag is true, it is the one `index(True)` finds and every other flag is false |
| Groups.NoneTrue | lib/fpos/groups.py:163 | a zero sum means no flag is true |
| Groups.HeapMembers | lib/fpos/groups.py:153 | the heap from `grps_for` holds exactly the grouper's groups |
| Groups.HeapTop | lib/fpos/groups.py:155-156 | the heap has one entry per group, and its first entry scores at least as high as every group |
| Groups.DynamicGroups.constructor | lib/fpos/groups.py:109-116 | `__init__`: a fresh dynamic grouper with the given threshold and size, no groups, and an empty canonical-id map |
| Groups.DynamicGroups.SplitHeap | lib/fpos/groups.py:128-139 | `_split_heap` cuts the heap into needles (all acceptable) and the rest, which is empty or starts with an unacceptable group; no group's score or items change, and only a group dirty in dynamic mode gets a new threshold |
| Groups.DynamicGroups.Accepts | ext/ccan/strgrp/strgrp.c:369-377 | one `is_acceptible` test: whether the group's score is non-negative; no score or items change, and only a group dirty in dynamic mode changes its threshold and flag |
| Groups.RequestAnswered | lib/fpos/groups.py:23-51 | a line that picks a candidate or declines, after only re-asked lines, ends `_request_match` with that answer |
| Groups.SplitAcceptable | lib/fpos/groups.py:127-139 | cutting a descending heap where acceptability ends leaves as needles exactly its acceptable groups, still in descending order |
| Groups.DynamicGroups.Acceptable | lib/fpos/groups.py:153-158 | every group is scored against the description, and the needles of `find_group` are exactly the groups acceptable for it, in descending score order; cache, group list and items unchanged |
| Groups.DynamicGroups.DynamicFlags | lib/fpos/groups.py:162 | one `is_dynamic` flag per needle, in order |
| Groups.DynamicGroups.BestGroup | lib/fpos/groups.py:153-156 | with size 0, every group is scored against the description; none exactly when there are no groups, otherwise a group whose score against the description is at least every group's |
| Groups.DynamicGroups.PickNeedle | lib/fpos/groups.py:159-167 | none for no candidates; the only dynamic candidate when exactly one is dynamic, without reading input; otherwise exactly what `_request_match` over the candidates answers |
| Groups.DynamicGroups.ChosenGroup | lib/fpos/groups.py:153-167 | with a dynamic size, every group is scored against the description, and NeedleRule holds: the needles are exactly the groups acceptable for the description, best first; no needle gives none, one dynamic needle gives it, otherwise the user's choice among the needles; cache, group list and items unchanged |
| Groups.DynamicGroups.RankedGroup | lib/fpos/groups.py:153-167 | every group is scored against the description; BestGroup's answer when size is 0 and otherwise ChosenGroup's NeedleRule over the groups acceptable for the description; any group returned is one of the grouper's groups |
| Groups.DynamicGroups.CanonicalGroup | lib/fpos/groups.py:147-151 | for an associated description, the exact group of the description the canonical id names, and none when the map has no entry for that id or the grouper does not know its description |
| Groups.DynamicGroups.FindGroup | lib/fpos/groups.py:141-167 | `find_group`: the cached group for a known description, reading no input; for an associated one, CanonicalGroup's answer; otherwise, with every group scored against the description, the best group for it (size 0) or NeedleRule's three-way choice among the groups acceptable for it. Only EOFError can fail it |
| Groups.DynamicGroups.InsertInto | lib/fpos/groups.py:171-176 | `insert` with a group: the description joins it and is cached to it, the group list, scores, thresholds and other groups' items unchanged. TypeError when the group's key has no canonical id. Otherwise an unassociated description is associated with that id, and no existing row changes |
| Groups.DynamicGroups.NameNew | lib/fpos/groups.py:179-184 | an associated description renames its canonical id's map entry; any other gets a self-canonical row and its own map entry; existing rows and canonicity are kept |
| Groups.DynamicGroups.InsertNew | lib/fpos/groups.py:177-184 | `insert` without a group: the grouper's `add` puts the description last in the returned group, which is either an existing group with the best non-negative score against the description or a fresh group appended to the list holding only it, every earlier group being scored against the description; other groups' items unchanged; followed by NameNew's naming |
| Groups.DynamicGroups.Insert | lib/fpos/groups.py:169-186 | `insert`: InsertInto's outcome with a group (list and other groups unchanged), InsertNew's joined-or-fresh outcome without one; existing rows are never changed; canonicity of the table and of the map's keys is preserved |
| Groups.DynamicGroups.Add | lib/fpos/groups.py:188-189 | `add`: the description is appended to the group `find_group` found (which, for an unknown unassociated description, was chosen by scores against the description that stay in place, and with dynamic size is acceptable for it) or else to a joined or fresh group; EOFError from `find_group` fails it; a known description goes back into its own group without reading input; the table stays canonical |
| Annotate.Candidates | lib/fpos/annotate.py:78-81 | the filter keeps, in order, only haystack elements that contain the needle ignoring case, and is never longer than the haystack |
| Annotate.CandidatesLast | lib/fpos/annotate.py:79-81 | one step of the loop: the last element is appended exactly when it matches |
| Annotate.CandidatesNone | lib/fpos/annotate.py:82-84 | no candidates exactly when no element matches |
| Annotate.CandidatesOfUnique | lib/fpos/annotate.py:85-86 | when only position i matches, the candidates are exactly [haystack[i]] |
| Annotate.CandidatesSingle | lib/fpos/annotate.py:85-86 | one candidate means exactly one position matches |
| Annotate.FindCategory | lib/fpos/annotate.py:76-88 | `find_category` succeeds exactly when one element contains the needle ignoring case, and returns that element; zero or several matches raise ValueError (the same code as annotate.py:27-38) |
| Annotate.PyIndex | lib/fpos/annotate.py:94 | Python's `categories[index]`: non-negative indices count from the front, negative ones from the end |
| Annotate.Resolution | annotate.py:40-45 | what the text resolves to: always a core category; IndexError exactly for an integer out of Python's index range; otherwise ValueError |
| Annotate.ResolveCategory | lib/fpos/annotate.py:90-96 | `resolve_category`: integer text indexes the categories Python-style (IndexError out of range, not caught); other text goes to `find_category`; the result always equals Resolution |
| Annotate.Similarity | lib/fpos/annotate.py:45-47 | `normal_lcs` raises ZeroDivisionError exactly for two empty strings; otherwise it lies in [0, 1], is the symmetric normalised LCS, and is 1 for equal strings |
| Annotate.FirstFitFrom | lib/fpos/annotate.py:50-56 | the first-fit scan: a found position is a hit with every earlier group missed; None means every group missed; an error is a ZeroDivisionError met after earlier misses |
| Annotate.TaggedList.constructor | lib/fpos/annotate.py:34-37 | `_TaggedList(tag)`: the given tag, no members |
| Annotate.FirstMembers | lib/fpos/annotate.py:53 | `e.members[0]` of each group, in group order |
| Annotate.LcsTagger.constructor | lib/fpos/annotate.py:40-43 | `_LcsTagger(threshold)`: no groups, empty lookup |
| Annotate.LcsTagger.Search | lib/fpos/annotate.py:50-56 | the loop of `classify` finds FirstFit over the groups' first members |
| Annotate.LcsTagger.Classify | lib/fpos/annotate.py:49-62 | `classify`: a hit appends the text to the first fitting group only and returns its tag; with no hit one new group [text] carrying the given tag is appended and the tag returned, registered in `_lookup` iff untagged; no tag of an existing group changes |
| Annotate.LcsTagger.Join | lib/fpos/annotate.py:55-56 | appends the text to the fitting group and returns its tag |
| Annotate.LcsTagger.Open | lib/fpos/annotate.py:57-62 | one new group [text] with the given tag, pending exactly when untagged |
| Annotate.LcsTagger.NeedTagFor | lib/fpos/annotate.py:64-65 | `need_tag_for` is true exactly for a pending text, whose group is untagged and was opened by that text |
| Annotate.LcsTagger.Tag | lib/fpos/annotate.py:67-69 | `tag`: the pending group gets the tag and the text stops pending, so `need_tag_for` is false; no other tag or member changes; KeyError for a text that is not pending |
| Annotate.OnlyIncomeHasInc | lib/tests/__init__.py:39-43 | "inc" matches "Income" and no other core category |
| Annotate.IncAbsentBefore | lib/tests/__init__.py:39-43 | no category before "Income" contains "inc" |
| Annotate.IncAbsentAfter | lib/tests/__init__.py:39-43 | no category after "Income" contains "inc" |
| Annotate.NoneHasFoo | lib/tests/__init__.py:27-31 | no core category contains "foo" |
| Annotate.TwoHaveIn | lib/tests/__init__.py:33-37 | "In" matches both "Income" and "Internal" |
| Annotate.FindCategoryExamples | lib/tests/__init__.py:27-43 | `find_category` gives "Income" for "inc" and ValueError for "In" (two matches) and "foo" (none) |
| Annotate.OnlyCashHasCash | lib/tests/__init__.py:53-54 | "Cash" matches only the first category |
| Annotate.CashAbsentBefore | lib/tests/__init__.py:53-54 | no category from "Commitment" to "Entertainment" contains "cash" |
| Annotate.CashAbsentAfter | lib/tests/__init__.py:53-54 | no category from "Health" on contains "cash" |
| Annotate.ParseZero | lib/fpos/annotate.py:93 | `int("0")` is 0 |
| Annotate.ParseMinusOne | lib/fpos/annotate.py:93 | `int("-1")` is −1 |
| Annotate.ParseTwelve | lib/fpos/annotate.py:93 | `int("12")` is 12 |
| Annotate.ResolveFirstExample | lib/tests/__init__.py:50-51 | `resolve_category("0")` is "Cash" |
| Annotate.ResolveLastExample | lib/fpos/annotate.py:94 | `resolve_category("-1")` is the last category, "Utilities" |
| Annotate.ResolvePastExample | lib/fpos/annotate.py:94 | `resolve_category("12")` raises IndexError |
| Annotate.NotANumber | lib/fpos/annotate.py:93-96 | `int("Cash")` fails, so the name lookup is used |
| Annotate.ResolveNameExample | lib/tests/__init__.py:53-54 | `resolve_category("Cash")` is "Cash" |
| Annotate.MatchNone | lib/tests/__init__.py:57-59 | a fresh tagger classifies "foo" as None and "foo" becomes pending |
| Annotate.FuzzyHit | lib/tests/__init__.py:70-76 | nlcs("foo1", "foo0") = 6/8, which reaches the default threshold 0.75 |
| Annotate.MatchOneFuzzy | lib/tests/__init__.py:70-76 | "foo0" tagged "bar" makes "foo1" classify as "bar" |
| Annotate.FuzzyMiss | lib/tests/__init__.py:78-84 | nlcs("bbaa", "aaaa") = 4/8, below 0.75 |
| Annotate.MissOne | lib/tests/__init__.py:78-84 | "aaaa" tagged "bar" does not capture "bbaa", which classifies as None |
| Annotate.TagThenClassify | lib/fpos/annotate.py:49-69 | an untagged text is pending; `tag` succeeds and ends that; classifying the text again answers the tag |
| AnnotateScript.EmptyLineNeverResolves | annotate.py:50-55 | an empty line (what `readline` returns at end of input) never resolves, so the source's loop never ends there |
| AnnotateScript.NonEmpty | annotate.py:74-76 | the rows that `main` does not skip, in order |
| AnnotateScript.ExtendsStep | annotate.py:77-91 | appending a row and its output, with at most one field added, keeps the row-by-row relation |
| AnnotateScript.NonEmptyStep | annotate.py:73-76 | one more row extends the non-empty rows by it exactly when it is not empty |
| AnnotateScript.Categorized | annotate.py:47-56 | `categorize` as a function of what each input line resolves to: the learnt answer, else the first line that does not reject (learnt if it resolves), else EOFError |
| AnnotateScript.AnnotatedRow | annotate.py:73-91 | one row of `main` as a function of the state before it: skipped, kept and learnt, IndexError, or the row with Categorized's category appended |
| AnnotateScript.Annotated | annotate.py:68-91 | `main` over the rows as a function of the input: rows are annotated in turn with the state threaded through, until one raises |
| AnnotateScript.FailureStops | annotate.py:68-91 | once a row has raised, the rows after it change neither what is written nor the state |
| AnnotateScript.AnnotatedExtends | annotate.py:73-91 | when no row raises, one row is written per non-empty input row, each the input row with at most one field added |
| AnnotateScript.Annotator.constructor | annotate.py:66 | `learnt = {}`, nothing read yet |
| AnnotateScript.Annotator.Categorize | annotate.py:47-56 | `categorize`: exactly the outcome, learnt map and lines read of Categorized. A learnt description returns its category without reading. Otherwise every line read before the last was rejected, and the last one resolved and is learnt. IndexError escapes. Running out of lines is EOFError, with every line rejected |
| AnnotateScript.Annotator.ReadCategory | annotate.py:51-53 | `resolve_category(readline().strip())` on the next line consumes exactly one line |
| AnnotateScript.Annotator.AnnotateRow | annotate.py:73-91 | one row of `main`, exactly as AnnotatedRow says. An empty row is skipped. A four-field row whose category resolves is written unchanged and teaches `learnt[entry[2]]`. A row of one or two fields raises IndexError. Any other row is written with its description's category appended |
| AnnotateScript.Annotator.Run | annotate.py:68-91 | `main`'s loop: the rows written, the exception that stopped it and the state left are exactly Annotated's, so each written row is AnnotatedRow's output for its non-empty input row with `learnt` threaded through, and rows written before an exception stay written; without one, each written row is its input row with at most one field added |
| Window.Admits | lib/fpos/window.py:68 | a row is judged by its first field read as a date: IndexError without one, ValueError when it is not a date |
| Window.EndAdmits | lib/fpos/window.py:60-61 | the end bound admits a date strictly before the first of its month; ValueError for a malformed bound; no bound admits every date |
| Window.StartAdmits | lib/fpos/window.py:58-59 | the start bound admits a date on or after the first of its month; ValueError for a malformed bound; no bound admits every date |
| Window.InSpan | lib/fpos/window.py:53-62 | `gen_span_oracle(start, end)(x)` can only fail with ValueError, from a malformed bound (the stand-alone window.py:38-47 builds the same oracle) |
| Window.SpanIsHalfOpen | lib/fpos/window.py:25-31 | with well-formed bounds, the oracle admits a date exactly when it lies on or after the first of the start month and strictly before the first of the end month, each bound optional: the half-open range [start, end) |
| Window.Window | lib/fpos/window.py:64-70 | `window` succeeds exactly when every row's date can be read; it then yields only input rows, exactly the admitted ones, never more rows than it was given (the row filter of window.py:57 is the same) |
| Window.WindowAppend | lib/fpos/window.py:64-70 | windowing two documents in turn gives the two windowed documents in turn: rows keep their input order |
| Window.WindowIdempotent | lib/fpos/window.py:64-70 | windowing an already windowed document changes nothing |
| Window.OracleExamples | lib/tests/__init__.py:110-129 | the five oracle tests: no bounds admit 01/01/2014; start 01/2014 admits 02/01/2014; end 02/2014 admits 31/01/2014 and rejects 01/02/2014; start 02/2014 rejects 01/01/2014 |
| Window.MonthExample | lib/fpos/window.py:59-61 | a "%m/%Y" rendering of a month parses back to the first of that month |
| Combine.Combine | lib/fpos/combine.py:48-57 | `combine(sources)`, drained: the sources concatenated, then merged |
| Combine.Concat | lib/fpos/combine.py:51 | `for db in sources for x in db`: exactly the rows of the sources |
| Combine.KeyIndex | lib/fpos/combine.py:50-51 | the position of the entry with a digest, which no earlier entry has |
| Combine.Put | lib/fpos/combine.py:50-51 | `d[digest] = x` on an insertion-ordered dict: the row takes the place of the entry with its digest, or is appended when there is none; every other entry stays where it was |
| Combine.Entries | lib/fpos/combine.py:50-51 | the dict's values are rows with at least three fields: shorter rows are dropped |
| Combine.EntriesDistinct | lib/fpos/combine.py:42-51 | the dict holds at most one row per digest |
| Combine.EntriesAreLast | lib/fpos/combine.py:50-51 | every entry is the last input row with its digest |
| Combine.EntriesKeepLast | lib/fpos/combine.py:50-51 | the last row with each digest is among the entries |
| Combine.EntriesCover | lib/fpos/combine.py:50-51 | every input row with three fields has an entry with its digest |
| Combine.SortKeys | lib/fpos/combine.py:52-53 | `costsort` and `datesort` of a row: ValueError exactly when its amount or its date cannot be read |
| Combine.Merge | lib/fpos/combine.py:49-56 | the written rows are a permutation of the dict's values; ValueError exactly when some entry's sort key cannot be read |
| Combine.MergeRejects | lib/fpos/combine.py:52-55 | one entry with an unreadable amount or date makes the whole merge raise ValueError |
| Combine.DescOrder | lib/fpos/combine.py:54 | ordering by description is a strict weak order |
| Combine.AmountOrder | lib/fpos/combine.py:53 | ordering by numeric amount is a strict weak order |
| Combine.DateOrder | lib/fpos/combine.py:52 | ordering by date is a strict weak order |
| Combine.MergeOrdered | lib/fpos/combine.py:55 | the three nested stable sorts leave the rows ordered by date, ties by amount, remaining ties by description |
| Combine.WrittenAreEntries | lib/fpos/combine.py:55-56 | every row written is one of the dict's values |
| Combine.MergeLast | lib/fpos/combine.py:50-56 | every row written is the last row of the sources with its digest |
| Combine.CombineFromSources | lib/fpos/combine.py:48-57 | every row `combine` writes is a row of some source |
| Combine.DistinctEntries | lib/fpos/combine.py:50-51 | two different entries have different digests |
| Combine.MergeUnique | lib/fpos/combine.py:50-56 | no two rows written share a digest |
| Combine.MergeCovers | lib/fpos/combine.py:50-56 | every row with three fields has its digest among the rows written |
| Combine.CombineCovers | lib/fpos/combine.py:48-57 | every source row with at least three fields has a row with its digest in `combine`'s output |
| Combine.EntriesNone | lib/fpos/combine.py:51 | with no row of three fields the dict is empty |
| Combine.CombineNothing | lib/tests/__init__.py:286-292 | empty sources, or sources with only short rows, combine to nothing |
| Combine.SeparatorlessCollapse | lib/fpos/combine.py:42-46 | ["1", "23", "x"] and ["12", "3", "x"] hash the same text and collapse to the later row |
| Combine.PreferLast | lib/tests/__init__.py:329-334 | a later row sharing the first three fields replaces the earlier one in its place; rows with other dates stay |
| Sorting.Insert | lib/fpos/combine.py:55 | the insertion step adds exactly x to the elements |
| Sorting.SortBy | lib/fpos/combine.py:55 | `sorted(xs, key=k)` is a permutation of xs |
| Sorting.InsertSorted | lib/fpos/combine.py:55 | inserting into a sorted sequence keeps it sorted, for a strict weak order |
| Sorting.SortSorted | lib/fpos/combine.py:55 | `sorted`'s result is ordered by its key |
| Sorting.InsertThen | lib/fpos/combine.py:55 | inserting an element in order by the secondary relation keeps ties in secondary order |
| Sorting.SortThen | lib/fpos/combine.py:55 | stability: sorting a sequence already in secondary order leaves tied elements in that order |
| Predict.Sum | lib/fpos/predict.py:75 | `sum` over a list of numbers |
| Predict.RowDate | lib/fpos/predict.py:31-32 | `pd(x[0])`: a valid date, IndexError exactly for an empty row, ValueError exactly for an unreadable date |
| Predict.Gaps | lib/fpos/predict.py:43 | one gap per consecutive pair of dates: one fewer than the dates, none for none |
| Predict.BeforeOrder | lib/fpos/predict.py:42 | date order is a strict weak order, so `sorted` by date sorts |
| Predict.GroupDeltas | lib/fpos/predict.py:34-43 | `group_deltas`: fails exactly when some member's date cannot be read, with the first such error; otherwise max(n − 1, 0) deltas |
| Predict.DatesValid | lib/fpos/predict.py:42 | every date read from the members is a valid date |
| Predict.SortedValid | lib/fpos/predict.py:42 | sorting keeps the dates valid |
| Predict.GapsNonNegative | lib/fpos/predict.py:43 | between dates in order, no gap is negative |
| Predict.DeltasNonNegative | lib/fpos/predict.py:34-43 | every delta `group_deltas` returns is non-negative, because the members are sorted first |
| Predict.Count | lib/fpos/predict.py:55 | the number of occurrences of a value, positive exactly when it occurs |
| Predict.MaxOr0 | lib/fpos/predict.py:55 | the largest delta, which is one of them; 0 for none |
| Predict.GroupDeltaBins | lib/fpos/predict.py:45-55 | `np.bincount(deltas)[1:]` raises ValueError exactly when some delta is negative |
| Predict.BinsCount | lib/fpos/predict.py:45-55 | bin i counts the deltas of i + 1 days; zero deltas are in no bin; there are max(deltas) bins, one more than the docstring's "max(deltas) − 1", and none for no deltas |
| Predict.LastPositive | lib/fpos/predict.py:60-61 | the 1-based index of the last positive bin, with every later bin zero; None exactly when no bin is positive |
| Predict.Period | lib/fpos/predict.py:57-67 | `period`: ValueError for no bins, else the backward scan returns LastPositive (None when every bin is zero) |
| Predict.PeriodIsLongestGap | lib/fpos/predict.py:45-67 | the period of a group's histogram is its longest gap; with no gap of a day or more there are no bins |
| Predict.Shares | lib/fpos/predict.py:76 | each bin divided by the total |
| Predict.Pmf | lib/fpos/predict.py:69-76 | `pmf`: each entry times the total is its bin; a zero total with some bin raises ZeroDivisionError for a list of Python ints (numpy input gives nan instead); no bins give none |
| Predict.ExpectedSpend | lib/fpos/predict.py:78-85 | `expected_spend`: one value per bin of the mass function |
| Predict.SumScaled | lib/fpos/predict.py:85 | scaling every value by the mean scales the sum by it |
| Predict.SumOfShares | lib/fpos/predict.py:76 | the shares sum to the bin total over the divisor |
| Predict.PmfSumsToOne | lib/fpos/predict.py:69-76 | over exact reals, with a positive (non-zero) total the mass function sums to 1 |
| Predict.ExpectedSpendSum | lib/fpos/predict.py:78-85 | the expected spends sum to mean × sum(mf) |
| Predict.ForecastKeepsMean | lib/fpos/predict.py:81-85 | the expected spends of a group's mass function sum to the mean |
| Predict.MaxDate | lib/fpos/predict.py:92 | `max` of dates: one of them, with none later |
| Predict.Last | lib/fpos/predict.py:87-92 | `last`: the latest member date; ValueError for no members; otherwise fails exactly when a member's date cannot be read |
| Predict.LastOfSorted | lib/fpos/predict.py:42 | after sorting by date the latest date is last |
| Predict.Telescope | lib/fpos/predict.py:43 | the gaps between consecutive dates add up to the days from the first to the last |
| Predict.DeltasSpan | lib/fpos/predict.py:34-92 | a group's deltas add up to the days from its earliest member to `last(members)` |
| Predict.Bottoms | lib/fpos/predict.py:159-163 | `bottoms`: entry i is the sum of the first i values, starting from 0; as many entries as values, and one for no values |
| Transform.Anz | lib/fpos/transform.py:38-42 | `transform_anz`: `_take_three` of the rows |
| Transform.Commbank | lib/fpos/transform.py:32-36 | `transform_commbank`: `_take_three` of the rows |
| Transform.TakeThreeRow | lib/fpos/transform.py:29 | `[l[0], money(float(l[1])), l[2]]` succeeds exactly for a row of three or more fields whose amount parses, and is then the date, the rendered amount and the description; ValueError exactly when the amount field exists and does not parse, IndexError otherwise |
| Transform.TakeThree | lib/fpos/transform.py:26-30 | `_take_three`: one output row per input row, each TakeThreeRow of it, other columns dropped; otherwise the error of the first row that fails |
| Transform.StGeorgeRow | lib/fpos/transform.py:53 | a St George row becomes [date, money(−debit), description] when the debit is non-empty and [date, money(credit), description] otherwise; the description comes from column 1 |
| Transform.StGeorge | lib/fpos/transform.py:44-54 | `transform_stgeorge` consumes the header row before converting anything (StopIteration on an empty document) and converts every later row |
| Transform.Transform | lib/fpos/transform.py:70-72 | `transform` raises AssertionError for a form outside `transform_choices` and dispatches every accepted form to its own transform |
| Transform.StGeorgeShape | lib/fpos/transform.py:44-54 | a converted St George document has one row fewer than its input, row i − 1 converting input row i |
| Transform.DecimalExamples | lib/tests/__init__.py:87-93 | `float("1.0")` is 1 and `float("-1.0")` is −1 |
| Transform.TakeThreeFour | lib/fpos/transform.py:32-36 | a four-field Commonwealth Bank row loses its balance |
| Transform.CommbankExample | lib/tests/__init__.py:90-93 | the library's Commonwealth Bank test rows become [date, money(1), "Positive"] and [date, money(−1), "Negative"] |
| Transform.StGeorgeExample | lib/tests/__init__.py:99-103 | the library's St George test: the header is dropped, the credit row stays positive, the debit row turns negative |
| TransformScript.Anz | transform.py:34-38 | the script's `transform_anz`: the rows unchanged |
| TransformScript.Texts | transform.py:38 | a row copied as text, field by field |
| TransformScript.Commbank | transform.py:25-32 | `l[:3]` of every row: one output row per input row, each a prefix of its row holding its first three fields (all of them when it has fewer) |
| TransformScript.StGeorgeRow | transform.py:49 | a debit is converted and negated; with an empty debit the credit is copied as text, unconverted |
| TransformScript.StGeorge | transform.py:40-50 | the header row is dropped first (StopIteration on an empty document), then every row converted |
| TransformScript.Run | transform.py:59-69 | `main`, row by row: nothing written and AssertionError for an unknown form; ANZ rows are written unchanged; each Commonwealth Bank row is written as the text of its first three fields (all of a shorter row); St George rows are written as StGeorgeRow converts them up to the first that raises, whose exception ends the run with the earlier rows kept, and all of StGeorge's rows when none raises |
| TransformScript.StGeorgeKeepsWritten | transform.py:59-69 | a St George file whose second data row is too short: its first row is written before IndexError stops `main` |
| TransformScript.StGeorgeDebitAgrees | transform.py:49 | for a debit, the script and the library (lib/fpos/transform.py:53) write the same date, the same negated amount (rendered in one, bare in the other) and the same description |
| Pipes.Filter | window.py:57 | a drained generator filter succeeds exactly when every element can be judged, and then holds only elements of the input, exactly the kept ones, never more than the input |
| Pipes.FilterAppend | lib/fpos/window.py:66-69 | filtering a concatenation is concatenating the filtered parts: kept elements stay in input order |
| Pipes.FilterIdempotent | lib/fpos/window.py:66-69 | filtering what a filter kept keeps all of it |
| Pipes.Map | lib/fpos/transform.py:27-29 | a drained generator map has one output per input, each the element's own value, or else the error of the first element that fails |
| Pipes.MapOkIff | lib/fpos/transform.py:27-29 | a map yields ys exactly when every element yields the value at its position of ys |
| Pipes.Drain | transform.py:65-66 | a stream written row by row: the values of the elements before the first that raises, in order, and that element's exception; no exception exactly when every element was written |
| Pipes.DrainIsMap | transform.py:65-66 | writing row by row and draining with `list()` agree: all of Map's values without an exception, and Map's exception otherwise |
| Pipes.MapTwo | lib/fpos/transform.py:27-29 | a map over two succeeding elements yields their two values |
| Pipes.MapFirstError | lib/fpos/transform.py:27-29 | the stream ends with the error of the first element that raises |
| Pipes.MapStops | lib/fpos/transform.py:27-29 | after a prefix that succeeded, an element that raises ends the whole stream with its error |
| Pipes.MapSnoc | lib/fpos/transform.py:27-29 | one more succeeding element appends its value at the end |
| Pipes.MapPrefix | lib/fpos/transform.py:27-29 | extending a succeeding prefix by one succeeding element appends its value |
| Text.ParseDecimal | lib/fpos/transform.py:53 | `float(s)`: white space around an optional sign and a decimal numeral, read exactly; None otherwise |
| Text.ParseInt | lib/fpos/groups.py:43 | `int(s)`: white space around an optional sign and decimal digits; None otherwise |
| Text.StripLeft | annotate.py:51 | the leading white space removed, and nothing else |
| Text.StripRight | annotate.py:51 | the trailing white space removed, and nothing else |
| Text.Strip | annotate.py:51 | `strip()` leaves no white space at either end |
| Text.ParseDecimalOfInt | lib/fpos/transform.py:29 | `float` accepts every string `int` accepts, with the same value |
| Text.ParseDigits | annotate.py:42 | `int` reads a plain run of digits as its decimal value |
| Text.ParseShow | annotate.py:42 | `int(str(n)) == n` |
| Text.ShowValue | lib/fpos/groups.py:43 | the digits of `str(n)` have value n |
| Text.Lower | annotate.py:30 | `lower()` lowers each ASCII capital and leaves every other character alone |
| Text.ContainsIff | annotate.py:30 | `p in s` holds exactly when p occurs in s at some position |
| Text.AbsentPair | annotate.py:30 | p is not in s when two adjacent characters of p are nowhere adjacent in s |
| Text.AbsentChar | annotate.py:30 | p is not in s when one of its characters is nowhere in s |
| Text.StrLessTotal | lib/fpos/combine.py:54 | string order is asymmetric and total |
| Text.StrLessTrans | lib/fpos/combine.py:54 | string order is transitive |
| Dates.FormatWeek | visualise.py:42 | `strftime("%U")`: the two-digit week of the year |
| Dates.FormatMonth | lib/fpos/visualise.py:445 | `strftime("%m/%Y")`: the month a date falls in |
| Dates.FormatDate | lib/fpos/core.py:24 | a date rendered in `date_fmt`, "%d/%m/%Y" |
| Dates.DaysInMonth | lib/fpos/visualise.py:433-435 | the month length lies in 28..31 and is 29 exactly for a leap February |
| Dates.MonthsFillYear | lib/fpos/predict.py:43 | the twelve months add up to the year's length |
| Dates.OrdinalOrder | lib/fpos/window.py:59-61 | comparing two midnight dates is comparing their day numbers, and equal dates have equal day numbers |
| Dates.WithinYear | lib/fpos/predict.py:43 | the day number of every valid date lies within its year |
| Dates.Weekday | lib/fpos/visualise.py:55 | `weekday()` lies in 0..6 |
| Dates.WeekOfYear | lib/fpos/visualise.py:55 | `%U` lies in 0..53 |
| Dates.ParseDate | lib/fpos/core.py:24 | whatever `strptime(s, "%d/%m/%Y")` accepts is a valid date |
| Dates.ParseMonth | lib/fpos/core.py:25 | `strptime(s, "%m/%Y")` yields the first of a month |
| Dates.ParseFormatDate | lib/fpos/core.py:24 | reading a date back from its "%d/%m/%Y" rendering gives the same date |
| Dates.ParseFormatMonth | lib/fpos/core.py:25 | reading a month back from its "%m/%Y" rendering gives the first of that month |
| Dates.FormatMonthSame | lib/fpos/visualise.py:54 | two dates share a month key exactly when they share year and month |
| Visualise.MonthDate | lib/fpos/visualise.py:58 | `monthsort`: the first day of a "%m/%Y" month; ValueError otherwise |
| Visualise.SumValuesRemove | lib/fpos/visualise.py:131 | `sum(d.values())` does not depend on iteration order: any entry can be taken out first |
| Visualise.SumValuesPut | lib/fpos/visualise.py:93-94 | storing v under k changes the sum of the values by v less what k held |
| Visualise.Charge | lib/fpos/visualise.py:85 | what `summed[row[3]] += float(row[1])` reads: IndexError for a row under four fields, KeyError for a category outside the list, ValueError for an unreadable amount, otherwise the category and amount |
| Visualise.TotalsOf | lib/fpos/visualise.py:83-85 | a total for exactly the given categories |
| Visualise.CategoryTotals | lib/fpos/visualise.py:83 | exactly the category keys of the list |
| Visualise.ChargeOne | lib/fpos/visualise.py:85 | one more charge adds its amount to its own category's total and to no other |
| Visualise.SumCharges | lib/fpos/visualise.py:83-86 | the accumulation loop fails exactly when some row cannot be charged, with the first row's error; otherwise each category's total is the sum of its rows' amounts |
| Visualise.SumCategories | lib/fpos/visualise.py:82-86 | `sum_categories`: exactly the category keys, each the sum of the amounts of its rows; the first short row, unknown category or unreadable amount raises its error (visualise.py:53-57 is the same code) |
| Visualise.SumValuesZero | lib/fpos/visualise.py:83 | a dict of zeros sums to zero |
| Visualise.TotalsSum | lib/fpos/visualise.py:83-86 | the category totals add up to the sum of every charge |
| Visualise.CategoryTotalsSum | lib/fpos/visualise.py:82-86 | `sum_categories`' totals add up to the sum of every row's amount |
| Visualise.Without | lib/fpos/visualise.py:93-94 | the entries not yet summed |
| Visualise.AddEntry | lib/fpos/visualise.py:93-94 | adding one more entry to the running total |
| Visualise.SumExpenses | lib/fpos/visualise.py:88-95 | `sum_expenses`: the same months, each mapped to the sum of its category amounts |
| Visualise.SumDict | lib/fpos/visualise.py:93-94 | the inner loop computes `sum(d.values())` |
| Visualise.Income | lib/fpos/visualise.py:97-100 | `income` has exactly the months of its input (each month's "Income" value, or 0) |
| Visualise.Surplus | lib/fpos/visualise.py:128-132 | `surplus`: one entry per expense month, income[m] + the sum of that month's expenses; KeyError exactly when an expense month has no income |
| Visualise.TransposedNewMonth | lib/fpos/visualise.py:105-106 | a month with no entries leaves the transpose as it was |
| Visualise.DepositShape | lib/fpos/visualise.py:108-112 | depositing a new (category, month) entry adds the category if missing and the month under it, changing no other category |
| Visualise.SeenDeposit | lib/fpos/visualise.py:107-112 | after a new entry the categories seen are those seen before and its own |
| Visualise.TransposedDeposit | lib/fpos/visualise.py:107-112 | depositing a new entry of a month into the transpose keeps it the transpose of the table with that entry |
| Visualise.DepositEntries | lib/fpos/visualise.py:112 | every entry of the deposited table is the table's entry, transposed |
| Visualise.DepositCovers | lib/fpos/visualise.py:112 | every entry of the table appears, transposed, in the deposited table |
| Visualise.Accumulate | lib/fpos/visualise.py:108-112 | the three steps create `d[c]` and `d[c][m]` when missing, then add s |
| Visualise.InvertedFinish | lib/fpos/visualise.py:113-116 | after the zero-filling pass the result is the complete inversion |
| Visualise.DepositMonth | lib/fpos/visualise.py:107-112 | the inner loop over one month deposits each of its categories, keeping the transpose |
| Visualise.ZeroFill | lib/fpos/visualise.py:113-115 | valid categories never seen get 0 for every month seen; every other category is untouched |
| Visualise.Invert | lib/fpos/visualise.py:102-116 | `invert` is a transpose: invert(s)[c][m] = s[m][c] for every entry, with no other entries for a category seen in some month, and every valid category seen in no month maps each month to 0 |
| Visualise.InvertedIncome | lib/fpos/visualise.py:97-116 | `income(s)[m]` is what `invert(s, valid)` holds for "Income" in month m, or 0 |
| Visualise.DropKey | lib/fpos/visualise.py:124-125 | deleting k from every month: KeyError exactly when some month lacks k; otherwise every month loses exactly k |
| Visualise.Ignore | lib/fpos/visualise.py:121-126 | `ignore` keeps the months, removes exactly the named keys from each and keeps every other entry; KeyError exactly when there are months and some name repeats or is missing from some month; the input is a value and is not changed |
| Visualise.IgnoreFails | lib/fpos/visualise.py:123-125 | a month left without the next name by the earlier deletions means a repeated or missing name |
| Visualise.IgnoreStep | lib/fpos/visualise.py:123-125 | a deletion that succeeds keeps the deleted names distinct and present in every month |
| Visualise.EarlierMonthOrder | lib/fpos/visualise.py:119 | ordering by `monthsort` is a strict weak order |
| Visualise.StrLessOrder | lib/fpos/visualise.py:119 | `sorted(summed)`'s string order is a strict weak order |
| Visualise.KeyList | lib/fpos/visualise.py:119 | the keys of a dict listed once each |
| Visualise.UndecorateReads | lib/fpos/visualise.py:119 | each key of the sorted decorated keys reads as its decoration |
| Visualise.UndecorateKeys | lib/fpos/visualise.py:119 | the sorted decorated keys, undecorated, are the same keys |
| Visualise.SortKeys | lib/fpos/visualise.py:119 | sorting a listing of the keys gives them in `sorted(d)` order |
| Visualise.KeysRead | lib/fpos/visualise.py:119 | reading the months of a row fails exactly when one of them does not read |
| Visualise.SortedMonths | lib/fpos/visualise.py:119 | sorting the months decorated with their dates lists them in date order |
| Visualise.KeySorted | lib/fpos/visualise.py:119 | the amounts of a row in `monthsort` order |
| Visualise.ValuesAt | lib/fpos/visualise.py:119 | `summed[k][v]` for each listed month v |
| Visualise.KeyRow | lib/fpos/visualise.py:119 | one matrix row: the amounts in month order, or the error of an unreadable month |
| Visualise.MatrixRows | lib/fpos/visualise.py:119 | one row per listed category, in that order |
| Visualise.SumMatrixBy | lib/fpos/visualise.py:118-119 | one row per category in `sorted` order, each holding its amounts in month order; fails exactly when some month does not read |
| Visualise.RowsCoverKeys | lib/fpos/visualise.py:119 | when the rows of every listed category read and the list holds every category, every month of the table reads |
| Visualise.CategorySumMatrix | lib/fpos/visualise.py:118-119 | `category_sum_matrix`: rows in sorted category order, each with its amounts in month order; ValueError exactly when some month key is not "%m/%Y" |
| Visualise.DaysRemaining | lib/fpos/visualise.py:433-435 | `days_remaining`: for a midnight date, days_in_month − day + 1, between 1 and the month length; one less at any later time of day |
| Visualise.Zeros | lib/fpos/visualise.py:458 | n zero amounts, none for n ≤ 0 |
| Visualise.SumZeros | lib/fpos/visualise.py:456-458 | days without spending leave the running total where it was |
| Visualise.RunningMeansAt | lib/fpos/visualise.py:470 | the mean of day j + 1 is the total of the first j + 1 amounts over j + 1 |
| Visualise.RunningAppend | lib/fpos/visualise.py:468-470 | appending a day's amount and the mean up to it keeps the means running |
| Visualise.FilledMeans | lib/fpos/visualise.py:456-457 | the means `fill_to` appends: the unchanged total over each day from `start` |
| Visualise.FillSnoc | lib/fpos/visualise.py:456-458 | one more filled day is an append to the days before it |
| Visualise.RunningFill | lib/fpos/visualise.py:452-458 | filling days without spending keeps the means running |
| Visualise.NewMonth | lib/fpos/visualise.py:461-466 | a day after the previous update in another month is a month with no entries yet |
| Visualise.UpdateConsistent | lib/fpos/visualise.py:460-471 | an allowed update keeps a ProgressiveMean consistent |
| Visualise.ConsistentPut | lib/fpos/visualise.py:469-471 | replacing the month of an update by consistent amounts and means keeps the rest consistent |
| Visualise.SameMonthDay | lib/fpos/visualise.py:455-470 | an update in the month of the previous one: that month's amounts and means grow to `day.day` entries and stay running |
| Visualise.NewMonthDay | lib/fpos/visualise.py:462-470 | an update in a new month: `day.day` amounts and means, running |
| Visualise.DayValuesFilled | lib/fpos/visualise.py:456-469 | a month's amounts after `update` are those `fill_to` leaves with the day's amount appended |
| Visualise.DayMeansFilled | lib/fpos/visualise.py:456-470 | a month's means after `update` are those `fill_to` leaves with the day's mean appended |
| Visualise.UpdateDone | lib/fpos/visualise.py:460-471 | the state `update`'s steps leave is the one DayValues and DayMeans describe, and it is consistent |
| Visualise.LaterEntered | lib/fpos/visualise.py:461 | every month entered no later than the previous update is entered no later than a later day |
| Visualise.ProgressiveMean.constructor | lib/fpos/visualise.py:437-442 | `ProgressiveMean(month)`: no months, no previous day; the month argument is unused |
| Visualise.ProgressiveMean.MaybeInit | lib/fpos/visualise.py:447-450 | `maybe_init`: empty lists for a month not seen yet, nothing else changes |
| Visualise.ProgressiveMean.Start | lib/fpos/visualise.py:455 | the first day `fill_to` fills: the day after `prev`, or the 1st |
| Visualise.ProgressiveMean.FillTo | lib/fpos/visualise.py:452-458 | `fill_to(date)`: a zero amount and the unchanged mean for each day from Start up to the day before `date`, in `date`'s month only |
| Visualise.ProgressiveMean.Fill | lib/fpos/visualise.py:456-458 | the loop appends days `start` to `end` − 1 |
| Visualise.ProgressiveMean.FillStep | lib/fpos/visualise.py:456-458 | one more day of the loop |
| Visualise.ProgressiveMean.Update | lib/fpos/visualise.py:460-471 | `update(day, v)`: AssertionError, changing nothing, unless day is after the previous one; otherwise the day's month holds exactly `day.day` amounts and running means, the accumulator restarts in a new month, and `prev` becomes `day` |
| Visualise.ProgressiveMean.Advance | lib/fpos/visualise.py:462-471 | the steps of `update` once its assertion holds |
| Visualise.ProgressiveMean.Record | lib/fpos/visualise.py:468-471 | the last three steps of `update` record the day |
| Visualise.ProgressiveMean.Head | lib/fpos/visualise.py:473-474 | `head()`: `prev.day` running means of the current month |
| Visualise.ProgressiveMean.Tail | lib/fpos/visualise.py:476-479 | `tail()`: every other month, each with its running means |
| VisualiseScript.ExtractWeek | visualise.py:42 | the script's `extract_week`: a "%d/%m/%Y" date read back as the bare week number "%U" |
| VisualiseScript.ExtractWeekFormatted | visualise.py:42 | the script's week extractor sends a date's rendering to its week number |
| VisualiseScript.GroupPeriod | visualise.py:47-51 | `group_period`: fails on the first row that cannot be filed (IndexError for an empty row, else the extractor's error), every earlier row being fileable; otherwise the grouping of every row under `extract(row[0])` |
| VisualiseScript.GroupPeriodBuckets | visualise.py:47-51 | each bucket holds exactly the rows whose date extracts to its key, in input order, and every row lands in its own bucket |
| Periods.GroupedInto | lib/fpos/visualise.py:70-77 | `add` applied to each row in turn: a non-empty row is appended to the list of its key |
| Periods.ExtractDay | lib/fpos/visualise.py:56 | `extract_day`: the date field itself |
| Periods.ExtractYearWeek | lib/fpos/visualise.py:55 | `extract_week`: a "%d/%m/%Y" date read back as "%Y:%U"; ValueError otherwise |
| Periods.ExtractMonth | lib/fpos/visualise.py:54 | `extract_month`: a "%d/%m/%Y" date read back as "%m/%Y"; ValueError otherwise |
| Periods.ExtractFormatted | lib/fpos/visualise.py:54-56 | each extractor reads the rendering of a date back: `extract_month` to its "%m/%Y", `extract_week` to its "%Y:%U", `extract_day` to the field itself |
| Periods.ExtractMonthSame | lib/fpos/visualise.py:54 | two dates land in the same month group exactly when their year and month agree |
| Periods.File | lib/fpos/visualise.py:74-77 | filing a row under k creates k if missing and appends the row to it alone |
| Periods.GroupedBucket | lib/fpos/visualise.py:70-77 | after grouping, each key holds what it held followed by exactly the rows keyed to it, in input order |
| Periods.GroupedKeys | lib/fpos/visualise.py:74-75 | a group exists after grouping exactly when it existed before or some row is keyed to it |
| Periods.SelectedOnce | lib/fpos/visualise.py:73-77 | a non-empty row is in the group of its own key and in no other |
| Periods.SelectedKeyed | lib/fpos/visualise.py:73-77 | every row of a group is non-empty and is keyed to that group |
| Periods.Stop | lib/fpos/visualise.py:72-77 | where `add` stops filing: every extractor before it accepts the date and has a group, the one at it does not |
| Periods.OutcomeOk | lib/fpos/visualise.py:72-77 | `add` of a non-empty row succeeds exactly when every extractor accepts its date and has a group list |
| Periods.AddableUpToAll | lib/fpos/visualise.py:66-68 | `add_all` gets past the first i rows exactly when each of them is addable |
| Periods.PeriodGroup.constructor | lib/fpos/visualise.py:62-64 | `__init__` as written: the extractors default to `extract_month`, but one empty group is made per extractor passed in |
| Periods.PeriodGroup.Corrected | lib/fpos/visualise.py:62-64 | `__init__` as evidently intended: one empty group per extractor in use |
| Periods.PeriodGroup.Add | lib/fpos/visualise.py:70-77 | `add`: an empty row changes nothing; otherwise the row is filed under `e(row[0])` by each extractor up to the first that raises or has no group, whose exception is returned; the groups filed before it stay |
| Periods.PeriodGroup.AddAll | lib/fpos/visualise.py:66-68 | `add_all`: when every row is addable, each group becomes the grouping of all the rows into what it held; otherwise the exception of the first refused row |
| Periods.AddStep | lib/fpos/visualise.py:66-77 | one successful `add` inside `add_all` extends every grouping by the row |
| Periods.NoExtractorsAddFails | lib/fpos/visualise.py:62-64 | `PeriodGroup()` followed by `add` of any well-dated row raises IndexError |
| Periods.CorrectedAddFiles | lib/fpos/visualise.py:62-77 | built as intended, the same `add` files the row under its month |
| Psave.ToMonth | lib/fpos/psave.py:78-79 | `to_month`: the first of the date's month, represented as its month index (twelve per year) |
| Psave.Avail | lib/fpos/psave.py:64-69 | what is left of a month's profit to hold back, never negative |
| Psave.Save | lib/fpos/psave.py:60-76 | `save_from_month`: KeyError exactly for a month without a balance; otherwise it holds back `value` when 0 ≤ value ≤ what is available and everything available else, nothing (and no state change) once more is held than earned, and records the new amount held |
| Psave.Savings.constructor | lib/fpos/psave.py:82 | an empty state |
| Psave.Savings.SaveFromMonth | lib/fpos/psave.py:60-76 | the in-place `save_from_month` returns what Save computes and leaves its state |
| Psave.Savings.DrawDeficit | lib/fpos/psave.py:99-108 | the backwards loop from month i to the first returns what Draw computes and leaves its state |
| Psave.DrawOnce | lib/fpos/psave.py:101-108 | one step of the backwards loop: save from month `first + j`, then stop once covered or go on below it |
| Psave.Inhabited | lib/fpos/psave.py:87 | a non-empty set of months has a member |
| Psave.Earliest | lib/fpos/psave.py:87 | the earliest month of the history |
| Psave.FirstMonth | lib/fpos/psave.py:87 | `next(iter(sorted(...)))`: the earliest month of a non-empty history |
| Psave.BalanceHistory | lib/fpos/psave.py:81-115 | `balance_history`: nothing for a missing or empty history; otherwise each deficit month from the window start to the month before the current one is covered from earlier months, KeyError for a missing month, ValueError for an uncovered deficit |
| Psave.Capacity | lib/fpos/psave.py:101-105 | the total still available from the months `first` to `first + j`, never negative |
| Psave.CapacityFrame | lib/fpos/psave.py:74 | holding back from one month leaves the capacity of the months below it alone |
| Psave.DrawGreedy | lib/fpos/psave.py:99-108 | the backwards draw is greedy and never overdraws: it collects the smaller of the deficit and everything the months can give |
| Psave.CoverStep | lib/fpos/psave.py:98-113 | a deficit month raises ValueError exactly when the months up to it cannot cover it; otherwise it is recorded as covered by exactly its deficit |
| Psave.SaveSound | lib/fpos/psave.py:66-74 | `save_from_month` never holds back more than a month's profit and forgets no month |
| Psave.DrawSound | lib/fpos/psave.py:99-108 | the backwards draw keeps every month within its profit |
| Psave.CoverSound | lib/fpos/psave.py:93-115 | when `balance_history` succeeds every deficit month of the window is covered by exactly its deficit and no month is drawn on beyond its profit |
| Psave.Keep | lib/fpos/psave.py:133-136 | a list comprehension with a condition keeps exactly the members that pass it, each as many times as it occurs |
| Psave.KeepAppend | lib/fpos/psave.py:133-136 | the comprehension keeps the input order: filtering a concatenation concatenates the filtered parts |
| Psave.FilterTargets | lib/fpos/psave.py:132-136 | `filter_targets`: exactly the targets not yet due, with a period over 31 days and a negative value, each as often as in the input |
| Psave.FilterTargetsAppend | lib/fpos/psave.py:132-136 | `filter_targets` keeps the order of the targets |
| Psave.NextBeforeOrder | lib/fpos/psave.py:139 | ordering targets by their next date is a strict weak order |
| Psave.SortTargets | lib/fpos/psave.py:138-139 | `sort_targets`: a permutation of the targets in order of next date |
| Psave.DateSet | lib/fpos/psave.py:189 | exactly the dates of the transactions, no more of them than transactions |
| Psave.CountQuantized | lib/fpos/psave.py:188-189 | `count_quantized_transactions`: the number of distinct transaction dates (DateSet), at most the number of transactions, and zero only for none |
| Psave.FilterGroups | lib/fpos/psave.py:191-192 | `filter_groups`: exactly the groups with transactions on more than two distinct dates, each as often as in the input, hence more than two transactions |
| Psave.FilterGroupsAppend | lib/fpos/psave.py:191-192 | `filter_groups` keeps the order of the groups |

## Left out

- OpenMP: the `#pragma omp parallel for` scoring loops of both C groupers are modelled sequentially.
- Allocation failure: `lcs` returning −1 and the NULL returns of `strgrp_new`, `add_item`, `new_grp` and `new_bin` are not modelled; allocation always succeeds.
- `strgrp_print`, `strgrp_free` and the free callbacks are not modelled: they only print or release memory.
- The CPython bindings (`ext/pystrgrp.c`, `ext/pylcs.c`, `py_lcs` in `ext/lcs.c`) convert arguments and results between Python and C and are not modelled; where the Python code relies on a binding that the shown bindings do not provide, a line below says what the model assumes.
- Annotate.Similarity: `lcs` is imported from `.core` (lib/fpos/annotate.py:23), which does not define it; the model takes it to be the longest common subsequence of the two strings, `Lcs.LcsLen`.
- Annotate.Similarity: the model is for ASCII text only. The C `lcs` behind the bindings receives UTF-8 bytes (the `"ss"` format at ext/pylcs.c:7 and ext/lcs.c:41), while `len` counts code points, so for non-ASCII text the source's ratio can leave [0, 1]: `("é", "é")` has 2 common bytes over 2 code points, giving 2.0.
- Text.Lower: lowers ASCII capitals only. Python's `lower()` (annotate.py:30, lib/fpos/annotate.py:80) also folds non-ASCII capitals, so the model of `find_category` is for ASCII text.
- Groups.DynamicGroups.DynamicFlags: `is_dynamic` is a parameter of the model. `ext/pystrgrp.c` exports no `is_dynamic` (its groups have only `key` and `add`, its grouper `add`, `grp_for`, `grp_exact` and `grps_for`), so the source does not define it.
- Groups.DynamicGroups.PickNeedle: relies on that same `is_dynamic` parameter. `is_acceptible` is not exported by the bindings either; the model uses ccan's `strgrp_grp_is_acceptible` (ext/ccan/strgrp/strgrp.c:370), a score of at least 0.
- Groups.DynamicGroups.constructor: `Strgrp_init` (ext/pystrgrp.c:230-241) accepts only `threshold`, so the `size=size` that `__init__` passes has no binding to receive it; the model gives the grouper the size the class keeps.
- The genann network, `lib/fpos/ann.py` and its file cache are foreign code and are not part of this model.
- The int16 buffer bound is proved for `Lcs.LcsTable`. The grouper models score with the specification `Lcs.LcsLen` and do not carry the C code's length limit of 32767.
- Hash functions: SHA-1 in `gen_id` and `digest_entry` is modelled by an injective id and by the separator-less concatenation. Hash collisions are not modelled.
- SQL I/O (connections, commits, the database file and the `nn` foreign key) is not modelled: the `assoc` table is a map.
- Interactive terminal I/O: prompts and messages are not modelled. `_request_match` and `categorize` read from a supplied list of lines. `find_group`'s user choice among several needles is an input index.
- `_Tagger.categorize` (lib/fpos/annotate.py:98-135) is the library's interactive prompt loop and is not modelled. The script's `categorize` and the library's `find_category`/`resolve_category` are.
- AnnotateScript.Annotator.Run: at end of input the script re-reads `""` forever, because an empty line never resolves (`AnnotateScript.EmptyLineNeverResolves`). The model returns EOFError there instead of looping.
- Floating point: `align`, `group_forecast` and `forecast` of `lib/fpos/predict.py` are not modelled. Nor are `amortise_target`, `calculate_position(s)`, `calculate_value` and the other glue of `lib/fpos/psave.py`. All amounts elsewhere are exact reals, so float rounding is not modelled.
- `generate_history` and `generate_groups` of `lib/fpos/psave.py` are glue over `PeriodGroup` and the broken `cdesc`, and are not modelled.
- Plotting, argument parsing and the `main` functions are not modelled (`graph_*`, `visualise()`, `name`, `parse_args`), except for the per-row rules of the scripts' `main`. The library's `window` and `transform` mains (lib/fpos/window.py:72-78, lib/fpos/transform.py:74-78) write with `writerows`, which keeps the rows written before an exception; `Window.Window` and `Transform.Transform` model those generators drained as `list()` drains them, and `Pipes.DrainIsMap` relates the two.
- The ccan `sqrt` is not computed: the model assumes of it only `IsSqrt`.
- CcanScore.UpdatedThresholdIsPairMin: requires that no two of the keys are both empty. For such a pair C's `nlcs` is 0/0, a NaN, which the model represents as an absent score.
- BinStrgrp.StrGrp.Add: requires a non-empty key for every bin it scores against. `should_bin_score` divides by the key's length, which is undefined in C for an empty key.
- BinStrgrp.StrGrp.BinFor: requires non-empty bin keys, for the same reason as `Add`.
- Visualise.ProgressiveMean.Head: requires a previous update. Before one, Python raises AttributeError on `self.prev`, which the model does not represent.
- Visualise.ProgressiveMean.Tail: requires a previous update, for the same reason as `Head`.
- Visualise.ProgressiveMean.Update: a mean is kept as the pair (running total, day count) rather than the float quotient.
- Money: `money`'s `"{:.2f}"` rendering is kept symbolic as a `Money(real)` cell, so digit rounding is not modelled.
- `float()` and `int()` are modelled for white space around an optional sign and decimal digits. Exponents, `inf`, `nan` and underscores are not modelled.
- `strptime` is modelled for one- or two-digit day and month fields and a four-digit year.
- Clocks: `datetime.today()` and `history.now` are parameters.
- Psave.BalanceHistory: `current_month - longest` with the `monthdelta` arithmetic is taken as a precomputed month index `window`.
- Periods.GroupedInto passes over a row that has no date or whose key cannot be extracted. Its callers only group rows that can be filed, so this adds nothing.
- Transform.Commbank and Transform.Anz both return `_take_three`, and their properties are those of `Transform.TakeThree`.
- Tests that exercise code absent from the library as shown are not modelled: the lib `group_period` test, the `nab` transform and the `tagger.pending()` calls.

## Findings

| source | as written | input that shows it | evidently intended | confidence | as-written member | corrected member |
|---|---|---|---|---|---|---|
| lib/fpos/visualise.py:62-64 | `group_list` has one dict per extractor passed in, even when none is passed and `extract_month` is used | `PeriodGroup()` then `add(["01/02/2014"])` raises IndexError on `group_list[0]` | one group per extractor in use, so `add` files the row under "02/2014" | not executed | Periods.NoExtractorsAddFails | Periods.PeriodGroup.Corrected |

=== FILE: annotate.dfy ===
/**
 * The category tagger of lib/fpos/annotate.py.
 *
 * `_LcsTagger` sorts transaction descriptions into groups by first fit on
 * their normalised LCS with each group's first member, and remembers the
 * groups still waiting for a category (`_lookup`) so that the category the
 * user later picks can be attached to the whole group. `_Tagger` resolves
 * what the user types into one of the category names of lib/fpos/core.py,
 * either as a (Python) index or as the unique case-insensitive substring
 * match.
 */
module Annotate {
  import opened Wrappers
  import opened Lcs
  import opened Text

  /** The category names of lib/fpos/core.py, in their order. */
  const Categories: seq<string> := ["Cash", "Commitment", "Dining", "Education", "Entertainment",
    "Health", "Home", "Income", "Internal", "Shopping", "Transport", "Utilities"]

  /* ---------------- category resolution ---------------- */

  /** `needle.lower() in element.lower()` */
  predicate Matches(needle: string, element: string)
  {
    Contains(Lower(element), Lower(needle))
  }

  /** The elements of the haystack that match the needle, in order. */
  function Candidates(needle: string, haystack: seq<string>): (c: seq<string>)
    ensures |c| <= |haystack|
    ensures forall e :: e in c ==> e in haystack && Matches(needle, e)
  {
    if |haystack| == 0 then []
    else
      var last := haystack[|haystack| - 1];
      Candidates(needle, haystack[..|haystack| - 1]) + (if Matches(needle, last) then [last] else [])
  }

  /** One step of the filter: the last element is kept exactly when it matches. */
  lemma CandidatesLast(needle: string, haystack: seq<string>)
    requires |haystack| > 0
    ensures var n := |haystack| - 1;
      Candidates(needle, haystack) ==
        Candidates(needle, haystack[..n]) + (if Matches(needle, haystack[n]) then [haystack[n]] else [])
  {
  }

  /** Index i is the one and only position of the haystack that matches. */
  predicate UniqueMatch(needle: string, haystack: seq<string>, i: int)
  {
    0 <= i < |haystack| && Matches(needle, haystack[i]) &&
    forall j :: 0 <= j < |haystack| && j != i ==> !Matches(needle, haystack[j])
  }

  /** The filter yields nothing exactly when no element matches. */
  lemma {:induction false} CandidatesNone(needle: string, haystack: seq<string>)
    ensures |Candidates(needle, haystack)| == 0 <==> forall j :: 0 <= j < |haystack| ==> !Matches(needle, haystack[j])
  {
    if |haystack| > 0 {
      var n := |haystack| - 1;
      CandidatesNone(needle, haystack[..n]);
      assert forall j :: 0 <= j < n ==> haystack[..n][j] == haystack[j];
    }
  }

  /** When only position i matches, the filter yields exactly the element there. */
  lemma {:induction false} CandidatesOfUnique(needle: string, haystack: seq<string>, i: int)
    requires UniqueMatch(needle, haystack, i)
    ensures Candidates(needle, haystack) == [haystack[i]]
  {
    var n := |haystack| - 1;
    var front := haystack[..n];
    CandidatesLast(needle, haystack);
    assert forall j :: 0 <= j < n ==> front[j] == haystack[j];
    if i == n {
      CandidatesNone(needle, front);
    } else {
      assert !Matches(needle, haystack[n]);
      assert UniqueMatch(needle, front, i);
      CandidatesOfUnique(needle, front, i);
    }
  }

  /** When the filter yields one element, exactly one position matches. */
  lemma {:induction false} CandidatesSingle(needle: string, haystack: seq<string>)
    requires |Candidates(needle, haystack)| == 1
    ensures exists i :: UniqueMatch(needle, haystack, i)
  {
    var n := |haystack| - 1;
    var front := haystack[..n];
    assert forall j :: 0 <= j < n ==> front[j] == haystack[j];
    if Matches(needle, haystack[n]) {
      CandidatesNone(needle, front);
      assert UniqueMatch(needle, haystack, n);
    } else {
      CandidatesSingle(needle, front);
      var i :| UniqueMatch(needle, front, i);
      assert UniqueMatch(needle, haystack, i);
    }
  }

  /**
   * `_Tagger.find_category`: the unique element of the haystack that
   * contains the needle, ignoring case; ValueError when none or several do.
   */
  method FindCategory(needle: string, haystack: seq<string>) returns (r: Result<string>)
    ensures r.Ok? <==> exists i :: UniqueMatch(needle, haystack, i)
    ensures forall i :: UniqueMatch(needle, haystack, i) ==> r == Ok(haystack[i])
    ensures r.Err? ==> r.error == ValueError
  {
    var candidates: seq<string> := [];
    for i := 0 to |haystack|
      invariant candidates == Candidates(needle, haystack[..i])
    {
      assert haystack[..i + 1][..i] == haystack[..i];
      if Contains(Lower(haystack[i]), Lower(needle)) {
        candidates := candidates + [haystack[i]];
      }
    }
    assert haystack[..|haystack|] == haystack;
    if |candidates| == 1 {
      CandidatesSingle(needle, haystack);
    }
    if i :| UniqueMatch(needle, haystack, i) {
      CandidatesOfUnique(needle, haystack, i);
    }
    var n := |candidates|;
    if 0 == n {
      r := Err(ValueError);
    } else if 1 == n {
      r := Ok(candidates[0]);
    } else {
      r := Err(ValueError);
    }
  }

  /** Python's `categories[index]` accepts -len <= index < len, counting negatives from the end. */
  predicate InIndexRange(index: int, n: nat)
  {
    -(n as int) <= index < n
  }

  function PyIndex(index: int, n: nat): (k: nat)
    requires InIndexRange(index, n)
    ensures k < n && (index >= 0 ==> k == index) && (index < 0 ==> k == n + index)
  {
    if index < 0 then n + index else index
  }

  /**
   * What `resolve_category` makes of the text, stated without the search:
   * the indexed category, IndexError out of range, or else the one category
   * the text matches, ValueError when there is not exactly one.
   */
  ghost function Resolution(needle: string): (r: Result<string>)
    ensures r.Ok? ==> r.value in Categories
    ensures r.Err? ==> r.error == ValueError || r.error == IndexError
    ensures r == Err(IndexError) <==> ParseInt(needle).Some? && !InIndexRange(ParseInt(needle).value, |Categories|)
  {
    match ParseInt(needle)
    case Some(index) =>
      if InIndexRange(index, |Categories|) then Ok(Categories[PyIndex(index, |Categories|)]) else Err(IndexError)
    case None =>
      if exists i :: UniqueMatch(needle, Categories, i) then
        var i :| UniqueMatch(needle, Categories, i);
        Ok(Categories[i])
      else Err(ValueError)
  }

  /**
   * `_Tagger.resolve_category`: text that `int()` accepts indexes the
   * categories (IndexError, which is not caught, when out of range);
   * anything else is looked up with FindCategory.
   */
  method ResolveCategory(needle: string) returns (r: Result<string>)
    ensures r.Ok? ==> r.value in Categories
    ensures ParseInt(needle).Some? ==>
      var index := ParseInt(needle).value;
      r == if InIndexRange(index, |Categories|) then Ok(Categories[PyIndex(index, |Categories|)]) else Err(IndexError)
    ensures ParseInt(needle).None? ==>
      (r.Ok? <==> exists i :: UniqueMatch(needle, Categories, i)) &&
      (forall i :: UniqueMatch(needle, Categories, i) ==> r == Ok(Categories[i])) &&
      (r.Err? ==> r.error == ValueError)
    ensures r == Resolution(needle)
  {
    match ParseInt(needle)
    case Some(index) =>
      if -|Categories| <= index < |Categories| {
        r := Ok(Categories[PyIndex(index, |Categories|)]);
      } else {
        r := Err(IndexError);
      }
    case None =>
      r := FindCategory(needle, Categories);
  }

  /* ---------------- the LCS tagger ---------------- */

  /**
   * `_LcsTagger.normal_lcs`: twice the LCS over the summed lengths, which
   * Python's true division refuses for two empty strings.
   */
  function Similarity(a: string, b: string): (r: Result<real>)
    ensures r.Err? <==> |a| + |b| == 0
    ensures r.Err? ==> r.error == ZeroDivisionError
    ensures r.Ok? ==> 0.0 <= r.value <= 1.0 && r.value == NormalLcs(b, a) && (a == b ==> r.value == 1.0)
  {
    if |a| + |b| == 0 then Err(ZeroDivisionError)
    else
      NormalLcsRange(a, b);
      Ok(NormalLcs(a, b))
  }

  /** The text does not reach the threshold against a group's first member. */
  predicate Misses(threshold: real, text: string, first: string)
  {
    Similarity(text, first).Ok? && Similarity(text, first).value < threshold
  }

  /** The text reaches the threshold against a group's first member. */
  predicate Hits(threshold: real, text: string, first: string)
  {
    Similarity(text, first).Ok? && Similarity(text, first).value >= threshold
  }

  /**
   * The first-fit search of `classify` over the groups' first members from
   * position i: the position of the first hit, None when every one misses,
   * or the ZeroDivisionError met on the way.
   */
  function FirstFitFrom(threshold: real, text: string, firsts: seq<string>, i: nat): (r: Result<Option<nat>>)
    requires i <= |firsts|
    ensures r.Ok? && r.value.Some? ==>
      var k := r.value.value;
      i <= k < |firsts| && Hits(threshold, text, firsts[k]) &&
      forall j :: i <= j < k ==> Misses(threshold, text, firsts[j])
    ensures r == Ok(None) ==> forall j :: i <= j < |firsts| ==> Misses(threshold, text, firsts[j])
    ensures r.Err? ==>
      r.error == ZeroDivisionError && text == [] &&
      exists k :: i <= k < |firsts| && firsts[k] == [] && forall j :: i <= j < k ==> Misses(threshold, text, firsts[j])
    decreases |firsts| - i
  {
    if i == |firsts| then Ok(None)
    else
      match Similarity(text, firsts[i])
      case Err(e) => Err(e)
      case Ok(x) => if x >= threshold then Ok(Some(i)) else FirstFitFrom(threshold, text, firsts, i + 1)
  }

  function FirstFit(threshold: real, text: string, firsts: seq<string>): Result<Option<nat>>
  {
    FirstFitFrom(threshold, text, firsts, 0)
  }

  /** `_TaggedList`: an optional tag over the descriptions grouped under it. */
  class TaggedList {
    var tag: Option<string>
    var members: seq<string>

    constructor(tag: Option<string>)
      ensures this.tag == tag && members == []
    {
      this.tag := tag;
      members := [];
    }
  }

  /** The first member of each group. */
  function FirstMembers(groups: seq<TaggedList>): (r: seq<string>)
    reads set g | g in groups
    requires forall g :: g in groups ==> |g.members| > 0
    ensures |r| == |groups| && forall i :: 0 <= i < |groups| ==> r[i] == groups[i].members[0]
  {
    if |groups| == 0 then []
    else FirstMembers(groups[..|groups| - 1]) + [groups[|groups| - 1].members[0]]
  }

  const DefaultThreshold: real := 0.75

  /** `_LcsTagger` */
  class LcsTagger {
    var groups: seq<TaggedList>
    /** The groups still waiting for a tag, under the text that opened them. */
    var lookup: map<string, TaggedList>
    const threshold: real
    ghost var Repr: set<object>

    /**
     * Every group has a first member; a pending group is one of the groups,
     * carries no tag yet, and was opened by the text it is filed under.
     */
    ghost predicate Valid()
      reads this, Repr
    {
      this in Repr &&
      (forall g :: g in groups ==> g in Repr && |g.members| > 0) &&
      (forall t :: t in lookup ==> lookup[t] in groups && lookup[t].tag == None && lookup[t].members[0] == t)
    }

    constructor(threshold: real)
      ensures Valid() && fresh(Repr)
      ensures this.threshold == threshold && groups == [] && lookup == map[]
    {
      this.threshold := threshold;
      groups := [];
      lookup := map[];
      Repr := {this};
    }

    /**
     * The search loop of `classify`: the first group whose first member the
     * text hits, as FirstFit finds it.
     */
    method Search(text: string) returns (f: Result<Option<nat>>)
      requires Valid()
      ensures f == FirstFit(threshold, text, FirstMembers(groups))
    {
      ghost var firsts := FirstMembers(groups);
      var i := 0;
      while i < |groups|
        invariant 0 <= i <= |groups|
        invariant FirstFitFrom(threshold, text, firsts, i) == FirstFit(threshold, text, firsts)
      {
        match Similarity(text, groups[i].members[0])
        case Err(err) =>
          return Err(err);
        case Ok(nlcs) =>
          if nlcs >= threshold {
            return Ok(Some(i));
          }
        i := i + 1;
      }
      f := Ok(None);
    }

    /**
     * `classify`: joins the first group whose first member the text hits,
     * appending it there and answering that group's tag; otherwise opens a
     * new group [text] with the given tag, pending when the tag is None.
     */
    method Classify(text: string, tag: Option<string>) returns (r: Result<Option<string>>)
      requires Valid()
      modifies Repr
      ensures Valid() && fresh(Repr - old(Repr))
      ensures forall g :: g in old(groups) ==> g.tag == old(g.tag)
      ensures FirstFit(threshold, text, old(FirstMembers(groups))).Err? ==>
        r == Err(ZeroDivisionError) && groups == old(groups) && lookup == old(lookup) &&
        forall g :: g in groups ==> g.members == old(g.members)
      ensures var f := FirstFit(threshold, text, old(FirstMembers(groups)));
        f.Ok? && f.value.Some? ==>
          var k := f.value.value;
          r == Ok(old(groups[k].tag)) && groups == old(groups) && lookup == old(lookup) &&
          groups[k].members == old(groups[k].members) + [text] &&
          forall g :: g in groups && g != groups[k] ==> g.members == old(g.members)
      ensures FirstFit(threshold, text, old(FirstMembers(groups))) == Ok(None) ==>
        var n := |old(groups)|;
        r == Ok(tag) && |groups| == n + 1 && groups[..n] == old(groups) && fresh(groups[n]) &&
        groups[n].members == [text] && groups[n].tag == tag &&
        lookup == (if tag.None? then old(lookup)[text := groups[n]] else old(lookup)) &&
        forall g :: g in old(groups) ==> g.members == old(g.members)
    {
      var f := Search(text);
      match f
      case Err(err) =>
        r := Err(err);
      case Ok(Some(k)) =>
        r := Join(k, text);
      case Ok(None) =>
        r := Open(text, tag);
    }

    /** Appends the text to group k, the group it fits. */
    method Join(k: nat, text: string) returns (r: Result<Option<string>>)
      requires Valid() && k < |groups|
      modifies groups[k]
      ensures Valid()
      ensures r == Ok(groups[k].tag) && groups[k].tag == old(groups[k].tag)
      ensures groups[k].members == old(groups[k].members) + [text]
    {
      var e := groups[k];
      e.members := e.members + [text];
      r := Ok(e.tag);
    }

    /** Opens a new group [text] under the given tag, pending when there is none. */
    method Open(text: string, tag: Option<string>) returns (r: Result<Option<string>>)
      requires Valid()
      modifies this
      ensures Valid() && fresh(Repr - old(Repr))
      ensures var n := |old(groups)|;
        r == Ok(tag) && |groups| == n + 1 && groups[..n] == old(groups) && fresh(groups[n]) &&
        groups[n].members == [text] && groups[n].tag == tag &&
        lookup == (if tag.None? then old(lookup)[text := groups[n]] else old(lookup))
    {
      var tl := new TaggedList(tag);
      tl.members := tl.members + [text];
      if tl.tag == None {
        lookup := lookup[text := tl];
      }
      groups := groups + [tl];
      Repr := Repr + {tl};
      r := Ok(tl.tag);
    }

    /** `need_tag_for`: the text opened a group that still has no tag. */
    method NeedTagFor(text: string) returns (b: bool)
      requires Valid()
      ensures b <==> text in lookup
      ensures b ==> lookup[text] in groups && lookup[text].tag == None && lookup[text].members[0] == text
    {
      b := text in lookup;
    }

    /**
     * `tag`: gives the group pending under the text its tag and stops it
     * pending; KeyError when the text is not pending.
     */
    method Tag(text: string, t: string) returns (r: Result<()>)
      requires Valid()
      modifies Repr
      ensures Valid() && Repr == old(Repr)
      ensures groups == old(groups) && forall g :: g in groups ==> g.members == old(g.members)
      ensures text !in old(lookup) ==>
        r == Err(KeyError) && lookup == old(lookup) && forall g :: g in groups ==> g.tag == old(g.tag)
      ensures text in old(lookup) ==>
        r == Ok(()) && lookup == old(lookup) - {text} && old(lookup)[text].tag == Some(t) &&
        forall g :: g in groups && g != old(lookup)[text] ==> g.tag == old(g.tag)
      ensures text !in lookup
    {
      if text !in lookup {
        return Err(KeyError);
      }
      var g := lookup[text];
      g.tag := Some(t);
      lookup := lookup - {text};
      r := Ok(());
    }
  }

  /* ---------------- the scenarios of lib/tests/__init__.py ---------------- */

  /** Of the core categories only "Income" contains "inc". */
  lemma OnlyIncomeHasInc()
    ensures UniqueMatch("inc", Categories, 7)
  {
    assert Lower("inc") == "inc";
    assert OccursAt(Lower("Income"), "inc", 0);
    ContainsIff(Lower("Income"), "inc");
    IncAbsentBefore();
    IncAbsentAfter();
  }

  /** None of the seven categories before "Income" contains "inc". */
  lemma IncAbsentBefore()
    ensures forall j :: 0 <= j < 7 ==> !Contains(Lower(Categories[j]), "inc")
  {
    forall j | 0 <= j < 7
      ensures !Contains(Lower(Categories[j]), "inc")
    {
      AbsentPair(Lower(Categories[j]), "inc", 1);
    }
  }

  /** None of the four categories after "Income" contains "inc". */
  lemma IncAbsentAfter()
    ensures forall j :: 8 <= j < 12 ==> !Contains(Lower(Categories[j]), "inc")
  {
    forall j | 8 <= j < 12
      ensures !Contains(Lower(Categories[j]), "inc")
    {
      AbsentPair(Lower(Categories[j]), "inc", 1);
    }
  }

  /** No core category contains "foo". */
  lemma NoneHasFoo()
    ensures forall j :: 0 <= j < |Categories| ==> !Matches("foo", Categories[j])
  {
    assert Lower("foo") == "foo";
    forall j | 0 <= j < |Categories|
      ensures !Contains(Lower(Categories[j]), "foo")
    {
      AbsentChar(Lower(Categories[j]), "foo", 0);
    }
  }

  /** "Income" and "Internal" both contain "in". */
  lemma TwoHaveIn()
    ensures Matches("In", Categories[7]) && Matches("In", Categories[8])
  {
    assert Lower("In") == "in" && Lower("Income") == "income" && Lower("Internal") == "internal";
    assert OccursAt("income", "in", 0) && OccursAt("internal", "in", 0);
    ContainsIff("income", "in");
    ContainsIff("internal", "in");
  }

  /** `find_category` on the core categories: "inc" finds "Income"; "In" and "foo" fail. */
  method FindCategoryExamples() returns (inc: Result<string>, prefix: Result<string>, none: Result<string>)
    ensures inc == Ok("Income")
    ensures prefix == Err(ValueError) && none == Err(ValueError)
  {
    OnlyIncomeHasInc();
    inc := FindCategory("inc", Categories);
    TwoHaveIn();
    prefix := FindCategory("In", Categories);
    NoneHasFoo();
    none := FindCategory("foo", Categories);
  }

  /** Of the core categories only "Cash" contains "cash". */
  lemma OnlyCashHasCash()
    ensures UniqueMatch("Cash", Categories, 0)
  {
    assert Lower("Cash") == "cash";
    assert OccursAt(Lower("Cash"), "cash", 0);
    ContainsIff(Lower("Cash"), "cash");
    CashAbsentBefore();
    CashAbsentAfter();
  }

  /** None of the five categories after "Cash" up to "Health" contains "cash". */
  lemma CashAbsentBefore()
    ensures forall j :: 1 <= j < 6 ==> !Contains(Lower(Categories[j]), "cash")
  {
    forall j | 1 <= j < 6
      ensures !Contains(Lower(Categories[j]), "cash")
    {
      AbsentPair(Lower(Categories[j]), "cash", 1);
    }
  }

  /** None of the categories from "Health" on contains "cash". */
  lemma CashAbsentAfter()
    ensures forall j :: 6 <= j < 12 ==> !Contains(Lower(Categories[j]), "cash")
  {
    forall j | 6 <= j < 12
      ensures !Contains(Lower(Categories[j]), "cash")
    {
      AbsentPair(Lower(Categories[j]), "cash", 1);
    }
  }

  /** "0", "1" and "12" read back as their numbers, and "-1" as minus one. */
  lemma ParseZero()
    ensures ParseInt("0") == Some(0)
  {
    ParseShow(0);
    assert Show(0) == "0";
  }

  lemma ParseMinusOne()
    ensures ParseInt("-1") == Some(-1)
  {
    ParseShow(1);
    assert Show(1) == "1";
    StripDigits("1");
    assert !IsSpace('-') && !IsSpace('1');
    assert Strip("-1") == "-1";
    assert "-1"[1..] == "1";
  }

  lemma ParseTwelve()
    ensures ParseInt("12") == Some(12)
  {
    assert 12 / 10 == 1 && 12 % 10 == 2;
    assert Show(1) == "1";
    assert Show(12) == Show(1) + ['0' + 2 as char] == "12";
    ParseShow(12);
  }

  /** `resolve_category` by index: "0" is the first category. */
  method ResolveFirstExample() returns (first: Result<string>)
    ensures first == Ok("Cash")
  {
    ParseZero();
    first := ResolveCategory("0");
  }

  /** `resolve_category` by index: "-1" counts from the end, to the last category. */
  method ResolveLastExample() returns (last: Result<string>)
    ensures last == Ok("Utilities")
  {
    ParseMinusOne();
    last := ResolveCategory("-1");
  }

  /** `resolve_category` by index: "12" is past the twelve categories. */
  method ResolvePastExample() returns (past: Result<string>)
    ensures past == Err(IndexError)
  {
    ParseTwelve();
    past := ResolveCategory("12");
  }

  /** `int("Cash")` fails, so `resolve_category` falls back to the name. */
  lemma NotANumber()
    ensures ParseInt("Cash") == None
  {
    assert !IsSpace('C') && !IsSpace('h');
    assert Strip("Cash") == "Cash";
    assert !IsDigit("Cash"[0]);
  }

  /** `resolve_category` by name: the first category's name resolves to itself. */
  method ResolveNameExample() returns (byName: Result<string>)
    ensures byName == Ok("Cash")
  {
    NotANumber();
    OnlyCashHasCash();
    byName := ResolveCategory("Cash");
  }

  /** `test_lcs_match_none`: a fresh tagger has no tag for "foo", which is then pending. */
  method MatchNone() returns (r: Result<Option<string>>, pending: bool)
    ensures r == Ok(None) && pending
  {
    var tagger := new LcsTagger(DefaultThreshold);
    r := tagger.Classify("foo", None);
    pending := tagger.NeedTagFor("foo");
  }

  /** nlcs("foo1", "foo0") = 2 * 3 / 8, exactly the default threshold. */
  lemma FuzzyHit()
    ensures Hits(DefaultThreshold, "foo1", "foo0")
  {
    LastDiffers("foo", '1', '0');
    assert "foo1" == "foo" + ['1'] && "foo0" == "foo" + ['0'];
  }

  /** `test_lcs_match_one_fuzzy`: "foo0" tagged "bar" makes "foo1" classify as "bar". */
  method MatchOneFuzzy() returns (r: Result<Option<string>>)
    ensures r == Ok(Some("bar"))
  {
    var tagger := new LcsTagger(DefaultThreshold);
    var _ := tagger.Classify("foo0", Some("bar"));
    FuzzyHit();
    r := tagger.Classify("foo1", None);
  }

  /** nlcs("bbaa", "aaaa") = 2 * 2 / 8, below the default threshold. */
  lemma FuzzyMiss()
    ensures Misses(DefaultThreshold, "bbaa", "aaaa")
  {
    FirstNotShared("bbaa", "aaaa");
    FirstNotShared("baa", "aaaa");
    assert "bbaa"[1..] == "baa" && "baa"[1..] == "aa";
    AtMostMin("aa", "aaaa");
  }

  /** `test_lcs_miss_one`: "aaaa" tagged "bar" does not capture "bbaa". */
  method MissOne() returns (r: Result<Option<string>>)
    ensures r == Ok(None)
  {
    var tagger := new LcsTagger(DefaultThreshold);
    var _ := tagger.Classify("aaaa", Some("bar"));
    FuzzyMiss();
    r := tagger.Classify("bbaa", None);
  }

  /**
   * An untagged text is pending until tagged; afterwards it is no longer
   * pending, and classifying it again answers the tag.
   */
  method TagThenClassify() returns (before: bool, tagged: Result<()>, after: bool, r: Result<Option<string>>)
    ensures before && tagged == Ok(()) && !after && r == Ok(Some("bar"))
  {
    var tagger := new LcsTagger(DefaultThreshold);
    var _ := tagger.Classify("foo", None);
    before := tagger.NeedTagFor("foo");
    tagged := tagger.Tag("foo", "bar");
    after := tagger.NeedTagFor("foo");
    NormalLcsRange("foo", "foo");
    r := tagger.Classify("foo", None);
  }
}

=== FILE: annotate_script.dfy ===
/**
 * The stand-alone annotate.py script: it reads transaction rows and writes
 * each one back with a category, asking on standard input for the category
 * of every description it has not yet learnt.
 *
 * Its category list and its `find_category`/`resolve_category` are those of
 * the library (module Annotate). Standard input is a scripted sequence of
 * lines read through a cursor.
 */
module AnnotateScript {
  import opened Wrappers
  import opened Text
  import opened Annotate

  /** What `readline().strip()` hands to `resolve_category` at the end of input. */
  lemma EmptyLineNeverResolves()
    ensures Resolution(Strip("")) == Err(ValueError)
  {
    assert Strip("") == "";
    assert Lower("") == [];
    forall i | 0 <= i < |Categories|
      ensures !UniqueMatch("", Categories, i)
    {
      var j := if i == 0 then 1 else 0;
      assert Matches("", Categories[j]);
    }
  }

  /** Every outcome from position lo up to position hi is a rejection. */
  predicate RejectedBetween(outcomes: seq<Result<string>>, lo: int, hi: int)
  {
    0 <= lo && hi <= |outcomes| && forall k :: lo <= k < hi ==> outcomes[k] == Err(ValueError)
  }

  /** The rows that are not empty, in order. */
  function NonEmpty(rows: seq<seq<string>>): (r: seq<seq<string>>)
    ensures |r| <= |rows|
    ensures forall k :: 0 <= k < |r| ==> |r[k]| > 0
  {
    if |rows| == 0 then []
    else NonEmpty(rows[..|rows| - 1]) + (if |rows[|rows| - 1]| > 0 then [rows[|rows| - 1]] else [])
  }

  /** Row by row, each output row is its input row with at most one field added. */
  predicate Extends(rows: seq<seq<string>>, out: seq<seq<string>>)
  {
    |out| == |rows| && forall k :: 0 <= k < |rows| ==> rows[k] <= out[k] && |out[k]| <= |rows[k]| + 1
  }

  lemma ExtendsStep(rows: seq<seq<string>>, out: seq<seq<string>>, row: seq<string>, outRow: seq<string>)
    requires Extends(rows, out) && row <= outRow && |outRow| <= |row| + 1
    ensures Extends(rows + [row], out + [outRow])
  {
  }

  lemma NonEmptyStep(rows: seq<seq<string>>, i: nat)
    requires i < |rows|
    ensures NonEmpty(rows[..i + 1]) == NonEmpty(rows[..i]) + (if |rows[i]| > 0 then [rows[i]] else [])
  {
    assert rows[..i + 1][..i] == rows[..i];
  }

  /** An outcome together with the state `main` threads on: what is learnt, and how many lines are read. */
  datatype Progress<T> = Progress(out: Result<T>, learnt: map<string, string>, read: nat)

  /**
   * `categorize` as a function of what `resolve_category` makes of each
   * input line: a learnt description is answered at once; otherwise lines
   * are read from `read` on, rejected ones re-asked, until one resolves
   * (and is learnt) or raises, or the input ends (EOFError).
   */
  ghost function Categorized(outcomes: seq<Result<string>>, learnt: map<string, string>, read: nat, description: string): (p: Progress<string>)
    decreases |outcomes| - read
  {
    if description in learnt then Progress(Ok(learnt[description]), learnt, read)
    else if read >= |outcomes| then Progress(Err(EOFError), learnt, read)
    else match outcomes[read]
      case Ok(c) => Progress(Ok(c), learnt[description := c], read + 1)
      case Err(e) =>
        if e == ValueError then Categorized(outcomes, learnt, read + 1, description)
        else Progress(Err(e), learnt, read + 1)
  }

  /** One row of `main` as a function of the resolved input lines and the state before it. */
  ghost function AnnotatedRow(outcomes: seq<Result<string>>, learnt: map<string, string>, read: nat, entry: seq<string>): (p: Progress<Option<seq<string>>>)
  {
    if |entry| == 0 then Progress(Ok(None), learnt, read)
    else if |entry| == 4 && Resolution(entry[3]).Ok? then
      Progress(Ok(Some(entry)), learnt[entry[2] := Resolution(entry[3]).value], read)
    else if |entry| == 4 && Resolution(entry[3]).error != ValueError then
      Progress(Err(Resolution(entry[3]).error), learnt, read)
    else if |entry| < 3 then Progress(Err(IndexError), learnt, read)
    else
      var c := Categorized(outcomes, learnt, read, entry[2]);
      Progress(if c.out.Ok? then Ok(Some(entry + [c.out.value])) else Err(c.out.error), c.learnt, c.read)
  }

  /** What `main` has written, the exception that stopped it if any, and the state it leaves. */
  datatype Annotation = Annotation(written: seq<seq<string>>, failure: Option<Error>, learnt: map<string, string>, read: nat)

  /**
   * `main` over the rows as a function of the resolved input lines: each row in
   * turn is annotated and written, until a row raises; the rows written
   * before it stay written.
   */
  ghost function Annotated(outcomes: seq<Result<string>>, learnt: map<string, string>, read: nat, rows: seq<seq<string>>): (a: Annotation)
    decreases |rows|
  {
    if |rows| == 0 then Annotation([], None, learnt, read)
    else
      var a := Annotated(outcomes, learnt, read, rows[..|rows| - 1]);
      if a.failure.Some? then a
      else
        var p := AnnotatedRow(outcomes, a.learnt, a.read, rows[|rows| - 1]);
        match p.out
        case Err(e) => Annotation(a.written, Some(e), p.learnt, p.read)
        case Ok(o) => Annotation(a.written + (if o.Some? then [o.value] else []), None, p.learnt, p.read)
  }

  /** Once a row has raised, later rows change nothing. */
  lemma {:induction false} FailureStops(outcomes: seq<Result<string>>, learnt: map<string, string>, read: nat, rows: seq<seq<string>>, i: nat)
    requires i <= |rows| && Annotated(outcomes, learnt, read, rows[..i]).failure.Some?
    ensures Annotated(outcomes, learnt, read, rows) == Annotated(outcomes, learnt, read, rows[..i])
    decreases |rows| - i
  {
    if i < |rows| {
      assert rows[..i + 1][..i] == rows[..i];
      FailureStops(outcomes, learnt, read, rows, i + 1);
    } else {
      assert rows[..i] == rows;
    }
  }

  /**
   * When no row raises, `main` writes one row per non-empty input row,
   * each the input row with at most its category added.
   */
  lemma {:induction false} AnnotatedExtends(outcomes: seq<Result<string>>, learnt: map<string, string>, read: nat, rows: seq<seq<string>>)
    requires Annotated(outcomes, learnt, read, rows).failure.None?
    ensures Extends(NonEmpty(rows), Annotated(outcomes, learnt, read, rows).written)
    decreases |rows|
  {
    if |rows| > 0 {
      var init := rows[..|rows| - 1];
      var a := Annotated(outcomes, learnt, read, init);
      AnnotatedExtends(outcomes, learnt, read, init);
      var p := AnnotatedRow(outcomes, a.learnt, a.read, rows[|rows| - 1]);
      if p.out.value.Some? {
        ExtendsStep(NonEmpty(init), a.written, rows[|rows| - 1], p.out.value.value);
      }
    }
  }

  /** The state `main` threads through the rows: what it has learnt, and how much input it has read. */
  class Annotator {
    /** Description to category. */
    var learnt: map<string, string>
    /** The lines standard input will deliver. */
    const lines: seq<string>
    /** What `resolve_category` makes of each line once stripped. */
    ghost const outcomes: seq<Result<string>>
    /** How many lines have been read. */
    var read: nat

    ghost predicate Valid()
      reads this
    {
      read <= |lines| && |outcomes| == |lines| &&
      (forall k {:trigger Strip(lines[k])} :: 0 <= k < |lines| ==> outcomes[k] == Resolution(Strip(lines[k]))) &&
      forall k :: 0 <= k < |outcomes| && outcomes[k].Err? ==> outcomes[k].error in {ValueError, IndexError}
    }

    constructor(lines: seq<string>)
      ensures Valid() && this.lines == lines && read == 0 && learnt == map[]
    {
      this.lines := lines;
      outcomes := seq(|lines|, k requires 0 <= k < |lines| => Resolution(Strip(lines[k])));
      read := 0;
      learnt := map[];
    }

    /**
     * `categorize`: a learnt description is answered at once; otherwise
     * lines are read until one resolves, and its category is learnt.
     * IndexError from `resolve_category` is not caught. The source keeps
     * reading empty lines at the end of input, which never resolve
     * (EmptyLineNeverResolves); the model stops there with EOFError.
     */
    method Categorize(description: string) returns (r: Result<string>)
      requires Valid()
      modifies this
      ensures Valid() && old(read) <= read
      ensures description in old(learnt) ==>
        r == Ok(old(learnt)[description]) && learnt == old(learnt) && read == old(read)
      ensures description !in old(learnt) && r.Ok? ==>
        read > old(read) && outcomes[read - 1] == r && RejectedBetween(outcomes, old(read), read - 1) &&
        learnt == old(learnt)[description := r.value]
      ensures r.Err? ==> learnt == old(learnt) && (r.error == IndexError || r.error == EOFError)
      ensures r == Err(IndexError) ==>
        read > old(read) && outcomes[read - 1] == r && RejectedBetween(outcomes, old(read), read - 1)
      ensures r == Err(EOFError) ==> read == |lines| && RejectedBetween(outcomes, old(read), |lines|)
      ensures Progress(r, learnt, read) == Categorized(outcomes, old(learnt), old(read), description)
    {
      while description !in learnt
        invariant Valid() && old(read) <= read
        invariant learnt == old(learnt)
        invariant Categorized(outcomes, learnt, read, description) == Categorized(outcomes, old(learnt), old(read), description)
        invariant description in old(learnt) ==> read == old(read)
        invariant RejectedBetween(outcomes, old(read), read)
        decreases |lines| - read
      {
        if read == |lines| {
          return Err(EOFError);
        }
        ghost var before := read;
        var resolved := ReadCategory();
        assert before == read - 1;
        match resolved
        case Ok(c) =>
          assert Categorized(outcomes, learnt, before, description) == Progress(Ok(c), learnt[description := c], read);
          learnt := learnt[description := c];
          return Ok(c);
        case Err(e) =>
          if e != ValueError {
            assert Categorized(outcomes, learnt, before, description) == Progress(Err(e), learnt, read);
            return Err(e);
          }
          assert Categorized(outcomes, learnt, before, description) == Categorized(outcomes, learnt, read, description);
      }
      assert description in old(learnt);
      r := Ok(learnt[description]);
    }

    /** `resolve_category(sys.stdin.readline().strip())` on the next line of input. */
    method ReadCategory() returns (resolved: Result<string>)
      requires Valid() && read < |lines|
      modifies this
      ensures Valid() && read == old(read) + 1 && learnt == old(learnt)
      ensures resolved == outcomes[read - 1]
    {
      var raw := Strip(lines[read]);
      resolved := ResolveCategory(raw);
      assert resolved == outcomes[read];
      read := read + 1;
    }

    /**
     * One row of `main`: an empty row is skipped (None); a four-field row
     * whose category resolves is kept as it is and teaches the category of
     * its description; any other row gets the category of its description
     * appended, asking for it when it is not yet learnt. IndexError when a
     * row that needs asking has no description field.
     */
    method AnnotateRow(entry: seq<string>) returns (r: Result<Option<seq<string>>>)
      requires Valid()
      modifies this
      ensures Valid()
      ensures |entry| == 0 ==> r == Ok(None) && learnt == old(learnt) && read == old(read)
      ensures |entry| == 4 && Resolution(entry[3]).Ok? ==>
        r == Ok(Some(entry)) && learnt == old(learnt)[entry[2] := Resolution(entry[3]).value] && read == old(read)
      ensures |entry| == 4 && Resolution(entry[3]) == Err(IndexError) ==>
        r == Err(IndexError) && learnt == old(learnt) && read == old(read)
      ensures 0 < |entry| < 3 ==> r == Err(IndexError) && learnt == old(learnt) && read == old(read)
      ensures |entry| >= 3 && !(|entry| == 4 && Resolution(entry[3]) != Err(ValueError)) && r.Ok? ==>
        entry[2] in learnt && r == Ok(Some(entry + [learnt[entry[2]]]))
      ensures r.Ok? && r.value.Some? ==> entry <= r.value.value && |r.value.value| <= |entry| + 1
      ensures Progress(r, learnt, read) == AnnotatedRow(outcomes, old(learnt), old(read), entry)
    {
      if 0 == |entry| {
        return Ok(None);
      }
      if 4 == |entry| {
        var resolved := ResolveCategory(entry[3]);
        match resolved
        case Ok(c) =>
          learnt := learnt[entry[2] := c];
          return Ok(Some(entry));
        case Err(e) =>
          if e != ValueError {
            return Err(e);
          }
      }
      if |entry| < 3 {
        return Err(IndexError);
      }
      var category := Categorize(entry[2]);
      match category
      case Ok(c) =>
        r := Ok(Some(entry + [c]));
      case Err(e) =>
        r := Err(e);
    }

    /**
     * The row loop of `main` over the rows of all input files in turn: the
     * rows written, and the exception that stops it, if any.
     */
    method Run(rows: seq<seq<string>>) returns (written: seq<seq<string>>, failure: Option<Error>)
      requires Valid()
      modifies this
      ensures Valid()
      ensures Annotation(written, failure, learnt, read) == Annotated(outcomes, old(learnt), old(read), rows)
      ensures failure.None? ==> Extends(NonEmpty(rows), written)
    {
      written := [];
      for i := 0 to |rows|
        invariant Valid()
        invariant Annotation(written, None, learnt, read) == Annotated(outcomes, old(learnt), old(read), rows[..i])
        invariant Extends(NonEmpty(rows[..i]), written)
      {
        NonEmptyStep(rows, i);
        assert rows[..i + 1][..i] == rows[..i];
        var out := AnnotateRow(rows[i]);
        match out
        case Err(e) =>
          FailureStops(outcomes, old(learnt), old(read), rows, i + 1);
          return written, Some(e);
        case Ok(None) =>
        case Ok(Some(row)) =>
          ExtendsStep(NonEmpty(rows[..i]), written, rows[i], row);
          written := written + [row];
      }
      assert rows[..|rows|] == rows;
      failure := None;
    }
  }
}

=== FILE: bin_strgrp.dfy ===
/**
 * The older bin-based string grouper (ext/strgrp.c): a context holding bins
 * in creation order, each bin holding its items in insertion order, an
 * exact-string cache that keeps the first bin a string went to, and a
 * scores buffer resized to the number of bins and refilled on every lookup.
 *
 * Its similarity `nlcs` is Lcs.NormalLcs, 2 * lcs / (|a| + |b|), which is
 * rational, so unlike the ccan grouper it is modelled exactly.
 */
module BinStrgrp {
  import opened Wrappers
  import opened Lcs
  import CcanScore

  /** The caller's opaque `void *data`. */
  type Data = int

  /** `struct strgrp_item`. */
  datatype Item = Item(key: string, value: Data)

  /** Some item carries the string s. */
  ghost predicate HasKey(items: seq<Item>, s: string)
  {
    exists i :: 0 <= i < |items| && items[i].key == s
  }

  /**
   * The length ratio of `should_bin_score`: |str| / |key| in unsigned
   * integer division, converted, and inverted when above 1.
   */
  function LenRatio(keyLen: nat, strLen: nat): real
    requires keyLen > 0
  {
    var q := strLen / keyLen;
    if 1 < q then 1.0 / q as real else q as real
  }

  /** `should_bin_score`: the threshold is at most the length ratio. */
  function ShouldBinScore(threshold: real, keyLen: nat, strLen: nat): bool
    requires keyLen > 0
  {
    threshold <= LenRatio(keyLen, strLen)
  }

  /**
   * The truncated ratio is 0 for a string shorter than the key, 1 for one
   * up to twice as long, and 1/q for one q (at least 2) times as long.
   */
  lemma LenRatioCases(keyLen: nat, strLen: nat)
    requires keyLen > 0
    ensures 0.0 <= LenRatio(keyLen, strLen) <= 1.0
    ensures strLen < keyLen ==> LenRatio(keyLen, strLen) == 0.0
    ensures keyLen <= strLen < 2 * keyLen ==> LenRatio(keyLen, strLen) == 1.0
  {
    var q := strLen / keyLen;
    if strLen < keyLen {
      assert q == 0;
    } else if strLen < 2 * keyLen {
      assert q == 1;
    }
  }

  /** With a positive threshold a string shorter than the bin's key is never scored. */
  lemma ShorterIsNotScored(threshold: real, keyLen: nat, strLen: nat)
    requires keyLen > 0 && threshold > 0.0 && strLen < keyLen
    ensures !ShouldBinScore(threshold, keyLen, strLen)
  {
    LenRatioCases(keyLen, strLen);
  }

  /**
   * The filter is not a bound on the score: "a" against the key "ab" has
   * nlcs 2/3, above a threshold of 0.5, yet it is never scored.
   */
  lemma FilterSkipsPassingString()
    ensures NormalLcs("ab", "a") > 0.5 && !ShouldBinScore(0.5, 2, 1)
  {
    assert LcsLen("ab", "a") == 1 by {
      assert LcsLen("b", "") == 0;
      assert "ab"[0] == "a"[0];
      assert "ab"[1..] == "b" && "a"[1..] == "";
    }
    LenRatioCases(2, 1);
  }

  /** What the scoring loop of `strgrp_bin_for` writes for one bin: nlcs if it passes the filter, else 0. */
  function FilteredScore(threshold: real, key: string, str: string): (s: real)
    requires |key| > 0
    ensures 0.0 <= s <= 1.0
    ensures !ShouldBinScore(threshold, |key|, |str|) ==> s == 0.0
    ensures threshold > 0.0 && |str| < |key| ==> s == 0.0
  {
    NormalLcsRange(key, str);
    LenRatioCases(|key|, |str|);
    if ShouldBinScore(threshold, |key|, |str|) then NormalLcs(key, str) else 0.0
  }

  /** `struct strgrp_bin`. */
  class Bin {
    const key: string
    const keyLen: int
    var items: seq<Item>
    var nItems: int

    /** key_len is the key's length, n_items counts the items, and the first item is the key. */
    ghost predicate Valid()
      reads this
    {
      keyLen == |key| && nItems == |items| && 0 < |items| && items[0].key == key
    }

    /** `new_bin`: a bin keyed by str whose one item is (str, data). */
    constructor (str: string, data: Data)
      ensures Valid()
      ensures key == str && items == [Item(str, data)]
    {
      key := str;
      keyLen := |str|;
      items := [];
      nItems := 0;
      new;
      AddItem(str, data);
    }

    /** `add_item`: appends (str, data) at the end and counts it. */
    method AddItem(str: string, data: Data)
      requires nItems == |items|
      modifies this
      ensures items == old(items) + [Item(str, data)]
      ensures nItems == old(nItems) + 1 == |items|
    {
      items := items + [Item(str, data)];
      nItems := nItems + 1;
    }
  }

  /** `struct bin_score`: a bin and its last score. */
  datatype BinScore = BinScore(bin: Bin?, score: real)

  /** Every bin has a non-empty key, so its length can divide. */
  ghost predicate KeysNonEmpty(bins: seq<Bin>)
  {
    forall b :: b in bins ==> |b.key| > 0
  }

  /** The filtered scores of bins against str, in order. */
  function BinScores(threshold: real, bins: seq<Bin>, str: string): (s: seq<real>)
    requires KeysNonEmpty(bins)
    ensures |s| == |bins|
    ensures forall i :: 0 <= i < |bins| ==> s[i] == FilteredScore(threshold, bins[i].key, str)
  {
    if |bins| == 0 then []
    else BinScores(threshold, bins[..|bins| - 1], str) + [FilteredScore(threshold, bins[|bins| - 1].key, str)]
  }

  /** Appending to a bin's items keeps every key it already had. */
  lemma HasKeyExtend(before: seq<Item>, after: seq<Item>, s: string)
    requires HasKey(before, s) && before <= after
    ensures HasKey(after, s)
  {
    var i :| 0 <= i < |before| && before[i].key == s;
    assert after[i] == before[i];
  }

  /** The scores held in a scores buffer, in order. */
  function ScoreValues(slots: seq<BinScore>): (s: seq<real>)
    ensures |s| == |slots| && forall i :: 0 <= i < |slots| ==> s[i] == slots[i].score
  {
    seq(|slots|, i requires 0 <= i < |slots| => slots[i].score)
  }

  /**
   * The second loop of `strgrp_bin_for`: the slot whose score is strictly
   * greater than every earlier one, that is the first greatest.
   */
  method MaxSlot(scores: array<BinScore>) returns (max: nat)
    requires scores.Length > 0
    ensures max == CcanScore.ArgMaxFirst(ScoreValues(scores[..]))
  {
    ghost var s := ScoreValues(scores[..]);
    max := 0;
    var i := 1;
    while i < scores.Length
      invariant 1 <= i <= scores.Length && max < i
      invariant max == CcanScore.ArgMaxFirst(s[..i])
    {
      assert s[i] == scores[i].score && s[max] == scores[max].score;
      CcanScore.ArgMaxFirstStep(s, i, max);
      if scores[i].score > scores[max].score {
        max := i;
      }
      i := i + 1;
    }
    assert s[..scores.Length] == s;
  }

  /** `struct strgrp`: the grouping context. */
  class StrGrp {
    const threshold: real
    var known: map<string, Bin>
    var nBins: int
    var bins: seq<Bin>
    var scores: array<BinScore>
    ghost var Repr: set<object>

    /**
     * n_bins counts the bins, the scores buffer has one slot per bin, no
     * bin is listed twice, and every cached string is an item of its bin.
     */
    ghost predicate Valid()
      reads this, Repr
    {
      && this in Repr && scores in Repr
      && nBins == |bins| && scores.Length == nBins
      && (forall b :: b in bins ==> b in Repr && b.Valid())
      && (forall i, j :: 0 <= i < j < |bins| ==> bins[i] != bins[j])
      && (forall s :: s in known ==> known[s] in bins && HasKey(known[s].items, s))
    }

    /** `strgrp_new`: an empty context. */
    constructor (threshold: real)
      ensures Valid() && fresh(Repr)
      ensures this.threshold == threshold && bins == [] && known == map[]
    {
      this.threshold := threshold;
      known := map[];
      nBins := 0;
      bins := [];
      scores := new BinScore[0];
      Repr := {this, scores};
    }

    /**
     * `add_bin`: a new bin for (str, data) is appended, and the scores
     * buffer is reallocated to the new bin count, keeping its old slots.
     */
    method AddBin(str: string, data: Data) returns (b: Bin)
      requires Valid()
      modifies this
      ensures Valid() && fresh(b) && fresh(scores)
      ensures bins == old(bins) + [b] && nBins == old(nBins) + 1 && known == old(known)
      ensures Repr == old(Repr) + {b, scores}
      ensures scores[..old(nBins)] == old(scores[..])
      ensures b.key == str && b.items == [Item(str, data)]
    {
      b := new Bin(str, data);
      bins := bins + [b];
      nBins := nBins + 1;
      var resized := new BinScore[nBins];
      forall i | 0 <= i < scores.Length {
        resized[i] := scores[i];
      }
      scores := resized;
      Repr := Repr + {b, scores};
      forall s | s in known
        ensures known[s] in bins
      {
        assert known[s] in old(bins);
      }
    }

    /** `cache`: str is recorded as going to bin unless it is already known. */
    method Cache(bin: Bin, str: string)
      requires Valid() && bin in bins && HasKey(bin.items, str)
      modifies this
      ensures Valid()
      ensures known == if str in old(known) then old(known) else old(known)[str := bin]
      ensures bins == old(bins) && scores == old(scores) && Repr == old(Repr)
    {
      if str in known {
        return;
      }
      known := known[str := bin];
    }

    /** The scoring loop of `strgrp_bin_for`: slot i gets bin i and its filtered score against str. */
    method ScoreBins(str: string)
      requires Valid() && KeysNonEmpty(bins)
      modifies scores
      ensures Valid()
      ensures forall k :: 0 <= k < nBins ==> scores[k] == BinScore(bins[k], FilteredScore(threshold, bins[k].key, str))
    {
      var i := 0;
      while i < nBins
        invariant 0 <= i <= nBins && Valid()
        invariant forall k :: 0 <= k < i ==> scores[k] == BinScore(bins[k], FilteredScore(threshold, bins[k].key, str))
      {
        var bin := bins[i];
        assert bin in bins;
        var ss := ShouldBinScore(threshold, bin.keyLen, |str|);
        scores[i] := BinScore(bin, if ss then NormalLcs(bin.key, str) else 0.0);
        i := i + 1;
      }
    }

    /**
     * `strgrp_bin_for`: no bin when there are none; the cached bin for a
     * known string; otherwise every bin's filtered score is written to the
     * buffer and the first bin with the greatest score is chosen if that
     * score is strictly above the threshold.
     */
    method BinFor(str: string) returns (r: Bin?)
      requires Valid()
      requires str in known || KeysNonEmpty(bins)
      modifies scores
      ensures Valid()
      ensures nBins == 0 ==> r == null
      ensures nBins > 0 && str in known ==> r == known[str]
      ensures r != null ==> r in bins
      ensures nBins == 0 || str in known ==> scores[..] == old(scores[..])
      ensures nBins > 0 && str !in known ==>
        && (forall i :: 0 <= i < nBins ==> scores[i] == BinScore(bins[i], FilteredScore(threshold, bins[i].key, str)))
        && Picked(BinScores(threshold, bins, str), r)
    {
      if nBins == 0 {
        return null;
      }
      if str in known {
        return known[str];
      }
      ScoreBins(str);
      var max := MaxSlot(scores);
      assert ScoreValues(scores[..]) == BinScores(threshold, bins, str);
      r := if scores[max].score > threshold then scores[max].bin else null;
    }

    /**
     * The choice of `strgrp_bin_for` among bins scored s: the first bin of
     * greatest score when that score is above the threshold, else none.
     */
    ghost predicate Picked(s: seq<real>, r: Bin?)
      reads this
      requires |s| == |bins| > 0
    {
      var k := CcanScore.ArgMaxFirst(s);
      r == if s[k] > threshold then bins[k] else null
    }

    /**
     * `strgrp_add`: str joins the bin `strgrp_bin_for` picks, or else a new
     * bin keyed by str; str is then cached to it unless already known.
     */
    method Add(str: string, data: Data) returns (r: Bin)
      requires Valid()
      requires str in known || KeysNonEmpty(bins)
      modifies Repr
      ensures Valid()
      ensures Repr == if fresh(r) then old(Repr) + {r, scores} else old(Repr)
      ensures known == if str in old(known) then old(known) else old(known)[str := r]
      ensures str in old(known) ==> r == old(known[str])
      ensures fresh(r) ==> bins == old(bins) + [r] && nBins == old(nBins) + 1 && r.key == str && r.items == [Item(str, data)] && fresh(scores)
      ensures !fresh(r) ==> r in old(bins) && bins == old(bins) && nBins == old(nBins) && r.items == old(r.items) + [Item(str, data)]
      ensures forall b :: b in old(bins) && b != r ==> b.items == old(b.items)
      ensures old(nBins) == 0 ==> fresh(r)
      ensures old(nBins) > 0 && str !in old(known) ==>
        var s := BinScores(threshold, old(bins), str);
        var k := CcanScore.ArgMaxFirst(s);
        if s[k] > threshold then r == old(bins)[k] else fresh(r)
    {
      var pick := BinFor(str);
      if pick != null {
        r := pick;
        Join(r, str, data);
      } else {
        r := Found(str, data);
      }
    }

    /**
     * The `bin_add_item` and `cache` steps of `strgrp_add` for a picked
     * bin: (str, data) joins it and str is cached to it unless known.
     */
    method Join(bin: Bin, str: string, data: Data)
      requires Valid() && bin in bins
      requires str in known ==> known[str] == bin
      modifies this, bin
      ensures Valid() && Repr == old(Repr) && bins == old(bins) && nBins == old(nBins)
      ensures known == if str in old(known) then old(known) else old(known)[str := bin]
      ensures bin.items == old(bin.items) + [Item(str, data)]
    {
      ghost var before := bin.items;
      bin.AddItem(str, data);
      forall s | s in known && known[s] == bin
        ensures HasKey(bin.items, s)
      {
        HasKeyExtend(before, bin.items, s);
      }
      assert bin.items[|bin.items| - 1].key == str;
      Cache(bin, str);
    }

    /**
     * The `add_bin` and `cache` steps of `strgrp_add` when no bin is
     * picked: a new bin keyed by str, to which str is cached.
     */
    method Found(str: string, data: Data) returns (b: Bin)
      requires Valid() && str !in known
      modifies this
      ensures Valid() && fresh(b) && Repr == old(Repr) + {b, scores} && fresh(scores)
      ensures bins == old(bins) + [b] && nBins == old(nBins) + 1
      ensures known == old(known)[str := b]
      ensures b.key == str && b.items == [Item(str, data)]
    {
      b := AddBin(str, data);
      assert b.items[0].key == str;
      Cache(b, str);
    }
  }

  /** `struct strgrp_iter`: walks the context's bins. */
  class Iter {
    const ctx: StrGrp
    var i: int

    /** `strgrp_iter_new` */
    constructor (ctx: StrGrp)
      ensures this.ctx == ctx && i == 0
    {
      this.ctx := ctx;
      i := 0;
    }

    /** `strgrp_iter_next`: the next bin in creation order, then null. */
    method Next() returns (b: Bin?)
      requires ctx.Valid() && 0 <= i <= ctx.nBins
      modifies this
      ensures old(i) == ctx.nBins ==> b == null && i == old(i)
      ensures old(i) < ctx.nBins ==> b == ctx.bins[old(i)] && i == old(i) + 1
    {
      if ctx.nBins == i {
        b := null;
      } else {
        b := ctx.bins[i];
        i := i + 1;
      }
    }
  }

  /** `struct strgrp_bin_iter`: walks one bin's items. */
  class BinIter {
    const bin: Bin
    var i: int

    /** `strgrp_bin_iter_new` */
    constructor (bin: Bin)
      ensures this.bin == bin && i == 0
    {
      this.bin := bin;
      i := 0;
    }

    /** `strgrp_bin_iter_next`: the next item in insertion order, then none. */
    method Next() returns (item: Option<Item>)
      requires bin.Valid() && 0 <= i <= bin.nItems
      modifies this
      ensures old(i) == bin.nItems ==> item == None && i == old(i)
      ensures old(i) < bin.nItems ==> item == Some(bin.items[old(i)]) && i == old(i) + 1
    {
      if bin.nItems == i {
        item := None;
      } else {
        item := Some(bin.items[i]);
        i := i + 1;
      }
    }
  }

  /** Ten-character strings differing in the last one: nlcs = 2 * 9 / 20 = 0.9, and equal lengths pass the filter. */
  lemma SimilarScore(p: string, x: char, y: char)
    requires |p| == 9 && x != y
    ensures FilteredScore(0.85, p + [x], p + [y]) == 0.9
  {
    LastDiffers(p, x, y);
    LenRatioCases(10, 10);
    assert NormalLcs(p + [x], p + [y]) == 2.0 * 9.0 / 20.0;
  }

  /**
   * Two ten-character strings differing in the last one, such as
   * "abcdefghij" and "abcdefghik": nlcs is 0.9 > 0.85, so the second joins
   * the first bin.
   */
  method OneBinFromSimilar(p: string, x: char, y: char, v1: Data, v2: Data) returns (same: bool, items: seq<Item>)
    requires |p| == 9 && x != y
    ensures same && items == [Item(p + [x], v1), Item(p + [y], v2)]
  {
    var ctx := new StrGrp(0.85);
    var b1 := ctx.Add(p + [x], v1);
    SimilarScore(p, x, y);
    assert BinScores(0.85, [b1], p + [y]) == [0.9];
    var b2 := ctx.Add(p + [y], v2);
    same := b1 == b2;
    items := b1.items;
  }

  /** "a" then "b": nothing in common, so two bins. */
  method TwoBinsFromDissimilar(v1: Data, v2: Data) returns (same: bool, items1: seq<Item>, items2: seq<Item>)
    ensures !same && items1 == [Item("a", v1)] && items2 == [Item("b", v2)]
  {
    var ctx := new StrGrp(0.85);
    var b1 := ctx.Add("a", v1);
    assert LcsLen("a", "b") == Max(LcsLen("", "b"), LcsLen("a", "")) == 0;
    assert BinScores(0.85, [b1], "b") == [0.0];
    var b2 := ctx.Add("b", v2);
    same := b1 == b2;
    items1 := b1.items;
    items2 := b2.items;
  }
}

=== FILE: ccan_examples.dfy ===
/**
 * The scenarios of ext/test/helpers.h run against the ccan grouper model:
 * two strings added to a fresh context at the tests' default similarity
 * 0.85, then walked with the group item iterator.
 */
module CcanExamples {
  import opened Wrappers
  import opened Lcs
  import opened CcanScore
  import opened CcanStrgrp

  const DefaultSimilarity: real := 0.85

  /** Walks a group from its first item: its first two items, then the end. */
  method WalkTwo(grp: Grp) returns (first: Option<Item>, second: Option<Item>, end: Option<Item>)
    requires grp.Valid() && |grp.items| == 2
    ensures first == Some(grp.items[0]) && second == Some(grp.items[1]) && end == None
  {
    var iter := new GrpIter(grp);
    first := iter.Next();
    second := iter.Next();
    end := iter.Next();
  }

  /** Walks a group from its first item: its only item, then the end. */
  method WalkOne(grp: Grp) returns (first: Option<Item>, end: Option<Item>)
    requires grp.Valid() && |grp.items| == 1
    ensures first == Some(grp.items[0]) && end == None
  {
    var iter := new GrpIter(grp);
    first := iter.Next();
    end := iter.Next();
  }

  /**
   * `one_group_from_two` with one string added twice: the second add is
   * answered from the cache, and the group yields both items in order.
   */
  method OneGroupFromSameString(sqrt: real -> real, k: string, v1: Data, v2: Data)
    returns (same: bool, first: Option<Item>, second: Option<Item>, end: Option<Item>)
    requires IsSqrt(sqrt)
    ensures same
    ensures first == Some(Item(k, v1)) && second == Some(Item(k, v2)) && end == None
  {
    var ctx := new StrGrp.New(DefaultSimilarity, sqrt);
    var g1 := ctx.Add(k, v1);
    var g2 := ctx.Add(k, v2);
    same := g1 == g2;
    first, second, end := WalkTwo(g1);
  }

  /** "abcdefghij" and "abcdefghik" are ten characters long and share the first nine. */
  lemma SimilarLcs()
    ensures |"abcdefghij"| == 10 && |"abcdefghik"| == 10
    ensures LcsLen("abcdefghij", "abcdefghik") == 9
  {
    LastDiffers("abcdefghi", 'j', 'k');
    assert "abcdefghij" == "abcdefghi" + ['j'] && "abcdefghik" == "abcdefghi" + ['k'];
  }

  /** For two ten-character strings sharing nine, 0.85 passes the length pre-filter and nlcs is 0.9. */
  lemma SimilarRadicands(sqrt: real -> real, a: string, b: string)
    requires IsSqrt(sqrt)
    requires |a| == 10 && |b| == 10 && LcsLen(a, b) == 9
    ensures StaticScore(sqrt, DefaultSimilarity, a, b) == 0.9 - 0.85
  {
    assert NlcsSq(a, b) == Ratio(9.0, 10.0, 10.0) == 0.81;
    assert LenBoundSq(10, 10) == Ratio(10.0, 10.0, 10.0) == 1.0;
    var r := sqrt(0.81);
    assert 0.0 <= r && r * r == 0.81;
    SquareInjective(r, 0.9);
  }

  /** nlcs("abcdefghij", "abcdefghik") = sqrt(2 * 9^2 / (10^2 + 10^2)) = 0.9, 0.05 above 0.85. */
  lemma SimilarScore(sqrt: real -> real)
    requires IsSqrt(sqrt)
    ensures StaticScore(sqrt, DefaultSimilarity, "abcdefghij", "abcdefghik") == 0.9 - 0.85
  {
    SimilarLcs();
    SimilarRadicands(sqrt, "abcdefghij", "abcdefghik");
  }

  /** Adding "abcdefghik" to a static context whose one group is keyed "abcdefghij" joins that group. */
  method JoinSimilar(ctx: StrGrp, g1: Grp, v2: Data) returns (g2: Grp)
    requires ctx.Valid() && ctx.grps == [g1] && g1.key == "abcdefghij" && "abcdefghik" !in ctx.known
    requires ctx.size == 0 && ctx.threshold == DefaultSimilarity
    modifies ctx.Repr
    ensures ctx.Valid() && ctx.grps == [g1] && g2 == g1 && g1.items == old(g1.items) + [Item("abcdefghik", v2)]
  {
    SimilarScore(ctx.sqrt);
    g2 := ctx.Add("abcdefghik", v2);
    assert ctx.ScoredAgainst(g1, "abcdefghik");
  }

  /**
   * `one_group_from_two` with two strings of ten characters that differ in
   * the last one: nlcs is sqrt(2 * 81 / 200) = 0.9, so the second joins the first.
   */
  method OneGroupFromSimilar(sqrt: real -> real, v1: Data, v2: Data)
    returns (same: bool, first: Option<Item>, second: Option<Item>, end: Option<Item>)
    requires IsSqrt(sqrt)
    ensures same
    ensures first == Some(Item("abcdefghij", v1)) && second == Some(Item("abcdefghik", v2)) && end == None
  {
    var ctx := new StrGrp.New(DefaultSimilarity, sqrt);
    var g1 := ctx.Add("abcdefghij", v1);
    assert "abcdefghik"[9] != "abcdefghij"[9];
    var g2 := JoinSimilar(ctx, g1, v2);
    same := g1 == g2;
    first, second, end := WalkTwo(g1);
  }

  /**
   * `two_groups_from_two` with "a" and "b": nothing in common, nlcs is 0,
   * and the second string opens a group of its own.
   */
  method TwoGroupsFromDissimilar(sqrt: real -> real, v1: Data, v2: Data)
    returns (same: bool, first1: Option<Item>, end1: Option<Item>, first2: Option<Item>, end2: Option<Item>)
    requires IsSqrt(sqrt)
    ensures !same
    ensures first1 == Some(Item("a", v1)) && end1 == None
    ensures first2 == Some(Item("b", v2)) && end2 == None
  {
    var ctx := new StrGrp.New(DefaultSimilarity, sqrt);
    var g1 := ctx.Add("a", v1);
    assert LcsLen("a", "b") == Max(LcsLen("", "b"), LcsLen("a", "")) == 0;
    assert NlcsSq("a", "b") == 0.0;
    SquareInjective(sqrt(0.0), 0.0);
    var g2 := ctx.Add("b", v2);
    same := g1 == g2;
    first1, end1 := WalkOne(g1);
    first2, end2 := WalkOne(g2);
  }
}

=== FILE: ccan_score.dfy ===
/**
 * The similarity score of the ccan grouper (ext/ccan/strgrp/strgrp.c) and
 * its cheap length pre-filter.
 *
 * The C score is nlcs(a, b) = sqrt(2 * lcs^2 / (|a|^2 + |b|^2)). Dafny has no
 * real square root it can compute, so every member that needs one takes the
 * square-root function as a parameter `sqrt` and assumes of it only what
 * `IsSqrt` says: it maps every non-negative real to its non-negative root.
 * Where the C code compares a root with a threshold, the model compares
 * squares, which is exact: t <= sqrt(x) exactly when t <= 0 or t * t <= x.
 */
module CcanScore {
  import opened Lcs
  import opened Wrappers

  /** sqrt is the non-negative square root on the non-negative reals. */
  ghost predicate IsSqrt(sqrt: real -> real) {
    forall x :: 0.0 <= x ==> 0.0 <= sqrt(x) && sqrt(x) * sqrt(x) == x
  }

  /** 2 * l^2 / (x^2 + y^2), the shape of both radicands below. */
  function Ratio(l: real, x: real, y: real): real
    requires x * x + y * y != 0.0
  {
    (2.0 * l * l) / (x * x + y * y)
  }

  /** The radicand of nlcs: 2 * lcs^2 / (|a|^2 + |b|^2). */
  function NlcsSq(a: string, b: string): real
    requires |a| + |b| > 0
  {
    PositiveLengths(|a|, |b|);
    Ratio(LcsLen(a, b) as real, |a| as real, |b| as real)
  }

  lemma PositiveLengths(la: nat, lb: nat)
    requires la + lb > 0
    ensures (la as real) * (la as real) + (lb as real) * (lb as real) > 0.0
  {
    if la > 0 {
      SquareMonoStrict(0.0, la as real);
    } else {
      SquareMonoStrict(0.0, lb as real);
    }
  }

  /** `nlcs`: the normalised LCS score of two strings that are not both empty. */
  function Nlcs(sqrt: real -> real, a: string, b: string): real
    requires |a| + |b| > 0
  {
    sqrt(NlcsSq(a, b))
  }

  /**
   * The radicand of the pre-filter: 2 * lmin^2 / (|str|^2 + |key|^2), the largest
   * value NlcsSq can take for strings of these lengths.
   */
  function LenBoundSq(keyLen: nat, strLen: nat): real
    requires keyLen + strLen > 0
  {
    PositiveLengths(strLen, keyLen);
    var lmin := if strLen > keyLen then keyLen else strLen;
    Ratio(lmin as real, strLen as real, keyLen as real)
  }

  /**
   * `should_grp_score_len`: threshold <= sqrt(LenBoundSq), compared through
   * squares. For two empty strings the C radicand is 0/0, a NaN, and every
   * comparison with a NaN is false.
   */
  function ShouldGrpScoreLen(threshold: real, keyLen: nat, strLen: nat): bool
  {
    keyLen + strLen > 0 && (threshold <= 0.0 || threshold * threshold <= LenBoundSq(keyLen, strLen))
  }

  lemma SquareMono(x: real, y: real)
    requires 0.0 <= x <= y
    ensures x * x <= y * y
  {
  }

  lemma SquareMonoStrict(x: real, y: real)
    requires 0.0 <= x < y
    ensures x * x < y * y
  {
    var d := y - x;
    assert y * y == (x + d) * (x + d) == x * x + 2.0 * x * d + d * d;
    assert x * d >= 0.0;
    assert d * d > 0.0;
  }

  /** Non-negative reals with equal squares are equal. */
  lemma SquareInjective(x: real, y: real)
    requires 0.0 <= x && 0.0 <= y && x * x == y * y
    ensures x == y
  {
    if x < y {
      SquareMonoStrict(x, y);
      assert false;
    } else if y < x {
      SquareMonoStrict(y, x);
      assert false;
    }
  }

  /** t <= sqrt(x) exactly when t <= 0 or t^2 <= x. */
  lemma AtMostRootIff(sqrt: real -> real, t: real, x: real)
    requires IsSqrt(sqrt) && 0.0 <= x
    ensures t <= sqrt(x) <==> t <= 0.0 || t * t <= x
  {
    var r := sqrt(x);
    assert 0.0 <= r && r * r == x;
    if 0.0 < t <= r {
      SquareMono(t, r);
    }
    if 0.0 < t && r < t {
      SquareMonoStrict(r, t);
    }
  }

  /** The pre-filter computes what the C comparison `threshold <= sqrt(...)` computes. */
  lemma ShouldGrpScoreLenIsRootTest(sqrt: real -> real, threshold: real, keyLen: nat, strLen: nat)
    requires IsSqrt(sqrt) && keyLen + strLen > 0
    ensures ShouldGrpScoreLen(threshold, keyLen, strLen) <==> threshold <= sqrt(LenBoundSq(keyLen, strLen))
  {
    AtMostRootIff(sqrt, threshold, LenBoundSq(keyLen, strLen));
  }

  /** For 0 <= l <= min(x, y): 0 <= Ratio(l, x, y) <= Ratio(min(x, y), x, y) <= 1. */
  lemma RatioBounds(l: real, x: real, y: real)
    requires 0.0 <= x && 0.0 <= y && x * x + y * y != 0.0
    requires 0.0 <= l && l <= x && l <= y
    ensures 0.0 <= Ratio(l, x, y) <= Ratio(if x > y then y else x, x, y) <= 1.0
  {
    var m := if x > y then y else x;
    RatioOfSquares(l, x, y);
    RatioOfSquares(m, x, y);
    SquareMono(l, m);
    MinSquareBound(m, x, y);
    DivBounds(2.0 * (l * l), 2.0 * (m * m), x * x + y * y);
  }

  lemma RatioOfSquares(l: real, x: real, y: real)
    requires x * x + y * y != 0.0
    ensures Ratio(l, x, y) == 2.0 * (l * l) / (x * x + y * y)
  {
  }

  lemma MinSquareBound(m: real, x: real, y: real)
    requires 0.0 <= m <= x && m <= y
    ensures 2.0 * (m * m) <= x * x + y * y
  {
    SquareMono(m, x);
    SquareMono(m, y);
  }

  /** 0 <= NlcsSq(a, b) <= LenBoundSq(|a|, |b|) <= 1, because lcs <= min(|a|, |b|). */
  lemma NlcsSqBounds(a: string, b: string)
    requires |a| + |b| > 0
    ensures 0.0 <= NlcsSq(a, b) <= LenBoundSq(|a|, |b|) <= 1.0
  {
    AtMostMin(a, b);
    PositiveLengths(|a|, |b|);
    RatioBounds(LcsLen(a, b) as real, |a| as real, |b| as real);
    var x, y := |a| as real, |b| as real;
    var m := if x > y then y else x;
    assert Ratio(m, x, y) == Ratio(m, y, x);
  }

  /** NlcsSq, and so nlcs, does not depend on the order of its arguments. */
  lemma NlcsSqSymmetric(a: string, b: string)
    requires |a| + |b| > 0
    ensures NlcsSq(a, b) == NlcsSq(b, a)
  {
    Symmetric(a, b);
    var l := LcsLen(a, b) as real;
    assert Ratio(l, |a| as real, |b| as real) == Ratio(l, |b| as real, |a| as real);
  }

  /** nlcs lies in [0, 1] and is symmetric. */
  lemma NlcsRange(sqrt: real -> real, a: string, b: string)
    requires IsSqrt(sqrt) && |a| + |b| > 0
    ensures 0.0 <= Nlcs(sqrt, a, b) <= 1.0
    ensures Nlcs(sqrt, a, b) == Nlcs(sqrt, b, a)
  {
    NlcsSqBounds(a, b);
    NlcsSqSymmetric(a, b);
    AtMostRootIff(sqrt, 1.0, NlcsSq(a, b));
    var r := Nlcs(sqrt, a, b);
    if r > 1.0 {
      SquareMonoStrict(1.0, r);
    }
  }

  /** Identical non-empty strings score exactly 1. */
  lemma NlcsSelf(sqrt: real -> real, a: string)
    requires IsSqrt(sqrt) && |a| > 0
    ensures Nlcs(sqrt, a, a) == 1.0
  {
    SelfIsLength(a);
    var la := |a| as real;
    PositiveLengths(|a|, |a|);
    assert NlcsSq(a, a) == Ratio(la, la, la) == 1.0;
    SquareInjective(sqrt(1.0), 1.0);
  }

  /**
   * The pre-filter is sound: it never skips a pair whose score would reach the
   * threshold, because nlcs never exceeds the root of LenBoundSq.
   */
  lemma PrefilterSound(sqrt: real -> real, threshold: real, key: string, str: string)
    requires IsSqrt(sqrt) && |key| + |str| > 0
    requires Nlcs(sqrt, key, str) >= threshold
    ensures ShouldGrpScoreLen(threshold, |key|, |str|)
  {
    NlcsSqBounds(key, str);
    AtMostRootIff(sqrt, threshold, NlcsSq(key, str));
  }

  /** `grps_score`'s score for one group: nlcs less the context threshold, or -1 when filtered. */
  function StaticScore(sqrt: real -> real, threshold: real, key: string, str: string): real
  {
    if ShouldGrpScoreLen(threshold, |key|, |str|) then Nlcs(sqrt, key, str) - threshold else -1.0
  }

  /** A static score is non-negative exactly when nlcs reaches the context threshold. */
  lemma StaticScoreAcceptIff(sqrt: real -> real, threshold: real, key: string, str: string)
    requires IsSqrt(sqrt)
    ensures StaticScore(sqrt, threshold, key, str) >= 0.0 <==>
      |key| + |str| > 0 && Nlcs(sqrt, key, str) >= threshold
  {
    if |key| + |str| > 0 && Nlcs(sqrt, key, str) >= threshold {
      PrefilterSound(sqrt, threshold, key, str);
    }
  }

  /**
   * `grps_score_dynamic`'s score for one group with threshold grpThreshold:
   * -2 when filtered, else nlcs less the context threshold when nlcs reaches
   * the group's threshold and less the group's threshold otherwise.
   */
  function DynamicScore(sqrt: real -> real, ctxThreshold: real, grpThreshold: real, key: string, str: string): real
  {
    if ShouldGrpScoreLen(grpThreshold, |key|, |str|) then
      var score := Nlcs(sqrt, key, str);
      score - (if score >= grpThreshold then ctxThreshold else grpThreshold)
    else -2.0
  }

  /**
   * With the group threshold at or above the context threshold, a dynamic
   * score is non-negative exactly when nlcs reaches the group's threshold.
   */
  lemma DynamicScoreAcceptIff(sqrt: real -> real, ctxThreshold: real, grpThreshold: real, key: string, str: string)
    requires IsSqrt(sqrt) && ctxThreshold <= grpThreshold
    ensures DynamicScore(sqrt, ctxThreshold, grpThreshold, key, str) >= 0.0 <==>
      |key| + |str| > 0 && Nlcs(sqrt, key, str) >= grpThreshold
  {
    if |key| + |str| > 0 && Nlcs(sqrt, key, str) >= grpThreshold {
      PrefilterSound(sqrt, grpThreshold, key, str);
    }
  }

  /**
   * The score of one pair of item keys in `grp_update_threshold`: None stands
   * for the NaN that nlcs yields for two empty strings (0/0).
   */
  function PairScore(sqrt: real -> real, a: string, b: string): Option<real>
  {
    if |a| + |b| == 0 then None else Some(Nlcs(sqrt, a, b))
  }

  /**
   * `low = low < score ? low : score` over doubles: the comparison is false
   * whenever either side is NaN (None), and then score is taken.
   */
  function MinStep(low: Option<real>, score: Option<real>): Option<real>
  {
    if low.Some? && score.Some? && low.value < score.value then low else score
  }

  /** The inner loop: `low` folded over the pairs (keys[i], keys[j]) for j from `j` up. */
  function InnerLow(sqrt: real -> real, keys: seq<string>, i: nat, j: nat, low: Option<real>): Option<real>
    requires i < |keys|
    decreases |keys| - j
  {
    if j >= |keys| then low
    else InnerLow(sqrt, keys, i, j + 1, MinStep(low, PairScore(sqrt, keys[i], keys[j])))
  }

  /** The outer loop: `low` folded over every pair i < j, i from `i` up. */
  function OuterLow(sqrt: real -> real, keys: seq<string>, i: nat, low: Option<real>): Option<real>
    decreases |keys| - i
  {
    if i >= |keys| then low
    else OuterLow(sqrt, keys, i + 1, InnerLow(sqrt, keys, i, i + 1, low))
  }

  /**
   * `grp_update_threshold`'s result: the lowest pairwise score (starting
   * from 1.0) less 0.03, but never below the context threshold; a NaN low
   * compares false and leaves the context threshold.
   */
  function UpdatedThreshold(sqrt: real -> real, ctxThreshold: real, keys: seq<string>): (t: real)
    ensures t >= ctxThreshold
  {
    match OuterLow(sqrt, keys, 0, Some(1.0))
    case Some(low) => if low - 0.03 > ctxThreshold then low - 0.03 else ctxThreshold
    case None => ctxThreshold
  }

  /** No two keys are both empty, so no pair score is NaN. */
  ghost predicate NoEmptyPair(keys: seq<string>)
  {
    forall i, j :: 0 <= i < j < |keys| ==> |keys[i]| + |keys[j]| > 0
  }

  /** The pairwise minimum: at most `low0`, at most every pair's nlcs, and one of those. */
  ghost predicate IsPairMin(sqrt: real -> real, keys: seq<string>, low0: real, m: real)
    requires NoEmptyPair(keys)
  {
    m <= low0
    && (forall i, j :: 0 <= i < j < |keys| ==> m <= Nlcs(sqrt, keys[i], keys[j]))
    && (m == low0 || exists i, j :: 0 <= i < j < |keys| && m == Nlcs(sqrt, keys[i], keys[j]))
  }

  lemma {:induction false} InnerLowIsMin(sqrt: real -> real, keys: seq<string>, i: nat, j: nat, low: real)
    requires NoEmptyPair(keys) && i < j <= |keys|
    ensures InnerLow(sqrt, keys, i, j, Some(low)).Some?
    ensures var m := InnerLow(sqrt, keys, i, j, Some(low)).value;
      m <= low
      && (forall k :: j <= k < |keys| ==> m <= Nlcs(sqrt, keys[i], keys[k]))
      && (m == low || exists k :: j <= k < |keys| && m == Nlcs(sqrt, keys[i], keys[k]))
    decreases |keys| - j
  {
    if j < |keys| {
      var s := Nlcs(sqrt, keys[i], keys[j]);
      assert PairScore(sqrt, keys[i], keys[j]) == Some(s);
      var next := if low < s then low else s;
      assert MinStep(Some(low), Some(s)) == Some(next);
      InnerLowIsMin(sqrt, keys, i, j + 1, next);
    }
  }

  lemma {:induction false} OuterLowIsMin(sqrt: real -> real, keys: seq<string>, i: nat, low: real)
    requires NoEmptyPair(keys) && i <= |keys|
    ensures OuterLow(sqrt, keys, i, Some(low)).Some?
    ensures var m := OuterLow(sqrt, keys, i, Some(low)).value;
      m <= low
      && (forall p, q :: i <= p < q < |keys| ==> m <= Nlcs(sqrt, keys[p], keys[q]))
      && (m == low || exists p, q :: i <= p < q < |keys| && m == Nlcs(sqrt, keys[p], keys[q]))
    decreases |keys| - i
  {
    if i < |keys| {
      InnerLowIsMin(sqrt, keys, i, i + 1, low);
      var mid := InnerLow(sqrt, keys, i, i + 1, Some(low)).value;
      OuterLowIsMin(sqrt, keys, i + 1, mid);
      var m := OuterLow(sqrt, keys, i, Some(low)).value;
      assert m == OuterLow(sqrt, keys, i + 1, Some(mid)).value;
      if m != low {
        if m == mid {
          var k :| i + 1 <= k < |keys| && mid == Nlcs(sqrt, keys[i], keys[k]);
          assert i <= i < k < |keys|;
        } else {
          var p, q :| i + 1 <= p < q < |keys| && m == Nlcs(sqrt, keys[p], keys[q]);
          assert i <= p;
        }
      }
    }
  }

  /**
   * Without NaN pairs, the dynamic threshold is the pairwise minimum of the
   * group's item scores (capped at 1.0), less 0.03, floored at the context threshold.
   */
  lemma UpdatedThresholdIsPairMin(sqrt: real -> real, ctxThreshold: real, keys: seq<string>)
    requires NoEmptyPair(keys)
    ensures exists m ::
      && IsPairMin(sqrt, keys, 1.0, m)
      && UpdatedThreshold(sqrt, ctxThreshold, keys) == (if m - 0.03 > ctxThreshold then m - 0.03 else ctxThreshold)
  {
    OuterLowIsMin(sqrt, keys, 0, 1.0);
    var m := OuterLow(sqrt, keys, 0, Some(1.0)).value;
    assert IsPairMin(sqrt, keys, 1.0, m);
  }

  /** A group of one item has no pairs: its threshold is max(0.97, context threshold). */
  lemma UpdatedThresholdSingle(sqrt: real -> real, ctxThreshold: real, key: string)
    ensures UpdatedThreshold(sqrt, ctxThreshold, [key]) == if 0.97 > ctxThreshold then 0.97 else ctxThreshold
  {
    assert InnerLow(sqrt, [key], 0, 1, Some(1.0)) == Some(1.0);
    assert OuterLow(sqrt, [key], 1, Some(1.0)) == Some(1.0);
  }

  /** Index of the first maximal score: what `grp_for`'s strict `>` scan keeps. */
  function ArgMaxFirst(s: seq<real>): (k: nat)
    requires |s| > 0
    ensures k < |s|
    ensures forall j :: 0 <= j < |s| ==> s[j] <= s[k]
    ensures forall j :: 0 <= j < k ==> s[j] < s[k]
  {
    if |s| == 1 then 0
    else
      var k := ArgMaxFirst(s[..|s| - 1]);
      assert forall j :: 0 <= j < |s| - 1 ==> s[..|s| - 1][j] == s[j];
      if s[|s| - 1] > s[k] then |s| - 1 else k
  }

  /** One step of a left-to-right scan for the first greatest element. */
  lemma ArgMaxFirstStep(s: seq<real>, i: nat, max: nat)
    requires 1 <= i < |s| && max == ArgMaxFirst(s[..i])
    ensures ArgMaxFirst(s[..i + 1]) == if s[i] > s[max] then i else max
  {
    assert s[..i + 1][..i] == s[..i];
  }
}

=== FILE: ccan_strgrp.dfy ===
/**
 * The ccan string grouper (ext/ccan/strgrp/strgrp.c): a context holding
 * groups in creation order, each group holding its items in insertion
 * order, and an exact-string cache from strings to the group they joined.
 *
 * Groups are objects: the context and the callers hold references to them,
 * and scoring overwrites their `score`, `threshold` and `dirty` fields in
 * place. The scores themselves are the functions of CcanScore.
 */
module CcanStrgrp {
  import opened Wrappers
  import opened CcanScore

  /** The caller's opaque `void *data`. */
  type Data = int

  /** `struct strgrp_item`: a copy of the added string and the caller's data. */
  datatype Item = Item(key: string, value: Data)

  /** The keys of a group's items, in insertion order. */
  function Keys(items: seq<Item>): (keys: seq<string>)
    ensures |keys| == |items|
    ensures forall i :: 0 <= i < |items| ==> keys[i] == items[i].key
  {
    if |items| == 0 then [] else Keys(items[..|items| - 1]) + [items[|items| - 1].key]
  }

  /** Some item of the group carries the string s. */
  ghost predicate HasKey(items: seq<Item>, s: string)
  {
    exists i :: 0 <= i < |items| && items[i].key == s
  }

  /** `struct strgrp_grp`. */
  class Grp {
    const key: string
    var items: seq<Item>
    var nItems: int
    var score: real
    var threshold: real
    var dirty: bool

    /** n_items counts the items, and the first item is the group's key. */
    ghost predicate Valid()
      reads this
    {
      nItems == |items| && 0 < |items| && items[0].key == key
    }

    /**
     * `new_grp`: the group is allocated zeroed (so its score is 0), keyed by
     * str, given the context's threshold, and str is added as its first item.
     */
    constructor (ctxThreshold: real, size: int, str: string, data: Data)
      ensures Valid()
      ensures key == str && items == [Item(str, data)]
      ensures threshold == ctxThreshold && score == 0.0 && dirty == (1 >= size)
    {
      key := str;
      items := [];
      nItems := 0;
      score := 0.0;
      threshold := ctxThreshold;
      dirty := false;
      new;
      AddItem(size, str, data);
    }

    /**
     * `add_item`: appends (str, data) at the end, counts it, and marks the
     * group dirty exactly when it now holds at least `size` items.
     */
    method AddItem(size: int, str: string, data: Data)
      requires nItems == |items|
      modifies this
      ensures items == old(items) + [Item(str, data)]
      ensures nItems == old(nItems) + 1 == |items|
      ensures dirty == (nItems >= size)
      ensures score == old(score) && threshold == old(threshold)
    {
      items := items + [Item(str, data)];
      nItems := nItems + 1;
      dirty := nItems >= size;
    }
  }

  /** The scores of gs, in order. */
  function Scores(gs: seq<Grp>): (s: seq<real>)
    reads gs
    ensures |s| == |gs| && forall i :: 0 <= i < |gs| ==> s[i] == gs[i].score
  {
    if |gs| == 0 then [] else Scores(gs[..|gs| - 1]) + [gs[|gs| - 1].score]
  }

  /** r is the first group of gs with the greatest score. */
  ghost predicate FirstMax(gs: seq<Grp>, r: Grp)
    reads gs, r
  {
    exists k :: 0 <= k < |gs| && gs[k] == r
      && (forall j :: 0 <= j < |gs| ==> gs[j].score <= r.score)
      && (forall j :: 0 <= j < k ==> gs[j].score < r.score)
  }

  /** Scores never increase along gs: the order a max-heap pops in. */
  ghost predicate Descending(gs: seq<Grp>)
    reads gs
  {
    forall i, j :: 0 <= i < j < |gs| ==> gs[i].score >= gs[j].score
  }

  /** Pushes g onto a heap kept as its pop order: after every group scoring at least as high. */
  function InsertDesc(h: seq<Grp>, g: Grp): (r: seq<Grp>)
    reads h, g
    ensures multiset(r) == multiset(h) + multiset{g}
  {
    if |h| == 0 then [g]
    else if h[0].score >= g.score then
      assert h == [h[0]] + h[1..];
      [h[0]] + InsertDesc(h[1..], g)
    else [g] + h
  }

  /** Pushing a group no higher than a bound onto groups no higher than it stays under it. */
  lemma {:induction false} InsertDescBounded(h: seq<Grp>, g: Grp, b: real)
    requires forall k :: 0 <= k < |h| ==> h[k].score <= b
    requires g.score <= b
    ensures forall k :: 0 <= k < |InsertDesc(h, g)| ==> InsertDesc(h, g)[k].score <= b
  {
    if |h| > 0 && h[0].score >= g.score {
      var tail := h[1..];
      assert forall k :: 0 <= k < |tail| ==> tail[k] == h[k + 1];
      InsertDescBounded(tail, g, b);
      var t := InsertDesc(tail, g);
      var r := [h[0]] + t;
      assert InsertDesc(h, g) == r;
      forall k | 0 < k < |r|
        ensures r[k].score <= b
      {
        assert r[k] == t[k - 1];
      }
    }
  }

  /** Pushing keeps the pop order descending. */
  lemma {:induction false} InsertDescKeepsOrder(h: seq<Grp>, g: Grp)
    requires Descending(h)
    ensures Descending(InsertDesc(h, g))
  {
    if |h| > 0 && h[0].score >= g.score {
      var tail := h[1..];
      assert forall k :: 0 <= k < |tail| ==> tail[k] == h[k + 1];
      assert Descending(tail);
      InsertDescKeepsOrder(tail, g);
      assert forall k :: 0 <= k < |tail| ==> tail[k].score <= h[0].score;
      InsertDescBounded(tail, g, h[0].score);
      var t := InsertDesc(tail, g);
      assert InsertDesc(h, g) == [h[0]] + t;
      DescendingCons(h[0], t);
    }
  }

  /** A group at least as high as every group of a descending sequence can go in front of it. */
  lemma DescendingCons(x: Grp, t: seq<Grp>)
    requires Descending(t)
    requires forall k :: 0 <= k < |t| ==> t[k].score <= x.score
    ensures Descending([x] + t)
  {
    var r := [x] + t;
    forall i, j | 0 <= i < j < |r|
      ensures r[i].score >= r[j].score
    {
      assert r[j] == t[j - 1];
      if i > 0 {
        assert r[i] == t[i - 1];
      }
    }
  }

  /** The pushes of `strgrp_grps_for`: every group of gs onto an empty heap, in order. */
  method BuildHeap(gs: seq<Grp>) returns (heap: seq<Grp>)
    ensures multiset(heap) == multiset(gs)
    ensures Descending(heap)
  {
    heap := [];
    var i := 0;
    while i < |gs|
      invariant 0 <= i <= |gs|
      invariant multiset(heap) == multiset(gs[..i])
      invariant Descending(heap)
    {
      assert gs[..i + 1] == gs[..i] + [gs[i]];
      InsertDescKeepsOrder(heap, gs[i]);
      heap := InsertDesc(heap, gs[i]);
      i := i + 1;
    }
    assert gs[..|gs|] == gs;
  }

  /** The first maximal score of `ArgMaxFirst` is a FirstMax group. */
  lemma ArgMaxIsFirstMax(gs: seq<Grp>)
    requires |gs| > 0
    ensures FirstMax(gs, gs[ArgMaxFirst(Scores(gs))])
  {
    var s := Scores(gs);
    var k := ArgMaxFirst(s);
    var r := gs[k];
    assert r.score == s[k];
    assert forall j :: 0 <= j < |gs| ==> gs[j].score <= r.score by {
      forall j | 0 <= j < |gs|
        ensures gs[j].score <= r.score
      {
        assert s[j] <= s[k];
      }
    }
    assert forall j :: 0 <= j < k ==> gs[j].score < r.score by {
      forall j | 0 <= j < k
        ensures gs[j].score < r.score
      {
        assert s[j] < s[k];
      }
    }
    assert 0 <= k < |gs| && gs[k] == r;
  }

  /** Appending to a group's items keeps every key it already had. */
  lemma HasKeyExtend(before: seq<Item>, after: seq<Item>, s: string)
    requires HasKey(before, s) && before <= after
    ensures HasKey(after, s)
  {
    var i :| 0 <= i < |before| && before[i].key == s;
    assert after[i] == before[i];
  }

  /**
   * The loop of `grp_for` that walks the scored groups keeping the first
   * one whose score is strictly greater than every earlier one.
   */
  method SelectMax(gs: seq<Grp>) returns (max: nat)
    requires |gs| > 0
    ensures max == ArgMaxFirst(Scores(gs))
  {
    max := 0;
    var i := 1;
    while i < |gs|
      invariant 1 <= i <= |gs|
      invariant max == ArgMaxFirst(Scores(gs)[..i])
    {
      assert Scores(gs)[..i + 1] == Scores(gs)[..i] + [gs[i].score];
      assert Scores(gs)[..i + 1][..i] == Scores(gs)[..i];
      if gs[i].score > gs[max].score {
        max := i;
      }
      i := i + 1;
    }
    assert Scores(gs)[..|gs|] == Scores(gs);
  }

  /** `struct strgrp`: the grouping context. */
  class StrGrp {
    const sqrt: real -> real
    const threshold: real
    const size: int
    var known: map<string, Grp>
    var nGrps: int
    var grps: seq<Grp>
    ghost var Repr: set<object>

    /**
     * n_grps counts the groups, no group is listed twice, every group's
     * threshold is at or above the context's, and every cached string is an
     * item of the group it is cached to.
     */
    ghost predicate Valid()
      reads this, Repr
    {
      && this in Repr
      && IsSqrt(sqrt)
      && (forall g :: g in grps ==> g in Repr)
      && nGrps == |grps|
      && (forall i, j :: 0 <= i < j < |grps| ==> grps[i] != grps[j])
      && (forall g :: g in grps ==> g.Valid() && g.threshold >= threshold)
      && (forall s :: s in known ==> known[s] in grps && HasKey(known[s].items, s))
    }

    /** g's score is its score against str: the dynamic one when size > 0, else the static one. */
    ghost predicate ScoredAgainst(g: Grp, str: string)
      reads g
    {
      g.score == (if size > 0 then DynamicScore(sqrt, threshold, g.threshold, g.key, str)
                  else StaticScore(sqrt, threshold, g.key, str))
    }

    /**
     * Refreshing and scoring g against str, as `ctx->score` does: in dynamic
     * mode (size > 0) a dirty group's threshold is recomputed first.
     */
    twostate predicate Rescored(g: Grp, str: string)
      reads g
    {
      && g.threshold == (if size > 0 && old(g.dirty) then UpdatedThreshold(sqrt, threshold, Keys(old(g.items))) else old(g.threshold))
      && ScoredAgainst(g, str)
    }

    /** `strgrp_new_dynamic`: an empty context; size > 0 selects dynamic thresholds. */
    constructor NewDynamic(threshold: real, size: int, sqrt: real -> real)
      requires IsSqrt(sqrt)
      ensures Valid() && fresh(Repr)
      ensures this.threshold == threshold && this.size == size && this.sqrt == sqrt
      ensures grps == [] && known == map[]
    {
      this.sqrt := sqrt;
      this.threshold := threshold;
      this.size := size;
      known := map[];
      nGrps := 0;
      grps := [];
      Repr := {this};
    }

    /** `strgrp_new`: an empty context with static thresholds. */
    constructor New(threshold: real, sqrt: real -> real)
      requires IsSqrt(sqrt)
      ensures Valid() && fresh(Repr)
      ensures this.threshold == threshold && size == 0 && this.sqrt == sqrt
      ensures grps == [] && known == map[]
    {
      this.sqrt := sqrt;
      this.threshold := threshold;
      size := 0;
      known := map[];
      nGrps := 0;
      grps := [];
      Repr := {this};
    }

    /** `add_grp`: a new group keyed by str with (str, data) as its item, appended to the groups. */
    method AddGrp(str: string, data: Data) returns (g: Grp)
      requires Valid()
      modifies this
      ensures Valid() && fresh(g)
      ensures grps == old(grps) + [g] && Repr == old(Repr) + {g} && known == old(known)
      ensures g.key == str && g.items == [Item(str, data)]
      ensures g.threshold == threshold && g.score == 0.0 && g.dirty == (1 >= size)
    {
      g := new Grp(threshold, size, str, data);
      grps := grps + [g];
      nGrps := nGrps + 1;
      Repr := Repr + {g};
      forall s | s in known
        ensures known[s] in grps && HasKey(known[s].items, s)
      {
        assert known[s] in old(grps);
      }
    }

    /** `cache`: str now maps to g, replacing any earlier entry. */
    method Cache(g: Grp, str: string)
      requires Valid() && g in grps && HasKey(g.items, str)
      modifies this
      ensures Valid()
      ensures known == old(known)[str := g]
      ensures grps == old(grps) && Repr == old(Repr)
    {
      known := known[str := g];
    }

    /** `grps_score`: every group gets its static score against str. */
    method GrpsScore(str: string)
      requires Valid() && size <= 0
      modifies grps
      ensures Valid()
      ensures forall g :: g in grps ==> Rescored(g, str)
      ensures forall g :: g in grps ==> g.items == old(g.items) && g.nItems == old(g.nItems) && g.dirty == old(g.dirty)
    {
      var i := 0;
      while i < nGrps
        invariant 0 <= i <= nGrps
        invariant forall k :: 0 <= k < i ==> grps[k].score == StaticScore(sqrt, threshold, grps[k].key, str)
        invariant forall g :: g in grps ==>
          g.items == old(g.items) && g.nItems == old(g.nItems) && g.dirty == old(g.dirty) && g.threshold == old(g.threshold)
      {
        var grp := grps[i];
        grp.score := -1.0;
        if ShouldGrpScoreLen(threshold, |grp.key|, |str|) {
          grp.score := Nlcs(sqrt, grp.key, str) - threshold;
        }
        i := i + 1;
      }
    }

    /**
     * `grp_update_threshold`: `low` starts at 1.0 and takes the lower of
     * itself and each pairwise score of the group's items; the group's
     * threshold becomes low - 0.03 unless that is not above the context's.
     */
    method GrpUpdateThreshold(grp: Grp)
      requires grp.Valid()
      modifies grp
      ensures grp.threshold == UpdatedThreshold(sqrt, threshold, Keys(grp.items))
      ensures grp.items == old(grp.items) && grp.nItems == old(grp.nItems)
      ensures grp.score == old(grp.score) && grp.dirty == old(grp.dirty)
    {
      var keys := Keys(grp.items);
      var low: Option<real> := Some(1.0);
      var i := 0;
      while i < grp.nItems
        invariant 0 <= i <= |keys|
        invariant OuterLow(sqrt, keys, i, low) == OuterLow(sqrt, keys, 0, Some(1.0))
      {
        var a := grp.items[i];
        var j := i + 1;
        ghost var low0 := low;
        while j < grp.nItems
          invariant i + 1 <= j <= |keys|
          invariant InnerLow(sqrt, keys, i, j, low) == InnerLow(sqrt, keys, i, i + 1, low0)
        {
          var b := grp.items[j];
          var score: Option<real> := if |a.key| + |b.key| == 0 then None else Some(Nlcs(sqrt, a.key, b.key));
          low := if low.Some? && score.Some? && low.value < score.value then low else score;
          j := j + 1;
        }
        i := i + 1;
      }
      match low {
        case Some(l) =>
          var l' := l - 0.03;
          grp.threshold := if l' > threshold then l' else threshold;
        case None =>
          grp.threshold := threshold;
      }
    }

    /**
     * `grps_score_dynamic`: every group's score is reset to -2; a dirty
     * group first gets its threshold recomputed and is marked clean; a group
     * that passes the length filter at its own threshold is then scored.
     */
    method GrpsScoreDynamic(str: string)
      requires Valid() && size > 0
      modifies grps
      ensures Valid()
      ensures forall g :: g in grps ==> Rescored(g, str)
      ensures forall g :: g in grps ==> g.items == old(g.items) && g.nItems == old(g.nItems) && !g.dirty
    {
      var i := 0;
      while i < nGrps
        invariant 0 <= i <= nGrps
        invariant forall k :: 0 <= k < i ==> Rescored(grps[k], str) && !grps[k].dirty
        invariant forall g :: g in grps ==>
          g.items == old(g.items) && g.nItems == old(g.nItems) && g.threshold >= threshold
        invariant forall k :: i <= k < nGrps ==>
          grps[k].dirty == old(grps[k].dirty) && grps[k].threshold == old(grps[k].threshold)
      {
        var grp := grps[i];
        assert grp in grps;
        ScoreDynamic(grp, str);
        i := i + 1;
      }
    }

    /** One group of `grps_score_dynamic`. */
    method ScoreDynamic(grp: Grp, str: string)
      requires grp.Valid() && grp.threshold >= threshold && size > 0
      modifies grp
      ensures grp.Valid() && grp.threshold >= threshold
      ensures grp.threshold == (if old(grp.dirty) then UpdatedThreshold(sqrt, threshold, Keys(old(grp.items)))
                                else old(grp.threshold))
      ensures ScoredAgainst(grp, str) && !grp.dirty
      ensures grp.items == old(grp.items) && grp.nItems == old(grp.nItems)
    {
      grp.score := -2.0;
      if grp.dirty {
        GrpUpdateThreshold(grp);
        grp.dirty := false;
      }
      if ShouldGrpScoreLen(grp.threshold, |grp.key|, |str|) {
        var score := Nlcs(sqrt, grp.key, str);
        var t := if score >= grp.threshold then threshold else grp.threshold;
        grp.score := score - t;
      }
    }

    /** `ctx->score`: the dynamic scorer when size > 0, the static one otherwise. */
    method Score(str: string)
      requires Valid()
      modifies grps
      ensures Valid()
      ensures forall g :: g in grps ==> Rescored(g, str)
      ensures forall g :: g in grps ==>
        g.items == old(g.items) && g.nItems == old(g.nItems) && g.dirty == (if size > 0 then false else old(g.dirty))
    {
      if size > 0 {
        GrpsScoreDynamic(str);
      } else {
        GrpsScore(str);
      }
    }

    /**
     * `grp_for`: no group when there are none; the cached group when str was
     * added before, without scoring; otherwise, after scoring, the first group
     * with the greatest score if that score is non-negative, else none.
     */
    method GrpFor(str: string) returns (r: Grp?)
      requires Valid()
      modifies grps
      ensures Valid()
      ensures old(nGrps) == 0 ==> r == null
      ensures nGrps > 0 && str in known ==>
        r == known[str] && forall g :: g in grps ==> unchanged(g)
      ensures nGrps > 0 && str !in known ==> forall g :: g in grps ==> Rescored(g, str)
      ensures forall g :: g in grps ==>
        && g.items == old(g.items) && g.nItems == old(g.nItems)
        && g.dirty == (if size > 0 && nGrps > 0 && str !in known then false else old(g.dirty))
      ensures r != null ==> r in grps
      ensures nGrps > 0 && str !in known && r != null ==> r.score >= 0.0 && FirstMax(grps, r)
      ensures nGrps > 0 && str !in known && r == null ==> forall g :: g in grps ==> g.score < 0.0
    {
      if nGrps == 0 {
        return null;
      }
      if str in known {
        return known[str];
      }
      Score(str);
      var max := SelectMax(grps);
      ArgMaxIsFirstMax(grps);
      if grps[max].score >= 0.0 {
        r := grps[max];
      } else {
        r := null;
      }
    }

    /** `strgrp_grp_exact`: the group str is cached to, if any. */
    method GrpExact(str: string) returns (r: Grp?)
      requires Valid()
      ensures str in known ==> r == known[str] && HasKey(r.items, str)
      ensures str !in known ==> r == null
    {
      if str in known {
        r := known[str];
      } else {
        r := null;
      }
    }

    /**
     * `strgrp_grps_for`: every group, best score first, as popped from the
     * heap; an empty heap, without scoring, when there are no groups.
     */
    method GrpsFor(str: string) returns (heap: seq<Grp>)
      requires Valid()
      modifies grps
      ensures Valid() && known == old(known)
      ensures old(nGrps) == 0 ==> heap == []
      ensures nGrps > 0 ==> forall g :: g in grps ==> Rescored(g, str)
      ensures forall g :: g in grps ==>
        g.items == old(g.items) && g.nItems == old(g.nItems) && g.dirty == (if size > 0 && nGrps > 0 then false else old(g.dirty))
      ensures multiset(heap) == multiset(grps)
      ensures Descending(heap)
    {
      heap := [];
      if nGrps == 0 {
        return;
      }
      Score(str);
      heap := BuildHeap(grps);
    }

    /**
     * `strgrp_grp_is_acceptible`: in dynamic mode a dirty group's threshold is
     * recomputed first; the answer is whether the group's last score is non-negative.
     */
    method IsAcceptible(grp: Grp) returns (b: bool)
      requires Valid() && grp in grps
      modifies grp
      ensures Valid()
      ensures b == (grp.score >= 0.0)
      ensures grp.score == old(grp.score) && grp.items == old(grp.items)
      ensures size > 0 && old(grp.dirty) ==>
        grp.threshold == UpdatedThreshold(sqrt, threshold, Keys(grp.items)) && !grp.dirty
      ensures !(size > 0 && old(grp.dirty)) ==> grp.threshold == old(grp.threshold) && grp.dirty == old(grp.dirty)
    {
      if size > 0 && grp.dirty {
        GrpUpdateThreshold(grp);
        grp.dirty := false;
      }
      b := grp.score >= 0.0;
    }

    /** `strgrp_grp_new`: a new group for str, cached under str. */
    method GrpNew(str: string, data: Data) returns (g: Grp)
      requires Valid()
      modifies this
      ensures Valid() && fresh(g) && Repr == old(Repr) + {g}
      ensures grps == old(grps) + [g] && known == old(known)[str := g]
      ensures g.key == str && g.items == [Item(str, data)]
    {
      g := AddGrp(str, data);
      assert g.items[0].key == str;
      Cache(g, str);
    }

    /** `strgrp_grp_add`: appends (str, data) to grp and caches str to it. */
    method GrpAdd(grp: Grp, str: string, data: Data)
      requires Valid() && grp in grps
      modifies this, grp
      ensures Valid() && Repr == old(Repr)
      ensures grps == old(grps) && known == old(known)[str := grp]
      ensures grp.items == old(grp.items) + [Item(str, data)] && grp.dirty == (grp.nItems >= size)
      ensures grp.score == old(grp.score) && grp.threshold == old(grp.threshold)
      ensures forall g :: g in grps ==> g.score == old(g.score)
      ensures old(FirstMax(grps, grp)) ==> FirstMax(grps, grp)
    {
      ghost var before := grp.items;
      grp.AddItem(size, str, data);
      forall s | s in known && known[s] == grp
        ensures HasKey(grp.items, s)
      {
        HasKeyExtend(before, grp.items, s);
      }
      assert grp.items[|grp.items| - 1].key == str;
      Cache(grp, str);
      if old(FirstMax(grps, grp)) {
        ghost var k :| 0 <= k < |grps| && grps[k] == grp
          && (forall j :: 0 <= j < |grps| ==> old(grps[j].score) <= old(grp.score))
          && (forall j :: 0 <= j < k ==> old(grps[j].score) < old(grp.score));
        assert forall j :: 0 <= j < |grps| ==> grps[j] in grps;
      }
    }

    /**
     * `strgrp_add`: str joins the group `grp_for` picks, or, when it picks
     * none, a new group keyed by str; either way str is then cached to it.
     * The two branches are the bodies of `strgrp_grp_add` and `strgrp_grp_new`.
     */
    method Add(str: string, data: Data) returns (r: Grp)
      requires Valid()
      modifies Repr
      ensures Valid()
      ensures Repr == if fresh(r) then old(Repr) + {r} else old(Repr)
      ensures known == old(known)[str := r]
      ensures old(nGrps) == 0 ==> fresh(r)
      ensures str in old(known) ==> r == old(known[str])
      ensures fresh(r) ==> grps == old(grps) + [r] && r.key == str && r.items == [Item(str, data)]
      ensures !fresh(r) ==> r in old(grps) && grps == old(grps) && r.items == old(r.items) + [Item(str, data)]
      ensures forall g :: g in old(grps) && g != r ==> g.items == old(g.items)
      ensures old(nGrps) > 0 && str !in old(known) ==> forall g :: g in old(grps) ==> ScoredAgainst(g, str)
      ensures old(nGrps) > 0 && str !in old(known) && !fresh(r) ==> r.score >= 0.0 && FirstMax(grps, r)
      ensures old(nGrps) > 0 && str !in old(known) && fresh(r) ==> forall g :: g in old(grps) ==> g.score < 0.0
    {
      var pick := GrpFor(str);
      if pick != null {
        GrpAdd(pick, str, data);
        r := pick;
      } else {
        r := GrpNew(str, data);
      }
    }
  }

  /** `struct strgrp_iter`: walks the context's groups. */
  class Iter {
    const ctx: StrGrp
    var i: int

    /** `strgrp_iter_new` */
    constructor (ctx: StrGrp)
      ensures this.ctx == ctx && i == 0
    {
      this.ctx := ctx;
      i := 0;
    }

    /** `strgrp_iter_next`: the next group in creation order, then null. */
    method Next() returns (g: Grp?)
      requires ctx.Valid() && 0 <= i <= ctx.nGrps
      modifies this
      ensures old(i) == ctx.nGrps ==> g == null && i == old(i)
      ensures old(i) < ctx.nGrps ==> g == ctx.grps[old(i)] && i == old(i) + 1
    {
      if ctx.nGrps == i {
        g := null;
      } else {
        g := ctx.grps[i];
        i := i + 1;
      }
    }
  }

  /** `struct strgrp_grp_iter`: walks one group's items. */
  class GrpIter {
    const grp: Grp
    var i: int

    /** `strgrp_grp_iter_new` */
    constructor (grp: Grp)
      ensures this.grp == grp && i == 0
    {
      this.grp := grp;
      i := 0;
    }

    /** `strgrp_grp_iter_next`: the next item in insertion order, then none. */
    method Next() returns (item: Option<Item>)
      requires grp.Valid() && 0 <= i <= grp.nItems
      modifies this
      ensures old(i) == grp.nItems ==> item == None && i == old(i)
      ensures old(i) < grp.nItems ==> item == Some(grp.items[old(i)]) && i == old(i) + 1
    {
      if grp.nItems == i {
        item := None;
      } else {
        item := Some(grp.items[i]);
        i := i + 1;
      }
    }
  }
}

=== FILE: combine.dfy ===
/**
 * Merging transaction documents: every row of every source that has a
 * date, an amount and a description is keyed by a digest of those three
 * fields, a later row replacing an earlier one with the same digest, and
 * the survivors are written ordered by date, then amount, then
 * description.
 *
 * The digest is SHA-1 of the three fields written one after another with
 * no separator. It is modelled by that concatenation itself: rows whose
 * concatenations agree collapse, and hash collisions are not modelled.
 */
module Combine {
  import opened Wrappers
  import opened Text
  import opened Dates
  import opened Sorting
  import opened Pipes

  type Row = seq<string>

  /** What `digest_entry` hashes: the first three fields, concatenated. */
  function Key(x: Row): string
    requires |x| >= 3
  {
    x[0] + x[1] + x[2]
  }

  /** The rows of all sources, one source after the other. */
  function Concat(sources: seq<seq<Row>>): (r: seq<Row>)
    ensures forall x :: x in r <==> exists s :: s in sources && x in s
  {
    if |sources| == 0 then []
    else
      var r := sources[0] + Concat(sources[1..]);
      assert forall s :: s in sources[1..] ==> s in sources;
      assert forall s :: s in sources ==> s == sources[0] || s in sources[1..];
      r
  }

  /** Where an entry with key k sits, or |es| when there is none. */
  function KeyIndex(es: seq<Row>, k: string): (i: nat)
    requires forall j :: 0 <= j < |es| ==> |es[j]| >= 3
    ensures i <= |es| && (i < |es| ==> Key(es[i]) == k)
    ensures forall j :: 0 <= j < i ==> Key(es[j]) != k
  {
    if |es| == 0 then 0
    else if Key(es[0]) == k then 0
    else 1 + KeyIndex(es[1..], k)
  }

  /** `d[digest_entry(x)] = x` on an insertion-ordered dict: a known key keeps its place. */
  function Put(es: seq<Row>, x: Row): (r: seq<Row>)
    requires forall j :: 0 <= j < |es| ==> |es[j]| >= 3
    requires |x| >= 3
    ensures forall j :: 0 <= j < |r| ==> |r[j]| >= 3
    ensures |es| <= |r| <= |es| + 1
    ensures KeyIndex(es, Key(x)) < |r| && r[KeyIndex(es, Key(x))] == x
    ensures forall k :: 0 <= k < |r| && k != KeyIndex(es, Key(x)) ==> k < |es| && r[k] == es[k]
  {
    var i := KeyIndex(es, Key(x));
    if i < |es| then es[i := x] else es + [x]
  }

  /** The values of the dict comprehension over the rows with at least three fields. */
  function Entries(rows: seq<Row>): (r: seq<Row>)
    ensures forall j :: 0 <= j < |r| ==> |r[j]| >= 3
  {
    if |rows| == 0 then []
    else
      var es := Entries(rows[..|rows| - 1]);
      var x := rows[|rows| - 1];
      if |x| < 3 then es else Put(es, x)
  }

  /** Row j has three fields and no later row has its key. */
  ghost predicate LastOfKey(rows: seq<Row>, j: int)
  {
    0 <= j < |rows| && |rows[j]| >= 3 &&
    forall l :: j < l < |rows| && |rows[l]| >= 3 ==> Key(rows[l]) != Key(rows[j])
  }

  ghost predicate DistinctKeys(es: seq<Row>)
    requires forall j :: 0 <= j < |es| ==> |es[j]| >= 3
  {
    forall i, j :: 0 <= i < j < |es| ==> Key(es[i]) != Key(es[j])
  }

  /** At most one entry per digest. */
  lemma {:induction false} EntriesDistinct(rows: seq<Row>)
    ensures DistinctKeys(Entries(rows))
  {
    if |rows| > 0 {
      var front := rows[..|rows| - 1];
      EntriesDistinct(front);
      var es := Entries(front);
      var x := rows[|rows| - 1];
      if |x| >= 3 {
        var i := KeyIndex(es, Key(x));
        var r := Put(es, x);
        forall a, b | 0 <= a < b < |r|
          ensures Key(r[a]) != Key(r[b])
        {
          if i < |es| {
            assert Key(r[a]) == Key(es[a]) && Key(r[b]) == Key(es[b]);
          }
        }
      }
    }
  }

  /** Every entry is an input row that no later row with its digest replaced: the last one wins. */
  lemma {:induction false} EntriesAreLast(rows: seq<Row>)
    ensures forall k :: 0 <= k < |Entries(rows)| ==>
      exists j :: LastOfKey(rows, j) && rows[j] == Entries(rows)[k]
  {
    if |rows| == 0 {
      assert |Entries(rows)| == 0;
    } else {
      var n := |rows| - 1;
      var front := rows[..n];
      EntriesAreLast(front);
      EntriesDistinct(front);
      var es := Entries(front);
      var x := rows[n];
      var r := Entries(rows);
      forall k | 0 <= k < |r|
        ensures exists j :: LastOfKey(rows, j) && rows[j] == r[k]
      {
        if r[k] == x {
          assert LastOfKey(rows, n);
        } else {
          assert k < |es| && r[k] == es[k];
          var j :| LastOfKey(front, j) && front[j] == es[k];
          assert rows[j] == front[j];
          if |x| >= 3 {
            assert Key(x) != Key(es[k]) by {
              var i := KeyIndex(es, Key(x));
              assert k != i;
            }
          }
          assert LastOfKey(rows, j);
        }
      }
    }
  }

  /** The last row with each digest is among the entries. */
  lemma {:induction false} EntriesKeepLast(rows: seq<Row>)
    ensures forall j :: LastOfKey(rows, j) ==> rows[j] in Entries(rows)
  {
    if |rows| > 0 {
      var n := |rows| - 1;
      var front := rows[..n];
      EntriesKeepLast(front);
      var es := Entries(front);
      var x := rows[n];
      var r := Entries(rows);
      forall j | LastOfKey(rows, j)
        ensures rows[j] in r
      {
        if j == n {
          var i := KeyIndex(es, Key(x));
          if i < |es| {
            assert r[i] == x;
          } else {
            assert r[|es|] == x;
          }
        } else {
          assert front[j] == rows[j];
          assert LastOfKey(front, j);
          var k :| 0 <= k < |es| && es[k] == rows[j];
          if |x| >= 3 {
            var i := KeyIndex(es, Key(x));
            assert Key(x) != Key(rows[j]);
            assert i != k;
            assert r[k] == es[k];
          }
        }
      }
    }
  }

  /** Every input row with three fields has an entry with its digest. */
  lemma {:induction false} EntriesCover(rows: seq<Row>)
    ensures forall j :: 0 <= j < |rows| && |rows[j]| >= 3 ==>
      KeyIndex(Entries(rows), Key(rows[j])) < |Entries(rows)|
  {
    if |rows| > 0 {
      var n := |rows| - 1;
      var front := rows[..n];
      EntriesCover(front);
      var es := Entries(front);
      var x := rows[n];
      var r := Entries(rows);
      forall j | 0 <= j < |rows| && |rows[j]| >= 3
        ensures KeyIndex(r, Key(rows[j])) < |r|
      {
        var k := if j == n then KeyIndex(es, Key(x)) else KeyIndex(es, Key(front[j]));
        assert j < n ==> front[j] == rows[j];
        assert k < |r| && Key(r[k]) == Key(rows[j]) by {
          if j < n && |x| >= 3 && k != KeyIndex(es, Key(x)) {
            assert r[k] == es[k];
          }
        }
      }
    }
  }

  /** The description, amount and date each row is sorted by; a field that cannot be read sorts as a default. */
  function Field(x: Row, i: nat): string
  {
    if i < |x| then x[i] else ""
  }

  function AmountKey(x: Row): real
  {
    match ParseDecimal(Field(x, 1))
    case None => 0.0
    case Some(v) => v
  }

  function DateKey(x: Row): Date
  {
    match ParseDate(Field(x, 0))
    case None => Date(0, 0, 0)
    case Some(d) => d
  }

  /** The sort keys of `combine`: `x[2]`, `float(x[1])` and the date `x[0]` names. */
  predicate DescBefore(a: Row, b: Row)
  {
    StrLess(Field(a, 2), Field(b, 2))
  }

  predicate AmountBefore(a: Row, b: Row)
  {
    AmountKey(a) < AmountKey(b)
  }

  predicate DateBefore(a: Row, b: Row)
  {
    Before(DateKey(a), DateKey(b))
  }

  /**
   * The keys `costsort` and `datesort` compute for a row, `float(x[1])` and
   * the date `x[0]` names, or the ValueError either raises.
   */
  function SortKeys(x: Row): (r: Result<(real, Date)>)
    ensures r.Ok? <==> ParseDecimal(Field(x, 1)).Some? && ParseDate(Field(x, 0)).Some?
    ensures r.Ok? ==> r.value == (AmountKey(x), DateKey(x))
    ensures r.Err? ==> r.error == ValueError
  {
    match ParseDecimal(Field(x, 1))
    case None => Err(ValueError)
    case Some(v) =>
      match ParseDate(Field(x, 0))
      case None => Err(ValueError)
      case Some(d) => Ok((v, d))
  }

  /**
   * The body of `combine`'s generator over the rows of all sources: the
   * entries sorted by description, then stably by amount, then stably by
   * date. ValueError when some entry's amount or date cannot be read
   * (every key is computed before its sort starts).
   */
  function Merge(rows: seq<Row>): (r: Result<seq<Row>>)
    ensures r.Ok? <==> Map(SortKeys, Entries(rows)).Ok?
    ensures r.Err? ==> r.error == ValueError
    ensures r.Ok? ==> multiset(r.value) == multiset(Entries(rows))
  {
    var vals := Entries(rows);
    var keys := Map(SortKeys, vals);
    if keys.Err? then Err(ValueError)
    else Ok(SortBy(DateBefore, SortBy(AmountBefore, SortBy(DescBefore, vals))))
  }

  /** One entry whose amount or date cannot be read makes the whole merge raise ValueError. */
  lemma MergeRejects(rows: seq<Row>, k: int)
    requires 0 <= k < |Entries(rows)| && SortKeys(Entries(rows)[k]).Err?
    ensures Merge(rows) == Err(ValueError)
  {
    assert !Map(SortKeys, Entries(rows)).Ok?;
  }

  /** `combine(sources)`, drained. */
  function Combine(sources: seq<seq<Row>>): Result<seq<Row>>
  {
    Merge(Concat(sources))
  }

  /** Row a comes no later than row b: by date, then amount, then description. */
  predicate InOrder(a: Row, b: Row)
  {
    Before(DateKey(a), DateKey(b)) ||
    (DateKey(a) == DateKey(b) &&
      (AmountKey(a) < AmountKey(b) || (AmountKey(a) == AmountKey(b) && !StrLess(Field(b, 2), Field(a, 2)))))
  }

  predicate DescNotAfter(a: Row, b: Row)
  {
    !DescBefore(b, a)
  }

  predicate AmountThenDesc(a: Row, b: Row)
  {
    AmountBefore(a, b) || (!AmountBefore(b, a) && DescNotAfter(a, b))
  }

  lemma DescOrder()
    ensures StrictWeakOrder(DescBefore)
  {
    forall a, b ensures DescBefore(a, b) ==> !DescBefore(b, a) {
      StrLessTotal(Field(a, 2), Field(b, 2));
    }
    forall a, b, c | !DescBefore(b, a) && !DescBefore(c, b) ensures !DescBefore(c, a) {
      var x, y, z := Field(a, 2), Field(b, 2), Field(c, 2);
      StrLessTotal(x, y);
      StrLessTotal(y, z);
      StrLessTotal(x, z);
      if StrLess(x, y) && StrLess(y, z) {
        StrLessTrans(x, y, z);
      }
    }
  }

  lemma AmountOrder()
    ensures StrictWeakOrder(AmountBefore)
  {
  }

  lemma DateOrder()
    ensures StrictWeakOrder(DateBefore)
  {
  }

  /** The three stable sorts leave the rows ordered by date, then amount, then description. */
  lemma MergeOrdered(rows: seq<Row>, out: seq<Row>)
    requires Merge(rows) == Ok(out)
    ensures forall i, j :: 0 <= i < j < |out| ==> InOrder(out[i], out[j])
  {
    var vals := Entries(rows);
    var r1 := SortBy(DescBefore, vals);
    var r2 := SortBy(AmountBefore, r1);
    DescOrder();
    AmountOrder();
    DateOrder();
    SortSorted(DescBefore, vals);
    assert Chain(DescNotAfter, r1);
    SortThen(AmountBefore, DescNotAfter, r1);
    assert Chain(AmountThenDesc, r2);
    SortThen(DateBefore, AmountThenDesc, r2);
    assert out == SortBy(DateBefore, r2);
    forall i, j | 0 <= i < j < |out|
      ensures InOrder(out[i], out[j])
    {
      assert DateBefore(out[i], out[j]) || (!DateBefore(out[j], out[i]) && AmountThenDesc(out[i], out[j]));
    }
  }

  /** What `combine` writes is the dict's values, reordered. */
  lemma WrittenAreEntries(rows: seq<Row>, out: seq<Row>)
    requires Merge(rows) == Ok(out)
    ensures forall x :: x in out ==> x in Entries(rows)
  {
    assert multiset(out) == multiset(Entries(rows));
    forall x | x in out
      ensures x in Entries(rows)
    {
      assert x in multiset(out);
    }
  }

  /** Every row written is the last row of the sources with its digest. */
  lemma MergeLast(rows: seq<Row>, out: seq<Row>)
    requires Merge(rows) == Ok(out)
    ensures forall x :: x in out ==> exists j :: LastOfKey(rows, j) && rows[j] == x
  {
    EntriesAreLast(rows);
    WrittenAreEntries(rows, out);
    forall x | x in out
      ensures exists j :: LastOfKey(rows, j) && rows[j] == x
    {
      var k :| 0 <= k < |Entries(rows)| && Entries(rows)[k] == x;
    }
  }

  /** Every row written comes from one of the sources. */
  lemma CombineFromSources(sources: seq<seq<Row>>, out: seq<Row>)
    requires Combine(sources) == Ok(out)
    ensures forall x :: x in out ==> exists s :: s in sources && x in s
  {
    var rows := Concat(sources);
    WrittenAreEntries(rows, out);
    EntriesAreLast(rows);
    forall x | x in out
      ensures x in rows
    {
      var k :| 0 <= k < |Entries(rows)| && Entries(rows)[k] == x;
      var j :| LastOfKey(rows, j) && rows[j] == Entries(rows)[k];
    }
  }

  lemma DistinctEntries(vals: seq<Row>, x: Row, y: Row)
    requires forall j :: 0 <= j < |vals| ==> |vals[j]| >= 3
    requires DistinctKeys(vals) && x in vals && y in vals && x != y
    ensures |x| >= 3 && |y| >= 3 && Key(x) != Key(y)
  {
    var a :| 0 <= a < |vals| && vals[a] == x;
    var b :| 0 <= b < |vals| && vals[b] == y;
    if a > b {
      assert Key(vals[b]) != Key(vals[a]);
    } else {
      assert a < b;
    }
  }

  /** No two rows written share a digest. */
  lemma MergeUnique(rows: seq<Row>, out: seq<Row>)
    requires Merge(rows) == Ok(out)
    ensures forall x, y :: x in out && y in out && x != y ==> |x| >= 3 && |y| >= 3 && Key(x) != Key(y)
  {
    var vals := Entries(rows);
    WrittenAreEntries(rows, out);
    EntriesDistinct(rows);
    forall x, y | x in out && y in out && x != y
      ensures |x| >= 3 && |y| >= 3 && Key(x) != Key(y)
    {
      DistinctEntries(vals, x, y);
    }
  }

  /** Every row with three fields has its digest among the rows written. */
  lemma MergeCovers(rows: seq<Row>, out: seq<Row>)
    requires Merge(rows) == Ok(out)
    ensures forall j :: 0 <= j < |rows| && |rows[j]| >= 3 ==> exists y :: y in out && |y| >= 3 && Key(y) == Key(rows[j])
  {
    var vals := Entries(rows);
    assert multiset(out) == multiset(vals);
    EntriesCover(rows);
    forall j | 0 <= j < |rows| && |rows[j]| >= 3
      ensures exists y :: y in out && |y| >= 3 && Key(y) == Key(rows[j])
    {
      var k := KeyIndex(vals, Key(rows[j]));
      assert vals[k] in multiset(out);
    }
  }

  /** Every row of the sources with three fields has its digest among the rows written. */
  lemma CombineCovers(sources: seq<seq<Row>>, out: seq<Row>)
    requires Combine(sources) == Ok(out)
    ensures forall s, x :: s in sources && x in s && |x| >= 3 ==> exists y :: y in out && |y| >= 3 && Key(y) == Key(x)
  {
    var rows := Concat(sources);
    MergeCovers(rows, out);
    forall s, x | s in sources && x in s && |x| >= 3
      ensures exists y :: y in out && |y| >= 3 && Key(y) == Key(x)
    {
      assert x in rows;
      var j :| 0 <= j < |rows| && rows[j] == x;
    }
  }

  lemma {:induction false} EntriesNone(rows: seq<Row>)
    requires forall j :: 0 <= j < |rows| ==> |rows[j]| < 3
    ensures Entries(rows) == []
  {
    if |rows| > 0 {
      EntriesNone(rows[..|rows| - 1]);
    }
  }

  /** Sources with no rows, or no row with three fields, combine to nothing. */
  lemma CombineNothing(sources: seq<seq<Row>>)
    requires forall s, x :: s in sources && x in s ==> |x| < 3
    ensures Combine(sources) == Ok([])
  {
    var rows := Concat(sources);
    forall j | 0 <= j < |rows|
      ensures |rows[j]| < 3
    {
      assert rows[j] in rows;
    }
    EntriesNone(rows);
  }

  /**
   * The digest hashes the three fields with no separator: rows that split
   * the same text differently collapse to the later one.
   */
  lemma SeparatorlessCollapse()
    ensures Entries([["1", "23", "x"], ["12", "3", "x"]]) == [["12", "3", "x"]]
  {
    var a := ["1", "23", "x"];
    var b := ["12", "3", "x"];
    assert [a, b][..1] == [a];
    assert [a][..0] == [];
    assert Entries([a]) == [a];
    assert Key(a) == Key(b);
  }

  /** A later row with the same first three fields replaces an earlier one in place. */
  lemma PreferLast(d1: string, d2: string, amount: string, description: string, extra: string)
    requires d1 != d2
    ensures Entries([[d1, amount, description], [d2, amount, description], [d2, amount, description, extra]])
      == [[d1, amount, description], [d2, amount, description, extra]]
  {
    var a := [d1, amount, description];
    var b := [d2, amount, description];
    var c := [d2, amount, description, extra];
    var rows := [a, b, c];
    assert rows[..2] == [a, b] && [a, b][..1] == [a] && [a][..0] == [];
    assert Key(a) != Key(b) by {
      assert |Key(a)| == |d1| + |amount| + |description|;
      if |d1| == |d2| {
        assert Key(a)[..|d1|] == d1 && Key(b)[..|d2|] == d2;
      }
    }
    assert Entries([a]) == [a];
    assert KeyIndex([a], Key(b)) == 1;
    assert Entries([a, b]) == [a, b];
    assert Key(c) == Key(b);
  }
}

=== FILE: dates.dfy ===
/**
 * Calendar dates as the scripts use them: `datetime` values at midnight,
 * read with `strptime` in the formats "%d/%m/%Y" (a transaction date) and
 * "%m/%Y" (a month), written back with `strftime`, compared
 * chronologically and subtracted to a number of days.
 */
module Dates {
  import opened Wrappers
  import opened Text

  /** A proleptic Gregorian date; `ValidDate` says which triples `datetime` accepts. */
  datatype Date = Date(year: int, month: int, day: int)

  predicate IsLeap(y: int)
  {
    y % 4 == 0 && (y % 100 != 0 || y % 400 == 0)
  }

  /** `calendar.monthrange(y, m)[1]` */
  function DaysInMonth(y: int, m: int): (n: int)
    ensures 28 <= n <= 31
    ensures n == 29 <==> m == 2 && IsLeap(y)
  {
    if m == 2 then (if IsLeap(y) then 29 else 28)
    else if m == 4 || m == 6 || m == 9 || m == 11 then 30
    else 31
  }

  /** The dates `datetime` can represent: years 1 to 9999. */
  predicate ValidDate(d: Date)
  {
    1 <= d.year <= 9999 && 1 <= d.month <= 12 && 1 <= d.day <= DaysInMonth(d.year, d.month)
  }

  /** `a < b` on two midnight `datetime`s: field by field, year first. */
  predicate Before(a: Date, b: Date)
  {
    a.year < b.year || (a.year == b.year && (a.month < b.month || (a.month == b.month && a.day < b.day)))
  }

  function YearLength(y: int): int
  {
    if IsLeap(y) then 366 else 365
  }

  /** Days in the years before year y, counted from 1 January of year 1. */
  function DaysBeforeYear(y: int): int
    requires y >= 1
  {
    var p := y - 1;
    p * 365 + p / 4 - p / 100 + p / 400
  }

  /** Days in the months of year y before month m. */
  function DaysBeforeMonth(y: int, m: int): (n: int)
    requires 1 <= m <= 13
    ensures 28 * (m - 1) <= n <= 31 * (m - 1)
  {
    if m == 1 then 0 else DaysBeforeMonth(y, m - 1) + DaysInMonth(y, m - 1)
  }

  /** `date.toordinal()`: 1 January of year 1 is day 1. */
  function Ordinal(d: Date): int
    requires ValidDate(d)
  {
    DaysBeforeYear(d.year) + DaysBeforeMonth(d.year, d.month) + d.day
  }

  /** `(a - b).days` for two midnight dates. */
  function DaysBetween(a: Date, b: Date): int
    requires ValidDate(a) && ValidDate(b)
  {
    Ordinal(a) - Ordinal(b)
  }

  /** The twelve months of a year add up to its length. */
  lemma MonthsFillYear(y: int)
    ensures DaysBeforeMonth(y, 13) == YearLength(y)
  {
    var f := DaysInMonth(y, 2);
    assert DaysBeforeMonth(y, 2) == 31;
    assert DaysBeforeMonth(y, 3) == 31 + f;
    assert DaysBeforeMonth(y, 4) == 62 + f;
    assert DaysBeforeMonth(y, 5) == 92 + f;
    assert DaysBeforeMonth(y, 6) == 123 + f;
    assert DaysBeforeMonth(y, 7) == 153 + f;
    assert DaysBeforeMonth(y, 8) == 184 + f;
    assert DaysBeforeMonth(y, 9) == 215 + f;
    assert DaysBeforeMonth(y, 10) == 245 + f;
    assert DaysBeforeMonth(y, 11) == 276 + f;
    assert DaysBeforeMonth(y, 12) == 306 + f;
  }

  /** A later month starts after every day of an earlier one. */
  lemma {:induction false} MonthsIncrease(y: int, m: int, n: int)
    requires 1 <= m < n <= 13
    ensures DaysBeforeMonth(y, m) + DaysInMonth(y, m) <= DaysBeforeMonth(y, n)
  {
    if n > m + 1 {
      MonthsIncrease(y, m, n - 1);
    }
  }

  /** Consecutive years are one year length apart. */
  lemma NextYear(y: int)
    requires y >= 1
    ensures DaysBeforeYear(y + 1) == DaysBeforeYear(y) + YearLength(y)
  {
    var p := y - 1;
    assert y / 4 == p / 4 + (if y % 4 == 0 then 1 else 0);
    assert y / 100 == p / 100 + (if y % 100 == 0 then 1 else 0);
    assert y / 400 == p / 400 + (if y % 400 == 0 then 1 else 0);
  }

  /** A later year starts after every day of an earlier one. */
  lemma {:induction false} YearsIncrease(y: int, z: int)
    requires 1 <= y < z
    ensures DaysBeforeYear(y) + YearLength(y) <= DaysBeforeYear(z)
    decreases z - y
  {
    NextYear(y);
    if z > y + 1 {
      YearsIncrease(y + 1, z);
    }
  }

  /** Every day of a valid date lies within its year. */
  lemma WithinYear(d: Date)
    requires ValidDate(d)
    ensures DaysBeforeYear(d.year) < Ordinal(d) <= DaysBeforeYear(d.year) + YearLength(d.year)
  {
    MonthsFillYear(d.year);
    if d.month < 12 {
      MonthsIncrease(d.year, d.month, 13);
    }
  }

  /** Date order is ordinal order: `a < b` exactly when a's ordinal is smaller. */
  lemma OrdinalOrder(a: Date, b: Date)
    requires ValidDate(a) && ValidDate(b)
    ensures Before(a, b) <==> Ordinal(a) < Ordinal(b)
    ensures a == b <==> Ordinal(a) == Ordinal(b)
  {
    WithinYear(a);
    WithinYear(b);
    if a.year < b.year {
      YearsIncrease(a.year, b.year);
    } else if b.year < a.year {
      YearsIncrease(b.year, a.year);
    } else if a.month < b.month {
      MonthsIncrease(a.year, a.month, b.month);
    } else if b.month < a.month {
      MonthsIncrease(a.year, b.month, a.month);
    }
  }

  /** `date.weekday()`: Monday is 0. */
  function Weekday(d: Date): (w: int)
    requires ValidDate(d)
    ensures 0 <= w < 7
  {
    (Ordinal(d) + 6) % 7
  }

  /** `%U`: the week of the year, weeks starting on Sunday, days before the first Sunday in week 0. */
  function WeekOfYear(d: Date): (w: int)
    requires ValidDate(d)
    ensures 0 <= w <= 53
  {
    WithinYear(d);
    var yday := Ordinal(d) - DaysBeforeYear(d.year) - 1;
    var sundayFirst := (Weekday(d) + 1) % 7;
    (yday + 7 - sundayFirst) / 7
  }

  /* ---------------- strftime ---------------- */

  function DigitChar(n: int): (c: char)
    requires 0 <= n < 10
    ensures IsDigit(c) && DigitValue(c) == n
  {
    ('0' as int + n) as char
  }

  /** A number below 100, zero-padded to two digits. */
  function Pad2(n: int): (s: string)
    requires 0 <= n < 100
    ensures |s| == 2 && AllDigits(s) && DigitsValue(s) == n
  {
    var s := [DigitChar(n / 10), DigitChar(n % 10)];
    assert s[..1] == [s[0]] && s[..1][..0] == [];
    assert DigitsValue(s[..1]) == DigitValue(s[0]);
    s
  }

  /** A number below 10000, zero-padded to four digits. */
  function Pad4(n: int): (s: string)
    requires 0 <= n < 10000
    ensures |s| == 4 && AllDigits(s) && DigitsValue(s) == n
  {
    var h := Pad2(n / 100);
    var l := Pad2(n % 100);
    DigitsAppend2(h, l);
    h + l
  }

  /** The value of two digit strings written one after the other. */
  lemma DigitsAppend2(h: string, l: string)
    requires |l| == 2 && AllDigits(h) && AllDigits(l)
    ensures AllDigits(h + l) && DigitsValue(h + l) == DigitsValue(h) * 100 + DigitsValue(l)
  {
    var s := h + l;
    assert s[..|s| - 1] == h + [l[0]];
    assert (h + [l[0]])[..|h|] == h;
    assert DigitsValue(h + [l[0]]) == DigitsValue(h) * 10 + DigitValue(l[0]);
    assert l[..1] == [l[0]] && l[..1][..0] == [];
    assert DigitsValue(l[..1]) == DigitValue(l[0]);
    assert DigitsValue(l) == DigitValue(l[0]) * 10 + DigitValue(l[1]);
  }

  /** `strftime("%d/%m/%Y")` */
  function FormatDate(d: Date): (s: string)
    requires ValidDate(d)
  {
    Pad2(d.day) + "/" + Pad2(d.month) + "/" + Pad4(d.year)
  }

  /** `strftime("%m/%Y")`: the month a date falls in. */
  function FormatMonth(d: Date): (s: string)
    requires ValidDate(d)
  {
    Pad2(d.month) + "/" + Pad4(d.year)
  }

  /** `strftime("%Y:%U")` */
  function FormatYearWeek(d: Date): (s: string)
    requires ValidDate(d)
  {
    Pad4(d.year) + ":" + Pad2(WeekOfYear(d))
  }

  /** `strftime("%U")` */
  function FormatWeek(d: Date): (s: string)
    requires ValidDate(d)
  {
    Pad2(WeekOfYear(d))
  }

  /* ---------------- strptime ---------------- */

  /** The `%d` directive: `3[01]`, `[12]\d`, `0[1-9]`, `[1-9]` or a space and `[1-9]`. */
  function DayField(p: string): (r: Option<int>)
    ensures r.Some? ==> 1 <= r.value <= 31
  {
    if |p| == 1 && '1' <= p[0] <= '9' then Some(DigitValue(p[0]))
    else if |p| == 2 && p[0] == ' ' && '1' <= p[1] <= '9' then Some(DigitValue(p[1]))
    else if |p| == 2 && '0' <= p[0] <= '3' && IsDigit(p[1]) then
      var v := DigitValue(p[0]) * 10 + DigitValue(p[1]);
      if 1 <= v <= 31 then Some(v) else None
    else None
  }

  /** The `%m` directive: `1[0-2]`, `0[1-9]` or `[1-9]`. */
  function MonthField(p: string): (r: Option<int>)
    ensures r.Some? ==> 1 <= r.value <= 12
  {
    if |p| == 1 && '1' <= p[0] <= '9' then Some(DigitValue(p[0]))
    else if |p| == 2 && '0' <= p[0] <= '1' && IsDigit(p[1]) then
      var v := DigitValue(p[0]) * 10 + DigitValue(p[1]);
      if 1 <= v <= 12 then Some(v) else None
    else None
  }

  /** The `%Y` directive: exactly four digits; year 0 is refused by `datetime`. */
  function YearField(p: string): (r: Option<int>)
    ensures r.Some? ==> 1 <= r.value <= 9999
  {
    if |p| == 4 && AllDigits(p) && DigitsValue(p) >= 1 then
      DigitsBelow(p);
      Some(DigitsValue(p))
    else None
  }

  /** A string of n digits is worth less than 10 to the n. */
  lemma {:induction false} DigitsBelow(s: string)
    requires AllDigits(s)
    ensures DigitsValue(s) < Pow10(|s|)
  {
    if |s| > 0 {
      DigitsBelow(s[..|s| - 1]);
    }
  }

  /** A date only when the day exists in that month, as `datetime` checks. */
  function MakeDate(y: Option<int>, m: Option<int>, d: Option<int>): (r: Option<Date>)
    ensures r.Some? ==> ValidDate(r.value)
  {
    if y.Some? && m.Some? && d.Some? && 1 <= y.value <= 9999 && 1 <= m.value <= 12 &&
       1 <= d.value <= DaysInMonth(y.value, m.value)
    then Some(Date(y.value, m.value, d.value))
    else None
  }

  /** `datetime.strptime(s, "%d/%m/%Y")` at midnight; None where it raises ValueError. */
  function ParseDate(s: string): (r: Option<Date>)
    ensures r.Some? ==> ValidDate(r.value)
  {
    if |s| < 8 || s[|s| - 5] != '/' then None
    else
      var rest := s[..|s| - 5];
      var y := YearField(s[|s| - 4..]);
      if rest[1] == '/' then MakeDate(y, MonthField(rest[2..]), DayField(rest[..1]))
      else if rest[2] == '/' then MakeDate(y, MonthField(rest[3..]), DayField(rest[..2]))
      else None
  }

  /** `datetime.strptime(s, "%m/%Y")`: the first day of that month. */
  function ParseMonth(s: string): (r: Option<Date>)
    ensures r.Some? ==> ValidDate(r.value) && r.value.day == 1
  {
    if |s| < 6 || s[|s| - 5] != '/' then None
    else MakeDate(YearField(s[|s| - 4..]), MonthField(s[..|s| - 5]), Some(1))
  }

  /** Reading a date back from its "%d/%m/%Y" rendering gives the same date. */
  lemma ParseFormatDate(d: Date)
    requires ValidDate(d)
    ensures ParseDate(FormatDate(d)) == Some(d)
  {
    var s := FormatDate(d);
    assert s[|s| - 4..] == Pad4(d.year);
    assert s[..|s| - 5] == Pad2(d.day) + "/" + Pad2(d.month);
    var rest := s[..|s| - 5];
    assert rest[..2] == Pad2(d.day) && rest[3..] == Pad2(d.month);
    assert Pad2(d.day)[..1] == [Pad2(d.day)[0]];
    assert Pad2(d.month)[..1] == [Pad2(d.month)[0]];
  }

  /** Reading a month back from its "%m/%Y" rendering gives the first of that month. */
  lemma ParseFormatMonth(d: Date)
    requires ValidDate(d)
    ensures ParseMonth(FormatMonth(d)) == Some(Date(d.year, d.month, 1))
  {
    var s := FormatMonth(d);
    assert s[|s| - 4..] == Pad4(d.year);
    assert s[..|s| - 5] == Pad2(d.month);
    assert Pad2(d.month)[..1] == [Pad2(d.month)[0]];
  }

  /** Two dates share a month key exactly when they share year and month. */
  lemma FormatMonthSame(a: Date, b: Date)
    requires ValidDate(a) && ValidDate(b)
    ensures FormatMonth(a) == FormatMonth(b) <==> a.year == b.year && a.month == b.month
  {
    if FormatMonth(a) == FormatMonth(b) {
      ParseFormatMonth(a);
      ParseFormatMonth(b);
    }
  }
}

=== FILE: groups.dfy ===
/**
 * The description-group engine of lib/fpos/groups.py: a dynamic ccan
 * grouper, a persisted association table from description ids to their
 * canonical description id, and a map from canonical ids to the
 * description that names their group.
 *
 * The association table is a map from `ddid` (its primary key) to `sdid`;
 * `gen_id` is modelled as an injective function from descriptions to ids.
 */
module Groups {
  import opened Wrappers
  import opened CcanScore
  import opened CcanStrgrp
  import opened Text

  /** `gen_id(description, salt)`: distinct descriptions get distinct ids. */
  datatype Id = GenId(description: string)

  // ---------------------------------------------------------------------
  // `GroupProtocol._request_match`
  // ---------------------------------------------------------------------

  /** What one line of input means when choosing among n candidates. */
  datatype Answer = Chosen(index: int) | Declined | Rejected

  /** "" selects the first candidate, "n" none of them, an integer in [0, n) that one; anything else is re-asked. */
  function Interpret(line: string, n: int): (a: Answer)
  {
    if |line| == 0 then (if 0 < n then Chosen(0) else Rejected)
    else if line == "n" then Declined
    else match ParseInt(line)
      case Some(i) => if 0 <= i < n then Chosen(i) else Rejected
      case None => Rejected
  }

  /** Every answer is one of the three, and a chosen index names a candidate. */
  lemma InterpretCases(line: string, n: int, i: nat)
    ensures Interpret(line, n).Chosen? ==> 0 <= Interpret(line, n).index < n
    ensures Interpret("n", n) == Declined
    ensures Interpret("", n) == (if 0 < n then Chosen(0) else Rejected)
    ensures Interpret(Show(i), n) == (if i < n then Chosen(i) else Rejected)
    ensures n <= 0 ==> Interpret(line, n) != Chosen(0) && Interpret(line, n).Chosen? == false
  {
    ParseShow(i);
    assert IsDigit(Show(i)[0]);
  }

  /**
   * What `_request_match` returns after reading `used` of the lines: every
   * line before the last one read is re-asked; the last one selects a
   * candidate or declines, or else all input is used up and it raises
   * `EOFError`.
   */
  ghost predicate Requested<G>(haystack: seq<G>, lines: seq<string>, r: Result<Option<G>>, used: nat)
  {
    && (0 < used <= |lines| || (used == 0 && |lines| == 0))
    && (forall k :: 0 <= k < used - 1 ==> Interpret(lines[k], |haystack|) == Rejected)
    && (r.Err? <==> used == |lines| && forall k :: 0 <= k < |lines| ==> Interpret(lines[k], |haystack|) == Rejected)
    && (r.Err? ==> r.error == EOFError)
    && (r.Ok? ==> match Interpret(lines[used - 1], |haystack|)
         case Chosen(i) => r.value == Some(haystack[i])
         case Declined => r.value == None
         case Rejected => false)
  }

  /** A line that selects or declines ends the request with its answer. */
  lemma RequestAnswered<G>(haystack: seq<G>, lines: seq<string>, r: Result<Option<G>>, used: nat)
    requires 0 < used <= |lines|
    requires forall k :: 0 <= k < used - 1 ==> Interpret(lines[k], |haystack|) == Rejected
    requires match Interpret(lines[used - 1], |haystack|)
      case Chosen(i) => r == Ok(Some(haystack[i]))
      case Declined => r == Ok(None)
      case Rejected => false
    ensures Requested(haystack, lines, r, used)
  {
    assert Interpret(lines[used - 1], |haystack|) != Rejected;
  }

  /**
   * `_request_match` over the lines the user types: each line is read in
   * turn until one selects a candidate or declines; running out of input
   * is `EOFError`. `used` is the number of lines read.
   */
  method RequestMatch<G>(haystack: seq<G>, lines: seq<string>) returns (r: Result<Option<G>>, used: nat)
    ensures Requested(haystack, lines, r, used)
  {
    used := 0;
    while used < |lines|
      invariant 0 <= used <= |lines|
      invariant forall k :: 0 <= k < used ==> Interpret(lines[k], |haystack|) == Rejected
    {
      var result := lines[used];
      used := used + 1;
      if |result| == 0 {
        result := "0";
        ParseShow(0);
        assert Show(0) == result;
      }
      if result == "n" {
        assert Interpret(lines[used - 1], |haystack|) == Declined;
        RequestAnswered(haystack, lines, Ok(None), used);
        return Ok(None), used;
      }
      var index := ParseInt(result);
      if index.Some? && 0 <= index.value < |haystack| {
        assert Interpret(lines[used - 1], |haystack|) == Chosen(index.value);
        RequestAnswered(haystack, lines, Ok(Some(haystack[index.value])), used);
        return Ok(Some(haystack[index.value])), used;
      }
      assert Interpret(lines[used - 1], |haystack|) == Rejected;
    }
    r := Err(EOFError);
    assert Requested(haystack, lines, r, used);
  }

  // ---------------------------------------------------------------------
  // The association table of `SqlGroupCollection`
  // ---------------------------------------------------------------------

  /** Every alias's canonical id is itself associated, with itself. */
  ghost predicate Canonical(assoc: map<Id, Id>)
  {
    forall d :: d in assoc ==> assoc[d] in assoc && assoc[assoc[d]] == assoc[d]
  }

  /** The `assoc` table: `ddid` (primary key) to `sdid`. */
  class SqlGroupCollection {
    var assoc: map<Id, Id>

    /** `init_db`: a new, empty table. */
    constructor ()
      ensures assoc == map[]
    {
      assoc := map[];
    }

    /** `have_association`: whether did has a row. */
    method HaveAssociation(did: Id) returns (b: bool)
      ensures b <==> did in assoc
    {
      b := did in assoc;
    }

    /** `get_canonical`: the row's `sdid`; with no row `fetchone()` is None and indexing it is a TypeError. */
    method GetCanonical(did: Id) returns (r: Result<Id>)
      ensures did in assoc ==> r == Ok(assoc[did])
      ensures did !in assoc ==> r == Err(TypeError)
    {
      if did in assoc {
        r := Ok(assoc[did]);
      } else {
        r := Err(TypeError);
      }
    }

    /** `associate`: inserts the row (adid, cdid); an existing adid violates the primary key. */
    method Associate(cdid: Id, adid: Id) returns (r: Result<()>)
      modifies this
      ensures adid in old(assoc) ==> r == Err(IntegrityError) && assoc == old(assoc)
      ensures adid !in old(assoc) ==> r == Ok(()) && assoc == old(assoc)[adid := cdid]
    {
      if adid in assoc {
        r := Err(IntegrityError);
      } else {
        assoc := assoc[adid := cdid];
        r := Ok(());
      }
    }
  }

  /** Adding a self-canonical row or an alias of an existing canonical id keeps the table canonical. */
  lemma AssociateKeepsCanonical(assoc: map<Id, Id>, cdid: Id, adid: Id)
    requires Canonical(assoc) && adid !in assoc
    requires cdid == adid || (cdid in assoc && assoc[cdid] == cdid)
    ensures Canonical(assoc[adid := cdid])
  {
    var a := assoc[adid := cdid];
    forall d | d in a
      ensures a[d] in a && a[a[d]] == a[d]
    {
      if d != adid {
        assert a[d] == assoc[d] && assoc[d] in assoc;
        assert a[d] != adid;
      }
    }
  }

  /** The number of true flags. */
  function CountTrue(s: seq<bool>): (n: nat)
    ensures n <= |s|
    ensures n > 0 <==> true in s
  {
    if |s| == 0 then 0 else CountTrue(s[..|s| - 1]) + (if s[|s| - 1] then 1 else 0)
  }

  /** The index of the first true flag, `list.index(True)`. */
  function IndexOfTrue(s: seq<bool>): (i: nat)
    requires true in s
    ensures i < |s| && s[i] && forall j :: 0 <= j < i ==> !s[j]
  {
    if s[0] then 0 else 1 + IndexOfTrue(s[1..])
  }

  /** One true flag: it is at `list.index(True)`, and every other flag is false. */
  lemma {:induction false} CountOne(s: seq<bool>)
    requires CountTrue(s) == 1
    ensures true in s
    ensures forall j :: 0 <= j < |s| && j != IndexOfTrue(s) ==> !s[j]
  {
    var p := s[..|s| - 1];
    if s[|s| - 1] {
      assert CountTrue(p) == 0;
      NoneTrue(p);
      assert forall j :: 0 <= j < |s| - 1 ==> p[j] == s[j];
    } else {
      CountOne(p);
      assert forall j :: 0 <= j < |s| - 1 ==> p[j] == s[j];
      assert p[IndexOfTrue(p)] == s[IndexOfTrue(p)];
    }
  }

  /** No true flag counted means none is true. */
  lemma {:induction false} NoneTrue(s: seq<bool>)
    requires CountTrue(s) == 0
    ensures forall j :: 0 <= j < |s| ==> !s[j]
  {
    if |s| > 0 {
      var p := s[..|s| - 1];
      NoneTrue(p);
      assert forall j :: 0 <= j < |s| - 1 ==> p[j] == s[j];
    }
  }

  // ---------------------------------------------------------------------
  // `DynamicGroups`
  // ---------------------------------------------------------------------

  /** The groups popped from the heap of `strgrp_grps_for` are exactly the context's groups. */
  lemma HeapMembers(heap: seq<Grp>, grps: seq<Grp>)
    requires multiset(heap) == multiset(grps)
    ensures forall g :: g in heap <==> g in grps
  {
    forall g | g in heap
      ensures g in grps
    {
      assert g in multiset(heap);
    }
    forall g | g in grps
      ensures g in heap
    {
      assert g in multiset(grps);
    }
  }

  /** The first group popped scores at least as high as every group; there is one exactly when there are groups. */
  lemma HeapTop(heap: seq<Grp>, grps: seq<Grp>)
    requires multiset(heap) == multiset(grps) && Descending(heap)
    ensures |heap| == |grps|
    ensures |heap| > 0 ==> forall g :: g in grps ==> g.score <= heap[0].score
  {
    assert |multiset(heap)| == |multiset(grps)|;
    if |heap| > 0 {
      forall g | g in grps
        ensures g.score <= heap[0].score
      {
        assert g in multiset(grps);
        var k :| 0 <= k < |heap| && heap[k] == g;
      }
    }
  }

  /**
   * `_split_heap` cuts the descending heap where acceptability ends, so its
   * needles are exactly the acceptable groups of the heap, still best first.
   */
  lemma SplitAcceptable(heap: seq<Grp>, needles: seq<Grp>, hay: seq<Grp>)
    requires Descending(heap) && needles + hay == heap
    requires forall g :: g in needles ==> g.score >= 0.0
    requires hay == [] || hay[0].score < 0.0
    ensures forall g :: g in heap ==> (g in needles <==> g.score >= 0.0)
    ensures Descending(needles)
  {
    forall g | g in heap && g !in needles
      ensures g.score < 0.0
    {
      var k :| 0 <= k < |heap| && heap[k] == g;
      assert hay[k - |needles|] == g && heap[|needles|] == hay[0];
    }
    forall i, j | 0 <= i < j < |needles|
      ensures needles[i].score >= needles[j].score
    {
      assert needles[i] == heap[i] && needles[j] == heap[j];
    }
  }

  /** Every key of the description map is a canonical id. */
  ghost predicate KeysCanonical(names: map<Id, string>, assoc: map<Id, Id>)
  {
    forall c :: c in names ==> c in assoc && assoc[c] == c
  }

  /** `DynamicGroups`: a dynamic grouper, its backend, and the canonical-id map. */
  class DynamicGroups {
    const backend: SqlGroupCollection
    const strgrp: StrGrp
    const threshold: real
    const size: int
    /** `is_dynamic` of a group, as the bindings report it. */
    const isDynamic: Grp -> bool
    var names: map<Id, string>

    ghost predicate Valid()
      reads this, strgrp, strgrp.Repr
    {
      && strgrp.Valid() && strgrp.size == size && strgrp.threshold == threshold
      && this !in strgrp.Repr && backend !in strgrp.Repr
    }

    /** `__init__`: a fresh dynamic grouper of the given threshold and size, and an empty map. */
    constructor (threshold: real, size: int, backend: SqlGroupCollection, sqrt: real -> real, isDynamic: Grp -> bool)
      requires IsSqrt(sqrt)
      ensures Valid() && fresh(strgrp.Repr)
      ensures this.backend == backend && this.threshold == threshold && this.size == size
      ensures strgrp.grps == [] && strgrp.known == map[] && names == map[]
    {
      this.backend := backend;
      this.threshold := threshold;
      this.size := size;
      this.isDynamic := isDynamic;
      strgrp := new StrGrp.NewDynamic(threshold, size, sqrt);
      names := map[];
    }

    /**
     * `_split_heap`: the longest prefix of the heap whose groups are
     * acceptable, and the rest, which starts with one that is not.
     */
    method SplitHeap(heap: seq<Grp>) returns (needles: seq<Grp>, hay: seq<Grp>)
      requires Valid() && forall g :: g in heap ==> g in strgrp.grps
      modifies strgrp.grps
      ensures Valid() && strgrp.known == old(strgrp.known)
      ensures needles + hay == heap
      ensures forall g :: g in needles ==> g.score >= 0.0
      ensures hay == [] || hay[0].score < 0.0
      ensures forall g :: g in strgrp.grps ==> g.score == old(g.score) && g.items == old(g.items)
      ensures forall g :: g in strgrp.grps && !(size > 0 && old(g.dirty)) ==>
        g.threshold == old(g.threshold) && g.dirty == old(g.dirty)
      ensures old(Descending(heap)) ==> Descending(heap)
    {
      var i := 0;
      while i < |heap|
        invariant 0 <= i <= |heap| && Valid() && strgrp.grps == old(strgrp.grps)
        invariant forall k :: 0 <= k < i ==> heap[k].score >= 0.0
        invariant forall g :: g in strgrp.grps ==> g.score == old(g.score) && g.items == old(g.items)
        invariant forall g :: g in strgrp.grps && !(size > 0 && old(g.dirty)) ==>
          g.threshold == old(g.threshold) && g.dirty == old(g.dirty)
      {
        assert heap[i] in heap;
        var acceptable := Accepts(heap[i]);
        if !acceptable {
          return heap[..i], heap[i..];
        }
        i := i + 1;
      }
      needles, hay := heap, [];
    }

    /**
     * One test of `_split_heap`'s loop: `is_acceptible` on g, which changes
     * at most g's threshold and dirty flag, and only when g was dirty in
     * dynamic mode.
     */
    method Accepts(g: Grp) returns (b: bool)
      requires Valid() && g in strgrp.grps
      modifies g
      ensures Valid() && strgrp.known == old(strgrp.known)
      ensures b == (g.score >= 0.0)
      ensures forall h :: h in strgrp.grps ==> h.score == old(h.score) && h.items == old(h.items)
      ensures forall h :: h in strgrp.grps && !(size > 0 && old(h.dirty)) ==>
        h.threshold == old(h.threshold) && h.dirty == old(h.dirty)
    {
      b := strgrp.IsAcceptible(g);
    }

    /** `[n.is_dynamic(...) for n in needles]` */
    function DynamicFlags(needles: seq<Grp>): (flags: seq<bool>)
      ensures |flags| == |needles| && forall i :: 0 <= i < |needles| ==> flags[i] == isDynamic(needles[i])
    {
      seq(|needles|, i requires 0 <= i < |needles| => isDynamic(needles[i]))
    }

    /**
     * The rule `find_group` applies with a dynamic size: `needles` are
     * exactly the acceptable groups, best first; with none there is no
     * group, with exactly one dynamic needle it is that one, and otherwise
     * the user chooses among the needles.
     */
    ghost predicate NeedleRule(needles: seq<Grp>, lines: seq<string>, r: Result<Option<Grp>>, used: nat)
      reads this, strgrp, strgrp.grps, needles
    {
      && (forall g :: g in needles ==> g in strgrp.grps && g.score >= 0.0)
      && (forall g :: g in strgrp.grps && g.score >= 0.0 ==> g in needles)
      && Descending(needles)
      && (|needles| == 0 ==> r == Ok(None) && used == 0)
      && (|needles| > 0 && CountTrue(DynamicFlags(needles)) == 1 ==>
            r == Ok(Some(needles[IndexOfTrue(DynamicFlags(needles))])) && used == 0)
      && (|needles| > 0 && CountTrue(DynamicFlags(needles)) != 1 ==> Requested(needles, lines, r, used))
    }

    /** The ranked part of `find_group` with size 0: the best-ranked group, if any. */
    method BestGroup(description: string) returns (r: Option<Grp>)
      requires Valid() && size == 0
      modifies strgrp.grps
      ensures Valid() && strgrp.known == old(strgrp.known) && strgrp.grps == old(strgrp.grps)
      ensures forall g :: g in strgrp.grps ==> g.items == old(g.items)
      ensures strgrp.nGrps > 0 ==> forall g :: g in strgrp.grps ==> strgrp.ScoredAgainst(g, description)
      ensures r == None <==> strgrp.nGrps == 0
      ensures r.Some? ==> r.value in strgrp.grps && forall g :: g in strgrp.grps ==> g.score <= r.value.score
    {
      var heap := strgrp.GrpsFor(description);
      HeapMembers(heap, strgrp.grps);
      HeapTop(heap, strgrp.grps);
      r := if |heap| > 0 then Some(heap[0]) else None;
    }

    /**
     * The ranked part of `find_group` with a dynamic size: none without an
     * acceptable candidate, the only dynamic one when exactly one is, and
     * otherwise the user's choice among them.
     */
    method ChosenGroup(description: string, lines: seq<string>) returns (r: Result<Option<Grp>>, used: nat, ghost needles: seq<Grp>)
      requires Valid() && size != 0
      modifies strgrp.grps
      ensures Valid() && strgrp.known == old(strgrp.known) && strgrp.grps == old(strgrp.grps)
      ensures forall g :: g in strgrp.grps ==> g.items == old(g.items)
      ensures strgrp.nGrps > 0 ==> forall g :: g in strgrp.grps ==> strgrp.ScoredAgainst(g, description)
      ensures used <= |lines|
      ensures r.Err? ==> r.error == EOFError
      ensures NeedleRule(needles, lines, r, used)
      ensures r.Ok? && r.value.Some? ==> r.value.value in needles
    {
      var candidates := Acceptable(description);
      needles := candidates;
      r, used := PickNeedle(candidates, lines);
    }

    /**
     * The needles of `find_group`: the groups scored against `description`
     * that are acceptable, best first.
     */
    method Acceptable(description: string) returns (needles: seq<Grp>)
      requires Valid()
      modifies strgrp.grps
      ensures Valid() && strgrp.known == old(strgrp.known) && strgrp.grps == old(strgrp.grps)
      ensures forall g :: g in strgrp.grps ==> g.items == old(g.items)
      ensures strgrp.nGrps > 0 ==> forall g :: g in strgrp.grps ==> strgrp.ScoredAgainst(g, description)
      ensures forall g :: g in needles ==> g in strgrp.grps && g.score >= 0.0
      ensures forall g :: g in strgrp.grps && g.score >= 0.0 ==> g in needles
      ensures Descending(needles)
    {
      var heap := strgrp.GrpsFor(description);
      HeapMembers(heap, strgrp.grps);
      var hay;
      needles, hay := SplitHeap(heap);
      SplitAcceptable(heap, needles, hay);
    }

    /** The choice among the acceptable candidates that ChosenGroup makes. */
    method PickNeedle(candidates: seq<Grp>, lines: seq<string>) returns (r: Result<Option<Grp>>, used: nat)
      ensures used <= |lines|
      ensures r.Err? ==> r.error == EOFError
      ensures |candidates| == 0 ==> r == Ok(None) && used == 0
      ensures |candidates| > 0 && CountTrue(DynamicFlags(candidates)) == 1 ==>
        r == Ok(Some(candidates[IndexOfTrue(DynamicFlags(candidates))])) && used == 0
      ensures |candidates| > 0 && CountTrue(DynamicFlags(candidates)) != 1 ==> Requested(candidates, lines, r, used)
      ensures r.Ok? && r.value.Some? ==> r.value.value in candidates
    {
      if |candidates| == 0 {
        return Ok(None), 0;
      }
      var dynamic := DynamicFlags(candidates);
      if CountTrue(dynamic) == 1 {
        CountOne(dynamic);
        return Ok(Some(candidates[IndexOfTrue(dynamic)])), 0;
      }
      r, used := RequestMatch(candidates, lines);
      if r.Ok? && r.value.Some? {
        InterpretCases(lines[used - 1], |candidates|, 0);
      }
    }

    /** The ranked part of `find_group`: the best-ranked group with size 0, else the chosen one. */
    method RankedGroup(description: string, lines: seq<string>) returns (r: Result<Option<Grp>>, used: nat, ghost needles: seq<Grp>)
      requires Valid()
      modifies strgrp.grps
      ensures Valid() && strgrp.known == old(strgrp.known) && strgrp.grps == old(strgrp.grps)
      ensures forall g :: g in strgrp.grps ==> g.items == old(g.items)
      ensures strgrp.nGrps > 0 ==> forall g :: g in strgrp.grps ==> strgrp.ScoredAgainst(g, description)
      ensures used <= |lines|
      ensures r.Ok? && r.value.Some? ==> r.value.value in strgrp.grps
      ensures r.Err? ==> r.error == EOFError
      ensures size == 0 ==>
        && used == 0 && r.Ok?
        && (r.value == None <==> strgrp.nGrps == 0)
        && (r.value.Some? ==> forall g :: g in strgrp.grps ==> g.score <= r.value.value.score)
      ensures size != 0 ==> NeedleRule(needles, lines, r, used)
    {
      if size == 0 {
        var best := BestGroup(description);
        return Ok(best), 0, [];
      }
      r, used, needles := ChosenGroup(description, lines);
    }

    /**
     * `find_group`: the group holding the exact description; else, for an
     * associated description, the group named by its canonical id (or
     * none); else the ranked choice.
     */
    method FindGroup(description: string, lines: seq<string>) returns (r: Result<Option<Grp>>, used: nat, ghost needles: seq<Grp>)
      requires Valid()
      modifies strgrp.grps
      ensures Valid() && strgrp.known == old(strgrp.known) && strgrp.grps == old(strgrp.grps)
      ensures forall g :: g in strgrp.grps ==> g.items == old(g.items)
      ensures used <= |lines|
      ensures r.Ok? && r.value.Some? ==> r.value.value in strgrp.grps
      ensures r.Err? ==> r.error == EOFError
      ensures description in old(strgrp.known) ==> r == Ok(Some(old(strgrp.known)[description])) && used == 0
      ensures description !in old(strgrp.known) && GenId(description) in backend.assoc ==>
        used == 0 &&
        var cid := backend.assoc[GenId(description)];
        r == Ok(if cid in names && names[cid] in strgrp.known then Some(strgrp.known[names[cid]]) else None)
      ensures description !in old(strgrp.known) && GenId(description) !in backend.assoc && strgrp.nGrps > 0 ==>
        forall g :: g in strgrp.grps ==> strgrp.ScoredAgainst(g, description)
      ensures description !in old(strgrp.known) && GenId(description) !in backend.assoc && size == 0 ==>
        && used == 0 && r.Ok?
        && (r.value == None <==> strgrp.nGrps == 0)
        && (r.value.Some? ==> forall g :: g in strgrp.grps ==> g.score <= r.value.value.score)
      ensures description !in old(strgrp.known) && GenId(description) !in backend.assoc && size != 0 ==>
        NeedleRule(needles, lines, r, used)
    {
      var exact := strgrp.GrpExact(description);
      if exact != null {
        return Ok(Some(exact)), 0, [];
      }
      var did := GenId(description);
      var associated := backend.HaveAssociation(did);
      if associated {
        var g := CanonicalGroup(did);
        return Ok(g), 0, [];
      }
      r, used, needles := RankedGroup(description, lines);
    }

    /** The associated branch of `find_group`: the group of the description of the canonical id, if any. */
    method CanonicalGroup(did: Id) returns (r: Option<Grp>)
      requires Valid() && did in backend.assoc
      ensures var cid := backend.assoc[did];
        r == if cid in names && names[cid] in strgrp.known then Some(strgrp.known[names[cid]]) else None
      ensures r.Some? ==> r.value in strgrp.grps
    {
      var cid := backend.GetCanonical(did);
      if cid.value in names {
        var g := strgrp.GrpExact(names[cid.value]);
        return if g == null then None else Some(g);
      }
      return None;
    }

    /**
     * `insert`: with a group, the description joins it and, unless already
     * associated, is associated with the canonical id of the group's key
     * (which must itself be associated: `get_canonical` fails first);
     * without one, it opens a group through the grouper's `add` and either
     * renames its canonical id's entry or becomes its own canonical id.
     */
    method Insert(description: string, value: Data, group: Grp?) returns (r: Result<Grp>)
      requires Valid() && (group != null ==> group in strgrp.grps)
      modifies this, backend, strgrp.Repr
      ensures Valid() && fresh(strgrp.Repr - old(strgrp.Repr))
      ensures forall d :: d in old(backend.assoc) ==> d in backend.assoc && backend.assoc[d] == old(backend.assoc[d])
      ensures Canonical(old(backend.assoc)) ==> Canonical(backend.assoc)
      ensures Canonical(old(backend.assoc)) && KeysCanonical(old(names), old(backend.assoc)) ==> KeysCanonical(names, backend.assoc)
      ensures group != null ==>
        && group.items == old(group.items) + [Item(description, value)]
        && strgrp.known == old(strgrp.known)[description := group]
        && names == old(names)
        && strgrp.grps == old(strgrp.grps)
        && (forall g :: g in strgrp.grps ==> g.score == old(g.score) && g.threshold == old(g.threshold))
        && (forall g :: g in strgrp.grps && g != group ==> g.items == old(g.items))
      ensures group != null && GenId(group.key) !in old(backend.assoc) ==>
        r == Err(TypeError) && backend.assoc == old(backend.assoc)
      ensures group != null && GenId(group.key) in old(backend.assoc) ==>
        && r == Ok(group)
        && backend.assoc == if GenId(description) in old(backend.assoc) then old(backend.assoc)
                            else old(backend.assoc)[GenId(description) := old(backend.assoc)[GenId(group.key)]]
      ensures group == null ==> r.Ok? && strgrp.known == old(strgrp.known)[description := r.value]
      ensures group == null && description in old(strgrp.known) ==> r.value == old(strgrp.known[description])
      ensures group == null && fresh(r.value) ==>
        strgrp.grps == old(strgrp.grps) + [r.value] && r.value.key == description && r.value.items == [Item(description, value)]
      ensures group == null && r.Ok? && !fresh(r.value) ==>
        r.value in old(strgrp.grps) && strgrp.grps == old(strgrp.grps) && r.value.items == old(r.value.items) + [Item(description, value)]
      ensures group == null ==> forall g :: g in old(strgrp.grps) && g != r.value ==> g.items == old(g.items)
      ensures group == null && old(strgrp.nGrps) > 0 && description !in old(strgrp.known) ==>
        forall g :: g in old(strgrp.grps) ==> strgrp.ScoredAgainst(g, description)
      ensures group == null && GenId(description) in old(backend.assoc) ==>
        names == old(names)[old(backend.assoc)[GenId(description)] := description] && backend.assoc == old(backend.assoc)
      ensures group == null && GenId(description) !in old(backend.assoc) ==>
        && names == old(names)[GenId(description) := description]
        && backend.assoc == old(backend.assoc)[GenId(description) := GenId(description)]
    {
      if group != null {
        r := InsertInto(description, value, group);
      } else {
        r := InsertNew(description, value);
      }
    }

    /** The branch of `insert` given a group. */
    method InsertInto(description: string, value: Data, group: Grp) returns (r: Result<Grp>)
      requires Valid() && group in strgrp.grps
      modifies backend, strgrp, group
      ensures Valid() && strgrp.Repr == old(strgrp.Repr)
      ensures forall d :: d in old(backend.assoc) ==> d in backend.assoc && backend.assoc[d] == old(backend.assoc[d])
      ensures Canonical(old(backend.assoc)) ==> Canonical(backend.assoc)
      ensures group.items == old(group.items) + [Item(description, value)]
      ensures strgrp.known == old(strgrp.known)[description := group]
      ensures strgrp.grps == old(strgrp.grps)
      ensures forall g :: g in strgrp.grps ==> g.score == old(g.score) && g.threshold == old(g.threshold)
      ensures forall g :: g in strgrp.grps && g != group ==> g.items == old(g.items)
      ensures GenId(group.key) !in old(backend.assoc) ==> r == Err(TypeError) && backend.assoc == old(backend.assoc)
      ensures GenId(group.key) in old(backend.assoc) ==>
        && r == Ok(group)
        && backend.assoc == if GenId(description) in old(backend.assoc) then old(backend.assoc)
                            else old(backend.assoc)[GenId(description) := old(backend.assoc)[GenId(group.key)]]
    {
      var did := GenId(description);
      strgrp.GrpAdd(group, description, value);
      var gid := GenId(group.key);
      var cid := backend.GetCanonical(gid);
      if cid.Err? {
        return Err(TypeError);
      }
      var associated := backend.HaveAssociation(did);
      if !associated {
        ghost var before := backend.assoc;
        if Canonical(before) {
          AssociateKeepsCanonical(before, cid.value, did);
        }
        var _ := backend.Associate(cid.value, did);
      }
      r := Ok(group);
    }

    /** The branch of `insert` without a group. */
    method InsertNew(description: string, value: Data) returns (r: Result<Grp>)
      requires Valid()
      modifies this, backend, strgrp.Repr
      ensures Valid()
      ensures r.Ok? && strgrp.Repr == if fresh(r.value) then old(strgrp.Repr) + {r.value} else old(strgrp.Repr)
      ensures forall d :: d in old(backend.assoc) ==> d in backend.assoc && backend.assoc[d] == old(backend.assoc[d])
      ensures Canonical(old(backend.assoc)) ==> Canonical(backend.assoc)
      ensures strgrp.known == old(strgrp.known)[description := r.value]
      ensures description in old(strgrp.known) ==> r.value == old(strgrp.known[description])
      ensures old(strgrp.nGrps) == 0 ==> fresh(r.value)
      ensures fresh(r.value) ==>
        strgrp.grps == old(strgrp.grps) + [r.value] && r.value.key == description && r.value.items == [Item(description, value)]
      ensures !fresh(r.value) ==>
        r.value in old(strgrp.grps) && strgrp.grps == old(strgrp.grps) && r.value.items == old(r.value.items) + [Item(description, value)]
      ensures forall g :: g in old(strgrp.grps) && g != r.value ==> g.items == old(g.items)
      ensures old(strgrp.nGrps) > 0 && description !in old(strgrp.known) ==>
        forall g :: g in old(strgrp.grps) ==> strgrp.ScoredAgainst(g, description)
      ensures old(strgrp.nGrps) > 0 && description !in old(strgrp.known) && !fresh(r.value) ==>
        r.value.score >= 0.0 && FirstMax(strgrp.grps, r.value)
      ensures old(strgrp.nGrps) > 0 && description !in old(strgrp.known) && fresh(r.value) ==>
        forall g :: g in old(strgrp.grps) ==> g.score < 0.0
      ensures GenId(description) in old(backend.assoc) ==>
        names == old(names)[old(backend.assoc)[GenId(description)] := description] && backend.assoc == old(backend.assoc)
      ensures GenId(description) !in old(backend.assoc) ==>
        && names == old(names)[GenId(description) := description]
        && backend.assoc == old(backend.assoc)[GenId(description) := GenId(description)]
    {
      var g := strgrp.Add(description, value);
      NameNew(description);
      r := Ok(g);
    }

    /**
     * The naming step of the branch of `insert` without a group: an
     * associated description renames its canonical id's entry; any other
     * becomes its own canonical id.
     */
    method NameNew(description: string)
      requires Valid()
      modifies this, backend
      ensures Valid() && strgrp.known == old(strgrp.known)
      ensures forall d :: d in old(backend.assoc) ==> d in backend.assoc && backend.assoc[d] == old(backend.assoc[d])
      ensures Canonical(old(backend.assoc)) ==> Canonical(backend.assoc)
      ensures GenId(description) in old(backend.assoc) ==>
        names == old(names)[old(backend.assoc)[GenId(description)] := description] && backend.assoc == old(backend.assoc)
      ensures GenId(description) !in old(backend.assoc) ==>
        && names == old(names)[GenId(description) := description]
        && backend.assoc == old(backend.assoc)[GenId(description) := GenId(description)]
    {
      var did := GenId(description);
      var associated := backend.HaveAssociation(did);
      if associated {
        var cid := backend.GetCanonical(did);
        names := names[cid.value := description];
      } else {
        ghost var before := backend.assoc;
        if Canonical(before) {
          AssociateKeepsCanonical(before, did, did);
        }
        names := names[did := description];
        var _ := backend.Associate(did, did);
      }
    }

    /** `add`: `insert` into whatever `find_group` finds. */
    method Add(description: string, value: Data, lines: seq<string>) returns (r: Result<Grp>, used: nat, ghost found: Result<Option<Grp>>)
      requires Valid()
      modifies this, backend, strgrp.Repr
      ensures Valid() && fresh(strgrp.Repr - old(strgrp.Repr))
      ensures used <= |lines|
      ensures forall d :: d in old(backend.assoc) ==> d in backend.assoc && backend.assoc[d] == old(backend.assoc[d])
      ensures Canonical(old(backend.assoc)) ==> Canonical(backend.assoc)
      ensures r.Ok? ==> strgrp.known == old(strgrp.known)[description := r.value]
      ensures description in old(strgrp.known) ==> used == 0 && found == Ok(Some(old(strgrp.known)[description]))
      ensures found.Err? ==> r == Err(EOFError)
      ensures found.Ok? && found.value.Some? ==>
        && found.value.value in old(strgrp.grps) && strgrp.grps == old(strgrp.grps)
        && found.value.value.items == old(found.value.value.items) + [Item(description, value)]
        && (forall g :: g in strgrp.grps && g != found.value.value ==> g.items == old(g.items))
        && (r.Ok? ==> r.value == found.value.value)
        && (r.Err? ==> r.error == TypeError)
      ensures description !in old(strgrp.known) && GenId(description) !in old(backend.assoc) && old(strgrp.nGrps) > 0 ==>
        forall g :: g in old(strgrp.grps) ==> strgrp.ScoredAgainst(g, description)
      ensures description !in old(strgrp.known) && GenId(description) !in old(backend.assoc) && size != 0 && found.Ok? && found.value.Some? ==>
        found.value.value.score >= 0.0
      ensures found == Ok(None) ==>
        && r.Ok?
        && (fresh(r.value) ==> strgrp.grps == old(strgrp.grps) + [r.value] && r.value.key == description && r.value.items == [Item(description, value)])
        && (!fresh(r.value) ==> r.value in old(strgrp.grps) && strgrp.grps == old(strgrp.grps) && r.value.items == old(r.value.items) + [Item(description, value)])
        && (forall g :: g in old(strgrp.grps) && g != r.value ==> g.items == old(g.items))
    {
      var grp;
      ghost var needles;
      grp, used, needles := FindGroup(description, lines);
      found := grp;
      if grp.Err? {
        return Err(grp.error), used, found;
      }
      var group: Grp? := if grp.value.Some? then grp.value.value else null;
      assert group != null ==> group in old(strgrp.grps) && group.items == old(group.items);
      assert description !in old(strgrp.known) && GenId(description) !in old(backend.assoc) && size != 0 && group != null ==>
        group.score >= 0.0;
      r := Insert(description, value, group);
    }
  }
}

=== FILE: lcs.dfy ===
/**
 * The longest-common-subsequence length that every grouper of the system is
 * built on, and its two-row dynamic-programming implementation in
 * ext/lcs.c (the `lcs` Python extension used by the taggers).
 *
 * The specification `LcsLen` follows the same suffix recursion the C code
 * fills its table with: the cell for (ia, ib) holds the LCS length of the
 * suffixes a[ia..] and b[ib..].
 */
module Lcs {

  /** The C result type of every `lcs` routine. */
  newtype int16 = x: int | -0x8000 <= x < 0x8000

  const MaxInt16: int := 0x7fff

  function Max(x: int, y: int): (m: int)
    ensures m >= x && m >= y && (m == x || m == y)
  {
    if x > y then x else y
  }

  /** LCS length of a and b, by recursion on their suffixes. */
  function LcsLen(a: string, b: string): nat
    decreases |a| + |b|
  {
    if |a| == 0 || |b| == 0 then 0
    else if a[0] == b[0] then 1 + LcsLen(a[1..], b[1..])
    else Max(LcsLen(a[1..], b), LcsLen(a, b[1..]))
  }

  /** s can be obtained from t by deleting characters. */
  predicate IsSubseq(s: string, t: string)
    decreases |t|
  {
    |s| == 0 ||
    (|t| > 0 && ((s[0] == t[0] && IsSubseq(s[1..], t[1..])) || IsSubseq(s, t[1..])))
  }

  /** A common subsequence of a and b whose length is LcsLen(a, b). */
  function LcsWitness(a: string, b: string): (s: string)
    ensures IsSubseq(s, a) && IsSubseq(s, b) && |s| == LcsLen(a, b)
    decreases |a| + |b|
  {
    if |a| == 0 || |b| == 0 then ""
    else if a[0] == b[0] then [a[0]] + LcsWitness(a[1..], b[1..])
    else if LcsLen(a[1..], b) >= LcsLen(a, b[1..]) then
      var s := LcsWitness(a[1..], b);
      SubseqOfTail(s, a);
      s
    else
      var s := LcsWitness(a, b[1..]);
      SubseqOfTail(s, b);
      s
  }

  lemma SubseqOfTail(s: string, t: string)
    requires |t| > 0 && IsSubseq(s, t[1..])
    ensures IsSubseq(s, t)
  {
  }

  /** Dropping the first character of a never lengthens the LCS. */
  lemma {:induction false} DropFirstOfA(a: string, b: string)
    requires |a| > 0
    ensures LcsLen(a[1..], b) <= LcsLen(a, b)
    decreases |a| + |b|, 1
  {
    if |b| > 0 && a[0] == b[0] {
      DropFirstOfBAtMostOne(a[1..], b);
    }
  }

  /** Dropping the first character of b shortens the LCS by at most one. */
  lemma {:induction false} DropFirstOfBAtMostOne(a: string, b: string)
    requires |b| > 0
    ensures LcsLen(a, b) <= 1 + LcsLen(a, b[1..])
    decreases |a| + |b|, 0
  {
    if |a| > 0 {
      if a[0] == b[0] {
        DropFirstOfA(a, b[1..]);
      } else {
        DropFirstOfBAtMostOne(a[1..], b);
        DropFirstOfA(a, b[1..]);
      }
    }
  }

  /** Dropping the first character of b never lengthens the LCS. */
  lemma {:induction false} DropFirstOfB(a: string, b: string)
    requires |b| > 0
    ensures LcsLen(a, b[1..]) <= LcsLen(a, b)
  {
    Symmetric(a, b);
    Symmetric(a, b[1..]);
    DropFirstOfA(b, a);
  }

  /** No common subsequence is longer than LcsLen: together with LcsWitness,
      LcsLen(a, b) is the length of a LONGEST common subsequence. */
  lemma {:induction false} CommonSubseqAtMostLcs(s: string, a: string, b: string)
    requires IsSubseq(s, a) && IsSubseq(s, b)
    ensures |s| <= LcsLen(a, b)
    decreases |a| + |b|
  {
    if |s| > 0 {
      if IsSubseq(s, a[1..]) {
        CommonSubseqAtMostLcs(s, a[1..], b);
        DropFirstOfA(a, b);
      } else if IsSubseq(s, b[1..]) {
        CommonSubseqAtMostLcs(s, a, b[1..]);
        DropFirstOfB(a, b);
      } else {
        CommonSubseqAtMostLcs(s[1..], a[1..], b[1..]);
      }
    }
  }

  /** The LCS is never longer than either string. */
  lemma {:induction false} AtMostMin(a: string, b: string)
    ensures LcsLen(a, b) <= |a| && LcsLen(a, b) <= |b|
    decreases |a| + |b|
  {
    if |a| > 0 && |b| > 0 {
      if a[0] == b[0] {
        AtMostMin(a[1..], b[1..]);
      } else {
        AtMostMin(a[1..], b);
        AtMostMin(a, b[1..]);
      }
    }
  }

  /** A string is its own longest common subsequence. */
  lemma {:induction false} SelfIsLength(a: string)
    ensures LcsLen(a, a) == |a|
  {
    if |a| > 0 {
      SelfIsLength(a[1..]);
    }
  }

  /** The LCS length does not depend on the argument order. */
  lemma {:induction false} Symmetric(a: string, b: string)
    ensures LcsLen(a, b) == LcsLen(b, a)
    decreases |a| + |b|
  {
    if |a| > 0 && |b| > 0 {
      if a[0] == b[0] {
        Symmetric(a[1..], b[1..]);
      } else {
        Symmetric(a[1..], b);
        Symmetric(a, b[1..]);
      }
    }
  }

  /** The examples of lib/tests/__init__.py for `lcs`. */
  lemma Examples()
    ensures LcsLen("", "") == 0 && LcsLen("", "a") == 0 && LcsLen("a", "") == 0
    ensures LcsLen("a", "a") == 1 && LcsLen("a", "b") == 0
    ensures LcsLen("ab", "ab") == 2 && LcsLen("ab", "ba") == 1
    ensures LcsLen("abc", "dcba") == 1 && LcsLen("dcba", "abc") == 1
    ensures LcsLen("abbb", "aaaa") == 1
  {
    ShortExamples();
    ReversedExample();
    RepeatedExample();
  }

  /** The examples on strings of at most two characters. */
  lemma ShortExamples()
    ensures LcsLen("", "") == 0 && LcsLen("", "a") == 0 && LcsLen("a", "") == 0
    ensures LcsLen("a", "a") == 1 && LcsLen("a", "b") == 0
    ensures LcsLen("ab", "ab") == 2 && LcsLen("ab", "ba") == 1
  {
    SelfIsLength("ab");
    assert LcsLen("b", "ba") == 1;
    assert LcsLen("ab", "a") == 1;
  }

  /** "abc" against "dcba", both ways round. */
  lemma ReversedExample()
    ensures LcsLen("abc", "dcba") == 1 && LcsLen("dcba", "abc") == 1
  {
    assert LcsLen("c", "a") == 0;
    assert LcsLen("bc", "a") == 0;
    assert LcsLen("c", "ba") == 0;
    assert LcsLen("c", "cba") == 1;
    assert LcsLen("bc", "ba") == 1;
    assert LcsLen("bc", "cba") == 1;
    assert LcsLen("abc", "ba") == 1;
    assert LcsLen("abc", "cba") == 1;
    Symmetric("abc", "dcba");
  }

  /** "abbb" against "aaaa": only one 'a' can be matched. */
  lemma RepeatedExample()
    ensures LcsLen("abbb", "aaaa") == 1
  {
    assert LcsLen("bbb", "aaaa") == 0 by { NoSharedChar("bbb", "aaaa"); }
    assert LcsLen("abbb", "aaa") == 1 by { NoSharedChar("bbb", "aaa"); }
    NoSharedChar("bbb", "aaa");
    AtMostMin("abbb", "aaa");
  }

  /** Strings with no character in common have an empty LCS. */
  lemma {:induction false} NoSharedChar(a: string, b: string)
    requires forall i, j :: 0 <= i < |a| && 0 <= j < |b| ==> a[i] != b[j]
    ensures LcsLen(a, b) == 0
    decreases |a| + |b|
  {
    if |a| > 0 && |b| > 0 {
      NoSharedChar(a[1..], b);
      NoSharedChar(a, b[1..]);
    }
  }

  /** A first character of a that b never contains contributes nothing. */
  lemma {:induction false} FirstNotShared(a: string, b: string)
    requires |a| > 0 && forall j :: 0 <= j < |b| ==> b[j] != a[0]
    ensures LcsLen(a, b) == LcsLen(a[1..], b)
    decreases |b|
  {
    if |b| > 0 {
      FirstNotShared(a, b[1..]);
      DropFirstOfB(a[1..], b);
    }
  }

  /** Two strings that differ only in their last character share all the rest. */
  lemma {:induction false} LastDiffers(p: string, x: char, y: char)
    requires x != y
    ensures LcsLen(p + [x], p + [y]) == |p|
  {
    if |p| == 0 {
      assert LcsLen([x], [y]) == Max(LcsLen([], [y]), LcsLen([x], []));
    } else {
      assert (p + [x])[1..] == p[1..] + [x];
      assert (p + [y])[1..] == p[1..] + [y];
      LastDiffers(p[1..], x, y);
    }
  }

  /**
   * The normalised LCS of ext/strgrp.c (`nlcs`) and of the Python tagger
   * (`normal_lcs`): twice the LCS length over the summed lengths.
   */
  function NormalLcs(a: string, b: string): real
    requires |a| + |b| > 0
  {
    2.0 * LcsLen(a, b) as real / (|a| + |b|) as real
  }

  /** The normalised LCS lies in [0, 1], is symmetric, and is 1 for equal strings. */
  lemma NormalLcsRange(a: string, b: string)
    requires |a| + |b| > 0
    ensures 0.0 <= NormalLcs(a, b) <= 1.0
    ensures NormalLcs(a, b) == NormalLcs(b, a)
    ensures a == b ==> NormalLcs(a, b) == 1.0
  {
    AtMostMin(a, b);
    Symmetric(a, b);
    SelfIsLength(a);
    DivBounds(2.0 * LcsLen(a, b) as real, (|a| + |b|) as real, (|a| + |b|) as real);
  }

  /** Dividing 0 <= p <= q <= d by d > 0 keeps the order and lands in [0, 1]. */
  lemma DivBounds(p: real, q: real, d: real)
    requires 0.0 <= p <= q <= d && d > 0.0
    ensures 0.0 <= p / d <= q / d <= 1.0
  {
    assert q / d <= d / d == 1.0;
  }

  /** One cell of the table: the recursion of LcsLen at the suffixes a[ia..], b[ib..]. */
  lemma SuffixStep(a: string, b: string, ia: int, ib: int)
    requires 0 <= ia < |a| && 0 <= ib < |b|
    ensures LcsLen(a[ia..], b[ib..]) ==
      if a[ia] == b[ib] then 1 + LcsLen(a[ia + 1..], b[ib + 1..])
      else Max(LcsLen(a[ia + 1..], b[ib..]), LcsLen(a[ia..], b[ib + 1..]))
    ensures LcsLen(a[ia..], b[ib..]) <= MaxInt16 || (|a| > MaxInt16 && |b| > MaxInt16)
  {
    assert a[ia..][1..] == a[ia + 1..] && b[ib..][1..] == b[ib + 1..];
    AtMostMin(a[ia..], b[ib..]);
  }

  /**
   * The two layouts of the two-row table: ext/lcs.c stores it row-major
   * (`rmindex(r, i, j) = r * i + j`, r = |b| + 1), the groupers interleave
   * the rows (`cmi(i, j) = 2 * j + i`).
   */
  datatype Layout = RowMajor | Interleaved

  /** Position of cell (row, col) of a two-row table with |b| + 1 columns. */
  function Index(layout: Layout, lbp1: int, row: int, col: int): (idx: int)
    requires row == 0 || row == 1
    requires 0 <= col < lbp1
    ensures 0 <= idx < 2 * lbp1
    ensures row == 0 && col == 0 ==> idx == 0
    ensures layout == RowMajor ==> idx == (if row == 0 then col else lbp1 + col)
    ensures layout == Interleaved ==> idx == 2 * col + row
  {
    match layout
    case RowMajor => if row == 0 then col else lbp1 + col
    case Interleaved => 2 * col + row
  }

  /** Every cell of row `row`, from column `from` to |b|, holds the LCS length
      of `suffix` against the matching suffix of b. */
  ghost predicate RowHolds(layout: Layout, t: seq<int16>, row: int, from: int, suffix: string, b: string)
    requires row == 0 || row == 1
    requires |t| == 2 * (|b| + 1)
  {
    forall j :: from <= j <= |b| && 0 <= j ==> t[Index(layout, |b| + 1, row, j)] as int == LcsLen(suffix, b[j..])
  }

  /** Storing the LCS length of a[ia..], b[ib..] in its cell extends the current row
      leftwards by one column and leaves the other row alone. */
  lemma StoreCell(layout: Layout, t: seq<int16>, a: string, b: string, ia: int, ib: int, cur: int, last: int, cell: int16)
    requires 0 <= ia < |a| && 0 <= ib < |b| && |t| == 2 * (|b| + 1)
    requires (cur == 0 && last == 1) || (cur == 1 && last == 0)
    requires RowHolds(layout, t, last, 0, a[ia + 1..], b) && RowHolds(layout, t, cur, ib + 1, a[ia..], b)
    requires cell as int == LcsLen(a[ia..], b[ib..])
    ensures RowHolds(layout, t[Index(layout, |b| + 1, cur, ib) := cell], last, 0, a[ia + 1..], b)
    ensures RowHolds(layout, t[Index(layout, |b| + 1, cur, ib) := cell], cur, ib, a[ia..], b)
  {
  }

  /** A zeroed row is the row of the empty suffix of a. */
  lemma ZeroRow(layout: Layout, t: seq<int16>, row: int, b: string)
    requires row == 0 || row == 1
    requires |t| == 2 * (|b| + 1) && forall k :: 0 <= k < |t| ==> t[k] == 0
    ensures RowHolds(layout, t, row, 0, [], b)
  {
  }

  /** One cell of a row that holds: the last column is 0, column 0 is the whole of b. */
  lemma CellOfRow(layout: Layout, t: seq<int16>, row: int, suffix: string, b: string, j: int)
    requires row == 0 || row == 1
    requires |t| == 2 * (|b| + 1) && 0 <= j <= |b|
    requires RowHolds(layout, t, row, 0, suffix, b)
    ensures t[Index(layout, |b| + 1, row, j)] as int == LcsLen(suffix, b[j..])
    ensures j == |b| ==> t[Index(layout, |b| + 1, row, j)] == 0
    ensures j == 0 ==> t[Index(layout, |b| + 1, row, j)] as int == LcsLen(suffix, b)
  {
    assert b[|b|..] == [] && b[0..] == b;
  }

  /**
   * The body of the inner loop: one more than the diagonal cell of the row
   * below when the characters agree, else the larger of the cell below and
   * the cell to the right. Its value is the LCS length of the two suffixes.
   */
  function NextCell(layout: Layout, t: seq<int16>, a: string, b: string, ia: int, ib: int, cur: int, last: int): (cell: int16)
    requires 0 <= ia < |a| && 0 <= ib < |b| && |t| == 2 * (|b| + 1) && (|a| <= MaxInt16 || |b| <= MaxInt16)
    requires (cur == 0 && last == 1) || (cur == 1 && last == 0)
    requires RowHolds(layout, t, last, 0, a[ia + 1..], b) && RowHolds(layout, t, cur, ib + 1, a[ia..], b)
    ensures cell as int == LcsLen(a[ia..], b[ib..])
  {
    SuffixStep(a, b, ia, ib);
    CellOfRow(layout, t, last, a[ia + 1..], b, ib + 1);
    CellOfRow(layout, t, last, a[ia + 1..], b, ib);
    assert t[Index(layout, |b| + 1, cur, ib + 1)] as int == LcsLen(a[ia..], b[ib + 1..]);
    if a[ia] == b[ib] then
      1 + t[Index(layout, |b| + 1, last, ib + 1)]
    else
      var ap1b := t[Index(layout, |b| + 1, last, ib)];
      var abp1 := t[Index(layout, |b| + 1, cur, ib + 1)];
      if ap1b > abp1 then ap1b else abp1
  }

  /** The inner loop: fills row `cur` (ia & 1) from the last column of b leftwards,
      reading row `last` ((ia + 1) & 1), which holds the row for a[ia + 1..]. */
  method FillRow(layout: Layout, lookup: array<int16>, a: string, b: string, ia: int, cur: int, last: int)
    requires 0 <= ia < |a| && (|a| <= MaxInt16 || |b| <= MaxInt16)
    requires (cur == 0 && last == 1) || (cur == 1 && last == 0)
    requires lookup.Length == 2 * (|b| + 1)
    requires RowHolds(layout, lookup[..], last, 0, a[ia + 1..], b)
    requires lookup[Index(layout, |b| + 1, cur, |b|)] == 0
    modifies lookup
    ensures RowHolds(layout, lookup[..], cur, 0, a[ia..], b)
    ensures RowHolds(layout, lookup[..], last, 0, a[ia + 1..], b)
  {
    var lb := |b|;
    var lbp1 := lb + 1;
    var ib := lb - 1;
    while ib >= 0
      invariant -1 <= ib < lb
      invariant RowHolds(layout, lookup[..], last, 0, a[ia + 1..], b)
      invariant RowHolds(layout, lookup[..], cur, ib + 1, a[ia..], b)
    {
      ghost var t := lookup[..];
      var cell := NextCell(layout, lookup[..], a, b, ia, ib, cur, last);
      StoreCell(layout, t, a, b, ia, ib, cur, last, cell);
      lookup[Index(layout, lbp1, cur, ib)] := cell;
      assert lookup[..] == t[Index(layout, lbp1, cur, ib) := cell];
      ib := ib - 1;
    }
  }

  /**
   * After the row for a[ia..] the rows swap roles: the new last row holds
   * a[ia..], the new current row ends in a zero, and the rows alternate
   * with ia's parity.
   */
  lemma NextRow(layout: Layout, t: seq<int16>, a: string, b: string, ia: int, cur: int, last: int)
    requires 0 <= ia < |a| && |t| == 2 * (|b| + 1)
    requires (cur == 0 && last == 1) || (cur == 1 && last == 0)
    requires last == (ia + 1) % 2
    requires RowHolds(layout, t, cur, 0, a[ia..], b) && RowHolds(layout, t, last, 0, a[ia + 1..], b)
    ensures cur == (ia - 1 + 1) % 2
    ensures RowHolds(layout, t, cur, 0, a[ia - 1 + 1..], b)
    ensures t[Index(layout, |b| + 1, last, |b|)] == 0
  {
    CellOfRow(layout, t, last, a[ia + 1..], b, |b|);
  }

  /** Once every row is filled the last one written is row 0. */
  lemma EvenAtStart(ia: int, last: int)
    requires -1 <= ia < 0 && last == (ia + 1) % 2
    ensures ia == -1 && last == 0
  {
  }

  /** The outer loop: rows for a[la - 1..], a[la - 2..], ..., a[0..] in turn, each
      in row ia & 1, so that row 0 ends up holding the rows of the whole of a. */
  method FillTable(layout: Layout, lookup: array<int16>, a: string, b: string)
    requires |a| <= MaxInt16 || |b| <= MaxInt16
    requires lookup.Length == 2 * (|b| + 1)
    requires forall k :: 0 <= k < lookup.Length ==> lookup[k] == 0
    modifies lookup
    ensures RowHolds(layout, lookup[..], 0, 0, a, b)
  {
    var la := |a|;
    var lb := |b|;
    var lbp1 := lb + 1;
    var ia := la - 1;
    var cur, last := (la + 1) % 2, la % 2;
    assert a[la..] == [];
    ZeroRow(layout, lookup[..], last, b);
    while ia >= 0
      invariant -1 <= ia < la
      invariant (cur == 0 && last == 1) || (cur == 1 && last == 0)
      invariant last == (ia + 1) % 2
      invariant RowHolds(layout, lookup[..], last, 0, a[ia + 1..], b)
      invariant lookup[Index(layout, lbp1, cur, lb)] == 0
    {
      FillRow(layout, lookup, a, b, ia, cur, last);
      NextRow(layout, lookup[..], a, b, ia, cur, last);
      cur, last := last, cur;
      ia := ia - 1;
    }
    EvenAtStart(ia, last);
    assert a[ia + 1..] == a;
  }

  /**
   * The `lcs` routine shared by the system: two rows of |b|+1 cells, zeroed
   * as by calloc and filled by FillTable; cell 0 is the answer.
   */
  method LcsTable(layout: Layout, a: string, b: string) returns (result: int16)
    requires |a| <= MaxInt16 || |b| <= MaxInt16
    ensures result as int == LcsLen(a, b)
    ensures |a| == 0 || |b| == 0 ==> result == 0
  {
    var lookup := new int16[2 * (|b| + 1)];
    forall k | 0 <= k < lookup.Length {
      lookup[k] := 0;
    }
    FillTable(layout, lookup, a, b);
    CellOfRow(layout, lookup[..], 0, a, b, 0);
    result := lookup[0];
  }

  /** ext/lcs.c `lcs`, the `lcs` Python extension: the row-major table. */
  method LcsRowMajor(a: string, b: string) returns (result: int16)
    requires |a| <= MaxInt16 || |b| <= MaxInt16
    ensures result as int == LcsLen(a, b)
  {
    result := LcsTable(RowMajor, a, b);
  }

  /** The groupers' `lcs` (ext/ccan/strgrp/strgrp.c and ext/strgrp.c): the interleaved table. */
  method LcsInterleaved(a: string, b: string) returns (result: int16)
    requires |a| <= MaxInt16 || |b| <= MaxInt16
    ensures result as int == LcsLen(a, b)
  {
    result := LcsTable(Interleaved, a, b);
  }
}

=== FILE: periods.dfy ===
/**
 * Grouping transaction rows by the period their date falls in: the date
 * extractors and the `PeriodGroup` accumulator of lib/fpos/visualise.py.
 * An extractor is any callable from a row's date field to a period key; it
 * is modelled as a total function that returns the key or the exception
 * the callable raises.
 */
module Periods {
  import opened Wrappers
  import opened Dates
  import opened Visualise

  type Extractor = string -> Result<string>

  /** `extract_month`: "%d/%m/%Y" read back as "%m/%Y". */
  function ExtractMonth(s: string): Result<string>
  {
    match ParseDate(s)
    case None => Err(ValueError)
    case Some(d) => Ok(FormatMonth(d))
  }

  /** `extract_week`: "%d/%m/%Y" read back as "%Y:%U". */
  function ExtractYearWeek(s: string): Result<string>
  {
    match ParseDate(s)
    case None => Err(ValueError)
    case Some(d) => Ok(FormatYearWeek(d))
  }

  /** `extract_day`: the date field itself. */
  function ExtractDay(s: string): Result<string>
  {
    Ok(s)
  }

  /** The date extractors send the rendering of a date to that date's period keys. */
  lemma ExtractFormatted(d: Date)
    requires ValidDate(d)
    ensures ExtractMonth(FormatDate(d)) == Ok(FormatMonth(d))
    ensures ExtractYearWeek(FormatDate(d)) == Ok(FormatYearWeek(d))
    ensures ExtractDay(FormatDate(d)) == Ok(FormatDate(d))
  {
    ParseFormatDate(d);
  }

  /** Two dated rows fall in the same month group exactly when their year and month agree. */
  lemma ExtractMonthSame(a: Date, b: Date)
    requires ValidDate(a) && ValidDate(b)
    ensures ExtractMonth(FormatDate(a)) == ExtractMonth(FormatDate(b)) <==>
            a.year == b.year && a.month == b.month
  {
    ExtractFormatted(a);
    ExtractFormatted(b);
    FormatMonthSame(a, b);
  }

  /** `g.setdefault(k, []).append(row)` */
  function File(g: map<string, seq<Row>>, k: string, row: Row): (r: map<string, seq<Row>>)
    ensures r.Keys == g.Keys + {k}
    ensures Get(r, k) == Get(g, k) + [row]
    ensures forall k' :: k' in g && k' != k ==> r[k'] == g[k']
  {
    g[k := Get(g, k) + [row]]
  }

  /* ---------------- the grouping every row goes through ---------------- */

  /**
   * `g` after filing each non-empty row, in order, under its key. (A row
   * without a key is passed over; the callers only group extractable rows.)
   */
  function GroupedInto(g: map<string, seq<Row>>, e: Extractor, rows: seq<Row>): map<string, seq<Row>>
  {
    if |rows| == 0 then g
    else
      var before := GroupedInto(g, e, rows[..|rows| - 1]);
      var row := rows[|rows| - 1];
      if |row| == 0 || e(row[0]).Err? then before else File(before, e(row[0]).value, row)
  }

  /** The non-empty rows whose key is `k`, in their input order. */
  function Selected(e: Extractor, rows: seq<Row>, k: string): seq<Row>
  {
    if |rows| == 0 then []
    else
      var row := rows[|rows| - 1];
      Selected(e, rows[..|rows| - 1], k) + (if |row| > 0 && e(row[0]) == Ok(k) then [row] else [])
  }

  /** The group under `k` is what it held before followed by the rows keyed `k`, in input order. */
  lemma {:induction false} GroupedBucket(g: map<string, seq<Row>>, e: Extractor, rows: seq<Row>, k: string)
    ensures Get(GroupedInto(g, e, rows), k) == Get(g, k) + Selected(e, rows, k)
  {
    if |rows| > 0 {
      var front := rows[..|rows| - 1];
      GroupedBucket(g, e, front, k);
    }
  }

  /** A group exists exactly when it existed before or some row is keyed to it. */
  lemma {:induction false} GroupedKeys(g: map<string, seq<Row>>, e: Extractor, rows: seq<Row>, k: string)
    ensures k in GroupedInto(g, e, rows) <==> k in g || |Selected(e, rows, k)| > 0
  {
    if |rows| > 0 {
      var front := rows[..|rows| - 1];
      GroupedKeys(g, e, front, k);
    }
  }

  /** A non-empty row is selected under its own key and under no other. */
  lemma {:induction false} SelectedOnce(e: Extractor, rows: seq<Row>, i: nat, k: string)
    requires i < |rows| && |rows[i]| > 0 && e(rows[i][0]).Ok?
    ensures rows[i] in Selected(e, rows, k) <==> k == e(rows[i][0]).value
  {
    var row := rows[|rows| - 1];
    var front := rows[..|rows| - 1];
    if i == |rows| - 1 {
      if k == e(rows[i][0]).value {
        assert rows[i] == Selected(e, rows, k)[|Selected(e, rows, k)| - 1];
      } else {
        SelectedKeyed(e, front, k);
      }
    } else {
      assert rows[i] == front[i];
      SelectedOnce(e, front, i, k);
    }
  }

  /** Every row selected under `k` is keyed `k`. */
  lemma {:induction false} SelectedKeyed(e: Extractor, rows: seq<Row>, k: string)
    ensures forall row :: row in Selected(e, rows, k) ==> |row| > 0 && e(row[0]) == Ok(k)
  {
    if |rows| > 0 {
      SelectedKeyed(e, rows[..|rows| - 1], k);
    }
  }

  /* ---------------- PeriodGroup ---------------- */

  /** Extractor `j` accepts the date `s` and has one of the `n` groups to file under. */
  predicate Passes(es: seq<Extractor>, n: int, s: string, j: int)
  {
    0 <= j < |es| && j < n && es[j](s).Ok?
  }

  /**
   * Where `add` stops filing a row dated `s`, looking from extractor `i`:
   * the first extractor that raises or that has no group.
   */
  function Stop(es: seq<Extractor>, n: int, s: string, i: nat): (k: nat)
    requires i <= |es|
    ensures i <= k <= |es|
    ensures forall j :: i <= j < k ==> Passes(es, n, s, j)
    ensures k < |es| ==> !Passes(es, n, s, k)
    decreases |es| - i
  {
    if i == |es| || !Passes(es, n, s, i) then i else Stop(es, n, s, i + 1)
  }

  /** What `add` of a row dated `s` returns: the first exception, the extractor's before the index's. */
  function Outcome(es: seq<Extractor>, n: int, s: string): Result<()>
  {
    var k := Stop(es, n, s, 0);
    if k == |es| then Ok(())
    else if es[k](s).Err? then Err(es[k](s).error)
    else Err(IndexError)
  }

  /** `add` succeeds exactly when every extractor accepts the date and has a group. */
  lemma OutcomeOk(es: seq<Extractor>, n: int, s: string)
    ensures Outcome(es, n, s).Ok? <==> forall j :: 0 <= j < |es| ==> Passes(es, n, s, j)
  {
    var k := Stop(es, n, s, 0);
    if k < |es| {
      assert !Passes(es, n, s, k);
    }
  }

  /** A row `add` files without raising. */
  predicate Addable(es: seq<Extractor>, n: int, row: Row)
  {
    |row| == 0 || Outcome(es, n, row[0]).Ok?
  }

  /** The first `i` rows are addable, one after another. */
  predicate AddableUpTo(es: seq<Extractor>, n: int, rows: seq<Row>, i: int)
    decreases i
  {
    i <= 0 || (i <= |rows| && AddableUpTo(es, n, rows, i - 1) && Addable(es, n, rows[i - 1]))
  }

  lemma {:induction false} AddableUpToAll(es: seq<Extractor>, n: int, rows: seq<Row>, i: nat)
    requires i <= |rows|
    ensures AddableUpTo(es, n, rows, i) <==> forall h :: 0 <= h < i ==> Addable(es, n, rows[h])
    decreases i
  {
    if i > 0 {
      AddableUpToAll(es, n, rows, i - 1);
    }
  }

  /** Group `j` of `gs` after `add(row)`: the row appended if extractor `j` comes before the stop. */
  function AfterAdd(gs: seq<map<string, seq<Row>>>, es: seq<Extractor>, row: Row, j: int): map<string, seq<Row>>
    requires |row| > 0 && 0 <= j < |gs|
  {
    if j < Stop(es, |gs|, row[0], 0) then
      assert Passes(es, |gs|, row[0], j);
      File(gs[j], es[j](row[0]).value, row)
    else gs[j]
  }

  class PeriodGroup {
    var extractors: seq<Extractor>
    var groupList: seq<map<string, seq<Row>>>

    /** No extractor is without its group list once construction is right. */
    ghost predicate Valid()
      reads this
    {
      |groupList| <= |extractors|
    }

    /** Every extractor has its group. */
    ghost predicate Full()
      reads this
    {
      |groupList| == |extractors|
    }

    /**
     * `__init__` as written: the extractors default to `extract_month`, but
     * one empty group is made per extractor passed in.
     */
    constructor (extractors: seq<Extractor>)
      ensures this.extractors == if |extractors| == 0 then [ExtractMonth] else extractors
      ensures |groupList| == |extractors|
      ensures forall j :: 0 <= j < |groupList| ==> groupList[j] == map[]
      ensures Valid()
    {
      this.extractors := if |extractors| == 0 then [ExtractMonth] else extractors;
      groupList := seq(|extractors|, _ => map[]);
    }

    /** `__init__` as intended: one empty group per extractor in use. */
    constructor Corrected(extractors: seq<Extractor>)
      ensures this.extractors == if |extractors| == 0 then [ExtractMonth] else extractors
      ensures |groupList| == |this.extractors|
      ensures forall j :: 0 <= j < |groupList| ==> groupList[j] == map[]
      ensures Valid() && Full()
    {
      var es := if |extractors| == 0 then [ExtractMonth] else extractors;
      this.extractors := es;
      groupList := seq(|es|, _ => map[]);
    }

    /**
     * `add`: an empty row is ignored; otherwise the row is appended to the
     * group its date falls in under each extractor in turn, until an
     * extractor raises or has no group. The groups filed before that stay.
     */
    method Add(row: Row) returns (r: Result<()>)
      modifies this
      ensures extractors == old(extractors) && |groupList| == |old(groupList)|
      ensures |row| == 0 ==> r == Ok(()) && groupList == old(groupList)
      ensures |row| > 0 ==> r == Outcome(extractors, |old(groupList)|, row[0])
      ensures |row| > 0 ==> forall j :: 0 <= j < |groupList| ==>
        groupList[j] == AfterAdd(old(groupList), extractors, row, j)
    {
      if |row| == 0 {
        return Ok(());
      }
      var s := row[0];
      ghost var n := |groupList|;
      ghost var k := Stop(extractors, n, s, 0);
      var i := 0;
      while i < |extractors|
        invariant 0 <= i <= k
        invariant extractors == old(extractors) && |groupList| == n
        invariant forall j :: 0 <= j < i ==>
          Passes(extractors, n, s, j) && groupList[j] == File(old(groupList)[j], extractors[j](s).value, row)
        invariant forall j :: i <= j < n ==> groupList[j] == old(groupList)[j]
      {
        var d := extractors[i](s);
        if d.Err? || i >= |groupList| {
          assert !Passes(extractors, n, s, i);
          if d.Err? {
            return Err(d.error);
          }
          return Err(IndexError);
        }
        assert Passes(extractors, n, s, i);
        groupList := groupList[i := File(groupList[i], d.value, row)];
        i := i + 1;
      }
      return Ok(());
    }

    /**
     * `add_all`: `add` of each row in order. When every row is filed, each
     * group is the grouping of all the rows into what it held; otherwise the
     * exception is that of the first row `add` refuses.
     */
    method AddAll(rows: seq<Row>) returns (r: Result<()>)
      requires Valid()
      modifies this
      ensures Valid() && extractors == old(extractors) && |groupList| == |old(groupList)|
      ensures r.Ok? ==> forall i :: 0 <= i < |rows| ==> Addable(extractors, |old(groupList)|, rows[i])
      ensures r.Err? ==>
        exists i :: 0 <= i < |rows| && Refused(extractors, |old(groupList)|, rows[i], r) &&
          forall h :: 0 <= h < i ==> Addable(extractors, |old(groupList)|, rows[h])
      ensures r.Ok? ==> AllGrouped(old(groupList), extractors, groupList, rows)
    {
      ghost var n := |groupList|;
      ghost var es := extractors;
      ghost var start := groupList;
      var i := 0;
      while i < |rows|
        invariant 0 <= i <= |rows|
        invariant extractors == es && |groupList| == n && n <= |es|
        invariant AddableUpTo(es, n, rows, i)
        invariant AllGrouped(start, es, groupList, rows[..i])
      {
        ghost var before := groupList;
        var row := rows[i];
        r := Add(row);
        if r.Err? {
          assert Refused(es, n, rows[i], r);
          AddableUpToAll(es, n, rows, i);
          return;
        }
        AddStep(es, n, rows, i, start, before, groupList);
        i := i + 1;
      }
      AddableUpToAll(es, n, rows, i);
      assert rows[..i] == rows;
      r := Ok(());
    }

    /** `groups`: a copy of the group list, one grouping per extractor. */
    function Groups(): seq<map<string, seq<Row>>>
      reads this
    {
      groupList
    }
  }

  /**
   * `row` stops `add_all` with `r`: it is not empty, `add` raises `r` on it
   * and so it is not addable.
   */
  predicate Refused(es: seq<Extractor>, n: int, row: Row, r: Result<()>)
  {
    |row| > 0 && r.Err? && r == Outcome(es, n, row[0]) && !Addable(es, n, row)
  }

  /** Each group of `gs` is the grouping of `rows` into the matching group of `start`. */
  ghost predicate AllGrouped(start: seq<map<string, seq<Row>>>, es: seq<Extractor>,
                             gs: seq<map<string, seq<Row>>>, rows: seq<Row>)
  {
    |gs| == |start| && |start| <= |es| &&
    forall j :: 0 <= j < |gs| ==> gs[j] == GroupedInto(start[j], es[j], rows)
  }

  /** One successful `add` inside `add_all` extends every grouping by the row. */
  lemma AddStep(es: seq<Extractor>, n: nat, rows: seq<Row>, i: nat,
                start: seq<map<string, seq<Row>>>, before: seq<map<string, seq<Row>>>,
                after: seq<map<string, seq<Row>>>)
    requires i < |rows| && n <= |es| && |start| == n && |before| == n && |after| == n
    requires AllGrouped(start, es, before, rows[..i])
    requires |rows[i]| == 0 ==> after == before
    requires |rows[i]| > 0 ==> Outcome(es, n, rows[i][0]).Ok?
    requires |rows[i]| > 0 ==> forall j :: 0 <= j < |after| ==> after[j] == AfterAdd(before, es, rows[i], j)
    ensures Addable(es, n, rows[i])
    ensures AllGrouped(start, es, after, rows[..i + 1])
  {
    var next := rows[..i + 1];
    assert next[..i] == rows[..i];
    assert next[i] == rows[i];
    if |rows[i]| > 0 {
      OutcomeOk(es, n, rows[i][0]);
    }
    forall j | 0 <= j < n
      ensures after[j] == GroupedInto(start[j], es[j], next)
    {
      if |rows[i]| > 0 {
        assert Passes(es, n, rows[i][0], j);
      }
    }
  }

  /** With no extractors passed, `add` of any well-dated row raises IndexError. */
  method NoExtractorsAddFails(d: Date) returns (r: Result<()>)
    requires ValidDate(d)
    ensures r == Err(IndexError)
  {
    ExtractFormatted(d);
    var g := new PeriodGroup([]);
    r := g.Add([FormatDate(d)]);
  }

  /** Constructed as intended, the same `add` files the row under its month. */
  method CorrectedAddFiles(d: Date) returns (r: Result<()>, groups: seq<map<string, seq<Row>>>)
    requires ValidDate(d)
    ensures r == Ok(()) && groups == [map[FormatMonth(d) := [[FormatDate(d)]]]]
  {
    ExtractFormatted(d);
    var g := new PeriodGroup.Corrected([]);
    var row := [FormatDate(d)];
    assert g.extractors[0](row[0]) == Ok(FormatMonth(d));
    assert Stop(g.extractors, 1, row[0], 0) == 1;
    r := g.Add(row);
    assert g.groupList[0] == File(map[], FormatMonth(d), row);
    assert Get(map[], FormatMonth(d)) + [row] == [row];
    groups := g.Groups();
  }
}

=== FILE: pipes.dfy ===
/**
 * Generators drained to the end: a map or a filter over a sequence, each
 * step of which may raise. The first exception ends the stream. `list()`
 * then has nothing (Map, Filter); a loop that writes each row as it comes,
 * or `writerows`, keeps the rows written before the exception (Drain).
 */
module Pipes {
  import opened Wrappers

  /**
   * A generator filter drained: the elements the judge keeps, in order, or
   * the error of the first element it cannot judge.
   */
  function Filter<T(!new)>(judge: T -> Result<bool>, xs: seq<T>): (r: Result<seq<T>>)
    ensures r.Ok? <==> forall i :: 0 <= i < |xs| ==> judge(xs[i]).Ok?
    ensures r.Ok? ==> |r.value| <= |xs|
    ensures r.Ok? ==> forall x :: x in r.value <==> x in xs && judge(x) == Ok(true)
  {
    if |xs| == 0 then Ok([])
    else
      var rest := Filter(judge, xs[1..]);
      match judge(xs[0])
      case Err(e) => Err(e)
      case Ok(keep) =>
        if rest.Err? then rest
        else if keep then Ok([xs[0]] + rest.value)
        else rest
  }

  /** Filtering two sequences one after the other is filtering each. */
  lemma {:induction false} FilterAppend<T(!new)>(judge: T -> Result<bool>, a: seq<T>, b: seq<T>)
    requires Filter(judge, a).Ok? && Filter(judge, b).Ok?
    ensures Filter(judge, a + b) == Ok(Filter(judge, a).value + Filter(judge, b).value)
  {
    if |a| > 0 {
      assert (a + b)[0] == a[0] && (a + b)[1..] == a[1..] + b;
      assert judge(a[0]).Ok?;
      FilterAppend(judge, a[1..], b);
      var x := Filter(judge, a[1..]).value;
      var y := Filter(judge, b).value;
      assert ([a[0]] + x) + y == [a[0]] + (x + y);
    } else {
      assert a + b == b && Filter(judge, a).value == [];
      assert [] + Filter(judge, b).value == Filter(judge, b).value;
    }
  }

  /** Filtering what a filter kept keeps all of it. */
  lemma {:induction false} FilterIdempotent<T(!new)>(judge: T -> Result<bool>, xs: seq<T>)
    requires Filter(judge, xs).Ok?
    ensures Filter(judge, Filter(judge, xs).value) == Filter(judge, xs)
  {
    if |xs| > 0 {
      FilterIdempotent(judge, xs[1..]);
      assert judge(xs[0]).Ok?;
      var rest := Filter(judge, xs[1..]).value;
      if judge(xs[0]) == Ok(true) {
        assert ([xs[0]] + rest)[1..] == rest;
      }
    }
  }

  /** A generator map drained: every element transformed, or the error of the first that fails. */
  function Map<T, U>(f: T -> Result<U>, xs: seq<T>): (r: Result<seq<U>>)
    ensures r.Ok? <==> forall i :: 0 <= i < |xs| ==> f(xs[i]).Ok?
    ensures r.Ok? ==> |r.value| == |xs| && forall i :: 0 <= i < |xs| ==> r.value[i] == f(xs[i]).value
    ensures r.Err? ==> exists i :: 0 <= i < |xs| && f(xs[i]) == Err(r.error) && forall j :: 0 <= j < i ==> f(xs[j]).Ok?
  {
    if |xs| == 0 then Ok([])
    else
      match f(xs[0])
      case Err(e) => Err(e)
      case Ok(y) =>
        var rest := Map(f, xs[1..]);
        if rest.Err? then
          ghost var i :| 0 <= i < |xs[1..]| && f(xs[1..][i]) == Err(rest.error) && forall j :: 0 <= j < i ==> f(xs[1..][j]).Ok?;
          assert f(xs[i + 1]) == Err(rest.error);
          assert forall j :: 0 <= j < i + 1 ==> f(xs[j]).Ok? by {
            forall j | 0 <= j < i + 1 ensures f(xs[j]).Ok? {
              if j > 0 {
                assert xs[j] == xs[1..][j - 1];
              }
            }
          }
          Err(rest.error)
        else Ok([y] + rest.value)
  }

  /** A map yields ys exactly when every element succeeds with the value at its position in ys. */
  lemma MapOkIff<T, U>(f: T -> Result<U>, xs: seq<T>, ys: seq<U>)
    ensures Map(f, xs) == Ok(ys) <==> |ys| == |xs| && forall i :: 0 <= i < |xs| ==> f(xs[i]) == Ok(ys[i])
  {
    if |ys| == |xs| && forall i :: 0 <= i < |xs| ==> f(xs[i]) == Ok(ys[i]) {
      var r := Map(f, xs);
      assert r.Ok?;
      assert r.value == ys;
    }
  }

  /** What a writer drained from a stream: the rows written, and the exception that stopped it, if any. */
  datatype Drained<U> = Drained(written: seq<U>, failure: Option<Error>)

  /**
   * A generator map drained into a writer: the values of the elements
   * before the first that fails, and that element's exception.
   */
  function Drain<T, U>(f: T -> Result<U>, xs: seq<T>): (d: Drained<U>)
    ensures |d.written| <= |xs|
    ensures forall i :: 0 <= i < |d.written| ==> f(xs[i]) == Ok(d.written[i])
    ensures d.failure.None? <==> |d.written| == |xs|
    ensures d.failure.Some? ==> f(xs[|d.written|]) == Err(d.failure.value)
  {
    if |xs| == 0 then Drained([], None)
    else
      match f(xs[0])
      case Err(e) => Drained([], Some(e))
      case Ok(y) =>
        var rest := Drain(f, xs[1..]);
        Drained([y] + rest.written, rest.failure)
  }

  /** Draining into a writer and draining with `list()` agree: all of Map's values, or Map's exception after the rows before it. */
  lemma DrainIsMap<T, U>(f: T -> Result<U>, xs: seq<T>)
    ensures Map(f, xs).Ok? <==> Drain(f, xs).failure.None?
    ensures Map(f, xs).Ok? ==> Drain(f, xs).written == Map(f, xs).value
    ensures Map(f, xs).Err? ==> Drain(f, xs).failure == Some(Map(f, xs).error)
  {
    var d := Drain(f, xs);
    if Map(f, xs).Err? {
      MapFirstError(f, xs, |d.written|);
    }
  }

  /** A map over two elements that both succeed. */
  lemma MapTwo<T, U>(f: T -> Result<U>, a: T, b: T)
    requires f(a).Ok? && f(b).Ok?
    ensures Map(f, [a, b]) == Ok([f(a).value, f(b).value])
  {
    var xs := [a, b];
    assert forall i :: 0 <= i < |xs| ==> f(xs[i]).Ok?;
    var r := Map(f, xs);
    assert r.value[0] == f(a).value && r.value[1] == f(b).value;
    assert r.value == [f(a).value, f(b).value];
  }

  /** The stream stops at the first element that raises. */
  lemma MapFirstError<T, U>(f: T -> Result<U>, xs: seq<T>, i: nat)
    requires i < |xs| && f(xs[i]).Err? && forall j :: 0 <= j < i ==> f(xs[j]).Ok?
    ensures Map(f, xs) == Err(f(xs[i]).error)
  {
    var r := Map(f, xs);
    var k :| 0 <= k < |xs| && f(xs[k]) == Err(r.error) && forall j :: 0 <= j < k ==> f(xs[j]).Ok?;
    assert k == i;
  }

  /** The stream stops at the first element that raises, after a prefix that did not. */
  lemma MapStops<T, U>(f: T -> Result<U>, xs: seq<T>, i: nat)
    requires i < |xs| && Map(f, xs[..i]).Ok? && f(xs[i]).Err?
    ensures Map(f, xs) == Err(f(xs[i]).error)
  {
    forall j | 0 <= j < i
      ensures f(xs[j]).Ok?
    {
      assert xs[..i][j] == xs[j];
    }
    MapFirstError(f, xs, i);
  }

  /** One more element that succeeds adds its value at the end. */
  lemma MapSnoc<T, U>(f: T -> Result<U>, xs: seq<T>, x: T, ys: seq<U>, y: U)
    requires Map(f, xs) == Ok(ys) && f(x) == Ok(y)
    ensures Map(f, xs + [x]) == Ok(ys + [y])
  {
    var zs := xs + [x];
    forall i | 0 <= i < |zs|
      ensures f(zs[i]).Ok? && f(zs[i]).value == (ys + [y])[i]
    {
      if i < |xs| {
        assert zs[i] == xs[i];
      }
    }
    var r := Map(f, zs);
    assert r.value == ys + [y];
  }

  /** The same, for a longer prefix of one sequence. */
  lemma MapPrefix<T, U>(f: T -> Result<U>, xs: seq<T>, i: nat, ys: seq<U>, y: U)
    requires i < |xs| && Map(f, xs[..i]) == Ok(ys) && f(xs[i]) == Ok(y)
    ensures Map(f, xs[..i + 1]) == Ok(ys + [y])
  {
    assert xs[..i + 1] == xs[..i] + [xs[i]];
    MapSnoc(f, xs[..i], xs[i], ys, y);
  }
}

=== FILE: predict.dfy ===
/**
 * Spending prediction: the gaps in days between the dated members of a
 * spend group, their histogram, the period it suggests, the probability
 * mass function of the gaps and the spend expected in each bin, the most
 * recent member date, and the running totals a stacked bar chart starts
 * its bars at.
 *
 * Amounts and probabilities are exact reals; the histogram is over
 * integers.
 */
module Predict {
  import opened Wrappers
  import opened Dates
  import opened Sorting
  import opened Pipes

  type Row = seq<string>

  /** `pd(x[0])`: the date a member row names, or the error reading it raises. */
  function RowDate(x: Row): (r: Result<Date>)
    ensures r.Ok? ==> ValidDate(r.value)
    ensures r.Err? ==> (r.error == IndexError <==> |x| == 0) && (r.error == ValueError <==> |x| > 0)
  {
    if |x| == 0 then Err(IndexError)
    else
      match ParseDate(x[0])
      case None => Err(ValueError)
      case Some(d) => Ok(d)
  }

  predicate AllValid(ds: seq<Date>)
  {
    forall i :: 0 <= i < |ds| ==> ValidDate(ds[i])
  }

  /** The days from each date to the next. */
  function Gaps(ds: seq<Date>): (r: seq<int>)
    requires AllValid(ds)
    ensures |r| == if |ds| == 0 then 0 else |ds| - 1
  {
    var n := if |ds| == 0 then 0 else |ds| - 1;
    seq(n, p requires 0 <= p < n => DaysBetween(ds[p + 1], ds[p]))
  }

  lemma BeforeOrder()
    ensures StrictWeakOrder(Before)
  {
  }

  /**
   * `group_deltas(group)`: the members sorted by date, then the days from
   * each member to the next. The sort computes every key first, so the
   * first member whose date cannot be read decides the error. Only the
   * dates of the sorted members are read afterwards, and they are the
   * members' dates sorted.
   */
  function GroupDeltas(group: seq<Row>): (r: Result<seq<int>>)
    ensures r.Ok? <==> Map(RowDate, group).Ok?
    ensures r.Err? ==> r.error == Map(RowDate, group).error
    ensures r.Ok? ==> |r.value| == if |group| == 0 then 0 else |group| - 1
  {
    match Map(RowDate, group)
    case Err(e) => Err(e)
    case Ok(dates) =>
      DatesValid(group, dates);
      SortedValid(dates);
      Ok(Gaps(SortBy(Before, dates)))
  }

  lemma DatesValid(group: seq<Row>, dates: seq<Date>)
    requires Map(RowDate, group) == Ok(dates)
    ensures AllValid(dates)
  {
  }

  lemma SortedValid(dates: seq<Date>)
    requires AllValid(dates)
    ensures AllValid(SortBy(Before, dates))
  {
    var sm := SortBy(Before, dates);
    forall i | 0 <= i < |sm|
      ensures ValidDate(sm[i])
    {
      assert sm[i] in multiset(dates);
    }
  }

  /** Between dates in order no gap is negative. */
  lemma GapsNonNegative(sm: seq<Date>)
    requires AllValid(sm) && SortedBy(Before, sm)
    ensures forall p :: 0 <= p < |Gaps(sm)| ==> Gaps(sm)[p] >= 0
  {
    forall p | 0 <= p < |sm| - 1
      ensures DaysBetween(sm[p + 1], sm[p]) >= 0
    {
      assert !Before(sm[p + 1], sm[p]);
      OrdinalOrder(sm[p + 1], sm[p]);
    }
  }

  /** Sorting first makes every gap non-negative. */
  lemma DeltasNonNegative(group: seq<Row>, dates: seq<Date>, deltas: seq<int>)
    requires Map(RowDate, group) == Ok(dates) && GroupDeltas(group) == Ok(deltas)
    ensures forall p :: 0 <= p < |deltas| ==> deltas[p] >= 0
  {
    DatesValid(group, dates);
    SortedValid(dates);
    BeforeOrder();
    SortSorted(Before, dates);
    GapsNonNegative(SortBy(Before, dates));
  }

  /** How many times v occurs in xs. */
  function Count(xs: seq<int>, v: int): (n: nat)
    ensures n <= |xs|
    ensures n > 0 <==> v in xs
  {
    if |xs| == 0 then 0
    else Count(xs[..|xs| - 1], v) + (if xs[|xs| - 1] == v then 1 else 0)
  }

  /** The largest element, 0 for none. */
  function MaxOr0(xs: seq<int>): (m: int)
    ensures forall i :: 0 <= i < |xs| ==> xs[i] <= m
    ensures |xs| > 0 ==> m in xs
    ensures |xs| == 0 ==> m == 0
  {
    if |xs| == 0 then 0
    else if |xs| == 1 then xs[0]
    else
      var m := MaxOr0(xs[..|xs| - 1]);
      assert m in xs[..|xs| - 1];
      if xs[|xs| - 1] > m then xs[|xs| - 1] else m
  }

  /**
   * `group_delta_bins(deltas)`: `np.bincount(deltas)[1:]`. bincount has one
   * bin per value from 0 to the largest and raises ValueError on a
   * negative value; the bin of 0 is dropped.
   */
  function GroupDeltaBins(deltas: seq<int>): (r: Result<seq<nat>>)
    ensures r.Err? <==> exists i :: 0 <= i < |deltas| && deltas[i] < 0
    ensures r.Err? ==> r.error == ValueError
  {
    if exists i :: 0 <= i < |deltas| && deltas[i] < 0 then Err(ValueError)
    else
      var m := MaxOr0(deltas);
      Ok(seq(m, i requires 0 <= i < m => Count(deltas, i + 1)))
  }

  /**
   * The histogram has one bin per gap length from one day up to the
   * longest gap: bin i counts the gaps of i + 1 days, and gaps of zero days
   * are in no bin.
   */
  lemma BinsCount(deltas: seq<int>)
    requires GroupDeltaBins(deltas).Ok?
    ensures |GroupDeltaBins(deltas).value| == MaxOr0(deltas)
    ensures forall i :: 0 <= i < |GroupDeltaBins(deltas).value| ==> GroupDeltaBins(deltas).value[i] == Count(deltas, i + 1)
    ensures forall d :: d in deltas && d > 0 ==> 0 < d <= |GroupDeltaBins(deltas).value| && GroupDeltaBins(deltas).value[d - 1] > 0
  {
    var bins := GroupDeltaBins(deltas).value;
    forall d | d in deltas && d > 0
      ensures d <= |bins| && bins[d - 1] > 0
    {
      var i :| 0 <= i < |deltas| && deltas[i] == d;
    }
  }

  /** The 1-based index of the last positive bin, or None when there is none: the specification of `period`. */
  function LastPositive(bins: seq<int>): (r: Option<int>)
    ensures r.Some? ==> 1 <= r.value <= |bins| && bins[r.value - 1] > 0 &&
                        forall q :: r.value <= q < |bins| ==> bins[q] <= 0
    ensures r.None? <==> forall q :: 0 <= q < |bins| ==> bins[q] <= 0
  {
    if |bins| == 0 then None
    else if bins[|bins| - 1] > 0 then Some(|bins|)
    else LastPositive(bins[..|bins| - 1])
  }

  /**
   * `period(bins)`: ValueError for no bins; otherwise the bins are scanned
   * from the back and the 1-based index of the first positive one met is
   * returned, None when all are zero.
   */
  method Period(bins: seq<int>) returns (r: Result<Option<int>>)
    ensures |bins| == 0 ==> r == Err(ValueError)
    ensures |bins| > 0 ==> r == Ok(LastPositive(bins))
  {
    if 0 == |bins| {
      return Err(ValueError);
    }
    var i := 0;
    while i < |bins|
      invariant 0 <= i <= |bins|
      invariant forall q :: |bins| - i <= q < |bins| ==> bins[q] <= 0
    {
      var e := bins[|bins| - 1 - i];
      if e > 0 {
        return Ok(Some(|bins| - i));
      }
      i := i + 1;
    }
    return Ok(None);
  }

  /**
   * The period of a group's histogram is its longest gap: the last
   * non-empty bin is the one for the largest delta. With no gap of a day
   * or more there are no bins at all.
   */
  lemma PeriodIsLongestGap(deltas: seq<int>)
    requires GroupDeltaBins(deltas).Ok?
    ensures MaxOr0(deltas) > 0 ==> LastPositive(GroupDeltaBins(deltas).value) == Some(MaxOr0(deltas))
    ensures MaxOr0(deltas) <= 0 ==> GroupDeltaBins(deltas).value == []
  {
    var bins := GroupDeltaBins(deltas).value;
    var m := MaxOr0(deltas);
    if m > 0 {
      BinsCount(deltas);
      assert bins[m - 1] > 0;
    }
  }

  /** `sum(xs)` over integers. */
  function SumInt(xs: seq<int>): int
  {
    if |xs| == 0 then 0 else SumInt(xs[..|xs| - 1]) + xs[|xs| - 1]
  }

  /** `sum(xs)` over reals. */
  function Sum(xs: seq<real>): real
  {
    if |xs| == 0 then 0.0 else Sum(xs[..|xs| - 1]) + xs[|xs| - 1]
  }

  /** Every bin divided by n. */
  function Shares(bins: seq<int>, n: real): (r: seq<real>)
    requires n != 0.0
    ensures |r| == |bins| && forall i :: 0 <= i < |bins| ==> r[i] * n == bins[i] as real
  {
    seq(|bins|, i requires 0 <= i < |bins| => bins[i] as real / n)
  }

  /**
   * `pmf(bins)`: each bin over the total. A zero total with some bin to
   * divide raises ZeroDivisionError.
   */
  function Pmf(bins: seq<int>): (r: Result<seq<real>>)
    ensures |bins| == 0 ==> r == Ok([])
    ensures r.Err? <==> |bins| > 0 && SumInt(bins) == 0
    ensures r.Err? ==> r.error == ZeroDivisionError
    ensures r.Ok? ==> |r.value| == |bins| && forall i :: 0 <= i < |bins| ==> r.value[i] * SumInt(bins) as real == bins[i] as real
  {
    var n := SumInt(bins);
    if |bins| == 0 then Ok([])
    else if n == 0 then Err(ZeroDivisionError)
    else Ok(Shares(bins, n as real))
  }

  /** `expected_spend(mf, mean)`: the mean spread over the bins in proportion to each. */
  function ExpectedSpend(mf: seq<real>, mean: real): (r: seq<real>)
    ensures |r| == |mf|
  {
    seq(|mf|, i requires 0 <= i < |mf| => mf[i] * mean)
  }

  /** Scaling every element scales the sum. */
  lemma {:induction false} SumScaled(xs: seq<real>, c: real)
    ensures Sum(ExpectedSpend(xs, c)) == Sum(xs) * c
  {
    var ys := ExpectedSpend(xs, c);
    if |xs| > 0 {
      var front := xs[..|xs| - 1];
      SumScaled(front, c);
      assert forall i :: 0 <= i < |front| ==> ys[..|ys| - 1][i] == ExpectedSpend(front, c)[i];
      assert ys[..|ys| - 1] == ExpectedSpend(front, c);
    }
  }

  lemma {:induction false} SumOfShares(bins: seq<int>, n: real)
    requires n != 0.0
    ensures Sum(Shares(bins, n)) == SumInt(bins) as real / n
  {
    var ys := Shares(bins, n);
    if |bins| > 0 {
      var front := bins[..|bins| - 1];
      SumOfShares(front, n);
      assert forall i :: 0 <= i < |front| ==> ys[..|ys| - 1][i] == Shares(front, n)[i];
      assert ys[..|ys| - 1] == Shares(front, n);
    }
  }

  /** Over exact reals the mass function sums to one. */
  lemma PmfSumsToOne(bins: seq<int>)
    requires SumInt(bins) != 0
    ensures Pmf(bins).Ok? && Sum(Pmf(bins).value) == 1.0
  {
    var n := SumInt(bins) as real;
    SumOfShares(bins, n);
    assert n / n == 1.0;
  }

  /** The expected spends add up to the mean times the total mass, so to the mean for a mass function. */
  lemma ExpectedSpendSum(mf: seq<real>, mean: real)
    ensures Sum(ExpectedSpend(mf, mean)) == Sum(mf) * mean
  {
    SumScaled(mf, mean);
  }

  /** The spends expected from a group's histogram add up to the group's mean. */
  lemma ForecastKeepsMean(bins: seq<int>, mean: real)
    requires SumInt(bins) != 0
    ensures Sum(ExpectedSpend(Pmf(bins).value, mean)) == mean
  {
    PmfSumsToOne(bins);
    ExpectedSpendSum(Pmf(bins).value, mean);
  }

  /** The latest of some dates. */
  function MaxDate(ds: seq<Date>): (m: Date)
    requires |ds| > 0
    ensures m in ds
    ensures forall i :: 0 <= i < |ds| ==> !Before(m, ds[i])
  {
    if |ds| == 1 then ds[0]
    else
      var m := MaxDate(ds[..|ds| - 1]);
      assert m in ds[..|ds| - 1];
      if Before(m, ds[|ds| - 1]) then ds[|ds| - 1] else m
  }

  /**
   * `last(members)`: the most recent member date. Reading a date may
   * raise; `max` of no members raises ValueError.
   */
  function Last(members: seq<Row>): (r: Result<Date>)
    ensures r.Ok? <==> |members| > 0 && Map(RowDate, members).Ok?
    ensures |members| == 0 ==> r == Err(ValueError)
    ensures r.Err? && |members| > 0 ==> r.error == Map(RowDate, members).error
    ensures r.Ok? ==> r.value in Map(RowDate, members).value
    ensures r.Ok? ==> forall d :: d in Map(RowDate, members).value ==> !Before(r.value, d)
  {
    match Map(RowDate, members)
    case Err(e) => Err(e)
    case Ok(dates) =>
      if |dates| == 0 then Err(ValueError)
      else
        var m := MaxDate(dates);
        Ok(m)
  }

  /** Sorting dates puts the latest last. */
  lemma {:induction false} LastOfSorted(ds: seq<Date>)
    requires |ds| > 0
    ensures MaxDate(ds) == SortBy(Before, ds)[|ds| - 1]
  {
    var sm := SortBy(Before, ds);
    var n := |sm| - 1;
    var top := MaxDate(ds);
    BeforeOrder();
    SortSorted(Before, ds);
    assert sm[n] in multiset(ds);
    assert top in multiset(sm);
    var k :| 0 <= k < |sm| && sm[k] == top;
    if k < n {
      assert !Before(sm[n], sm[k]);
    }
  }

  lemma {:induction false} Telescope(ds: seq<Date>)
    requires |ds| > 0 && AllValid(ds)
    ensures SumInt(Gaps(ds)) == DaysBetween(ds[|ds| - 1], ds[0])
  {
    if |ds| > 1 {
      var front := ds[..|ds| - 1];
      Telescope(front);
      assert Gaps(ds)[..|ds| - 2] == Gaps(front);
    }
  }

  /**
   * The gaps between a group's members add up to the days from its
   * earliest member to its latest, `last(members)`.
   */
  lemma DeltasSpan(group: seq<Row>, dates: seq<Date>, deltas: seq<int>)
    requires Map(RowDate, group) == Ok(dates) && GroupDeltas(group) == Ok(deltas) && |group| > 0
    ensures AllValid(dates) && AllValid(SortBy(Before, dates))
    ensures Last(group) == Ok(MaxDate(dates))
    ensures SumInt(deltas) == DaysBetween(MaxDate(dates), SortBy(Before, dates)[0])
  {
    DatesValid(group, dates);
    SortedValid(dates);
    Telescope(SortBy(Before, dates));
    LastOfSorted(dates);
  }

  /**
   * `bottoms(data)`: where each bar of a stack starts, 0 and then the
   * running total of every value but the last.
   */
  method Bottoms(data: seq<real>) returns (bots: seq<real>)
    ensures |bots| == if |data| == 0 then 1 else |data|
    ensures forall i :: 0 <= i < |bots| ==> bots[i] == Sum(data[..i])
  {
    bots := [0.0];
    var rest := if |data| == 0 then [] else data[..|data| - 1];
    for k := 0 to |rest|
      invariant |bots| == k + 1
      invariant forall i :: 0 <= i <= k ==> bots[i] == Sum(data[..i])
    {
      assert data[..k + 1][..k] == data[..k];
      bots := bots + [bots[k] + rest[k]];
    }
  }
}

=== FILE: psave.dfy ===
/**
 * Saving for periodic expenses (lib/fpos/psave.py): the greedy allocator
 * that covers each month's deficit from the surpluses of the months
 * before it, and the target and group filters feeding it.
 *
 * Months are integer indices (`year * 12 + month - 1`), so `first +
 * monthdelta(i)` is `first + i`. Amounts are exact reals, not floats.
 */
module Psave {
  import opened Wrappers
  import opened Dates
  import opened Sorting

  /** `Balance(month, income, expenses)`: expenses are negative. */
  datatype Balance = Balance(month: int, income: real, expenses: real)

  /** `History(now, balances)`: the balances keyed by month index. */
  datatype History = History(now: Date, balances: map<int, Balance>)

  datatype Transaction = Transaction(date: Date, value: real, description: string, category: string)

  datatype Group = Group(name: string, transactions: seq<Transaction>)

  /** `Commitment(group, value, last, period)`: the period in whole days. */
  datatype Commitment = Commitment(group: Group, value: real, last: Date, period: int)

  datatype Target = Target(commitment: Commitment, next: Date)

  /** `to_month`: the month a date falls in. */
  function ToMonth(d: Date): int
  {
    d.year * 12 + d.month - 1
  }

  function Profit(b: Balance): real
  {
    b.income + b.expenses
  }

  function Min(a: real, b: real): real
  {
    if a <= b then a else b
  }

  /* ---------------- save_from_month ---------------- */

  /** What `state` already holds back from `month`. */
  function Held(state: map<int, Balance>, month: int): real
  {
    if month in state then -state[month].expenses else 0.0
  }

  /** What is left of `month`'s profit to hold back: none once more is held than earned. */
  function Avail(balances: map<int, Balance>, state: map<int, Balance>, month: int): (a: real)
    ensures a >= 0.0
  {
    if month in balances && Held(state, month) <= Profit(balances[month])
    then Profit(balances[month]) - Held(state, month)
    else 0.0
  }

  /**
   * `save_from_month(history, state, month, value)` on values: the amount
   * held back and the new state.
   */
  function Save(balances: map<int, Balance>, state: map<int, Balance>, month: int, value: real)
    : (r: Result<(real, map<int, Balance>)>)
    ensures r.Err? <==> month !in balances
    ensures r.Err? ==> r.error == KeyError
    ensures r.Ok? ==> r.value.0 == if 0.0 <= value <= Avail(balances, state, month) then value
                                   else Avail(balances, state, month)
    ensures r.Ok? && Held(state, month) > Profit(balances[month]) ==> r.value == (0.0, state)
    ensures r.Ok? && Held(state, month) <= Profit(balances[month]) ==>
      r.value.1 == state[month := Balance(month, 0.0, -(Held(state, month) + r.value.0))] &&
      Held(r.value.1, month) <= Profit(balances[month])
  {
    if month !in balances then Err(KeyError)
    else
      var profit := Profit(balances[month]);
      var held := Held(state, month);
      if held > profit then Ok((0.0, state))
      else
        var hold := if held <= held + value <= profit then value else profit - held;
        Ok((hold, state[month := Balance(month, 0.0, -(held + hold))]))
  }

  /** The `state` dict that `save_from_month` updates in place. */
  class Savings {
    var state: map<int, Balance>

    constructor ()
      ensures state == map[]
    {
      state := map[];
    }

    /** `save_from_month(history, self.state, month, value)` */
    method SaveFromMonth(history: History, month: int, value: real) returns (r: Result<real>)
      modifies this
      ensures Save(history.balances, old(state), month, value).Err? ==>
        r == Err(KeyError) && state == old(state)
      ensures Save(history.balances, old(state), month, value).Ok? ==>
        r == Ok(Save(history.balances, old(state), month, value).value.0) &&
        state == Save(history.balances, old(state), month, value).value.1
    {
      if month !in history.balances {
        return Err(KeyError);
      }
      var balance := history.balances[month];
      var profit := balance.income + balance.expenses;
      var held := if month in state then -state[month].expenses else 0.0;
      if held > profit {
        return Ok(0.0);
      }
      var hold := profit - held;
      if held <= held + value <= profit {
        hold := value;
      }
      state := state[month := Balance(month, 0.0, -(held + hold))];
      return Ok(hold);
    }

    /**
     * The inner loop of `balance_history`: hold back from the months
     * `first + i` down to `first` what is still wanted to cover `profit`,
     * stopping once it is covered.
     */
    method DrawDeficit(history: History, first: int, i: int, profit: real) returns (r: Result<real>)
      modifies this
      ensures Draw(history.balances, old(state), first, i, profit, 0.0).Err? ==>
        r == Err(Draw(history.balances, old(state), first, i, profit, 0.0).error)
      ensures Draw(history.balances, old(state), first, i, profit, 0.0).Ok? ==>
        r == Ok(Draw(history.balances, old(state), first, i, profit, 0.0).value.0) &&
        state == Draw(history.balances, old(state), first, i, profit, 0.0).value.1
    {
      ghost var drawn := Draw(history.balances, state, first, i, profit, 0.0);
      var saved := 0.0;
      var j := i;
      while j >= 0
        invariant j <= i
        invariant Draw(history.balances, state, first, j, profit, saved) == drawn
        decreases j + 1
      {
        var want := -(profit + saved);
        ghost var before := state;
        ghost var had := saved;
        var got := SaveFromMonth(history, first + j, want);
        DrawOnce(history.balances, before, first, j, profit, had);
        if got.Err? {
          return Err(got.error);
        }
        saved := saved + got.value;
        if saved + profit == 0.0 {
          return Ok(saved);
        }
        j := j - 1;
      }
      return Ok(saved);
    }
  }

  /* ---------------- balance_history ---------------- */

  /**
   * The inner loop of `balance_history`: draw on the months `first + j`
   * down to `first` for what is still wanted to cover `profit`, stopping
   * once it is covered. The amount drawn and the new state.
   */
  function Draw(balances: map<int, Balance>, state: map<int, Balance>, first: int, j: int,
                profit: real, saved: real): Result<(real, map<int, Balance>)>
    decreases j + 1
  {
    if j < 0 then Ok((saved, state))
    else
      var s := Save(balances, state, first + j, -(profit + saved));
      if s.Err? then Err(s.error)
      else if saved + s.value.0 + profit == 0.0 then Ok((saved + s.value.0, s.value.1))
      else Draw(balances, s.value.1, first, j - 1, profit, saved + s.value.0)
  }

  /** One step of `Draw`: hold back from month `first + j`, then stop or go on below it. */
  lemma DrawOnce(balances: map<int, Balance>, state: map<int, Balance>, first: int, j: int,
                 profit: real, saved: real)
    requires j >= 0
    ensures Save(balances, state, first + j, -(profit + saved)).Err? ==>
      Draw(balances, state, first, j, profit, saved) == Err(KeyError)
    ensures Save(balances, state, first + j, -(profit + saved)).Ok? ==>
      var (hold, next) := Save(balances, state, first + j, -(profit + saved)).value;
      Draw(balances, state, first, j, profit, saved) ==
        if saved + hold + profit == 0.0 then Ok((saved + hold, next))
        else Draw(balances, next, first, j - 1, profit, saved + hold)
  {
  }

  /**
   * The outer loop of `balance_history` over the months `first + i` up to
   * `first + end`: each deficit month is covered by `Draw`, recorded as
   * `Balance(month, saved, 0)`, or the whole raises ValueError.
   */
  function Cover(balances: map<int, Balance>, state: map<int, Balance>, first: int, i: int, end: int)
    : Result<map<int, Balance>>
    decreases end - i
  {
    if i >= end then Ok(state)
    else
      var month := first + i;
      if month !in balances then Err(KeyError)
      else
        var profit := Profit(balances[month]);
        if profit < 0.0 then
          match Draw(balances, state, first, i, profit, 0.0)
          case Err(e) => Err(e)
          case Ok((saved, next)) =>
            if saved + profit < 0.0 then Err(ValueError)
            else Cover(balances, next[month := Balance(month, saved, 0.0)], first, i + 1, end)
        else Cover(balances, state, first, i + 1, end)
  }

  /** A non-empty set has a member to pick. */
  lemma Inhabited(months: set<int>)
    requires months != {}
    ensures exists m :: m in months
  {
    if !(exists m :: m in months) {
      assert false;
    }
  }

  /** The earliest month of a non-empty set. */
  ghost function Earliest(months: set<int>): (m: int)
    requires months != {}
    ensures m in months && forall n :: n in months ==> m <= n
  {
    Inhabited(months);
    var x :| x in months;
    var rest := months - {x};
    assert forall n :: n in months ==> n == x || n in rest;
    if rest == {} then x
    else
      var m := Earliest(rest);
      if x < m then x else m
  }

  /**
   * `balance_history(history, longest)`, where `window` is the month index
   * of `to_month(history.now) - longest`: nothing for a missing or empty
   * history, otherwise the months from `window` up to the one before the
   * current month.
   */
  ghost function BalanceHistorySpec(history: Option<History>, window: int): Result<map<int, Balance>>
  {
    if history.None? || |history.value.balances| == 0 then Ok(map[])
    else
      var first := Earliest(history.value.balances.Keys);
      Cover(history.value.balances, map[], first, window - first, ToMonth(history.value.now) - first)
  }

  /** `next(iter(sorted(months)))` */
  method FirstMonth(months: set<int>) returns (m: int)
    requires months != {}
    ensures m in months && forall n :: n in months ==> m <= n
  {
    var rest := months;
    Inhabited(rest);
    m :| m in rest;
    rest := rest - {m};
    while rest != {}
      invariant m in months && rest <= months
      invariant forall n :: n in months && n !in rest ==> m <= n
      decreases |rest|
    {
      Inhabited(rest);
      var n :| n in rest;
      if n < m {
        m := n;
      }
      rest := rest - {n};
    }
  }

  method BalanceHistory(history: Option<History>, window: int) returns (r: Result<map<int, Balance>>)
    ensures r == BalanceHistorySpec(history, window)
  {
    if history.None? || |history.value.balances| == 0 {
      return Ok(map[]);
    }
    var h := history.value;
    var first := FirstMonth(h.balances.Keys);
    assert first == Earliest(h.balances.Keys);
    var current := ToMonth(h.now);
    var savings := new Savings();
    var i := window - first;
    var end := current - first;
    ghost var whole := Cover(h.balances, map[], first, i, end);
    while i < end
      invariant Cover(h.balances, savings.state, first, i, end) == whole
      decreases end - i
    {
      var month := first + i;
      if month !in h.balances {
        return Err(KeyError);
      }
      var balance := h.balances[month];
      var profit := balance.income + balance.expenses;
      if profit < 0.0 {
        var drawn := savings.DrawDeficit(h, first, i, profit);
        if drawn.Err? {
          return Err(drawn.error);
        }
        var saved := drawn.value;
        if saved + profit < 0.0 {
          return Err(ValueError);
        }
        savings.state := savings.state[month := Balance(month, saved, 0.0)];
      }
      i := i + 1;
    }
    return Ok(savings.state);
  }

  /** Total still available to hold back from the months `first` to `first + j`. */
  function Capacity(balances: map<int, Balance>, state: map<int, Balance>, first: int, j: int): (c: real)
    ensures c >= 0.0
    decreases j + 1
  {
    if j < 0 then 0.0 else Avail(balances, state, first + j) + Capacity(balances, state, first, j - 1)
  }

  /** A state that agrees on every month below `month` leaves the capacity below it alone. */
  lemma {:induction false} CapacityFrame(balances: map<int, Balance>, s: map<int, Balance>, t: map<int, Balance>,
                                         first: int, j: int, month: int)
    requires first + j < month
    requires forall m :: m != month ==> Held(s, m) == Held(t, m)
    ensures Capacity(balances, s, first, j) == Capacity(balances, t, first, j)
    decreases j + 1
  {
    if j >= 0 {
      assert Held(s, first + j) == Held(t, first + j);
      CapacityFrame(balances, s, t, first, j - 1, month);
    }
  }

  /** The arithmetic of one greedy draw: take the wanted amount or all that is available. */
  lemma DrawArith(profit: real, saved: real, avail: real, rest: real, hold: real)
    requires saved + profit <= 0.0 && avail >= 0.0 && rest >= 0.0
    requires hold == if 0.0 <= -(profit + saved) <= avail then -(profit + saved) else avail
    ensures saved + hold + profit == 0.0 ==> saved + hold == Min(-profit, saved + avail + rest)
    ensures saved + hold + profit != 0.0 ==>
      hold == avail && saved + hold + profit <= 0.0 &&
      Min(-profit, saved + hold + rest) == Min(-profit, saved + avail + rest)
  {
  }

  /**
   * The backwards draw is greedy and never overdraws: it ends with the
   * deficit covered exactly when the months drawn on can cover it, and
   * with everything they had otherwise.
   */
  lemma {:induction false} DrawGreedy(balances: map<int, Balance>, state: map<int, Balance>, first: int, j: int,
                                      profit: real, saved: real)
    requires saved + profit <= 0.0
    ensures Draw(balances, state, first, j, profit, saved).Ok? ==>
      Draw(balances, state, first, j, profit, saved).value.0 ==
        Min(-profit, saved + Capacity(balances, state, first, j))
    decreases j + 1
  {
    if j >= 0 {
      var month := first + j;
      var s := Save(balances, state, month, -(profit + saved));
      if s.Ok? {
        var hold := s.value.0;
        var next := s.value.1;
        var avail := Avail(balances, state, month);
        var rest := Capacity(balances, state, first, j - 1);
        assert Capacity(balances, state, first, j) == avail + rest;
        DrawArith(profit, saved, avail, rest, hold);
        if saved + hold + profit != 0.0 {
          forall m | m != month
            ensures Held(next, m) == Held(state, m)
          {
          }
          CapacityFrame(balances, next, state, first, j - 1, month);
          DrawGreedy(balances, next, first, j - 1, profit, saved + hold);
        }
      }
    }
  }


  /**
   * A deficit month raises ValueError exactly when the months up to it
   * cannot cover it; otherwise it is recorded as covered by exactly its
   * deficit and the months after it follow.
   */
  lemma CoverStep(balances: map<int, Balance>, state: map<int, Balance>, first: int, i: int, end: int)
    requires i < end && first + i in balances && Profit(balances[first + i]) < 0.0
    requires Draw(balances, state, first, i, Profit(balances[first + i]), 0.0).Ok?
    ensures Cover(balances, state, first, i, end) ==
      if Capacity(balances, state, first, i) < -Profit(balances[first + i]) then Err(ValueError)
      else Cover(balances,
                 Draw(balances, state, first, i, Profit(balances[first + i]), 0.0).value.1
                   [first + i := Balance(first + i, -Profit(balances[first + i]), 0.0)],
                 first, i + 1, end)
  {
    DrawGreedy(balances, state, first, i, Profit(balances[first + i]), 0.0);
  }

  /** What a state entry for a month can be: a covered deficit, or a share of a surplus. */
  predicate Entry(b: Balance, e: Balance, month: int)
  {
    if Profit(b) < 0.0 then e == Balance(month, -Profit(b), 0.0)
    else e.month == month && e.income == 0.0 && 0.0 <= -e.expenses <= Profit(b)
  }

  /** A month of the window after `balance_history`: known, and covered by exactly its deficit if it had one. */
  predicate Covered(balances: map<int, Balance>, state: map<int, Balance>, month: int)
  {
    month in balances &&
    (Profit(balances[month]) < 0.0 ==> month in state && state[month] == Balance(month, -Profit(balances[month]), 0.0))
  }

  ghost predicate Sound(balances: map<int, Balance>, state: map<int, Balance>)
  {
    forall m :: m in state ==> m in balances && Entry(balances[m], state[m], m)
  }

  lemma SaveSound(balances: map<int, Balance>, state: map<int, Balance>, month: int, value: real)
    requires Sound(balances, state)
    ensures Save(balances, state, month, value).Ok? ==>
      Sound(balances, Save(balances, state, month, value).value.1) &&
      state.Keys <= Save(balances, state, month, value).value.1.Keys
  {
    if month in state {
      assert Entry(balances[month], state[month], month);
    }
  }

  lemma {:induction false} DrawSound(balances: map<int, Balance>, state: map<int, Balance>, first: int, j: int,
                                     profit: real, saved: real)
    requires Sound(balances, state)
    ensures Draw(balances, state, first, j, profit, saved).Ok? ==>
      Sound(balances, Draw(balances, state, first, j, profit, saved).value.1) &&
      state.Keys <= Draw(balances, state, first, j, profit, saved).value.1.Keys
    decreases j + 1
  {
    if j >= 0 {
      SaveSound(balances, state, first + j, -(profit + saved));
      var s := Save(balances, state, first + j, -(profit + saved));
      if s.Ok? {
        DrawSound(balances, s.value.1, first, j - 1, profit, saved + s.value.0);
      }
    }
  }

  /**
   * When `balance_history` succeeds, every deficit month of the window is
   * covered by exactly its deficit, and no month is drawn on beyond its
   * profit.
   */
  lemma {:induction false} CoverSound(balances: map<int, Balance>, state: map<int, Balance>, first: int, i: int, end: int)
    requires Sound(balances, state)
    ensures Cover(balances, state, first, i, end).Ok? ==>
      Sound(balances, Cover(balances, state, first, i, end).value) &&
      state.Keys <= Cover(balances, state, first, i, end).value.Keys
    ensures Cover(balances, state, first, i, end).Ok? ==>
      forall month :: first + i <= month < first + end ==>
        Covered(balances, Cover(balances, state, first, i, end).value, month)
    decreases end - i
  {
    if i < end {
      var month := first + i;
      if month in balances {
        var profit := Profit(balances[month]);
        if profit < 0.0 {
          var d := Draw(balances, state, first, i, profit, 0.0);
          if d.Ok? {
            DrawSound(balances, state, first, i, profit, 0.0);
            DrawGreedy(balances, state, first, i, profit, 0.0);
            var next := d.value.1[month := Balance(month, d.value.0, 0.0)];
            if d.value.0 + profit >= 0.0 {
              assert Sound(balances, next);
              CoverSound(balances, next, first, i + 1, end);
              var r := Cover(balances, next, first, i + 1, end);
              if r.Ok? {
                assert month in r.value && Entry(balances[month], r.value[month], month);
                assert Covered(balances, r.value, month);
              }
            }
          }
        } else {
          CoverSound(balances, state, first, i + 1, end);
        }
      }
    }
  }

  /* ---------------- targets and groups ---------------- */

  /** Python's `[x for x in xs if keep(x)]`: each kept element as often as it occurs. */
  function Keep<T(!new)>(keep: T -> bool, xs: seq<T>): (r: seq<T>)
    ensures forall x :: x in r <==> x in xs && keep(x)
    ensures forall x :: multiset(r)[x] == if keep(x) then multiset(xs)[x] else 0
    ensures |r| <= |xs|
  {
    if |xs| == 0 then []
    else
      var rest := Keep(keep, xs[1..]);
      assert xs == [xs[0]] + xs[1..];
      (if keep(xs[0]) then [xs[0]] else []) + rest
  }

  /** Filtering keeps the order: the kept part of a concatenation is the concatenation of the kept parts. */
  lemma {:induction false} KeepAppend<T(!new)>(keep: T -> bool, a: seq<T>, b: seq<T>)
    ensures Keep(keep, a + b) == Keep(keep, a) + Keep(keep, b)
    decreases |a|
  {
    if |a| > 0 {
      assert (a + b)[1..] == a[1..] + b;
      KeepAppend(keep, a[1..], b);
    } else {
      assert a + b == b;
    }
  }

  /** A target worth saving for: not yet due, a period over 31 days, and money going out. */
  predicate Wanted(now: Date, t: Target)
  {
    !Before(t.next, now) && t.commitment.period > 31 && t.commitment.value < 0.0
  }

  /** `filter_targets(history, targets)` */
  function FilterTargets(history: History, targets: seq<Target>): (r: seq<Target>)
    ensures forall t :: t in r <==> t in targets && Wanted(history.now, t)
    ensures forall t :: multiset(r)[t] == if Wanted(history.now, t) then multiset(targets)[t] else 0
  {
    Keep(t => Wanted(history.now, t), targets)
  }

  predicate NextBefore(a: Target, b: Target)
  {
    Before(a.next, b.next)
  }

  lemma NextBeforeOrder()
    ensures StrictWeakOrder(NextBefore)
  {
  }

  /** `sort_targets(targets)`: the same targets, in order of their next date. */
  function SortTargets(targets: seq<Target>): (r: seq<Target>)
    ensures multiset(r) == multiset(targets)
    ensures forall i, j :: 0 <= i < j < |r| ==> !Before(r[j].next, r[i].next)
  {
    NextBeforeOrder();
    SortSorted(NextBefore, targets);
    SortBy(NextBefore, targets)
  }

  /** The distinct dates of a run of transactions. */
  function DateSet(ts: seq<Transaction>): (r: set<Date>)
    ensures forall d :: d in r <==> exists t :: t in ts && t.date == d
    ensures |r| <= |ts|
  {
    if |ts| == 0 then {}
    else
      var rest := DateSet(ts[1..]);
      assert forall t :: t in ts[1..] ==> t in ts;
      assert forall t :: t in ts ==> t == ts[0] || t in ts[1..];
      {ts[0].date} + rest
  }

  /** `count_quantized_transactions(group)`: how many distinct dates it has transactions on. */
  function CountQuantized(g: Group): (n: nat)
    ensures n == |DateSet(g.transactions)|
    ensures n <= |g.transactions|
    ensures n == 0 <==> |g.transactions| == 0
  {
    var dates := DateSet(g.transactions);
    assert |g.transactions| > 0 ==> g.transactions[0].date in dates;
    |dates|
  }

  /** `filter_groups(groups)`: the groups with transactions on more than two distinct dates. */
  function FilterGroups(groups: seq<Group>): (r: seq<Group>)
    ensures forall g :: g in r <==> g in groups && CountQuantized(g) > 2
    ensures forall g :: multiset(r)[g] == if CountQuantized(g) > 2 then multiset(groups)[g] else 0
    ensures forall g :: g in r ==> |g.transactions| > 2
  {
    Keep(g => CountQuantized(g) > 2, groups)
  }

  /** `filter_targets` keeps the order of the targets. */
  lemma FilterTargetsAppend(history: History, a: seq<Target>, b: seq<Target>)
    ensures FilterTargets(history, a + b) == FilterTargets(history, a) + FilterTargets(history, b)
  {
    KeepAppend(t => Wanted(history.now, t), a, b);
  }

  /** `filter_groups` keeps the order of the groups. */
  lemma FilterGroupsAppend(a: seq<Group>, b: seq<Group>)
    ensures FilterGroups(a + b) == FilterGroups(a) + FilterGroups(b)
  {
    KeepAppend(g => CountQuantized(g) > 2, a, b);
  }
}

=== FILE: sorting.dfy ===
/**
 * Python's `sorted(xs, key=k)`: a stable sort. Any two stable sorts by the
 * same key agree, so it is modelled by insertion sort with the order on
 * keys given as `before(a, b)`, "a's key is less than b's key".
 */
module Sorting {

  /** What `<` on the keys of a sort must be for the result to be sorted. */
  ghost predicate StrictWeakOrder<T(!new)>(before: (T, T) -> bool)
  {
    (forall a, b :: before(a, b) ==> !before(b, a)) &&
    (forall a, b, c :: !before(b, a) && !before(c, b) ==> !before(c, a))
  }

  /** x placed in front of the first element whose key is not less than its own. */
  function Insert<T>(before: (T, T) -> bool, x: T, ys: seq<T>): (r: seq<T>)
    ensures multiset(r) == multiset([x] + ys)
    ensures |r| == |ys| + 1
  {
    if |ys| == 0 || !before(ys[0], x) then [x] + ys
    else
      assert ys == [ys[0]] + ys[1..];
      [ys[0]] + Insert(before, x, ys[1..])
  }

  /** `sorted(xs, key=...)`. */
  function SortBy<T>(before: (T, T) -> bool, xs: seq<T>): (r: seq<T>)
    ensures multiset(r) == multiset(xs)
    ensures |r| == |xs|
  {
    if |xs| == 0 then []
    else
      assert xs == [xs[0]] + xs[1..];
      Insert(before, xs[0], SortBy(before, xs[1..]))
  }

  /** No element's key is less than that of an element in front of it. */
  ghost predicate SortedBy<T>(before: (T, T) -> bool, xs: seq<T>)
  {
    forall i, j :: 0 <= i < j < |xs| ==> !before(xs[j], xs[i])
  }

  /**
   * Every pair in order by the primary key, and pairs whose primary keys
   * tie in order by `secondary`.
   */
  ghost predicate SortedThen<T>(before: (T, T) -> bool, secondary: (T, T) -> bool, xs: seq<T>)
  {
    forall i, j :: 0 <= i < j < |xs| ==>
      before(xs[i], xs[j]) || (!before(xs[j], xs[i]) && secondary(xs[i], xs[j]))
  }

  /** Any relation holding in order between every pair of a sequence. */
  ghost predicate Chain<T>(rel: (T, T) -> bool, xs: seq<T>)
  {
    forall i, j :: 0 <= i < j < |xs| ==> rel(xs[i], xs[j])
  }

  lemma {:induction false} InsertSorted<T(!new)>(before: (T, T) -> bool, x: T, ys: seq<T>)
    requires StrictWeakOrder(before) && SortedBy(before, ys)
    ensures SortedBy(before, Insert(before, x, ys))
  {
    var r := Insert(before, x, ys);
    if |ys| == 0 || !before(ys[0], x) {
      forall j | 0 < j < |r|
        ensures !before(r[j], x)
      {
        assert r[j] == ys[j - 1];
        if j > 1 {
          assert !before(ys[j - 1], ys[0]);
        }
      }
    } else {
      InsertSorted(before, x, ys[1..]);
      var tail := Insert(before, x, ys[1..]);
      forall j | 0 <= j < |tail|
        ensures !before(tail[j], ys[0])
      {
        assert tail[j] in multiset([x] + ys[1..]);
        if tail[j] != x {
          assert tail[j] in ys[1..];
          var k :| 0 <= k < |ys[1..]| && ys[1..][k] == tail[j];
          assert ys[k + 1] == tail[j];
        }
      }
    }
  }

  /** A stable sort's result is sorted by its key. */
  lemma {:induction false} SortSorted<T(!new)>(before: (T, T) -> bool, xs: seq<T>)
    requires StrictWeakOrder(before)
    ensures SortedBy(before, SortBy(before, xs))
  {
    if |xs| > 0 {
      SortSorted(before, xs[1..]);
      InsertSorted(before, xs[0], SortBy(before, xs[1..]));
    }
  }

  lemma {:induction false} InsertThen<T(!new)>(before: (T, T) -> bool, secondary: (T, T) -> bool, x: T, ys: seq<T>)
    requires StrictWeakOrder(before) && SortedThen(before, secondary, ys)
    requires forall e :: e in ys ==> secondary(x, e)
    ensures SortedThen(before, secondary, Insert(before, x, ys))
  {
    var r := Insert(before, x, ys);
    if |ys| == 0 || !before(ys[0], x) {
      forall j | 0 < j < |r|
        ensures before(x, r[j]) || (!before(r[j], x) && secondary(x, r[j]))
      {
        assert r[j] == ys[j - 1];
        if j > 1 {
          assert !before(ys[j - 1], ys[0]);
        }
      }
    } else {
      InsertThen(before, secondary, x, ys[1..]);
      var tail := Insert(before, x, ys[1..]);
      forall j | 0 <= j < |tail|
        ensures before(ys[0], tail[j]) || (!before(tail[j], ys[0]) && secondary(ys[0], tail[j]))
      {
        assert tail[j] in multiset([x] + ys[1..]);
        if tail[j] != x {
          assert tail[j] in ys[1..];
          var k :| 0 <= k < |ys[1..]| && ys[1..][k] == tail[j];
          assert ys[k + 1] == tail[j];
        }
      }
    }
  }

  /**
   * Stability: sorting by a key a sequence already in order by `secondary`
   * leaves the elements whose keys tie in that order.
   */
  lemma {:induction false} SortThen<T(!new)>(before: (T, T) -> bool, secondary: (T, T) -> bool, xs: seq<T>)
    requires StrictWeakOrder(before) && Chain(secondary, xs)
    ensures SortedThen(before, secondary, SortBy(before, xs))
  {
    if |xs| > 0 {
      SortThen(before, secondary, xs[1..]);
      forall e | e in SortBy(before, xs[1..])
        ensures secondary(xs[0], e)
      {
        assert e in multiset(xs[1..]);
        var k :| 0 <= k < |xs[1..]| && xs[1..][k] == e;
        assert xs[k + 1] == e;
      }
      InsertThen(before, secondary, xs[0], SortBy(before, xs[1..]));
    }
  }
}

=== FILE: text.dfy ===
/**
 * The pieces of Python's string handling the scripts rely on: `int(s)` on a
 * string, `str.strip()`, `str.lower()` and the substring test `p in s`,
 * restricted to ASCII text.
 */
module Text {
  import opened Wrappers

  predicate IsDigit(c: char)
  {
    '0' <= c <= '9'
  }

  predicate AllDigits(s: string)
  {
    forall i :: 0 <= i < |s| ==> IsDigit(s[i])
  }

  function DigitValue(c: char): int
  {
    (c as int) - ('0' as int)
  }

  /** The value of a string of decimal digits, most significant first. */
  function DigitsValue(s: string): nat
    requires AllDigits(s)
  {
    if |s| == 0 then 0 else DigitsValue(s[..|s| - 1]) * 10 + DigitValue(s[|s| - 1])
  }

  function Pow10(n: nat): (p: nat)
    ensures p >= 1
  {
    if n == 0 then 1 else 10 * Pow10(n - 1)
  }

  /** The characters `str.isspace()` accepts below 0x80. */
  predicate IsSpace(c: char)
  {
    c == ' ' || 9 <= c as int <= 13 || 28 <= c as int <= 31
  }

  /** `s.lstrip()`: the suffix of s left after its leading white space. */
  function StripLeft(s: string): (r: string)
    ensures |r| <= |s| && r == s[|s| - |r|..]
    ensures forall k :: 0 <= k < |s| - |r| ==> IsSpace(s[k])
    ensures r == [] || !IsSpace(r[0])
  {
    if |s| > 0 && IsSpace(s[0]) then StripLeft(s[1..]) else s
  }

  /** `s.rstrip()`: the prefix of s left before its trailing white space. */
  function StripRight(s: string): (r: string)
    ensures |r| <= |s| && r == s[..|r|]
    ensures forall k :: |r| <= k < |s| ==> IsSpace(s[k])
    ensures r == [] || !IsSpace(r[|r| - 1])
  {
    if |s| > 0 && IsSpace(s[|s| - 1]) then StripRight(s[..|s| - 1]) else s
  }

  /** `s.strip()`: s without its leading and trailing white space. */
  function Strip(s: string): (r: string)
    ensures r == [] || (!IsSpace(r[0]) && !IsSpace(r[|r| - 1]))
  {
    StripRight(StripLeft(s))
  }

  /** `int(s)` for a string: white space around an optional sign and at least one digit. */
  function ParseInt(s: string): (r: Option<int>)
  {
    var t := Strip(s);
    if |t| > 0 && (t[0] == '-' || t[0] == '+') then
      if |t| > 1 && AllDigits(t[1..]) then
        var v: int := DigitsValue(t[1..]);
        Some(if t[0] == '-' then -v else v)
      else None
    else if |t| > 0 && AllDigits(t) then Some(DigitsValue(t))
    else None
  }

  /** The index of the first '.' in s, or |s| when there is none. */
  function DotIndex(s: string): (k: nat)
    ensures k <= |s| && (k < |s| ==> s[k] == '.') && forall i :: 0 <= i < k ==> s[i] != '.'
  {
    if |s| == 0 || s[0] == '.' then 0 else 1 + DotIndex(s[1..])
  }

  /** Digits with at most one decimal point and at least one digit, read as an exact value. */
  function Unsigned(t: string): (r: Option<real>)
    ensures r.Some? ==> r.value >= 0.0
  {
    var k := DotIndex(t);
    var whole := t[..k];
    var frac := if k < |t| then t[k + 1..] else [];
    if |whole| + |frac| > 0 && AllDigits(whole) && AllDigits(frac) then
      Some(DigitsValue(whole) as real + Fraction(frac))
    else None
  }

  /** The value of the digits after a decimal point, a fraction of one. */
  function Fraction(digits: string): (v: real)
    requires AllDigits(digits)
    ensures 0.0 <= v < 1.0 && (|digits| == 0 ==> v == 0.0)
  {
    if |digits| == 0 then 0.0 else (DigitValue(digits[0]) as real + Fraction(digits[1..])) / 10.0
  }

  /**
   * `float(s)` for a string: white space around an optional sign and a
   * decimal numeral; the value is exact rather than rounded to a double.
   */
  function ParseDecimal(s: string): (r: Option<real>)
  {
    var t := Strip(s);
    if |t| > 0 && (t[0] == '-' || t[0] == '+') then
      match Unsigned(t[1..])
      case None => None
      case Some(v) => Some(if t[0] == '-' then -v else v)
    else Unsigned(t)
  }

  /** Digits alone read the same as digits with no fraction. */
  lemma UnsignedDigits(t: string)
    requires |t| > 0 && AllDigits(t)
    ensures Unsigned(t) == Some(DigitsValue(t) as real)
  {
    NoDot(t);
    assert t[..|t|] == t;
  }

  lemma NoDot(t: string)
    requires AllDigits(t)
    ensures DotIndex(t) == |t|
  {
  }

  /** `float` accepts every string `int` accepts, with the same value. */
  lemma ParseDecimalOfInt(s: string)
    requires ParseInt(s).Some?
    ensures ParseDecimal(s) == Some(ParseInt(s).value as real)
  {
    var t := Strip(s);
    if |t| > 0 && (t[0] == '-' || t[0] == '+') {
      UnsignedDigits(t[1..]);
    } else {
      UnsignedDigits(t);
    }
  }

  /** The decimal rendering of a natural number, `str(n)`. */
  function Show(n: nat): (s: string)
    ensures |s| > 0 && AllDigits(s)
  {
    var d := ['0' + (n % 10) as char];
    if n < 10 then d else Show(n / 10) + d
  }

  /** A rendered number has no white space to strip. */
  lemma StripDigits(s: string)
    requires AllDigits(s)
    ensures Strip(s) == s
  {
    if |s| > 0 {
      assert IsDigit(s[0]);
      assert StripLeft(s) == s;
      assert IsDigit(s[|s| - 1]);
      assert StripRight(s) == s;
    }
  }

  /** `int` reads a plain run of digits as its decimal value. */
  lemma ParseDigits(s: string)
    requires |s| > 0 && AllDigits(s)
    ensures ParseInt(s) == Some(DigitsValue(s))
  {
    StripDigits(s);
    assert IsDigit(s[0]);
  }

  /** The digits of `str(n)` read back as n. */
  lemma {:induction false} ShowValue(n: nat)
    ensures DigitsValue(Show(n)) == n
  {
    var s := Show(n);
    assert DigitValue(s[|s| - 1]) == n % 10;
    if n >= 10 {
      ShowValue(n / 10);
      assert s[..|s| - 1] == Show(n / 10);
    } else {
      assert s[..|s| - 1] == [];
    }
  }

  /** `int(str(n)) == n`. */
  lemma ParseShow(n: nat)
    ensures ParseInt(Show(n)) == Some(n)
  {
    ShowValue(n);
    ParseDigits(Show(n));
  }

  /** `c.lower()` for an ASCII character. */
  function LowerChar(c: char): (l: char)
    ensures 'A' <= c <= 'Z' ==> l as int == c as int + 32
    ensures !('A' <= c <= 'Z') ==> l == c
  {
    if 'A' <= c <= 'Z' then (c as int + 32) as char else c
  }

  /** `s.lower()` */
  function Lower(s: string): (r: string)
    ensures |r| == |s| && forall i :: 0 <= i < |s| ==> r[i] == LowerChar(s[i])
  {
    seq(|s|, i requires 0 <= i < |s| => LowerChar(s[i]))
  }

  /** p occurs in s starting at position i. */
  predicate OccursAt(s: string, p: string, i: int)
  {
    0 <= i <= |s| - |p| && s[i..i + |p|] == p
  }

  /** `p in s`: p occurs in s as a contiguous run. */
  function Contains(s: string, p: string): bool
  {
    p <= s || (|s| > 0 && Contains(s[1..], p))
  }

  /** The substring test finds p exactly when p occurs at some position of s. */
  lemma {:induction false} ContainsIff(s: string, p: string)
    ensures Contains(s, p) <==> exists i :: OccursAt(s, p, i)
  {
    if p <= s {
      assert OccursAt(s, p, 0);
    } else if |s| > 0 {
      ContainsIff(s[1..], p);
      if exists i :: OccursAt(s, p, i) {
        var i :| OccursAt(s, p, i);
        assert i != 0;
        assert OccursAt(s[1..], p, i - 1);
      }
      if Contains(s[1..], p) {
        var i :| OccursAt(s[1..], p, i);
        assert OccursAt(s, p, i + 1);
      }
    }
  }

  /** p is not in s when two adjacent characters of p, at k and k + 1, are nowhere adjacent in s. */
  lemma AbsentPair(s: string, p: string, k: nat)
    requires k + 1 < |p|
    requires forall i :: 0 <= i < |s| - 1 ==> !(s[i] == p[k] && s[i + 1] == p[k + 1])
    ensures !Contains(s, p)
  {
    ContainsIff(s, p);
    forall i | 0 <= i <= |s| - |p|
      ensures !OccursAt(s, p, i)
    {
      assert s[i..i + |p|][k] == s[i + k] && s[i..i + |p|][k + 1] == s[i + k + 1];
    }
  }

  /** p is not in s when one of its characters is nowhere in s. */
  lemma AbsentChar(s: string, p: string, k: nat)
    requires k < |p|
    requires forall i :: 0 <= i < |s| ==> s[i] != p[k]
    ensures !Contains(s, p)
  {
    ContainsIff(s, p);
    forall i | 0 <= i <= |s| - |p|
      ensures !OccursAt(s, p, i)
    {
      assert s[i..i + |p|][k] == s[i + k];
    }
  }

  /** `a < b` on strings: by code point, a proper prefix first. */
  predicate StrLess(a: string, b: string)
  {
    if |a| == 0 then |b| > 0
    else if |b| == 0 then false
    else a[0] < b[0] || (a[0] == b[0] && StrLess(a[1..], b[1..]))
  }

  /** String order is a strict total order. */
  lemma {:induction false} StrLessTotal(a: string, b: string)
    ensures !(StrLess(a, b) && StrLess(b, a))
    ensures StrLess(a, b) || StrLess(b, a) || a == b
  {
    if |a| > 0 && |b| > 0 && a[0] == b[0] {
      StrLessTotal(a[1..], b[1..]);
      if a[1..] == b[1..] {
        assert a == [a[0]] + a[1..] && b == [b[0]] + b[1..];
      }
    }
  }

  lemma {:induction false} StrLessTrans(a: string, b: string, c: string)
    requires StrLess(a, b) && StrLess(b, c)
    ensures StrLess(a, c)
  {
    if |a| > 0 && a[0] == b[0] && b[0] == c[0] {
      StrLessTrans(a[1..], b[1..], c[1..]);
    }
  }
}

=== FILE: transform.dfy ===
/**
 * The library's bank-format transforms: each reads the rows of a bank's
 * CSV export and yields rows of the intermediate form
 * `[date, amount, description]`, the amount rendered by `money`.
 *
 * A field of an output row is a `Cell`: text copied from the input, an
 * amount rendered with two decimals (`money`, kept symbolic), or a bare
 * number as the stand-alone script writes it.
 */
module Transform {
  import opened Wrappers
  import opened Text
  import opened Pipes

  type Row = seq<string>

  datatype Cell = Text(s: string) | Money(amount: real) | Number(value: real)

  /** The accepted format names, `transform_choices`. */
  const Choices: seq<string> := ["anz", "commbank", "stgeorge"]

  /**
   * `[l[0], money(float(l[1])), l[2]]`, evaluated left to right: a missing
   * field raises IndexError, an amount `float` rejects raises ValueError.
   */
  function TakeThreeRow(l: Row): (r: Result<seq<Cell>>)
    ensures r.Ok? <==> |l| >= 3 && ParseDecimal(l[1]).Some?
    ensures r.Ok? ==> r.value == [Text(l[0]), Money(ParseDecimal(l[1]).value), Text(l[2])]
    ensures r.Err? ==> (r.error == ValueError <==> |l| >= 2 && ParseDecimal(l[1]).None?)
  {
    if |l| < 2 then Err(IndexError)
    else
      match ParseDecimal(l[1])
      case None => Err(ValueError)
      case Some(v) =>
        if |l| < 3 then Err(IndexError)
        else Ok([Text(l[0]), Money(v), Text(l[2])])
  }

  /** `_take_three(src)`, drained: one three-field row per input row, or the first row's error. */
  function TakeThree(rows: seq<Row>): (r: Result<seq<seq<Cell>>>)
    ensures r.Ok? <==> forall i :: 0 <= i < |rows| ==> |rows[i]| >= 3 && ParseDecimal(rows[i][1]).Some?
    ensures r.Ok? ==> |r.value| == |rows|
    ensures r.Ok? ==> forall i :: 0 <= i < |rows| ==>
      r.value[i] == [Text(rows[i][0]), Money(ParseDecimal(rows[i][1]).value), Text(rows[i][2])]
    ensures r.Err? ==>
      exists i :: 0 <= i < |rows| && TakeThreeRow(rows[i]) == Err(r.error) &&
                  forall j :: 0 <= j < i ==> TakeThreeRow(rows[j]).Ok?
  {
    Map(TakeThreeRow, rows)
  }

  /** `transform_commbank`: Date,Amount,Description,Balance; the balance is dropped. */
  function Commbank(rows: seq<Row>): Result<seq<seq<Cell>>>
  {
    TakeThree(rows)
  }

  /** `transform_anz`: Date,Amount,Description, already in order. */
  function Anz(rows: seq<Row>): Result<seq<seq<Cell>>>
  {
    TakeThree(rows)
  }

  /**
   * One St George row, Date,Description,Debit,Credit,Balance, as
   * `[l[0], money(-1.0 * float(l[2]) if l[2] else float(l[3])), l[1]]`:
   * a non-empty debit is negated, otherwise the credit is taken.
   */
  function StGeorgeRow(l: Row): (r: Result<seq<Cell>>)
    ensures r.Ok? <==>
      |l| >= 3 && (if l[2] != "" then ParseDecimal(l[2]).Some? else |l| >= 4 && ParseDecimal(l[3]).Some?)
    ensures r.Ok? && l[2] != "" ==> r.value == [Text(l[0]), Money(-ParseDecimal(l[2]).value), Text(l[1])]
    ensures r.Ok? && l[2] == "" ==> r.value == [Text(l[0]), Money(ParseDecimal(l[3]).value), Text(l[1])]
  {
    if |l| < 3 then Err(IndexError)
    else if l[2] != "" then
      match ParseDecimal(l[2])
      case None => Err(ValueError)
      case Some(debit) => Ok([Text(l[0]), Money(-debit), Text(l[1])])
    else if |l| < 4 then Err(IndexError)
    else
      match ParseDecimal(l[3])
      case None => Err(ValueError)
      case Some(credit) => Ok([Text(l[0]), Money(credit), Text(l[1])])
  }

  /**
   * `transform_stgeorge`, drained: the header row is consumed when the
   * transform is built (StopIteration on an empty document) and every
   * later row is converted.
   */
  function StGeorge(rows: seq<Row>): (r: Result<seq<seq<Cell>>>)
    ensures |rows| == 0 ==> r == Err(StopIteration)
    ensures |rows| > 0 ==> r == Map(StGeorgeRow, rows[1..])
  {
    if |rows| == 0 then Err(StopIteration)
    else Map(StGeorgeRow, rows[1..])
  }

  /** `transform(form, source)`: AssertionError for an unknown form, else the form's transform. */
  function Transform(form: string, rows: seq<Row>): (r: Result<seq<seq<Cell>>>)
    ensures form !in Choices ==> r == Err(AssertionError)
    ensures form == "anz" ==> r == Anz(rows)
    ensures form == "commbank" ==> r == Commbank(rows)
    ensures form == "stgeorge" ==> r == StGeorge(rows)
  {
    if form !in Choices then Err(AssertionError)
    else if form == "anz" then Anz(rows)
    else if form == "commbank" then Commbank(rows)
    else StGeorge(rows)
  }

  /**
   * A St George document converts to one row per transaction after the
   * header: the date first, the signed amount second and the description
   * third.
   */
  lemma StGeorgeShape(rows: seq<Row>)
    requires StGeorge(rows).Ok?
    ensures |rows| > 0 && |StGeorge(rows).value| == |rows| - 1
    ensures forall i :: 1 <= i < |rows| ==>
      var out := StGeorge(rows).value[i - 1];
      var l := rows[i];
      |l| >= 3 && out[0] == Text(l[0]) && out[2] == Text(l[1]) &&
      out[1] == Money(if l[2] != "" then -ParseDecimal(l[2]).value else ParseDecimal(l[3]).value)
  {
    forall i | 1 <= i < |rows|
      ensures StGeorgeRow(rows[i]).Ok? && StGeorge(rows).value[i - 1] == StGeorgeRow(rows[i]).value
    {
      assert rows[1..][i - 1] == rows[i];
    }
  }

  /** The amounts the library's tests use. */
  lemma DecimalExamples()
    ensures ParseDecimal("1.0") == Some(1.0)
    ensures ParseDecimal("-1.0") == Some(-1.0)
  {
    PositiveOne();
    NegativeOne();
  }

  lemma PositiveOne()
    ensures ParseDecimal("1.0") == Some(1.0)
  {
    UnsignedOne();
    StripOne("1.0");
  }

  lemma NegativeOne()
    ensures ParseDecimal("-1.0") == Some(-1.0)
  {
    UnsignedOne();
    StripOne("-1.0");
    assert "-1.0"[1..] == "1.0";
  }

  lemma UnsignedOne()
    ensures Unsigned("1.0") == Some(1.0)
  {
    var t := "1.0";
    assert DotIndex(t) == 1 by {
      assert t[1..] == ".0";
    }
    assert t[..1] == "1" && t[2..] == "0";
    assert Fraction("0") == 0.0 by {
      assert "0"[1..] == "";
    }
    assert DigitsValue("1") == 1 by {
      assert "1"[..0] == "";
    }
  }

  /** The test amounts carry no white space to strip. */
  lemma StripOne(s: string)
    requires s == "1.0" || s == "-1.0"
    ensures Strip(s) == s
  {
    assert StripLeft(s) == s;
    assert StripRight(s) == s;
  }

  /** The library's Commonwealth Bank test: two four-field rows become two three-field rows. */
  lemma CommbankExample()
    ensures Commbank([["01/01/2014", "1.0", "Positive", "1.0"], ["01/01/2014", "-1.0", "Negative", "0.0"]])
      == Ok([[Text("01/01/2014"), Money(1.0), Text("Positive")], [Text("01/01/2014"), Money(-1.0), Text("Negative")]])
  {
    DecimalExamples();
    TakeThreeFour("01/01/2014", "1.0", "Positive", "1.0", 1.0);
    TakeThreeFour("01/01/2014", "-1.0", "Negative", "0.0", -1.0);
    MapTwo(TakeThreeRow, ["01/01/2014", "1.0", "Positive", "1.0"], ["01/01/2014", "-1.0", "Negative", "0.0"]);
  }

  lemma TakeThreeFour(date: string, amount: string, description: string, balance: string, v: real)
    requires ParseDecimal(amount) == Some(v)
    ensures TakeThreeRow([date, amount, description, balance]) == Ok([Text(date), Money(v), Text(description)])
  {
  }

  /** The library's St George test: the header is dropped, a credit stays positive, a debit turns negative. */
  lemma StGeorgeExample()
    ensures StGeorge([["Date", "Description", "Debit", "Credit", "Balance"],
                      ["01/01/2014", "Positive", "", "1.0", "1.0"],
                      ["01/01/2014", "Negative", "1.0", "", "0.0"]])
      == Ok([[Text("01/01/2014"), Money(1.0), Text("Positive")], [Text("01/01/2014"), Money(-1.0), Text("Negative")]])
  {
    DecimalExamples();
    var header := ["Date", "Description", "Debit", "Credit", "Balance"];
    var credit := ["01/01/2014", "Positive", "", "1.0", "1.0"];
    var debit := ["01/01/2014", "Negative", "1.0", "", "0.0"];
    assert StGeorgeRow(credit) == Ok([Text("01/01/2014"), Money(1.0), Text("Positive")]) by {
      assert credit[2] == "" && credit[3] == "1.0";
    }
    assert StGeorgeRow(debit) == Ok([Text("01/01/2014"), Money(-1.0), Text("Negative")]) by {
      assert debit[2] == "1.0" && debit[2] != "";
    }
    MapTwo(StGeorgeRow, credit, debit);
    assert [header, credit, debit][1..] == [credit, debit];
  }
}

/**
 * The stand-alone transform.py script: the same formats, but without the
 * `money` rendering. Commonwealth Bank rows are cut to three fields, ANZ
 * rows pass through, and a St George debit becomes a negated number while
 * a credit is copied as text.
 */
module TransformScript {
  import opened Wrappers
  import opened Text
  import opened Pipes
  import opened Transform

  /** A row of text copied as it is. */
  function Texts(l: Row): (r: seq<Cell>)
    ensures |r| == |l| && forall i :: 0 <= i < |l| ==> r[i] == Text(l[i])
  {
    seq(|l|, i requires 0 <= i < |l| => Text(l[i]))
  }

  /** `transform_commbank`: `l[:3]` of every row, which never fails. */
  function Commbank(rows: seq<Row>): (r: seq<Row>)
    ensures |r| == |rows|
    ensures forall i :: 0 <= i < |rows| ==> r[i] <= rows[i] && |r[i]| == if |rows[i]| < 3 then |rows[i]| else 3
  {
    seq(|rows|, i requires 0 <= i < |rows| => if |rows[i]| < 3 then rows[i] else rows[i][..3])
  }

  /** `transform_anz`: the source itself. */
  function Anz(rows: seq<Row>): seq<Row>
  {
    rows
  }

  /**
   * One St George row as `[l[0], -1 * float(l[2]) if l[2] else l[3], l[1]]`:
   * a debit is converted and negated, a credit is copied unconverted.
   */
  function StGeorgeRow(l: Row): (r: Result<seq<Cell>>)
    ensures r.Ok? <==> |l| >= 3 && (if l[2] != "" then ParseDecimal(l[2]).Some? else |l| >= 4)
    ensures r.Ok? && l[2] != "" ==> r.value == [Text(l[0]), Number(-ParseDecimal(l[2]).value), Text(l[1])]
    ensures r.Ok? && l[2] == "" ==> r.value == [Text(l[0]), Text(l[3]), Text(l[1])]
  {
    if |l| < 3 then Err(IndexError)
    else if l[2] != "" then
      match ParseDecimal(l[2])
      case None => Err(ValueError)
      case Some(debit) => Ok([Text(l[0]), Number(-debit), Text(l[1])])
    else if |l| < 4 then Err(IndexError)
    else Ok([Text(l[0]), Text(l[3]), Text(l[1])])
  }

  /** `transform_stgeorge`: the header is consumed first, then every later row converted. */
  function StGeorge(rows: seq<Row>): (r: Result<seq<seq<Cell>>>)
    ensures |rows| == 0 ==> r == Err(StopIteration)
    ensures |rows| > 0 ==> r == Map(StGeorgeRow, rows[1..])
  {
    if |rows| == 0 then Err(StopIteration)
    else Map(StGeorgeRow, rows[1..])
  }

  /**
   * What `main` writes for a form, row by row: nothing and AssertionError
   * for an unknown form; otherwise each row of the form's transform as it
   * comes, so the rows before one that raises stay written.
   */
  function Run(form: string, rows: seq<Row>): (r: Drained<seq<Cell>>)
    ensures form !in Choices ==> r == Drained([], Some(AssertionError))
    ensures form == "anz" ==> r == Drained(seq(|rows|, i requires 0 <= i < |rows| => Texts(rows[i])), None)
    ensures form == "commbank" ==>
      && r.failure.None? && |r.written| == |rows|
      && forall i :: 0 <= i < |rows| ==> r.written[i] == Texts(if |rows[i]| < 3 then rows[i] else rows[i][..3])
    ensures form == "stgeorge" ==>
      && (r.failure.None? <==> StGeorge(rows).Ok?)
      && (StGeorge(rows).Ok? ==> r.written == StGeorge(rows).value)
      && (StGeorge(rows).Err? ==> r.failure == Some(StGeorge(rows).error))
      && (|rows| == 0 ==> r.written == [])
      && (forall i :: 0 <= i < |r.written| ==> i + 1 < |rows| && StGeorgeRow(rows[i + 1]) == Ok(r.written[i]))
      && (|rows| > 0 && r.failure.Some? ==> |r.written| + 1 < |rows| && StGeorgeRow(rows[|r.written| + 1]) == Err(r.failure.value))
  {
    if form !in Choices then Drained([], Some(AssertionError))
    else if form == "stgeorge" then
      if |rows| == 0 then Drained([], Some(StopIteration))
      else
        DrainIsMap(StGeorgeRow, rows[1..]);
        Drain(StGeorgeRow, rows[1..])
    else
      var out := if form == "anz" then Anz(rows) else Commbank(rows);
      Drained(seq(|out|, i requires 0 <= i < |out| => Texts(out[i])), None)
  }

  /** A short St George row after a good one: the good row is already written when IndexError stops `main`. */
  lemma StGeorgeKeepsWritten()
    ensures Run("stgeorge", [["Date", "Description", "Debit", "Credit", "Balance"],
                             ["01/01/2014", "Positive", "", "1.0", "1.0"],
                             ["01/01/2014"]])
      == Drained([[Text("01/01/2014"), Text("1.0"), Text("Positive")]], Some(IndexError))
  {
    var rows := [["Date", "Description", "Debit", "Credit", "Balance"], ["01/01/2014", "Positive", "", "1.0", "1.0"], ["01/01/2014"]];
    assert rows[1][2] == "";
    assert rows[1..] == [rows[1], rows[2]];
    assert rows[1..][1..] == [rows[2]];
  }

  /**
   * The script and the library agree on what each St George row says
   * about a debit: the same date, negated amount and description; the
   * library renders the amount, the script does not.
   */
  lemma StGeorgeDebitAgrees(l: Row)
    requires |l| >= 3 && l[2] != "" && ParseDecimal(l[2]).Some?
    ensures StGeorgeRow(l).Ok? && Transform.StGeorgeRow(l).Ok?
    ensures StGeorgeRow(l).value[1] == Number(-ParseDecimal(l[2]).value)
    ensures Transform.StGeorgeRow(l).value[1] == Money(-ParseDecimal(l[2]).value)
    ensures StGeorgeRow(l).value[0] == Transform.StGeorgeRow(l).value[0]
    ensures StGeorgeRow(l).value[2] == Transform.StGeorgeRow(l).value[2]
  {
  }
}

=== FILE: visualise.dfy ===
/**
 * The reshaping behind the spending graphs: rows summed per category,
 * month → category tables summed, inverted and pruned, the income and
 * surplus of each month, the rows grouped by period, the days left in a
 * month and a running daily mean.
 *
 * Python dicts become maps; amounts are exact reals. The stand-alone
 * script defines `sum_categories`, `sum_expenses`, `income`, `invert`,
 * `category_sum_matrix`, `ignore` and `surplus` with the same text as the
 * library, over the same category list, so one model serves both.
 */
module Visualise {
  import opened Wrappers
  import opened Text
  import opened Dates
  import opened Pipes
  import opened Sorting
  import Predict

  type Row = seq<string>

  /** category → amount */
  type Totals = map<string, real>

  /** month → category → amount, or category → month → amount once inverted */
  type Table = map<string, map<string, real>>

  const Categories: seq<string> := ["Cash", "Commitment", "Dining", "Education", "Entertainment",
    "Health", "Home", "Income", "Internal", "Shopping", "Transport", "Utilities"]

  const CategorySet: set<string> := set c | c in Categories

  /* ---------------- sums over dict values ---------------- */

  /** Some key of a non-empty dict. */
  ghost function Pick(keys: set<string>): (k: string)
    requires keys != {}
    ensures k in keys
  {
    var k :| k in keys; k
  }

  /** `sum(d.values())`: the same whatever order the values come in. */
  ghost function SumValues(m: map<string, real>): real
    decreases |m.Keys|
  {
    if m.Keys == {} then 0.0
    else
      var k := Pick(m.Keys);
      assert (m - {k}).Keys == m.Keys - {k};
      m[k] + SumValues(m - {k})
  }

  /** Any value can be taken out of the sum first. */
  lemma {:induction false} SumValuesRemove(m: map<string, real>, k: string)
    requires k in m
    ensures SumValues(m) == m[k] + SumValues(m - {k})
    decreases |m.Keys|
  {
    var j := Pick(m.Keys);
    if j != k {
      var mj, mk := m - {j}, m - {k};
      assert mj.Keys == m.Keys - {j} && mk.Keys == m.Keys - {k};
      assert SumValues(m) == m[j] + SumValues(mj);
      SumValuesRemove(mj, k);
      SumValuesRemove(mk, j);
      assert mj[k] == m[k] && mk[j] == m[j];
      var rest := m - {j, k};
      assert mj - {k} == rest by {
        assert (mj - {k}).Keys == rest.Keys;
      }
      assert mk - {j} == rest by {
        assert (mk - {j}).Keys == rest.Keys;
      }
    }
  }

  /** Storing v under k changes the sum by v less what k held. */
  lemma SumValuesPut(m: map<string, real>, k: string, v: real)
    ensures SumValues(m[k := v]) == SumValues(m) + v - (if k in m then m[k] else 0.0)
  {
    SumValuesRemove(m[k := v], k);
    if k in m {
      SumValuesRemove(m, k);
      assert m[k := v] - {k} == m - {k};
    } else {
      assert m[k := v] - {k} == m;
    }
  }

  /* ---------------- sum_categories ---------------- */

  /**
   * What `summed[row[3]] += float(row[1])` reads from one row, in Python's
   * order: the category (IndexError when the row is short), its current
   * total (KeyError for a category not in the list), then the amount
   * (ValueError when it is not a number).
   */
  function Charge(row: Row): (r: Result<(string, real)>)
    ensures r.Ok? <==> |row| >= 4 && row[3] in CategorySet && ParseDecimal(row[1]).Some?
    ensures r.Ok? ==> r.value == (row[3], ParseDecimal(row[1]).value)
    ensures r.Err? ==> r.error == (if |row| < 4 then IndexError else if row[3] !in CategorySet then KeyError else ValueError)
  {
    if |row| < 4 then Err(IndexError)
    else if row[3] !in CategorySet then Err(KeyError)
    else
      match ParseDecimal(row[1])
      case None => Err(ValueError)
      case Some(v) => Ok((row[3], v))
  }

  /** The total of the charges against category c. */
  function Total(charges: seq<(string, real)>, c: string): real
  {
    if |charges| == 0 then 0.0
    else Total(charges[..|charges| - 1], c) + (if charges[|charges| - 1].0 == c then charges[|charges| - 1].1 else 0.0)
  }

  /** The total of every charge. */
  function TotalAll(charges: seq<(string, real)>): real
  {
    if |charges| == 0 then 0.0
    else TotalAll(charges[..|charges| - 1]) + charges[|charges| - 1].1
  }

  /** Every category of cats, each with its total. */
  function TotalsOf(cats: set<string>, charges: seq<(string, real)>): (r: Totals)
    ensures r.Keys == cats
  {
    map c | c in cats :: Total(charges, c)
  }

  /** Every category of the list, each with its total. */
  function CategoryTotals(charges: seq<(string, real)>): (r: Totals)
    ensures r.Keys == CategorySet
  {
    TotalsOf(CategorySet, charges)
  }

  /** One more charge adds to its own category's total only. */
  lemma ChargeOne(cats: set<string>, charges: seq<(string, real)>, summed: Totals, c: string, v: real)
    requires c in cats && summed == TotalsOf(cats, charges)
    ensures summed[c := summed[c] + v] == TotalsOf(cats, charges + [(c, v)])
  {
    var more := charges + [(c, v)];
    assert more[..|charges|] == charges;
  }

  /**
   * The loop of `sum_categories`, over any way `charge` of reading a row:
   * every category of cats starts at 0 and each row's amount is added to
   * its category's total. The first row that cannot be charged ends the
   * loop with its error.
   */
  method SumCharges(charge: Row -> Result<(string, real)>, cats: set<string>, data: seq<Row>) returns (r: Result<Totals>)
    requires forall row :: charge(row).Ok? ==> charge(row).value.0 in cats
    ensures r.Ok? <==> Map(charge, data).Ok?
    ensures r.Err? ==> r.error == Map(charge, data).error
    ensures r.Ok? ==> r.value == TotalsOf(cats, Map(charge, data).value)
  {
    var summed: Totals := map c | c in cats :: 0.0;
    ghost var charges: seq<(string, real)> := [];
    for i := 0 to |data|
      invariant Map(charge, data[..i]) == Ok(charges)
      invariant summed == TotalsOf(cats, charges)
    {
      var row := data[i];
      var ch := charge(row);
      if ch.Err? {
        MapStops(charge, data, i);
        return Err(ch.error);
      }
      var (category, amount) := ch.value;
      ChargeOne(cats, charges, summed, category, amount);
      MapPrefix(charge, data, i, charges, (category, amount));
      summed := summed[category := summed[category] + amount];
      charges := charges + [(category, amount)];
    }
    assert data[..|data|] == data;
    return Ok(summed);
  }

  /** `sum_categories(data)`: the loop above over the category list and `Charge`. */
  method SumCategories(data: seq<Row>) returns (r: Result<Totals>)
    ensures r.Ok? <==> Map(Charge, data).Ok?
    ensures r.Err? ==> r.error == Map(Charge, data).error
    ensures r.Ok? ==> r.value == CategoryTotals(Map(Charge, data).value)
  {
    r := SumCharges(Charge, CategorySet, data);
  }

  /** A dict whose values are all zero sums to zero. */
  lemma {:induction false} SumValuesZero(m: map<string, real>)
    requires forall k :: k in m ==> m[k] == 0.0
    ensures SumValues(m) == 0.0
    decreases |m.Keys|
  {
    if m.Keys != {} {
      var k := Pick(m.Keys);
      assert (m - {k}).Keys == m.Keys - {k};
      SumValuesZero(m - {k});
    }
  }

  /**
   * Nothing is lost: when every charge is against a listed category, the
   * category totals add up to the total of all charges.
   */
  lemma {:induction false} TotalsSum(cats: set<string>, charges: seq<(string, real)>)
    requires forall i :: 0 <= i < |charges| ==> charges[i].0 in cats
    ensures SumValues(TotalsOf(cats, charges)) == TotalAll(charges)
  {
    if |charges| == 0 {
      SumValuesZero(TotalsOf(cats, charges));
    } else {
      var front := charges[..|charges| - 1];
      var (c, v) := charges[|charges| - 1];
      assert front + [(c, v)] == charges;
      TotalsSum(cats, front);
      ChargeOne(cats, front, TotalsOf(cats, front), c, v);
      SumValuesPut(TotalsOf(cats, front), c, TotalsOf(cats, front)[c] + v);
    }
  }

  /** The category totals of `sum_categories` add up to the sum of every row's amount. */
  lemma CategoryTotalsSum(charges: seq<(string, real)>)
    requires forall i :: 0 <= i < |charges| ==> charges[i].0 in CategorySet
    ensures SumValues(CategoryTotals(charges)) == TotalAll(charges)
  {
    TotalsSum(CategorySet, charges);
  }

  /* ---------------- sum_expenses, income, surplus ---------------- */

  /** The entries of m whose keys are not in keys. */
  function Without(m: map<string, real>, keys: set<string>): (r: map<string, real>)
    ensures r.Keys == m.Keys - keys
  {
    map k | k in m && k !in keys :: m[k]
  }

  /** Adding one more entry of m to the running total. */
  lemma AddEntry(m: map<string, real>, rest: set<string>, c: string)
    requires c in rest && c in m
    ensures SumValues(Without(m, rest - {c})) == SumValues(Without(m, rest)) + m[c]
  {
    assert Without(m, rest - {c}) == Without(m, rest)[c := m[c]];
    SumValuesPut(Without(m, rest), c, m[c]);
  }

  /**
   * `sum_expenses(expenses)`: each month's total over all its categories,
   * for exactly the months of the table.
   */
  method SumExpenses(expenses: Table) returns (summed: Totals)
    ensures summed.Keys == expenses.Keys
    ensures forall m :: m in summed ==> summed[m] == SumValues(expenses[m])
  {
    summed := map[];
    var months := expenses.Keys;
    while months != {}
      invariant months <= expenses.Keys
      invariant summed.Keys == expenses.Keys - months
      invariant forall m :: m in summed ==> summed[m] == SumValues(expenses[m])
      decreases months
    {
      var m :| m in months;
      var cs := expenses[m];
      if m !in summed {
        summed := summed[m := 0.0];
      }
      var rest := cs.Keys;
      assert Without(cs, rest) == map[];
      SumValuesZero(Without(cs, rest));
      while rest != {}
        invariant rest <= cs.Keys
        invariant summed.Keys == expenses.Keys - months + {m}
        invariant forall k :: k in summed && k != m ==> summed[k] == SumValues(expenses[k])
        invariant summed[m] == SumValues(Without(cs, rest))
        decreases rest
      {
        var c :| c in rest;
        AddEntry(cs, rest, c);
        summed := summed[m := summed[m] + cs[c]];
        rest := rest - {c};
      }
      assert Without(cs, {}) == cs;
      months := months - {m};
    }
  }

  /** `sum(d.values())` */
  method SumDict(d: map<string, real>) returns (total: real)
    ensures total == SumValues(d)
  {
    total := 0.0;
    var rest := d.Keys;
    assert Without(d, rest) == map[];
    SumValuesZero(Without(d, rest));
    while rest != {}
      invariant rest <= d.Keys
      invariant total == SumValues(Without(d, rest))
      decreases rest
    {
      var c :| c in rest;
      AddEntry(d, rest, c);
      total := total + d[c];
      rest := rest - {c};
    }
    assert Without(d, {}) == d;
  }

  /** `income(summed)`: each month's "Income" total, 0 for a month without one. */
  function Income(summed: Table): (r: Totals)
    ensures r.Keys == summed.Keys
  {
    map m | m in summed :: if "Income" in summed[m] then summed[m]["Income"] else 0.0
  }

  /**
   * `surplus(expenses, income)`: each expense month's income plus its
   * (negative) expenses. A month without an income entry raises KeyError.
   */
  method Surplus(expenses: Table, income: Totals) returns (r: Result<Totals>)
    ensures r.Err? <==> exists m :: m in expenses && m !in income
    ensures r.Err? ==> r.error == KeyError
    ensures r.Ok? ==> r.value.Keys == expenses.Keys
    ensures r.Ok? ==> forall m :: m in r.value ==> r.value[m] == income[m] + SumValues(expenses[m])
  {
    var s: Totals := map[];
    var months := expenses.Keys;
    while months != {}
      invariant months <= expenses.Keys
      invariant s.Keys == expenses.Keys - months
      invariant forall m :: m in s ==> m in income && s[m] == income[m] + SumValues(expenses[m])
      decreases months
    {
      var m :| m in months;
      if m !in income {
        return Err(KeyError);
      }
      var spent := SumDict(expenses[m]);
      s := s[m := income[m] + spent];
      months := months - {m};
    }
    return Ok(s);
  }

  /* ---------------- invert ---------------- */

  /** Category c has an entry in some month. */
  ghost predicate Seen(summed: Table, c: string)
  {
    exists m :: m in summed && c in summed[m]
  }

  /**
   * d is `summed` transposed: a category seen in some month maps each month
   * it appears in to its amount there; a valid category seen in no month
   * maps every month to 0; there are no other categories.
   */
  ghost predicate Inverted(summed: Table, valid: seq<string>, d: Table)
  {
    (forall c :: c in d <==> Seen(summed, c) || c in valid) &&
    (forall c, m :: c in d && Seen(summed, c) && m in d[c] ==> m in summed && c in summed[m] && d[c][m] == summed[m][c]) &&
    (forall c, m :: c in d && Seen(summed, c) && m in summed && c in summed[m] ==> m in d[c]) &&
    (forall c :: c in d && !Seen(summed, c) ==> d[c] == map m | m in summed :: 0.0)
  }

  /** d is t transposed. */
  ghost predicate Transposed(t: Table, d: Table)
  {
    (forall c :: c in d <==> Seen(t, c)) &&
    (forall c, m :: c in d && m in d[c] ==> m in t && c in t[m] && d[c][m] == t[m][c]) &&
    (forall c, m :: c in d && m in t && c in t[m] ==> m in d[c])
  }

  /** `d[c][m] += s`, creating `d[c]` and `d[c][m]` first when missing. */
  function Deposit(d: Table, c: string, m: string, s: real): (r: Table)
  {
    var d1 := if c !in d then d[c := map[]] else d;
    var d2 := if m !in d1[c] then d1[c := d1[c][m := 0.0]] else d1;
    d2[c := d2[c][m := d2[c][m] + s]]
  }

  /** A month with no entries yet changes nothing. */
  lemma TransposedNewMonth(t: Table, d: Table, m: string)
    requires Transposed(t, d) && m !in t
    ensures Transposed(t[m := map[]], d)
  {
    var t' := t[m := map[]];
    forall c
      ensures Seen(t', c) <==> Seen(t, c)
    {
      if Seen(t', c) {
        var x :| x in t' && c in t'[x];
        assert x != m && t'[x] == t[x];
      }
      if Seen(t, c) {
        var x :| x in t && c in t[x];
        assert x in t' && t'[x] == t[x];
      }
    }
  }

  /** What a deposit of a new entry does to the table's keys and rows. */
  lemma DepositShape(d: Table, m: string, c: string, s: real)
    requires c in d ==> m !in d[c]
    ensures var r := Deposit(d, c, m, s);
      (forall x :: x in r <==> x in d || x == c) &&
      (forall x :: x in d && x != c ==> r[x] == d[x]) &&
      r[c] == (if c in d then d[c] else map[])[m := s]
  {
  }

  /** The categories seen after a new entry are those seen before and its own. */
  lemma SeenDeposit(t: Table, m: string, c: string, s: real)
    requires m in t
    ensures forall x :: Seen(t[m := t[m][c := s]], x) <==> Seen(t, x) || x == c
  {
    var t' := t[m := t[m][c := s]];
    forall x
      ensures Seen(t', x) <==> Seen(t, x) || x == c
    {
      if Seen(t', x) && x != c {
        var y :| y in t' && x in t'[y];
        assert x in t[y];
      }
      if Seen(t, x) {
        var y :| y in t && x in t[y];
        assert y in t' && x in t'[y];
      }
      if x == c {
        assert m in t' && c in t'[m];
      }
    }
  }

  /** Depositing a new entry of month m into the transposed table. */
  lemma TransposedDeposit(part: Table, row: map<string, real>, d: Table, m: string, c: string, s: real)
    requires Transposed(part[m := row], d) && c !in row
    ensures Transposed(part[m := row[c := s]], Deposit(d, c, m, s))
  {
    var t := part[m := row];
    var t' := part[m := row[c := s]];
    assert t' == t[m := t[m][c := s]];
    var r := Deposit(d, c, m, s);
    DepositShape(d, m, c, s);
    SeenDeposit(t, m, c, s);
    DepositEntries(t, d, r, m, c, s);
    DepositCovers(t, d, r, m, c, s);
  }

  /** Each entry of the deposited table is the new month table's entry. */
  lemma DepositEntries(t: Table, d: Table, r: Table, m: string, c: string, s: real)
    requires Transposed(t, d) && m in t && c !in t[m]
    requires (forall x :: x in r <==> x in d || x == c) && (forall x :: x in d && x != c ==> r[x] == d[x])
    requires r[c] == (if c in d then d[c] else map[])[m := s]
    ensures var t' := t[m := t[m][c := s]];
      forall x, y :: x in r && y in r[x] ==> y in t' && x in t'[y] && r[x][y] == t'[y][x]
  {
    var t' := t[m := t[m][c := s]];
    forall x, y | x in r && y in r[x]
      ensures y in t' && x in t'[y] && r[x][y] == t'[y][x]
    {
      if x == c && y != m {
        assert y in d[c];
      } else if x != c {
        assert y in d[x];
      }
    }
  }

  /** Each entry of the new month table is in the deposited table. */
  lemma DepositCovers(t: Table, d: Table, r: Table, m: string, c: string, s: real)
    requires Transposed(t, d) && m in t && c !in t[m]
    requires (forall x :: x in r <==> x in d || x == c) && (forall x :: x in d && x != c ==> r[x] == d[x])
    requires r[c] == (if c in d then d[c] else map[])[m := s]
    ensures var t' := t[m := t[m][c := s]];
      forall x, y :: x in r && y in t' && x in t'[y] ==> y in r[x]
  {
    var t' := t[m := t[m][c := s]];
    forall x, y | x in r && y in t' && x in t'[y]
      ensures y in r[x]
    {
      if y != m || x != c {
        assert x in t[y];
      }
    }
  }

  /** `d[c][m] += s` with the two steps before it that create `d[c]` and `d[c][m]` when missing. */
  method Accumulate(d: Table, c: string, m: string, s: real) returns (r: Table)
    ensures r == Deposit(d, c, m, s)
  {
    r := d;
    if c !in r {
      r := r[c := map[]];
    }
    if m !in r[c] {
      r := r[c := r[c][m := 0.0]];
    }
    r := r[c := r[c][m := r[c][m] + s]];
  }

  /** After the zero-filling pass the transposed table is complete. */
  lemma InvertedFinish(summed: Table, valid: seq<string>, d0: Table, d: Table)
    requires Transposed(summed, d0)
    requires forall c :: c in d <==> c in d0 || c in valid
    requires forall c :: c in d0 ==> d[c] == d0[c]
    requires forall c :: c in d && c !in d0 ==> d[c] == map m | m in summed :: 0.0
    ensures Inverted(summed, valid, d)
  {
  }

  /** The first loop of `invert`, over one month: each of its categories deposited. */
  method DepositMonth(summed: Table, d: Table, ghost part: Table, m: string) returns (r: Table, ghost after: Table)
    requires m in summed && m !in part && Transposed(part, d)
    ensures after == part[m := summed[m]] && Transposed(after, r)
  {
    r := d;
    var v := summed[m];
    TransposedNewMonth(part, r, m);
    ghost var row: map<string, real> := map[];
    after := part[m := row];
    var cats := v.Keys;
    while cats != {}
      invariant cats <= v.Keys
      invariant after == part[m := row]
      invariant row.Keys == v.Keys - cats
      invariant forall k :: k in row ==> row[k] == v[k]
      invariant Transposed(after, r)
      decreases cats
    {
      var c :| c in cats;
      TransposedDeposit(part, row, r, m, c, v[c]);
      row := row[c := v[c]];
      after := part[m := row];
      r := Accumulate(r, c, m, v[c]);
      cats := cats - {c};
    }
    assert row == v;
  }

  /** The second loop of `invert`: valid categories seen in no month get 0 for every month. */
  method ZeroFill(summed: Table, d0: Table, ms: seq<string>, valid: seq<string>) returns (d: Table)
    requires forall x :: x in ms <==> x in summed
    ensures forall c :: c in d <==> c in d0 || c in valid
    ensures forall c :: c in d0 ==> d[c] == d0[c]
    ensures forall c :: c in d && c !in d0 ==> d[c] == map m | m in summed :: 0.0
  {
    d := d0;
    for i := 0 to |valid|
      invariant forall c :: c in d <==> c in d0 || c in valid[..i]
      invariant forall c :: c in d0 ==> d[c] == d0[c]
      invariant forall c :: c in d && c !in d0 ==> d[c] == map m | m in summed :: 0.0
    {
      var c := valid[i];
      if c !in d {
        d := d[c := map m | m in ms :: 0.0];
        assert d[c] == map m | m in summed :: 0.0;
      }
      assert valid[..i + 1] == valid[..i] + [c];
    }
    assert valid[..|valid|] == valid;
  }

  /**
   * `invert(summed, valid)`: the month → category table turned into a
   * category → month table, and every valid category that no month
   * mentions mapped to 0 in every month.
   */
  method Invert(summed: Table, valid: seq<string>) returns (d: Table)
    ensures Inverted(summed, valid, d)
  {
    d := map[];
    ghost var part: Table := map[];
    var ms: seq<string> := [];
    var months := summed.Keys;
    while months != {}
      invariant months <= summed.Keys
      invariant forall x :: x in ms <==> x in summed && x !in months
      invariant part.Keys == summed.Keys - months
      invariant forall x :: x in part ==> part[x] == summed[x]
      invariant Transposed(part, d)
      decreases months
    {
      var m :| m in months;
      ms := ms + [m];
      d, part := DepositMonth(summed, d, part, m);
      months := months - {m};
    }
    assert part == summed;
    var d0 := d;
    d := ZeroFill(summed, d0, ms, valid);
    InvertedFinish(summed, valid, d0, d);
  }

  /** The income of each month is what the inverted table holds for it under "Income", or 0. */
  lemma InvertedIncome(summed: Table, valid: seq<string>, d: Table)
    requires Inverted(summed, valid, d) && "Income" in valid
    ensures "Income" in d
    ensures forall m :: m in summed ==>
      Income(summed)[m] == if m in d["Income"] then d["Income"][m] else 0.0
  {
    forall m | m in summed
      ensures Income(summed)[m] == if m in d["Income"] then d["Income"][m] else 0.0
    {
      if Seen(summed, "Income") {
        if "Income" in summed[m] {
          assert m in d["Income"];
        }
      } else {
        assert "Income" !in summed[m];
      }
    }
  }

  /* ---------------- ignore ---------------- */

  /** `for m in d.keys(): del d[m][k]`: KeyError when some month has no entry k. */
  method DropKey(d: Table, k: string) returns (r: Result<Table>)
    ensures r.Err? <==> exists m :: m in d && k !in d[m]
    ensures r.Err? ==> r.error == KeyError
    ensures r.Ok? ==> r.value.Keys == d.Keys
    ensures r.Ok? ==> forall m :: m in d ==> r.value[m] == d[m] - {k}
  {
    var out := d;
    var months := d.Keys;
    while months != {}
      invariant months <= d.Keys
      invariant out.Keys == d.Keys
      invariant forall m :: m in out ==> out[m] == if m in months then d[m] else d[m] - {k}
      invariant forall m :: m in d && m !in months ==> k in d[m]
      decreases months
    {
      var m :| m in months;
      if k !in out[m] {
        return Err(KeyError);
      }
      out := out[m := out[m] - {k}];
      months := months - {m};
    }
    return Ok(out);
  }

  /** No name occurs twice. */
  ghost predicate Distinct(xs: seq<string>)
  {
    forall a, b :: 0 <= a < b < |xs| ==> xs[a] != xs[b]
  }

  /**
   * `ignore(summed, *args)`: a copy of the table without the named
   * categories. Unless the table is empty, every name must be present in
   * every month, once: a name some month lacks, or a name given twice,
   * raises KeyError.
   */
  method Ignore(summed: Table, args: seq<string>) returns (r: Result<Table>)
    ensures r.Err? <==> summed != map[] && (!Distinct(args) || exists m, k :: m in summed && k in args && k !in summed[m])
    ensures r.Err? ==> r.error == KeyError
    ensures r.Ok? ==> r.value.Keys == summed.Keys
    ensures r.Ok? ==> forall m, c :: m in summed ==> (c in r.value[m] <==> c in summed[m] && c !in args)
    ensures r.Ok? ==> forall m, c :: m in summed && c in r.value[m] ==> c in summed[m] && r.value[m][c] == summed[m][c]
  {
    var d := summed;
    for i := 0 to |args|
      invariant d.Keys == summed.Keys
      invariant forall m, c :: m in summed ==> (c in d[m] <==> c in summed[m] && c !in args[..i])
      invariant forall m, c :: m in summed && c in d[m] ==> c in summed[m] && d[m][c] == summed[m][c]
      invariant summed != map[] ==> Distinct(args[..i]) && forall m, k :: m in summed && k in args[..i] ==> k in summed[m]
    {
      var k := args[i];
      var next := DropKey(d, k);
      if next.Err? {
        IgnoreFails(summed, args, i, d);
        return Err(KeyError);
      }
      IgnoreStep(summed, args, i, d);
      d := next.value;
    }
    assert args[..|args|] == args;
    return Ok(d);
  }

  /** A month left without `args[i]` by the earlier deletions makes `ignore` fail. */
  lemma IgnoreFails(summed: Table, args: seq<string>, i: nat, d: Table)
    requires i < |args| && d.Keys == summed.Keys
    requires forall m, c :: m in summed ==> (c in d[m] <==> c in summed[m] && c !in args[..i])
    requires exists m :: m in d && args[i] !in d[m]
    ensures summed != map[] && (!Distinct(args) || exists m, k :: m in summed && k in args && k !in summed[m])
  {
    var m :| m in d && args[i] !in d[m];
    assert m in summed;
    if args[i] in args[..i] {
      var j :| 0 <= j < i && args[j] == args[i];
    } else {
      assert args[i] in args && args[i] !in summed[m];
    }
  }

  /** A deletion that succeeds keeps the deleted names distinct and present everywhere. */
  lemma IgnoreStep(summed: Table, args: seq<string>, i: nat, d: Table)
    requires i < |args| && d.Keys == summed.Keys
    requires forall m, c :: m in summed ==> (c in d[m] <==> c in summed[m] && c !in args[..i])
    requires summed != map[] ==> Distinct(args[..i]) && forall m, k :: m in summed && k in args[..i] ==> k in summed[m]
    requires forall m :: m in d ==> args[i] in d[m]
    ensures args[..i + 1] == args[..i] + [args[i]]
    ensures summed != map[] ==> Distinct(args[..i + 1]) && forall m, k :: m in summed && k in args[..i + 1] ==> k in summed[m]
  {
    assert args[..i + 1] == args[..i] + [args[i]];
    if summed != map[] {
      var m0 :| m0 in summed;
      assert args[i] in d[m0];
      assert args[i] !in args[..i];
    }
  }

  /* ---------------- category_sum_matrix ---------------- */

  /** `monthsort(s)`: the first day of the "%m/%Y" month s. */
  function MonthDate(s: string): (r: Result<Date>)
  {
    match ParseMonth(s)
    case None => Err(ValueError)
    case Some(d) => Ok(d)
  }

  /** The order `sorted(..., key=monthsort)` compares (date, month) pairs by. */
  predicate EarlierMonth(p: (Date, string), q: (Date, string))
  {
    Before(p.0, q.0)
  }

  lemma EarlierMonthOrder()
    ensures StrictWeakOrder(EarlierMonth)
  {
  }

  lemma StrLessOrder()
    ensures StrictWeakOrder(StrLess)
  {
    forall a, b | StrLess(a, b)
      ensures !StrLess(b, a)
    {
      StrLessTotal(a, b);
    }
    forall a, b, c | !StrLess(b, a) && !StrLess(c, b)
      ensures !StrLess(c, a)
    {
      StrLessTotal(a, b);
      StrLessTotal(b, c);
      if a != b && b != c {
        StrLessTrans(a, b, c);
      }
      StrLessTotal(a, c);
    }
  }

  /** The keys of a dict, each once, in whatever order iteration gives. */
  method KeyList<V>(m: map<string, V>) returns (ks: seq<string>)
    ensures |ks| == |m| && forall k :: k in ks <==> k in m
  {
    ks := [];
    var rest := m.Keys;
    while rest != {}
      invariant rest <= m.Keys
      invariant forall k :: k in ks <==> k in m && k !in rest
      invariant |ks| + |rest| == |m.Keys|
      decreases rest
    {
      var k :| k in rest;
      ks := ks + [k];
      rest := rest - {k};
    }
  }

  /** Each key decorated with what it reads as. */
  function Zip<A, B>(ys: seq<A>, xs: seq<B>): (r: seq<(A, B)>)
    requires |ys| == |xs|
    ensures |r| == |xs| && forall i :: 0 <= i < |xs| ==> r[i] == (ys[i], xs[i])
  {
    seq(|xs|, i requires 0 <= i < |xs| => (ys[i], xs[i]))
  }

  function Firsts<A, B>(ps: seq<(A, B)>): (r: seq<A>)
    ensures |r| == |ps| && forall j :: 0 <= j < |ps| ==> r[j] == ps[j].0
  {
    seq(|ps|, j requires 0 <= j < |ps| => ps[j].0)
  }

  function Seconds<A, B>(ps: seq<(A, B)>): (r: seq<B>)
    ensures |r| == |ps| && forall j :: 0 <= j < |ps| ==> r[j] == ps[j].1
  {
    seq(|ps|, j requires 0 <= j < |ps| => ps[j].1)
  }

  lemma PermutedLength<T>(ps: seq<T>, zs: seq<T>)
    requires multiset(ps) == multiset(zs)
    ensures |ps| == |zs|
  {
    assert |multiset(ps)| == |multiset(zs)|;
  }

  /** Each undecorated key of a permutation of the decorated keys reads as its decoration. */
  lemma UndecorateReads<A, B>(f: B -> Result<A>, xs: seq<B>, ys: seq<A>, ps: seq<(A, B)>)
    requires Map(f, xs) == Ok(ys)
    requires multiset(ps) == multiset(Zip(ys, xs))
    ensures |ps| == |xs|
    ensures Map(f, Seconds(ps)) == Ok(Firsts(ps))
  {
    var zs := Zip(ys, xs);
    PermutedLength(ps, zs);
    MapOkIff(f, xs, ys);
    forall j | 0 <= j < |ps|
      ensures f(Seconds(ps)[j]) == Ok(Firsts(ps)[j])
    {
      assert ps[j] in multiset(zs);
      var i :| 0 <= i < |zs| && zs[i] == ps[j];
      assert Seconds(ps)[j] == xs[i] && Firsts(ps)[j] == ys[i];
    }
    MapOkIff(f, Seconds(ps), Firsts(ps));
  }

  /** A permutation of the decorated keys, undecorated, lists the same keys. */
  lemma UndecorateKeys<A, B>(xs: seq<B>, ys: seq<A>, ps: seq<(A, B)>)
    requires |ys| == |xs|
    requires multiset(ps) == multiset(Zip(ys, xs))
    ensures forall v :: v in Seconds(ps) <==> v in xs
  {
    var zs := Zip(ys, xs);
    forall v | v in xs
      ensures v in Seconds(ps)
    {
      var i :| 0 <= i < |xs| && xs[i] == v;
      assert zs[i] in multiset(ps);
      var j :| 0 <= j < |ps| && ps[j] == zs[i];
      assert Seconds(ps)[j] == v;
    }
    forall v | v in Seconds(ps)
      ensures v in xs
    {
      var j :| 0 <= j < |ps| && Seconds(ps)[j] == v;
      assert ps[j] in multiset(zs);
      var i :| 0 <= i < |zs| && zs[i] == ps[j];
    }
  }

  /** The keys of a dict as `sorted(d)` lists them. */
  ghost predicate SortedKeys<V>(m: map<string, V>, ks: seq<string>)
  {
    |ks| == |m| && (forall k :: k in ks <==> k in m) && SortedBy(StrLess, ks)
  }

  /** Sorting a listing of the keys gives them in `sorted(d)` order. */
  lemma SortKeys<V>(m: map<string, V>, ks: seq<string>)
    requires |ks| == |m| && forall k :: k in ks <==> k in m
    ensures SortedKeys(m, SortBy(StrLess, ks))
  {
    var cats := SortBy(StrLess, ks);
    StrLessOrder();
    SortSorted(StrLess, ks);
    forall k | k in m
      ensures k in cats
    {
      assert k in multiset(ks);
    }
    forall i | 0 <= i < |cats|
      ensures cats[i] in m
    {
      assert cats[i] in multiset(ks);
    }
  }

  /*
   * The month key is a parameter below, `MonthDate` in the scripts: the
   * proofs only need it to be some function of the month's text.
   */

  /** A row's months listed once each, what they read as in non-decreasing order. */
  ghost predicate KeyOrder(key: string -> Result<Date>, row: map<string, real>, order: seq<string>, dates: seq<Date>)
  {
    |order| == |row| && (forall v :: v in order <==> v in row) &&
    Map(key, order) == Ok(dates) && SortedBy(Before, dates)
  }

  /** `[row[v] for v in sorted(row, key=key)]` */
  ghost predicate InKeyOrder(key: string -> Result<Date>, row: map<string, real>, vals: seq<real>)
  {
    exists order, dates :: KeyOrder(key, row, order, dates) && |vals| == |order| &&
      forall j :: 0 <= j < |vals| ==> order[j] in row && vals[j] == row[order[j]]
  }

  /** Reading the listed months fails exactly when some month of the row does not read. */
  lemma KeysRead(key: string -> Result<Date>, row: map<string, real>, ms: seq<string>)
    requires forall k :: k in ms <==> k in row
    ensures Map(key, ms).Err? <==> exists v :: v in row && key(v).Err?
  {
    if Map(key, ms).Err? {
      var i :| 0 <= i < |ms| && key(ms[i]).Err?;
      assert ms[i] in row;
    } else {
      forall v | v in row
        ensures key(v).Ok?
      {
        var i :| 0 <= i < |ms| && ms[i] == v;
      }
    }
  }

  /** Sorting the months decorated with their dates lists the row's months in date order. */
  lemma SortedMonths(key: string -> Result<Date>, row: map<string, real>, ms: seq<string>, dates: seq<Date>)
    requires |ms| == |row| && forall k :: k in ms <==> k in row
    requires Map(key, ms) == Ok(dates)
    ensures var sorted := SortBy(EarlierMonth, Zip(dates, ms));
      KeyOrder(key, row, Seconds(sorted), Firsts(sorted))
  {
    var sorted := SortBy(EarlierMonth, Zip(dates, ms));
    EarlierMonthOrder();
    SortSorted(EarlierMonth, Zip(dates, ms));
    UndecorateReads(key, ms, dates, sorted);
    UndecorateKeys(ms, dates, sorted);
    assert SortedBy(Before, Firsts(sorted));
  }

  /** The amounts of a row's months listed in key order. */
  function KeySorted(key: string -> Result<Date>, row: map<string, real>, ms: seq<string>, dates: seq<Date>): (vals: seq<real>)
    requires |ms| == |row| && forall k :: k in ms <==> k in row
    requires Map(key, ms) == Ok(dates)
    ensures InKeyOrder(key, row, vals)
  {
    var sorted := SortBy(EarlierMonth, Zip(dates, ms));
    SortedMonths(key, row, ms, dates);
    ValuesAt(row, Seconds(sorted))
  }

  /** The amounts stored under the listed keys. */
  function ValuesAt(row: map<string, real>, order: seq<string>): (vals: seq<real>)
    requires forall v :: v in order ==> v in row
    ensures |vals| == |order| && forall j :: 0 <= j < |order| ==> order[j] in row && vals[j] == row[order[j]]
  {
    seq(|order|, j requires 0 <= j < |order| => row[order[j]])
  }

  /** One row of the matrix: the error of the key when a month does not read. */
  method KeyRow(key: string -> Result<Date>, row: map<string, real>) returns (r: Result<seq<real>>)
    ensures r.Err? <==> exists v :: v in row && key(v).Err?
    ensures r.Err? ==> exists v :: v in row && key(v) == Err(r.error)
    ensures r.Ok? ==> InKeyOrder(key, row, r.value)
  {
    var ms := KeyList(row);
    var parsed := Map(key, ms);
    KeysRead(key, row, ms);
    if parsed.Err? {
      ghost var i :| 0 <= i < |ms| && key(ms[i]) == Err(parsed.error);
      assert ms[i] in row;
      return Err(parsed.error);
    }
    return Ok(KeySorted(key, row, ms, parsed.value));
  }

  /** The rows of the matrix for the categories `cats`, in that order. */
  method MatrixRows(key: string -> Result<Date>, summed: Table, cats: seq<string>) returns (r: Result<seq<seq<real>>>)
    requires forall i :: 0 <= i < |cats| ==> cats[i] in summed
    ensures r.Err? <==> exists j, v :: 0 <= j < |cats| && v in summed[cats[j]] && key(v).Err?
    ensures r.Err? ==> exists j, v :: 0 <= j < |cats| && v in summed[cats[j]] && key(v) == Err(r.error)
    ensures r.Ok? ==> |r.value| == |cats| && forall j :: 0 <= j < |cats| ==> InKeyOrder(key, summed[cats[j]], r.value[j])
  {
    var rows: seq<seq<real>> := [];
    for i := 0 to |cats|
      invariant |rows| == i
      invariant forall j :: 0 <= j < i ==> InKeyOrder(key, summed[cats[j]], rows[j])
      invariant forall j, v :: 0 <= j < i && v in summed[cats[j]] ==> key(v).Ok?
    {
      var row := KeyRow(key, summed[cats[i]]);
      if row.Err? {
        return Err(row.error);
      }
      rows := rows + [row.value];
    }
    return Ok(rows);
  }

  /** `category_sum_matrix` with the month key as a parameter. */
  method SumMatrixBy(key: string -> Result<Date>, summed: Table) returns (r: Result<seq<seq<real>>>)
    ensures r.Err? <==> exists k, v :: k in summed && v in summed[k] && key(v).Err?
    ensures r.Err? ==> exists k, v :: k in summed && v in summed[k] && key(v) == Err(r.error)
    ensures r.Ok? ==> exists ks ::
      SortedKeys(summed, ks) && |r.value| == |ks| &&
      (forall i :: 0 <= i < |ks| ==> ks[i] in summed && InKeyOrder(key, summed[ks[i]], r.value[i]))
  {
    var ks := KeyList(summed);
    var cats := SortBy(StrLess, ks);
    SortKeys(summed, ks);
    r := MatrixRows(key, summed, cats);
    if r.Ok? {
      RowsCoverKeys(key, summed, cats);
    } else {
      var j, v :| 0 <= j < |cats| && v in summed[cats[j]] && key(v) == Err(r.error);
      assert cats[j] in summed && key(v).Err?;
    }
  }

  /** Every month of every category reads when those of each listed category do and the list holds every category. */
  lemma RowsCoverKeys(key: string -> Result<Date>, summed: Table, cats: seq<string>)
    requires forall k :: k in cats <==> k in summed
    requires forall j, v :: 0 <= j < |cats| && cats[j] in summed && v in summed[cats[j]] ==> key(v).Ok?
    ensures forall k, v :: k in summed && v in summed[k] ==> key(v).Ok?
  {
    forall k, v | k in summed && v in summed[k]
      ensures key(v).Ok?
    {
      var j :| 0 <= j < |cats| && cats[j] == k;
    }
  }

  /**
   * `category_sum_matrix(summed)`: one row per category in string order,
   * each the category's amounts in month order; ValueError when a month
   * does not read as "%m/%Y".
   */
  method CategorySumMatrix(summed: Table) returns (r: Result<seq<seq<real>>>)
    ensures r.Err? <==> exists k, v :: k in summed && v in summed[k] && ParseMonth(v).None?
    ensures r.Err? ==> r.error == ValueError
    ensures r.Ok? ==> exists ks ::
      SortedKeys(summed, ks) && |r.value| == |ks| &&
      (forall i :: 0 <= i < |ks| ==> ks[i] in summed && InKeyOrder(MonthDate, summed[ks[i]], r.value[i]))
  {
    r := SumMatrixBy(MonthDate, summed);
  }

  /* ---------------- days_remaining ---------------- */

  /**
   * `days_remaining(today)`: `(last - today).days + 1` with `last` the
   * midnight of the month's last day. `seconds` is today's time of day;
   * `timedelta.days` rounds towards minus infinity.
   */
  function DaysRemaining(today: Date, seconds: real): (n: int)
    requires ValidDate(today) && 0.0 <= seconds < 86400.0
    ensures seconds == 0.0 ==> n == DaysInMonth(today.year, today.month) - today.day + 1
    ensures seconds > 0.0 ==> n == DaysInMonth(today.year, today.month) - today.day
    ensures seconds == 0.0 ==> 1 <= n <= DaysInMonth(today.year, today.month)
    ensures 0 <= n <= DaysInMonth(today.year, today.month)
  {
    var k := DaysInMonth(today.year, today.month) - today.day;
    var delta := (k as real) * 86400.0 - seconds;
    assert delta / 86400.0 == k as real - seconds / 86400.0;
    (delta / 86400.0).Floor + 1
  }

  /* ---------------- ProgressiveMean ---------------- */

  /** n days without spending; none when n is not positive. */
  function Zeros(n: int): (r: seq<real>)
    ensures |r| == (if n < 0 then 0 else n) && forall i :: 0 <= i < |r| ==> r[i] == 0.0
  {
    if n <= 0 then [] else Zeros(n - 1) + [0.0]
  }

  /** Appending an amount adds it to the sum. */
  lemma SumSnoc(xs: seq<real>, v: real)
    ensures Predict.Sum(xs + [v]) == Predict.Sum(xs) + v
  {
    assert (xs + [v])[..|xs|] == xs;
  }

  /** Days without spending leave the running total where it was. */
  lemma {:induction false} SumZeros(xs: seq<real>, n: int)
    ensures Predict.Sum(xs + Zeros(n)) == Predict.Sum(xs)
    decreases n
  {
    if n > 0 {
      assert Zeros(n) == Zeros(n - 1) + [0.0];
      assert xs + Zeros(n) == (xs + Zeros(n - 1)) + [0.0];
      SumSnoc(xs + Zeros(n - 1), 0.0);
      SumZeros(xs, n - 1);
    } else {
      assert xs + Zeros(n) == xs;
    }
  }

  /**
   * `total / day`, the mean daily amount up to a day of the month, kept as
   * the fraction it is computed from.
   */
  datatype Mean = Mean(total: real, day: int)

  /**
   * The means of a month, day by day: each is the month's total up to that
   * day over the day of the month.
   */
  ghost predicate RunningMeans(values: seq<real>, means: seq<Mean>)
    decreases |values|
  {
    |means| == |values| &&
    (|values| == 0 ||
     (RunningMeans(values[..|values| - 1], means[..|values| - 1]) &&
      means[|values| - 1] == Mean(Predict.Sum(values), |values|)))
  }

  /** The mean of day j + 1 is the total of the first j + 1 amounts over j + 1. */
  lemma {:induction false} RunningMeansAt(values: seq<real>, means: seq<Mean>, j: nat)
    requires RunningMeans(values, means) && j < |values|
    ensures means[j] == Mean(Predict.Sum(values[..j + 1]), j + 1)
    decreases |values|
  {
    var n := |values|;
    if j < n - 1 {
      RunningMeansAt(values[..n - 1], means[..n - 1], j);
      assert values[..n - 1][..j + 1] == values[..j + 1];
    } else {
      assert values[..j + 1] == values;
    }
  }

  /** A day's amount and the mean up to it keep the means running. */
  lemma RunningAppend(values: seq<real>, means: seq<Mean>, v: real)
    requires RunningMeans(values, means)
    ensures RunningMeans(values + [v], means + [Mean(Predict.Sum(values) + v, |values| + 1)])
  {
    var vs, ms := values + [v], means + [Mean(Predict.Sum(values) + v, |values| + 1)];
    assert vs[..|values|] == values && ms[..|values|] == means;
    SumSnoc(values, v);
  }

  /** The means `fill_to` appends: the unchanged total over each day from `start` on. */
  function FilledMeans(total: real, start: int, n: int): (r: seq<Mean>)
    ensures |r| == |Zeros(n)| && forall i :: 0 <= i < |r| ==> r[i] == Mean(total, start + i)
  {
    if n <= 0 then [] else FilledMeans(total, start, n - 1) + [Mean(total, start + n - 1)]
  }

  /** One more filled day, as an append to the days before it. */
  lemma FillSnoc(values: seq<real>, means: seq<Mean>, total: real, n: int)
    requires n > 0
    ensures values + Zeros(n) == (values + Zeros(n - 1)) + [0.0]
    ensures means + FilledMeans(total, |values| + 1, n) ==
      (means + FilledMeans(total, |values| + 1, n - 1)) + [Mean(total, |values + Zeros(n - 1)| + 1)]
  {
    assert Zeros(n) == Zeros(n - 1) + [0.0];
    assert FilledMeans(total, |values| + 1, n) == FilledMeans(total, |values| + 1, n - 1) + [Mean(total, |values| + n)];
  }

  /** Filling days without spending keeps the means running. */
  lemma {:induction false} RunningFill(values: seq<real>, means: seq<Mean>, n: int)
    requires RunningMeans(values, means)
    ensures RunningMeans(values + Zeros(n), means + FilledMeans(Predict.Sum(values), |values| + 1, n))
    decreases n
  {
    var total := Predict.Sum(values);
    if n > 0 {
      RunningFill(values, means, n - 1);
      var vs, ms := values + Zeros(n - 1), means + FilledMeans(total, |values| + 1, n - 1);
      SumZeros(values, n - 1);
      RunningAppend(vs, ms, 0.0);
      FillSnoc(values, means, total, n);
    } else {
      assert values + Zeros(n) == values && means + FilledMeans(total, |values| + 1, n) == means;
    }
  }

  /** `d[k]`, or no amounts for a month not seen. */
  function Get<T>(d: map<string, seq<T>>, k: string): seq<T>
  {
    if k in d then d[k] else []
  }

  /** `day` is in the month of the previous update. */
  predicate SameMonth(prev: Option<Date>, day: Date)
  {
    prev.Some? && prev.value.year == day.year && prev.value.month == day.month
  }

  /**
   * A month's amounts after `update(day, value)`: in the month of the
   * previous update, its amounts so far, a zero for each day skipped, then
   * `value`; in a new month, a zero for each day before `day`, then `value`.
   */
  function DayValues(values: map<string, seq<real>>, prev: Option<Date>, day: Date, value: real): (r: seq<real>)
    requires ValidDate(day) && (prev.Some? ==> ValidDate(prev.value))
  {
    if SameMonth(prev, day)
    then Get(values, FormatMonth(day)) + Zeros(day.day - prev.value.day - 1) + [value]
    else Zeros(day.day - 1) + [value]
  }

  /**
   * A month's means after `update(day, value)`: the unchanged mean for
   * each day skipped, then the new total over `day`.
   */
  function DayMeans(means: map<string, seq<Mean>>, total: real, prev: Option<Date>, day: Date, value: real): (r: seq<Mean>)
    requires ValidDate(day) && (prev.Some? ==> ValidDate(prev.value))
  {
    if SameMonth(prev, day)
    then Get(means, FormatMonth(day)) + FilledMeans(total, prev.value.day + 1, day.day - prev.value.day - 1) + [Mean(total + value, day.day)]
    else FilledMeans(0.0, 1, day.day - 1) + [Mean(value, day.day)]
  }

  /** Month key k was entered on day d, no later than prev. */
  ghost predicate Entered(k: string, d: Date, prev: Date)
  {
    ValidDate(d) && FormatMonth(d) == k && !Before(prev, d)
  }

  /**
   * What a `ProgressiveMean` keeps: the same months in both maps; each
   * month's means are the running means of its amounts; after an update,
   * the month of that day holds one amount per day up to it, the
   * accumulator is their sum, and every month was entered no later.
   */
  ghost predicate Consistent(values: map<string, seq<real>>, means: map<string, seq<Mean>>, accumulator: real,
                             prev: Option<Date>, entered: map<string, Date>)
  {
    values.Keys == means.Keys && means.Keys == entered.Keys &&
    (forall k {:trigger RunningMeans(values[k], means[k])} :: k in values ==> RunningMeans(values[k], means[k])) &&
    (prev.None? ==> values == map[] && accumulator == 0.0) &&
    (prev.Some? ==>
      ValidDate(prev.value) && FormatMonth(prev.value) in values &&
      |values[FormatMonth(prev.value)]| == prev.value.day &&
      accumulator == Predict.Sum(values[FormatMonth(prev.value)]) &&
      forall k {:trigger Entered(k, entered[k], prev.value)} :: k in entered ==> Entered(k, entered[k], prev.value))
  }

  /** A month other than that of the previous update has not been entered yet. */
  lemma NewMonth(values: map<string, seq<real>>, means: map<string, seq<Mean>>, accumulator: real,
                 prev: Option<Date>, entered: map<string, Date>, day: Date)
    requires Consistent(values, means, accumulator, prev, entered) && ValidDate(day)
    requires prev.Some? ==> Before(prev.value, day) && !SameMonth(prev, day)
    ensures FormatMonth(day) !in values
  {
    var key := FormatMonth(day);
    if prev.Some? && key in entered {
      var d := entered[key];
      assert Entered(key, d, prev.value);
      FormatMonthSame(d, day);
    }
  }

  /** An update that is allowed keeps a `ProgressiveMean` consistent. */
  lemma UpdateConsistent(values: map<string, seq<real>>, means: map<string, seq<Mean>>, accumulator: real,
                         prev: Option<Date>, entered: map<string, Date>, day: Date, value: real)
    requires Consistent(values, means, accumulator, prev, entered) && ValidDate(day)
    requires prev.Some? ==> Before(prev.value, day)
    ensures Consistent(values[FormatMonth(day) := DayValues(values, prev, day, value)],
                       means[FormatMonth(day) := DayMeans(means, accumulator, prev, day, value)],
                       (if SameMonth(prev, day) then accumulator else 0.0) + value,
                       Some(day), entered[FormatMonth(day) := day])
  {
    if SameMonth(prev, day) {
      FormatMonthSame(prev.value, day);
      assert RunningMeans(values[FormatMonth(day)], means[FormatMonth(day)]);
      SameMonthDay(values, means, accumulator, prev.value, day, value);
    } else {
      NewMonthDay(day, value);
    }
    LaterEntered(entered, prev, day);
    ConsistentPut(values, means, accumulator, prev, entered, day,
                  DayValues(values, prev, day, value), DayMeans(means, accumulator, prev, day, value),
                  (if SameMonth(prev, day) then accumulator else 0.0) + value);
  }

  /** The month of an update replaced by consistent amounts and means keeps the rest consistent. */
  lemma ConsistentPut(values: map<string, seq<real>>, means: map<string, seq<Mean>>, accumulator: real,
                      prev: Option<Date>, entered: map<string, Date>, day: Date,
                      vs: seq<real>, ms: seq<Mean>, total: real)
    requires Consistent(values, means, accumulator, prev, entered) && ValidDate(day)
    requires RunningMeans(vs, ms) && |vs| == day.day && total == Predict.Sum(vs)
    requires forall k {:trigger Entered(k, entered[k], day)} :: k in entered ==> Entered(k, entered[k], day)
    ensures Consistent(values[FormatMonth(day) := vs], means[FormatMonth(day) := ms], total, Some(day), entered[FormatMonth(day) := day])
  {
    var key := FormatMonth(day);
    var values', means', entered' := values[key := vs], means[key := ms], entered[key := day];
    forall k | k in values'
      ensures RunningMeans(values'[k], means'[k])
    {
      if k != key {
        assert RunningMeans(values[k], means[k]);
      }
    }
    forall k | k in entered'
      ensures Entered(k, entered'[k], day)
    {
      if k != key {
        assert Entered(k, entered[k], day);
      }
    }
  }

  /** An update in the month of the previous one: its amounts and means. */
  lemma SameMonthDay(values: map<string, seq<real>>, means: map<string, seq<Mean>>, accumulator: real,
                     prev: Date, day: Date, value: real)
    requires ValidDate(prev) && ValidDate(day) && Before(prev, day) && SameMonth(Some(prev), day)
    requires FormatMonth(day) in values && FormatMonth(day) in means
    requires RunningMeans(values[FormatMonth(day)], means[FormatMonth(day)])
    requires |values[FormatMonth(day)]| == prev.day && accumulator == Predict.Sum(values[FormatMonth(day)])
    ensures var vs := DayValues(values, Some(prev), day, value);
      RunningMeans(vs, DayMeans(means, accumulator, Some(prev), day, value)) &&
      |vs| == day.day && Predict.Sum(vs) == accumulator + value
  {
    var key := FormatMonth(day);
    var n := day.day - prev.day - 1;
    RunningFill(values[key], means[key], n);
    SumZeros(values[key], n);
    RunningAppend(values[key] + Zeros(n), means[key] + FilledMeans(accumulator, prev.day + 1, n), value);
    SumSnoc(values[key] + Zeros(n), value);
  }

  /** An update in a new month: its amounts and means. */
  lemma NewMonthDay(day: Date, value: real)
    requires ValidDate(day)
    ensures var vs := DayValues(map[], None, day, value);
      RunningMeans(vs, DayMeans(map[], 0.0, None, day, value)) &&
      |vs| == day.day && Predict.Sum(vs) == value
  {
    RunningFill([], [], day.day - 1);
    SumZeros([], day.day - 1);
    assert [] + Zeros(day.day - 1) == Zeros(day.day - 1);
    assert [] + FilledMeans(0.0, 1, day.day - 1) == FilledMeans(0.0, 1, day.day - 1);
    RunningAppend(Zeros(day.day - 1), FilledMeans(0.0, 1, day.day - 1), value);
    SumSnoc(Zeros(day.day - 1), value);
  }

  /** A second update of a key overrides the first. */
  lemma UpdateTwice<K, V>(m: map<K, V>, k: K, a: V, b: V)
    ensures m[k := a][k := b] == m[k := b]
  {
  }

  /** A month's amounts after `update` are those `fill_to` leaves with the day's amount appended. */
  lemma DayValuesFilled(values: map<string, seq<real>>, prev: Option<Date>, day: Date, value: real, from: Option<Date>)
    requires ValidDate(day) && (prev.Some? ==> ValidDate(prev.value))
    requires !SameMonth(prev, day) ==> FormatMonth(day) !in values
    requires from == if SameMonth(prev, day) then prev else None
    ensures DayValues(values, prev, day, value) ==
      Get(values, FormatMonth(day)) + Zeros(day.day - ProgressiveMean.Start(from)) + [value]
  {
    if !SameMonth(prev, day) {
      assert Get(values, FormatMonth(day)) == [];
      assert [] + Zeros(day.day - 1) == Zeros(day.day - 1);
    }
  }

  /** A month's means after `update` are those `fill_to` leaves with the day's mean appended. */
  lemma DayMeansFilled(means: map<string, seq<Mean>>, accumulator: real, prev: Option<Date>, day: Date, value: real,
                       from: Option<Date>, total: real)
    requires ValidDate(day) && (prev.Some? ==> ValidDate(prev.value))
    requires !SameMonth(prev, day) ==> FormatMonth(day) !in means
    requires from == (if SameMonth(prev, day) then prev else None)
    requires total == (if SameMonth(prev, day) then accumulator else 0.0)
    ensures DayMeans(means, accumulator, prev, day, value) ==
      Get(means, FormatMonth(day)) + FilledMeans(total, ProgressiveMean.Start(from), day.day - ProgressiveMean.Start(from)) +
      [Mean(total + value, day.day)]
  {
    if !SameMonth(prev, day) {
      assert Get(means, FormatMonth(day)) == [];
      assert [] + FilledMeans(0.0, 1, day.day - 1) == FilledMeans(0.0, 1, day.day - 1);
      assert 0.0 + value == value;
    }
  }

  /**
   * `update` as its steps do it: after the reset of a new month, `fill_to`
   * gives `filled` and `filledMeans`, and the day's amount and mean are
   * appended to them.
   */
  lemma UpdateDone(values: map<string, seq<real>>, means: map<string, seq<Mean>>, accumulator: real,
                   prev: Option<Date>, entered: map<string, Date>, day: Date, value: real,
                   from: Option<Date>, total: real, filled: map<string, seq<real>>, filledMeans: map<string, seq<Mean>>,
                   values': map<string, seq<real>>, means': map<string, seq<Mean>>, entered': map<string, Date>)
    requires Consistent(values, means, accumulator, prev, entered) && ValidDate(day)
    requires prev.Some? ==> Before(prev.value, day)
    requires from == (if prev.None? || day.year > prev.value.year || day.month > prev.value.month then None else prev)
    requires total == (if prev.None? || day.year > prev.value.year || day.month > prev.value.month then 0.0 else accumulator)
    requires filled == values[FormatMonth(day) := Get(values, FormatMonth(day)) + Zeros(day.day - ProgressiveMean.Start(from))]
    requires filledMeans == means[FormatMonth(day) := Get(means, FormatMonth(day)) + FilledMeans(total, ProgressiveMean.Start(from), day.day - ProgressiveMean.Start(from))]
    requires values' == filled[FormatMonth(day) := filled[FormatMonth(day)] + [value]]
    requires means' == filledMeans[FormatMonth(day) := filledMeans[FormatMonth(day)] + [Mean(total + value, day.day)]]
    requires entered' == entered[FormatMonth(day) := day]
    ensures values' == values[FormatMonth(day) := DayValues(values, prev, day, value)]
    ensures means' == means[FormatMonth(day) := DayMeans(means, accumulator, prev, day, value)]
    ensures total + value == (if SameMonth(prev, day) then accumulator else 0.0) + value
    ensures Consistent(values', means', total + value, Some(day), entered')
  {
    var key := FormatMonth(day);
    assert from == (if SameMonth(prev, day) then prev else None);
    assert total == (if SameMonth(prev, day) then accumulator else 0.0);
    if !SameMonth(prev, day) {
      NewMonth(values, means, accumulator, prev, entered, day);
    }
    var a := Get(values, key) + Zeros(day.day - ProgressiveMean.Start(from));
    var b := Get(means, key) + FilledMeans(total, ProgressiveMean.Start(from), day.day - ProgressiveMean.Start(from));
    DayValuesFilled(values, prev, day, value, from);
    DayMeansFilled(means, accumulator, prev, day, value, from, total);
    assert filled[key] == a && filledMeans[key] == b;
    UpdateTwice(values, key, a, a + [value]);
    UpdateTwice(means, key, b, b + [Mean(total + value, day.day)]);
    UpdateConsistent(values, means, accumulator, prev, entered, day, value);
  }

  /** Every month entered no later than `prev` is entered no later than a later day. */
  lemma LaterEntered(entered: map<string, Date>, prev: Option<Date>, day: Date)
    requires prev.Some? ==>
      (Before(prev.value, day) &&
       forall k {:trigger Entered(k, entered[k], prev.value)} :: k in entered ==> Entered(k, entered[k], prev.value))
    requires prev.None? ==> entered == map[]
    ensures forall k {:trigger Entered(k, entered[k], day)} :: k in entered ==> Entered(k, entered[k], day)
  {
    forall k | k in entered
      ensures Entered(k, entered[k], day)
    {
      assert Entered(k, entered[k], prev.value);
    }
  }

  /**
   * The daily mean of a month's spending so far, kept for every month
   * seen: `update` is given the days in increasing order with what was
   * spent on each.
   */
  class ProgressiveMean {
    /** month key ("%m/%Y") → the amount of each day of the month so far */
    var values: map<string, seq<real>>
    /** month key → the mean daily amount up to each day */
    var means: map<string, seq<Mean>>
    /** the amount of the current month so far */
    var accumulator: real
    /** the day of the last update */
    var prev: Option<Date>
    /** month key → a day of that month no later than `prev` */
    ghost var entered: map<string, Date>

    ghost predicate Valid()
      reads this
    {
      Consistent(values, means, accumulator, prev, entered)
    }

    /** `ProgressiveMean(month)`: the month given is not used. */
    constructor (month: Date)
      ensures Valid() && values == map[] && means == map[] && prev == None
    {
      values := map[];
      means := map[];
      accumulator := 0.0;
      prev := None;
      entered := map[];
    }

    /** `maybe_init(key)`: empty lists for a month not seen yet. */
    method MaybeInit(key: string)
      modifies this
      ensures means == if key in old(means) then old(means) else old(means)[key := []]
      ensures values == if key in old(means) then old(values) else old(values)[key := []]
      ensures accumulator == old(accumulator) && prev == old(prev) && entered == old(entered)
    {
      if key !in means {
        means := means[key := []];
        values := values[key := []];
      }
    }

    /** The first day `fill_to` fills: the day after `prev`, or the 1st without one. */
    static function Start(prev: Option<Date>): (d: int)
      requires prev.Some? ==> ValidDate(prev.value)
      ensures d >= 1
    {
      if prev.None? then 1 else prev.value.day + 1
    }

    /**
     * `fill_to(day)`: a zero amount and the unchanged mean for each day of
     * the month from `Start(prev)` up to the day before `day`.
     */
    method FillTo(day: Date)
      requires ValidDate(day) && (prev.Some? ==> ValidDate(prev.value))
      requires values.Keys == means.Keys
      modifies this
      ensures accumulator == old(accumulator) && prev == old(prev) && entered == old(entered)
      ensures values == old(values)[FormatMonth(day) := Get(old(values), FormatMonth(day)) + Zeros(day.day - Start(prev))]
      ensures means == old(means)[FormatMonth(day) := Get(old(means), FormatMonth(day)) + FilledMeans(accumulator, Start(prev), day.day - Start(prev))]
    {
      var key := FormatMonth(day);
      ghost var v0, m0 := values, means;
      MaybeInit(key);
      assert values[key] == Get(v0, key) && means[key] == Get(m0, key);
      var start := if prev.None? then 1 else prev.value.day + 1;
      assert start == Start(prev);
      var vs, ms := Fill(values[key], means[key], accumulator, start, day.day);
      assert values[key := vs] == v0[key := vs] by {
        if key !in m0 {
          assert v0[key := []][key := vs] == v0[key := vs];
        }
      }
      assert means[key := ms] == m0[key := ms] by {
        if key !in m0 {
          assert m0[key := []][key := ms] == m0[key := ms];
        }
      }
      values := values[key := vs];
      means := means[key := ms];
    }

    /** The loop of `fill_to`: days `start` up to `end` - 1 appended to a month. */
    static method Fill(values: seq<real>, means: seq<Mean>, total: real, start: int, end: int)
        returns (vs: seq<real>, ms: seq<Mean>)
      ensures vs == values + Zeros(end - start)
      ensures ms == means + FilledMeans(total, start, end - start)
    {
      vs, ms := values, means;
      assert vs + Zeros(0) == vs && ms + FilledMeans(total, start, 0) == ms;
      var d := start;
      while d < end
        invariant start <= d && (d > start ==> d <= end)
        invariant vs == values + Zeros(d - start)
        invariant ms == means + FilledMeans(total, start, d - start)
        decreases end - d
      {
        FillStep(values, means, total, start, d);
        ms := ms + [Mean(total, d)];
        vs := vs + [0.0];
        d := d + 1;
      }
      assert Zeros(end - start) == Zeros(d - start);
      assert FilledMeans(total, start, end - start) == FilledMeans(total, start, d - start);
    }

    /** One more day filled by `fill_to`. */
    static lemma FillStep(vs: seq<real>, ms: seq<Mean>, total: real, start: int, d: int)
      requires start <= d
      ensures vs + Zeros(d + 1 - start) == vs + Zeros(d - start) + [0.0]
      ensures ms + FilledMeans(total, start, d + 1 - start) == ms + FilledMeans(total, start, d - start) + [Mean(total, d)]
    {
      assert Zeros(d + 1 - start) == Zeros(d - start) + [0.0];
      assert FilledMeans(total, start, d + 1 - start) == FilledMeans(total, start, d - start) + [Mean(total, d)];
    }

    /**
     * `update(day, value)`: AssertionError unless `day` is after the day of
     * the previous update. The first day of a new month starts its total
     * at 0; the days skipped since the previous update are filled with
     * zero amounts; the day's amount and mean are appended.
     */
    method Update(day: Date, value: real) returns (r: Result<()>)
      requires Valid() && ValidDate(day)
      modifies this
      ensures Valid()
      ensures r.Err? <==> old(prev).Some? && !Before(old(prev).value, day)
      ensures r.Err? ==> r.error == AssertionError && unchanged(this)
      ensures r.Ok? ==> prev == Some(day)
      ensures r.Ok? ==> accumulator == (if SameMonth(old(prev), day) then old(accumulator) else 0.0) + value
      ensures r.Ok? ==> values == old(values)[FormatMonth(day) := DayValues(old(values), old(prev), day, value)]
      ensures r.Ok? ==> means == old(means)[FormatMonth(day) := DayMeans(old(means), old(accumulator), old(prev), day, value)]
    {
      if prev.Some? && !Before(prev.value, day) {
        return Err(AssertionError);
      }
      Advance(day, value);
      return Ok(());
    }

    /** The steps of `update` once its assertion holds. */
    method Advance(day: Date, value: real)
      requires Valid() && ValidDate(day) && (prev.Some? ==> Before(prev.value, day))
      modifies this
      ensures Valid()
      ensures prev == Some(day)
      ensures accumulator == (if SameMonth(old(prev), day) then old(accumulator) else 0.0) + value
      ensures values == old(values)[FormatMonth(day) := DayValues(old(values), old(prev), day, value)]
      ensures means == old(means)[FormatMonth(day) := DayMeans(old(means), old(accumulator), old(prev), day, value)]
    {
      ghost var v0, m0, a0, p0, e0 := values, means, accumulator, prev, entered;
      if prev.None? || day.year > prev.value.year || day.month > prev.value.month {
        prev, accumulator := None, 0.0;
      }
      FillTo(day);
      Record(day, value, v0, m0, a0, p0, e0);
    }

    /**
     * The last step of `update`: the day's amount and mean appended to its
     * month, whose skipped days `fill_to` has filled.
     */
    method Record(day: Date, value: real, ghost v0: map<string, seq<real>>, ghost m0: map<string, seq<Mean>>,
                  ghost a0: real, ghost p0: Option<Date>, ghost e0: map<string, Date>)
      requires Consistent(v0, m0, a0, p0, e0) && ValidDate(day) && (p0.Some? ==> Before(p0.value, day))
      requires prev == (if p0.None? || day.year > p0.value.year || day.month > p0.value.month then None else p0)
      requires accumulator == (if p0.None? || day.year > p0.value.year || day.month > p0.value.month then 0.0 else a0)
      requires values == v0[FormatMonth(day) := Get(v0, FormatMonth(day)) + Zeros(day.day - Start(prev))]
      requires means == m0[FormatMonth(day) := Get(m0, FormatMonth(day)) + FilledMeans(accumulator, Start(prev), day.day - Start(prev))]
      requires entered == e0
      modifies this
      ensures Valid()
      ensures prev == Some(day)
      ensures accumulator == (if SameMonth(p0, day) then a0 else 0.0) + value
      ensures values == v0[FormatMonth(day) := DayValues(v0, p0, day, value)]
      ensures means == m0[FormatMonth(day) := DayMeans(m0, a0, p0, day, value)]
    {
      var key := FormatMonth(day);
      var total := accumulator;
      var vs, ms := values[key := values[key] + [value]], means[key := means[key] + [Mean(total + value, day.day)]];
      ghost var es := entered[key := day];
      UpdateDone(v0, m0, a0, p0, e0, day, value, prev, total, values, means, vs, ms, es);
      values, means, accumulator, prev, entered := vs, ms, total + value, Some(day), es;
    }

    /** `head()`: the daily means of the month of the last update. */
    function Head(): (r: seq<Mean>)
      reads this
      requires Valid() && prev.Some?
      ensures |r| == prev.value.day
      ensures RunningMeans(values[FormatMonth(prev.value)], r)
    {
      assert RunningMeans(values[FormatMonth(prev.value)], means[FormatMonth(prev.value)]);
      means[FormatMonth(prev.value)]
    }

    /** `tail()`: the daily means of every other month. */
    function Tail(): (r: map<string, seq<Mean>>)
      reads this
      requires Valid() && prev.Some?
      ensures r.Keys == means.Keys - {FormatMonth(prev.value)}
      ensures forall k :: k in r ==> k in values && RunningMeans(values[k], r[k])
    {
      var r := means - {FormatMonth(prev.value)};
      assert forall k :: k in r ==> r[k] == means[k] && RunningMeans(values[k], means[k]);
      r
    }
  }
}

=== FILE: visualise_script.dfy ===
/**
 * The row grouping of the visualise.py script. Its reshaping helpers
 * (`sum_categories`, `sum_expenses`, `income`, `invert`,
 * `category_sum_matrix`, `ignore`, `surplus`) are the same code as those of
 * lib/fpos/visualise.py and are the members of module Visualise.
 */
module VisualiseScript {
  import opened Wrappers
  import opened Dates
  import opened Visualise
  import opened Periods

  /** The script's `extract_week`: "%d/%m/%Y" read back as the bare week number "%U". */
  function ExtractWeek(s: string): Result<string>
  {
    match ParseDate(s)
    case None => Err(ValueError)
    case Some(d) => Ok(FormatWeek(d))
  }

  /** The week extractor sends a date's rendering to its week number. */
  lemma ExtractWeekFormatted(d: Date)
    requires ValidDate(d)
    ensures ExtractWeek(FormatDate(d)) == Ok(FormatWeek(d))
  {
    ParseFormatDate(d);
  }

  /** What filing `row` raises in `group_period`: IndexError on an empty row, else the extractor's exception. */
  function RowFault(e: Extractor, row: Row): Option<Error>
  {
    if |row| == 0 then Some(IndexError)
    else if e(row[0]).Err? then Some(e(row[0]).error)
    else None
  }

  /**
   * `group_period`: every row appended, in order, to the list under
   * `extract(row[0])`. The first row that cannot be filed raises.
   */
  method GroupPeriod(rows: seq<Row>, extract: Extractor) returns (r: Result<map<string, seq<Row>>>)
    ensures r.Ok? ==> forall i :: 0 <= i < |rows| ==> RowFault(extract, rows[i]).None?
    ensures r.Err? ==>
      exists i :: 0 <= i < |rows| && RowFault(extract, rows[i]) == Some(r.error) &&
        forall h :: 0 <= h < i ==> RowFault(extract, rows[h]).None?
    ensures r.Ok? ==> r.value == GroupedInto(map[], extract, rows)
  {
    var d: map<string, seq<Row>> := map[];
    var i := 0;
    while i < |rows|
      invariant 0 <= i <= |rows|
      invariant forall h :: 0 <= h < i ==> RowFault(extract, rows[h]).None?
      invariant d == GroupedInto(map[], extract, rows[..i])
    {
      var row := rows[i];
      if |row| == 0 {
        assert RowFault(extract, rows[i]) == Some(IndexError);
        return Err(IndexError);
      }
      var k := extract(row[0]);
      if k.Err? {
        assert RowFault(extract, rows[i]) == Some(k.error);
        return Err(k.error);
      }
      ghost var next := rows[..i + 1];
      assert next[..i] == rows[..i];
      d := File(d, k.value, row);
      i := i + 1;
    }
    assert rows[..i] == rows;
    return Ok(d);
  }

  /**
   * A grouping `group_period` returns holds under each key exactly the rows
   * whose date extracts to it, in input order, and every row under its own
   * key alone.
   */
  lemma GroupPeriodBuckets(rows: seq<Row>, extract: Extractor, i: nat, k: string)
    requires forall h :: 0 <= h < |rows| ==> RowFault(extract, rows[h]).None?
    requires i < |rows|
    ensures Get(GroupedInto(map[], extract, rows), k) == Selected(extract, rows, k)
    ensures |rows[i]| > 0 &&
            (rows[i] in Get(GroupedInto(map[], extract, rows), k) <==> extract(rows[i][0]) == Ok(k))
  {
    assert RowFault(extract, rows[i]).None?;
    GroupedBucket(map[], extract, rows, k);
    SelectedOnce(extract, rows, i, k);
  }
}

=== FILE: window.dfy ===
/**
 * Date windowing of a transaction document: a row is kept when its date
 * (field 0, "%d/%m/%Y") falls in the half-open range of months
 * [start, end), either bound being optional ("%m/%Y").
 *
 * The library module and the stand-alone script build the same oracle and
 * apply the same filter; both are modelled here once.
 */
module Window {
  import opened Wrappers
  import opened Dates
  import opened Pipes

  type Row = seq<string>

  /** The start bound's verdict: on or after the first of the start month. */
  function StartAdmits(start: Option<string>, x: Date): (r: Result<bool>)
  {
    match start
    case None => Ok(true)
    case Some(s) =>
      match ParseMonth(s)
      case None => Err(ValueError)
      case Some(first) => Ok(!Before(x, first))
  }

  /** The end bound's verdict: strictly before the first of the end month. */
  function EndAdmits(end: Option<string>, x: Date): (r: Result<bool>)
  {
    match end
    case None => Ok(true)
    case Some(s) =>
      match ParseMonth(s)
      case None => Err(ValueError)
      case Some(first) => Ok(Before(x, first))
  }

  /**
   * `gen_span_oracle(start, end)(x)`. A bound is parsed when the oracle is
   * consulted, so a malformed one raises ValueError then; `and`
   * short-circuits, so the end bound is not consulted for a date before
   * the start.
   */
  function InSpan(start: Option<string>, end: Option<string>, x: Date): (r: Result<bool>)
    ensures r.Err? ==> r.error == ValueError
  {
    if start.None? && end.None? then Ok(true)
    else
      match StartAdmits(start, x)
      case Err(e) => Err(e)
      case Ok(b) => if b then EndAdmits(end, x) else Ok(false)
  }

  /**
   * With well-formed bounds the oracle admits exactly the dates whose
   * ordinal lies in [first of start, first of end), each bound optional.
   */
  lemma SpanIsHalfOpen(start: Option<string>, end: Option<string>, x: Date)
    requires ValidDate(x)
    requires start.Some? ==> ParseMonth(start.value).Some?
    requires end.Some? ==> ParseMonth(end.value).Some?
    ensures InSpan(start, end, x).Ok?
    ensures InSpan(start, end, x).value <==>
      (start.Some? ==> Ordinal(ParseMonth(start.value).value) <= Ordinal(x)) &&
      (end.Some? ==> Ordinal(x) < Ordinal(ParseMonth(end.value).value))
  {
    if start.Some? {
      OrdinalOrder(x, ParseMonth(start.value).value);
    }
    if end.Some? {
      OrdinalOrder(x, ParseMonth(end.value).value);
    }
  }

  /** Whether the oracle admits a row by its first field, or the error reading it raises. */
  function Admits(start: Option<string>, end: Option<string>, row: Row): (r: Result<bool>)
  {
    if |row| == 0 then Err(IndexError)
    else
      match ParseDate(row[0])
      case None => Err(ValueError)
      case Some(d) => InSpan(start, end, d)
  }

  /**
   * `window(start, end, source)`, drained as `list()` does: the admitted
   * rows in input order, or the error of the first row whose date cannot
   * be read (`writerows` keeps the rows written before that error).
   */
  function Window(start: Option<string>, end: Option<string>, rows: seq<Row>): (r: Result<seq<Row>>)
    ensures r.Ok? <==> forall i :: 0 <= i < |rows| ==> Admits(start, end, rows[i]).Ok?
    ensures r.Ok? ==> |r.value| <= |rows|
    ensures r.Ok? ==> forall row :: row in r.value <==> row in rows && Admits(start, end, row) == Ok(true)
  {
    Filter(row => Admits(start, end, row), rows)
  }

  /** Windowing two documents one after the other is windowing each. */
  lemma WindowAppend(start: Option<string>, end: Option<string>, a: seq<Row>, b: seq<Row>)
    requires Window(start, end, a).Ok? && Window(start, end, b).Ok?
    ensures Window(start, end, a + b) == Ok(Window(start, end, a).value + Window(start, end, b).value)
  {
    FilterAppend(row => Admits(start, end, row), a, b);
  }

  /** Windowing twice with the same bounds keeps what windowing once kept. */
  lemma WindowIdempotent(start: Option<string>, end: Option<string>, rows: seq<Row>)
    requires Window(start, end, rows).Ok?
    ensures Window(start, end, Window(start, end, rows).value) == Window(start, end, rows)
  {
    FilterIdempotent(row => Admits(start, end, row), rows);
  }

  /** The oracle on the dates the library's tests use. */
  lemma OracleExamples()
    ensures InSpan(None, None, Date(2014, 1, 1)) == Ok(true)
    ensures InSpan(Some("01/2014"), None, Date(2014, 1, 2)) == Ok(true)
    ensures InSpan(None, Some("02/2014"), Date(2014, 1, 31)) == Ok(true)
    ensures InSpan(None, Some("02/2014"), Date(2014, 2, 1)) == Ok(false)
    ensures InSpan(Some("02/2014"), None, Date(2014, 1, 1)) == Ok(false)
  {
    MonthExample("01/2014", 2014, 1);
    MonthExample("02/2014", 2014, 2);
  }

  lemma MonthExample(s: string, y: int, m: int)
    requires 1 <= y <= 9999 && 1 <= m <= 12 && s == FormatMonth(Date(y, m, 1))
    ensures ParseMonth(s) == Some(Date(y, m, 1))
  {
    ParseFormatMonth(Date(y, m, 1));
  }
}

=== FILE: wrappers.dfy ===
/** Failure-carrying return types shared by every module of the model. */
module Wrappers {

  /** A value that may be absent: C's NULL, Python's None. */
  datatype Option<+T> = None | Some(value: T)

  /** The exceptions a Python operation of the model can raise, and C's failed assertions. */
  datatype Error =
    | ValueError
    | IndexError
    | KeyError
    | TypeError
    | ZeroDivisionError
    | AssertionError
    | StopIteration
    | EOFError
    | IntegrityError

  /** The outcome of an operation that either returns a value or raises. */
  datatype Result<+T> = Ok(value: T) | Err(error: Error)
}
